=== FILE: README.md ===
# Rocket telemetry, modelled in Dafny

The system is a small rocket's telemetry chain and its ground station.

On board, sensor workers read an MPU6050 accelerometer/gyroscope, a BMP180
barometer and a NEO GPS receiver. Each reading becomes a sensor message.
An aggregator consumes these messages, with several jobs:

- it keeps the latest reading per sensor;
- it tracks which sensors deliver real, dummy or no data;
- it detects the "no linear acceleration" condition: two readings near 1 g,
  more than a second apart;
- at a fixed interval it builds a JSON snapshot and hands it to the LoRa link.

The link cuts the JSON into frames of at most 200 bytes. Each frame is `J`,
the topic length, the topic, the chunk index, the chunk total and the chunk.
The receiving side collects the frames per topic and reassembles them in
any order.

The on-board node exists twice, once in Python and once in C:

- The Python node covers `acceleration.py`, `aggregator.py`,
  `sensor_messages.py` and `lora_transport.py`.
- The C node covers `rocket_c/src/*.c`.

The C node adds its own pieces:

- a bounded message queue;
- a growing string builder for the JSON;
- a fixed tracker struct;
- start and end summaries.

On the ground, a bridge reads receiver lines from a serial port. In Python
this is `receptor_arudino/serial_bridge.py`; in Electron it is
`receptor_arudino/webpage/electron/serialManager.js`. A JSON line between
the `===== Payload recibido =====` marker and the closing row of `=` signs
is time-stamped and written as the snapshot. The port is picked automatically, preferring Arduino
and USB-serial adapters.

The web dashboard has two components that are modelled here:

- a command terminal, `CommandTerminal.jsx`, which answers `mpu`, `neo`,
  `all`, `help` and `clear` with ASCII tables and keeps a command history;
- a scrolling telemetry log, `TelemetryTerminal.jsx`, which cycles through
  its messages and shows the last ten.

Each source file becomes one Dafny module:

- Pure code is written as functions and lemmas.
- Objects that change their fields become classes, with `modifies`/`reads`
  frames.
- Loops become methods with invariants, proved against the functions.
- The twins share specification modules:
  - `Activity`: the grouping and the zero-acceleration detector;
  - `FrameCodec`: the frame format;
  - `JsonText`: JSON string escaping;
  - `Sensors`: the sensor names.
- Hardware, clocks, threads and foreign libraries become parameters or
  scripted outcomes.

## Model

| member | source | states |
|---|---|---|
| AccelerationPy.WordValue | acceleration.py:57-72 | the two bytes decode to a signed 16-bit word, negative exactly when the high byte is 128 or more, and equal to the C node's decoding of the same bytes |
| AccelerationPy.AfterReset | acceleration.py:33-41 | after the reset no bus is cached, the cached one (if any) is the last closed, and the scripted outcomes and registers read are untouched |
| AccelerationPy.Accelerometer.constructor | acceleration.py:30 | at import no bus is cached, none has been opened or closed, and no register has been read |
| AccelerationPy.Accelerometer.ReadByteData | acceleration.py:64-65 | one register read is logged and consumes one scripted hardware outcome; the bus cache is untouched |
| AccelerationPy.Accelerometer.ResetBus | acceleration.py:33-41 | the cached bus, if any, is closed and forgotten; nothing else changes |
| AccelerationPy.Accelerometer.GetBus | acceleration.py:44-55 | the bus returned and the new hardware state are those of the caching rule stated by GetBusCaches |
| AccelerationPy.GetBusCaches | acceleration.py:44-55 | a cached bus is returned with no hardware call; otherwise at most one bus is opened, it is returned exactly when it is the new cached one, and a failure leaves nothing cached with the opened bus closed |
| AccelerationPy.GetBusTwice | acceleration.py:44-55 | a second get after a successful one returns the same bus and makes no hardware call |
| AccelerationPy.AttemptOutcome | acceleration.py:57-72 | a failed attempt leaves no bus cached; a successful one read the high then the low register, consumed exactly the two scripted byte answers after any open and wake-up calls, and returns those two bytes decoded |
| AccelerationPy.RetryBounds | acceleration.py:57-72 | read_word makes between one and max(1, retries) attempts, and re-raises only after the last allowed attempt failed, with no bus cached |
| AccelerationPy.FirstSuccessReturns | acceleration.py:57-72 | a first attempt that succeeds is the only attempt |
| AccelerationPy.RetryRegisters | acceleration.py:57-72 | read_word only reads reg and reg + 1, and on success the last two registers read are reg then reg + 1 |
| AccelerationPy.AttemptRegisters | acceleration.py:62-66 | one attempt reads reg, then possibly reg + 1, and nothing else |
| AccelerationPy.RetryRange | acceleration.py:57-72 | a successful read_word returns a signed 16-bit value |
| AccelerationPy.RegisterMap | acceleration.py:74-81 | the six registers read are the acceleration and gyroscope words at the same offsets the C node decodes from its 14-byte block, skipping the temperature word |
| AccelerationPy.ReadAllResult | acceleration.py:74-81 | a successful read of all the registers yields one word per register |
| AccelerationPy.ReadAllFailure | acceleration.py:74-81 | a failed read_accel_gyro leaves no bus cached |
| AccelerationPy.ReadAllRange | acceleration.py:74-81 | every word of a successful read_accel_gyro is a signed 16-bit value |
| AccelerationPy.ReadAllPrefix | acceleration.py:74-81 | reading only appends to the log of registers read |
| AccelerationPy.Accelerometer.ReadWord | acceleration.py:57-72 | the loop returns exactly what the retry rule (RetryResult, bounded by RetryBounds) gives, and the hardware ends in the state that rule gives |
| AccelerationPy.Accelerometer.ReadAccelGyro | acceleration.py:74-81 | the six words in register order, or the first error, with the hardware state of ReadAllResult |
| AccelerationPy.Accelerometer.ReadWords | acceleration.py:74-81 | the loop over six registers agrees with ReadAllResult |
| AccelerationPy.ReadStep | acceleration.py:74-81 | one read_word of the sequence either ends the whole read with its error or adds its word to those already read |
| Activity.SelectAppend | aggregator.py:46-57 | appending a sensor extends only the group of its status |
| Activity.SelectMembers | aggregator.py:46-57 | a sensor is in a group exactly when it is listed and its status is that group's |
| Activity.PartitionExact | aggregator.py:46-57 | the three groups together hold exactly the listed sensors, as many times as they occur, each in the group of its status |
| Activity.PartitionCount | aggregator.py:46-57 | the multisets of the three groups add up to the multiset of the sensors |
| Activity.Detect | aggregator.py:124-134 | a reading that does not count leaves the detector alone; one that counts increments the count, stores its time, and asks for the signal exactly when the count reaches 2 |
| Activity.Record | aggregator.py:65-70 | recording sets the latch; once set, the latch never changes; otherwise it stores the given time and magnitude |
| Activity.ZeroStep | aggregator.py:119-136 | the signal fires only when the latch was unset, and then sets it; nothing changes while the latch is set |
| Activity.FiresAtMostOnce | aggregator.py:119-136 | over any run the signal fires at most once, never once the latch is set, and the latched values are never overwritten |
| Activity.RunExplained | aggregator.py:95-136 | from the start state, a count of one means a detection later than 1.0 s at the stored time; a count of two means two detections more than a second apart; a set latch holds the reading that made the count two |
| Activity.SignalNeedsTwoDetections | aggregator.py:124-134 | the signal is recorded only after two near-1 g readings more than a second apart, the first after 1.0 s, and it stores the second one's time |
| Activity.EarlyReadingIgnored | aggregator.py:95-125 | a reading at or before 1.0 s never counts, however close it is to 1 g, because the last detection starts at 0.0 and the gap test is strict |
| ActivityTrackerC.Tracker.constructor | rocket_c/include/activity_tracker.h:8-14 | the struct as declared holds whatever its storage held |
| ActivityTrackerC.Init | rocket_c/src/activity_tracker.c:5-10 | a non-NULL tracker is zeroed: no sensor seen, no dummy flag, and the latch unset with zero time and magnitude |
| ActivityTrackerC.Update | rocket_c/src/activity_tracker.c:12-18 | for an in-range sensor only its own flags change, to seen and to the given dummy flag; an out-of-range sensor or a NULL tracker changes nothing |
| ActivityTrackerC.Seen | rocket_c/src/activity_tracker.c:20-25 | true only for a non-NULL tracker and an in-range sensor |
| ActivityTrackerC.LastDummy | rocket_c/src/activity_tracker.c:27-32 | true only for a non-NULL tracker and an in-range sensor |
| ActivityTrackerC.UnknownHasNoData | rocket_c/src/activity_tracker.c:20-32 | a NULL tracker or an out-of-range sensor counts as never seen |
| ActivityTrackerC.UpdateStatus | rocket_c/src/activity_tracker.c:12-18 | after an update the sensor is real or dummy as flagged, and every other sensor keeps its group |
| ActivityTrackerC.ZeroSent | rocket_c/src/activity_tracker.c:34-39 | true only for a non-NULL tracker |
| ActivityTrackerC.RecordZeroSignal | rocket_c/src/activity_tracker.c:41-51 | the latch takes the shared one-shot step of the Python tracker |
| ActivityTrackerC.ZeroDetails | rocket_c/src/activity_tracker.c:53-62 | the reported flag is the latch, and a NULL tracker reports unset with zero values |
| ActivityTrackerC.RecordTwice | rocket_c/src/activity_tracker.c:41-62 | after two recordings the details hold the first one's values, or the earlier ones if the latch was already set |
| AggregatorC.LiteralPieces | rocket_c/src/aggregator.c:282-319 | the byte constants of the model are the ASCII of the C string literals of build_payload_json |
| AggregatorC.Items | rocket_c/src/aggregator.c:286-318 | one entry per configured sensor, in the configured order, each that sensor's rendered entry |
| AggregatorC.EntriesJoined | rocket_c/src/aggregator.c:286-318 | the loop's text is the entries joined by `,\n` and closed by `\n`, with no comma after the last |
| AggregatorC.EntriesPrefix | rocket_c/src/aggregator.c:286-318 | after n rounds the text is the first n entries joined, followed by the separator the n-th round chose |
| AggregatorC.EntriesGrow | rocket_c/src/aggregator.c:286-318 | longer runs of the loop write longer text |
| AggregatorC.ReportedAtReadsBack | rocket_c/src/aggregator.c:282-284 | the snapshot starts with the header literal, and the `reported_at` string it writes reads back as the time text, followed by the rest of the snapshot |
| AggregatorC.KeyReadsBack | rocket_c/src/aggregator.c:288-292 | each raw, unescaped key still reads back as a JSON string equal to the sensor's name, followed by `: ` and the value |
| AggregatorC.AppendEntry | rocket_c/src/aggregator.c:287-317 | with memory to spare the builder gains exactly one entry and its separator |
| AggregatorC.WriteHeader | rocket_c/src/aggregator.c:282-284 | with memory to spare the builder gains exactly the header with the quoted time |
| AggregatorC.WritePayload | rocket_c/src/aggregator.c:276-319 | with memory to spare for the whole snapshot, the builder holds exactly the snapshot text |
| AggregatorC.BuildPayloadJson | rocket_c/src/aggregator.c:275-320 | the corrected builder returns the snapshot when memory is ample, and NULL exactly when the first 256-byte block cannot be had |
| AggregatorC.BuildPayloadJsonAsWritten | rocket_c/src/aggregator.c:275-320 | as written, the builder writes through NULL exactly when the first 256-byte block cannot be had, and otherwise returns the snapshot when memory is ample |
| AggregatorC.Aggregator.constructor | rocket_c/src/aggregator.c:405-409 | the zeroed state holds the configuration, has no latest reading, and starts the detector at rest with last_emit 0 |
| AggregatorC.Aggregator.Objects | rocket_c/src/aggregator.c:298-313 | each sensor's slot in the snapshot is its latest reading, or nothing before the first one |
| AggregatorC.Aggregator.HandleMpu | rocket_c/src/aggregator.c:327-345 | the detector and the tracker's latch take the shared zero-acceleration step, with a dummy reading ineligible |
| AggregatorC.Aggregator.Absorb | rocket_c/src/aggregator.c:361-380 | the message becomes its sensor's latest and marks that sensor seen with its dummy flag; an MPU6050 message takes the zero-acceleration step, and any other leaves the detector and latch alone |
| AggregatorC.Aggregator.Emit | rocket_c/src/aggregator.c:382-396 | nothing is emitted before the interval has passed; after it, the snapshot of the latest readings is emitted unless it cannot be built, it goes to the callback when there is one, and last_emit moves only on an emission |
| AggregatorC.Aggregator.Step | rocket_c/src/aggregator.c:351-397 | one round is the absorption of the message followed by the emission rule |
| AggregatorC.StartResult | rocket_c/src/aggregator.c:401-416 | the start succeeds with 0 exactly when every argument is present, the sensor list is non-empty, the state is allocated and the thread is created; otherwise it fails with -1 |
| AggregatorPy.ActivityTracker.constructor | aggregator.py:30-38 | every given sensor appears once, in first-given order, unseen and flagged dummy, and no signal is recorded |
| AggregatorPy.ActivityTracker.Update | aggregator.py:40-44 | a known sensor becomes seen with the given dummy flag and keeps its place; an unknown sensor is ignored; the signal is untouched |
| AggregatorPy.ActivityTracker.Groups | aggregator.py:46-57 | the groups are the partition of the sensors by status, in insertion order |
| AggregatorPy.GroupsBySensor | aggregator.py:46-57 | each sensor is in exactly one group: no data when unseen, dummy when its last reading was dummy, real otherwise, and the groups keep the construction order |
| AggregatorPy.ActivityTracker.Sensors | aggregator.py:59-60 | exactly the tracked sensors |
| AggregatorPy.ActivityTracker.ZeroAccelSignalSent | aggregator.py:62-63 | the latch flag |
| AggregatorPy.ActivityTracker.RecordZeroAccelSignal | aggregator.py:65-70 | the shared one-shot latch step: the first call stores time and magnitude, later calls change nothing |
| AggregatorPy.ActivityTracker.Details | aggregator.py:72-77 | the time and magnitude are present exactly when the signal was sent, and are then the latched values |
| AggregatorPy.Emit | aggregator.py:143-163 | an emission happens exactly when emit_every has passed; it is sent exactly when the link is up, which moves last_emit and clears the warning flag; a failed link keeps last_emit and warns only the first time |
| AggregatorPy.WarnOncePerEpisode | aggregator.py:143-163 | while the link stays down the warning is printed at most once, never if already printed, and last_emit does not move |
| AggregatorPy.WarnAgainAfterRecovery | aggregator.py:143-163 | a successful send ends the failure episode, so the next failure warns again |
| AggregatorPy.FirstMessageEmits | aggregator.py:95-146 | since last_emit starts at 0.0, the first message emits as soon as the clock reads at least emit_every |
| AggregatorPy.AggregatorLoop.constructor | aggregator.py:91-96 | nothing stored yet, last_emit 0, detector at rest, no warning given |
| AggregatorPy.AggregatorLoop.Step | aggregator.py:98-163 | a timed-out wait changes nothing; a message updates the tracker, takes the zero-acceleration step, becomes its sensor's latest, and then the emission rule decides the snapshot, the warning and the send |
| AggregatorPy.AggregatorLoop.Consume | aggregator.py:103-142 | the tracker update, the zero-acceleration step and the latest table for one message, with the emission state untouched |
| AggregatorPy.AggregatorLoop.EmitAfter | aggregator.py:143-163 | the snapshot of the latest readings, the warning and the send follow the emission rule, and the readings are untouched |
| Common.Strip | receptor_arudino/webpage/src/components/CommandTerminal.jsx:128 | the trimmed text has no whitespace at either end, and it is empty exactly when the text is all whitespace |
| Common.TrimLeftShape | receptor_arudino/webpage/src/components/CommandTerminal.jsx:128 | trimming the front keeps a suffix that starts with a non-space and drops only whitespace |
| Common.TrimRightShape | receptor_arudino/webpage/src/components/CommandTerminal.jsx:128 | trimming the back keeps a prefix that ends with a non-space and drops only whitespace |
| Common.StripClean | receptor_arudino/webpage/src/components/CommandTerminal.jsx:128 | text with no whitespace at either end is left unchanged by trimming |
| Common.Lower | receptor_arudino/webpage/src/components/CommandTerminal.jsx:135 | lower-casing keeps the length and lower-cases each character |
| Common.CString | rocket_c/src/summaries.c:12-20 | the C string a buffer holds is its longest NUL-free prefix, stopped by a NUL when shorter than the buffer |
| CommandTerminalJs.TakeWordIsRun | receptor_arudino/webpage/src/components/CommandTerminal.jsx:136 | the token taken is the longest whitespace-free prefix of the text |
| CommandTerminalJs.WordsAreWords | receptor_arudino/webpage/src/components/CommandTerminal.jsx:136 | every token is non-empty and has no whitespace, as after the empty strings are filtered out |
| CommandTerminalJs.WordsOfJoin | receptor_arudino/webpage/src/components/CommandTerminal.jsx:136 | words joined by single spaces split back into the same words |
| CommandTerminalJs.WordsThen | receptor_arudino/webpage/src/components/CommandTerminal.jsx:136 | a word followed by whitespace or nothing is the first token |
| CommandTerminalJs.FirstWordDispatches | receptor_arudino/webpage/src/components/CommandTerminal.jsx:136-169 | the primary token is the first word and the second token is the second word, whatever follows |
| CommandTerminalJs.NumText | receptor_arudino/webpage/src/components/CommandTerminal.jsx:9 | a missing number shows as a dash |
| CommandTerminalJs.StampText | receptor_arudino/webpage/src/components/CommandTerminal.jsx:11-30 | a missing or empty time shows as "Sin dato", and text that is not a date is shown as it is |
| CommandTerminalJs.Rows | receptor_arudino/webpage/src/components/CommandTerminal.jsx:33-52 | the table has fourteen rows of three cells: the header, nine MPU6050 readings and four NEO-6M readings |
| CommandTerminalJs.AsciiTableShape | receptor_arudino/webpage/src/components/CommandTerminal.jsx:32-72 | the table has seventeen lines: a separator, the header, a separator, the thirteen readings and a separator; every column border lines up, and every cell shows in its column |
| CommandTerminalJs.RespondFacts | receptor_arudino/webpage/src/components/CommandTerminal.jsx:127-233 | an empty command only echoes itself; any other command either clears the log or prints at least one line; only clear clears, and prints nothing; only exit closes, with a single closing line |
| CommandTerminalJs.AnswerFacts | receptor_arudino/webpage/src/components/CommandTerminal.jsx:139-232 | the log is cleared exactly for clear, and closing is requested exactly for exit; any other command prints at least one line |
| CommandTerminalJs.UnknownEchoes | receptor_arudino/webpage/src/components/CommandTerminal.jsx:232 | an unrecognised command gets one line that quotes the command as typed, before lower-casing |
| CommandTerminalJs.MpuResponse | receptor_arudino/webpage/src/components/CommandTerminal.jsx:168-189 | mpu without a reading prints only that there is none; with one it prints four lines, plus the raw-data header and the JSON when the second word is detallado |
| CommandTerminalJs.MpuAnswer | receptor_arudino/webpage/src/components/CommandTerminal.jsx:168-189 | the mpu answer has four lines, or six when detailed, the last of which is the raw JSON; without a reading it has only the none line |
| CommandTerminalJs.UpIndex | receptor_arudino/webpage/src/components/CommandTerminal.jsx:257 | ArrowUp always lands on an entry of the history |
| CommandTerminalJs.DownIndex | receptor_arudino/webpage/src/components/CommandTerminal.jsx:272 | ArrowDown lands on an entry of the history or on the fresh prompt |
| CommandTerminalJs.UpDownInverse | receptor_arudino/webpage/src/components/CommandTerminal.jsx:252-279 | Down undoes Up except at the oldest entry and at the fresh prompt, and Up undoes Down except at the newest entry |
| CommandTerminalJs.DownStaysInHistory | receptor_arudino/webpage/src/components/CommandTerminal.jsx:272 | once an entry is shown, Down never returns to the fresh prompt, and at the newest entry it stays there |
| CommandTerminalJs.UpTimes | receptor_arudino/webpage/src/components/CommandTerminal.jsx:252-266 | any number of ArrowUp presses stays on the history or the fresh prompt |
| CommandTerminalJs.UpFromFresh | receptor_arudino/webpage/src/components/CommandTerminal.jsx:257 | from the fresh prompt, k presses of ArrowUp show the k-th newest entry, or the oldest once k exceeds the history |
| CommandTerminalJs.UpFrom | receptor_arudino/webpage/src/components/CommandTerminal.jsx:257 | from entry i, k presses of ArrowUp show entry max(i - k, 0) |
| CommandTerminalJs.Outputs | receptor_arudino/webpage/src/components/CommandTerminal.jsx:105-108 | one output entry per line, in order |
| CommandTerminalJs.HasTextIffTrimmed | receptor_arudino/webpage/src/components/CommandTerminal.jsx:239 | a command is remembered exactly when trimming leaves something |
| CommandTerminalJs.HasTextSomewhere | receptor_arudino/webpage/src/components/CommandTerminal.jsx:239 | a command has text exactly when some character of it is not whitespace |
| CommandTerminalJs.RememberedSnoc | receptor_arudino/webpage/src/components/CommandTerminal.jsx:239 | remembering a command with text keeps every history entry non-blank |
| CommandTerminalJs.CommandTerminal.constructor | receptor_arudino/webpage/src/components/CommandTerminal.jsx:80-83 | an empty log, an empty prompt, no history, a fresh history index, and no close requested |
| CommandTerminalJs.CommandTerminal.Open | receptor_arudino/webpage/src/components/CommandTerminal.jsx:87-97 | the log restarts with the welcome lines, the prompt is empty and fresh, and the history is kept |
| CommandTerminalJs.CommandTerminal.Type | receptor_arudino/webpage/src/components/CommandTerminal.jsx:81 | the prompt holds what was typed |
| CommandTerminalJs.CommandTerminal.HandleCommand | receptor_arudino/webpage/src/components/CommandTerminal.jsx:127-233 | the trimmed command is echoed and answered as Respond says (or the log cleared), and closing is requested when the answer asks for it |
| CommandTerminalJs.CommandTerminal.Record | receptor_arudino/webpage/src/components/CommandTerminal.jsx:105-112 | the log gains the echo and the response lines, or is cleared, and closing is requested when asked |
| CommandTerminalJs.CommandTerminal.Remember | receptor_arudino/webpage/src/components/CommandTerminal.jsx:239 | only a command with text joins the history, and every history entry stays non-blank |
| CommandTerminalJs.CommandTerminal.Submit | receptor_arudino/webpage/src/components/CommandTerminal.jsx:235-243 | a command with text joins the history, the prompt becomes empty and fresh, and the trimmed command is handled |
| CommandTerminalJs.CommandTerminal.KeyDown | receptor_arudino/webpage/src/components/CommandTerminal.jsx:245-280 | Escape requests closing; on a non-empty history ArrowUp and ArrowDown move the index and show that entry, or an empty prompt at the fresh index; other keys and an empty history change nothing |
| Reassembly.PushFacts | lora_transport.py:152-169 | a total of 0 or less counts as 1; an index outside 1..total is ignored; other topics are untouched; a message comes out exactly when the topic's bucket completes and is dropped; otherwise the bucket has the new total, the new stamp and the chunk under its index |
| Reassembly.PushKeepsOk | lora_transport.py:152-169 | push keeps every stored bucket well formed, with its chunk indices within 1..total and fewer than total chunks |
| Reassembly.CleanupSpec | lora_transport.py:171-178 | exactly the buckets whose last chunk is older than the timeout are dropped, and the others are kept as they are |
| Reassembly.CleanupIdempotent | lora_transport.py:171-178 | cleaning twice at the same instant drops nothing more, and cleaning keeps the table well formed |
| Reassembly.FrameAssembler.constructor | lora_transport.py:148-150 | the timeout is at least 0.1 s and nothing is pending |
| Reassembly.FrameAssembler.Push | lora_transport.py:152-169 | the new table and the result are those PushFacts describes |
| Reassembly.FrameAssembler.Cleanup | lora_transport.py:171-178 | the loop deletes exactly the stale buckets CleanupSpec describes |
| Reassembly.Feed | lora_transport.py:152-169 | successive pushes give one result per chunk |
| Reassembly.PrefixIncomplete | lora_transport.py:163-165 | fewer than n distinct chunks never complete a bucket of n |
| Reassembly.FeedPartial | lora_transport.py:152-169 | after k < n distinct chunks the topic's bucket holds exactly those chunks, and no push has produced a message |
| Reassembly.AllArrived | lora_transport.py:163-165 | all n distinct chunks complete a bucket of n |
| Reassembly.AssembleChunks | lora_transport.py:166 | joining the stored chunks in index order gives the chunks' concatenation |
| Reassembly.ReassembleAnyOrder | lora_transport.py:152-169 | pushing the n chunks of one message in any order yields nothing for the first n-1, the whole message on the last, and leaves no bucket for the topic |
| Reassembly.ParsedPayloads | lora_transport.py:374-393 | one parsed payload per frame |
| Reassembly.SendThenReassemble | lora_transport.py:319-393 | the frames built for a non-empty body under a short ASCII topic parse back to that topic, index i+1 and the total, and pushing their payloads in any order gives the body back on the last push |
| Reassembly.ParsedPayloadsOfFrames | lora_transport.py:319-393 | every frame parses, and the parsed payloads concatenate to the body |
| FrameCodec.ChunkAt | lora_transport.py:315-316 | there are ceil(len / n) chunks, and chunk i is the slice from i*n up to (i+1)*n or the end |
| FrameCodec.ChunksSpec | lora_transport.py:315-316 | the chunks concatenate to the data, each is non-empty and at most n bytes, all but the last are exactly n bytes, and empty data gives no chunks |
| FrameCodec.AsciiBytes | lora_transport.py:321 | ASCII encoding that ignores errors keeps only bytes below 128 and never grows the text |
| FrameCodec.AsciiChars | lora_transport.py:384 | ASCII decoding that ignores errors never grows the text |
| FrameCodec.TopicBytes | lora_transport.py:321 | the wire topic is ASCII and at most 15 bytes |
| FrameCodec.AsciiRoundTrip | lora_transport.py:321-384 | ASCII text encodes to bytes of the same length and decodes back to itself |
| FrameCodec.TopicRoundTrip | lora_transport.py:321-384 | a non-empty ASCII topic of at most 15 characters survives the wire |
| FrameCodec.MakeFrames | lora_transport.py:319-336 | the loop builds exactly the frame sequence FrameSeqShape describes |
| FrameCodec.FrameSeqShape | lora_transport.py:321-335 | an empty body makes no frame; there are ceil(len / room) frames; each starts with 'J', the topic length (at most 15), the topic, the index and the total modulo 256; none exceeds max_len once max_len leaves room for the header |
| FrameCodec.ParseFrameSpec | lora_transport.py:374-393 | parsing fails exactly for a frame shorter than 5 bytes, a wrong tag or a header longer than the frame; otherwise index and total are 1 to 255, zero reading as 1, the topic is never empty, and the payload is the rest of the frame |
| FrameCodec.ParseMakeFrames | lora_transport.py:319-393 | for at most 255 chunks, frame i parses back to the topic, index i+1, the total and its chunk, and the chunks concatenate to the body |
| FrameCodec.WrapAt256 | lora_transport.py:324-333 | past 255 chunks the one-byte fields wrap: the 256th frame reads back as index 1 of 1, like the first |
| FrameCodec.TwinsAgree | rocket_c/src/lora_transport.c:73-129 | the C and Python nodes send the same frames for every non-empty payload; for the empty payload Python sends nothing and C sends one frame with an empty chunk |
| FrameCodec.CFramesCover | rocket_c/src/lora_transport.c:100-120 | the C frames carry the whole payload, and each is at most 200 bytes |
| FrameCodec.ParseMakeFramesConcat | lora_transport.py:319-336 | the payload parts of the default-topic frames concatenate to the payload |
| JsonText.HexDigit | rocket_c/src/aggregator.c:129-131 | the digit `%x` prints is a decimal digit or a lower-case letter a to f |
| JsonText.HexRoundTrip | rocket_c/src/aggregator.c:129-131 | a hexadecimal digit reads back as its value |
| JsonText.UnicodeEscape | rocket_c/src/aggregator.c:129-131 | a control byte is written as a six-byte `\u00XX` escape |
| JsonText.EscapeByte | rocket_c/src/aggregator.c:113-138 | every byte is written as at least one byte |
| JsonText.EscapeAppend | rocket_c/src/aggregator.c:113-138 | escaping works piece by piece: the escape of a concatenation is the concatenation of the escapes |
| JsonText.EscapeSnoc | rocket_c/src/aggregator.c:113-138 | escaping one more byte appends that byte's escape |
| JsonText.ReadEscapedByte | rocket_c/src/aggregator.c:113-138 | a JSON reader decodes each byte's escape back to that byte and continues right after it |
| JsonText.ReadEscape | rocket_c/src/aggregator.c:106-142 | every byte string round-trips: the reader recovers it from the written literal and stops right after the closing quote |
| JsonText.EscapePlain | rocket_c/src/aggregator.c:113-138 | printable bytes other than the quote and the backslash are written unchanged |
| JsonText.QuoteRoundTrip | rocket_c/src/aggregator.c:106-142 | a quoted value reads back as the value, NULL as the empty string, whatever follows it |
| JsonText.EscapeHasNoControl | rocket_c/src/aggregator.c:113-138 | the written literal holds no raw control byte, as section 7 of RFC 8259 requires |
| LoraC.SensorsTopic | rocket_c/src/lora_transport.c:89-98 | the C node's topic bytes are the ones the Python node puts on the wire for its default topic |
| LoraC.FirstFailure | rocket_c/src/lora_transport.c:100-128 | the loop stops at the first iteration that fails, or runs to the end when none does |
| LoraC.FirstFailureAt | rocket_c/src/lora_transport.c:100-128 | the first stopping iteration is k when none before k stops and k does, or k is the end |
| LoraC.Radio.constructor | rocket_c/src/lora_transport.c:36 | the radio starts not ready |
| LoraC.Radio.InitTx | rocket_c/src/lora_transport.c:38-48 | the radio is ready exactly when the library's init returned 0, which the stub without the library never does |
| LoraC.Radio.IsReady | rocket_c/src/lora_transport.c:50-52 | the ready flag |
| LoraC.Radio.SendJson | rocket_c/src/lora_transport.c:73-129 | a NULL payload fails and sends nothing; a radio that is not ready succeeds and sends nothing; otherwise the frames go out in order up to the first failure, and the result is true exactly when every frame went out |
| LoraC.FrameGeometry | rocket_c/src/lora_transport.c:89-98 | the header is 11 bytes for the 7-byte topic, each frame carries 189 payload bytes, and there is at least one frame |
| LoraC.FramesOf | rocket_c/src/lora_transport.c:100-120 | the loop's frames are the shared codec's C frames |
| LoraC.SendFrames | rocket_c/src/lora_transport.c:100-128 | the loop sends the frames in order up to the first failure, and succeeds exactly when none fails |
| LoraC.FillFrame | rocket_c/src/lora_transport.c:111-117 | the buffer holds the tag, the topic length, the topic, the index and total kept to 8 bits, and then the chunk |
| LoraConfig.Truncate | lora_transport.py:61-65 | Python's int() on a number truncates toward zero |
| LoraConfig.ModeTexts | lora_transport.py:92-101 | the accepted spellings rx and tx read back as their modes |
| LoraConfig.Normalise | lora_transport.py:75-126 | a missing or unreadable file, or one that is not an object, gives the defaults; any result is a valid configuration |
| LoraConfig.NormaliseFrequency | lora_transport.py:102-109 | the frequency keeps a positive integer from the file; an absent key or a value that is not positive gives 433 MHz |
| LoraConfig.NormaliseSpreadFactor | lora_transport.py:110-117 | the spreading factor keeps an integer from 7 to 12, and is otherwise 7 |
| LoraConfig.NormaliseIntervals | lora_transport.py:118-125 | the poll interval is clamped below at 0 and the frame timeout at 0.1 |
| LoraConfig.NormaliseEmpty | lora_transport.py:76-125 | an empty object gives the defaults, as a missing file does |
| LoraConfig.NormaliseEncode | lora_transport.py:76-125 | normalisation is idempotent: a normalised configuration written back to the file reads back unchanged, whatever the text parsers do |
| LoraLink.EnsureInitSuccess | lora_transport.py:184-197 | a result counts as success exactly when it is None, 0, False or blank text; other text raises its trimmed self and other values raise a code error; since bool is a subclass of int, True is rejected as a non-zero code |
| LoraLink.Prefix | lora_transport.py:417 | the received frame is the first min(length, len(buffer)) bytes of the buffer |
| LoraLink.Link.constructor | lora_transport.py:129-144 | at import the mode and the frame timeout come from the normalised configuration; the radio is not ready, with no error, no failure and no warning given; receiving needs loralib |
| LoraLink.Link.Init | lora_transport.py:212-281 | without loralib the radio is not ready and the error says so; a result of 3 marks the link failed; a raised or rejected result records its error; success clears the failure and sets the mode and readiness |
| LoraLink.Link.Configure | lora_transport.py:284-289 | the mode in force afterwards is the configured one on success and the previous one otherwise |
| LoraLink.Link.RecordInitError | lora_transport.py:304-308 | the radio is not ready, the error is the reason given, and the link failure is cleared |
| LoraLink.Link.SendToLora | lora_transport.py:339-371 | exactly one gate applies, in order: RX mode, no loralib, link failure (warned only the first time), not ready; otherwise the default-topic frames go to the radio in order, stopping after the first that raises |
| LoraLink.Link.PollReceived | lora_transport.py:396-449 | off RX mode it returns nothing silently; the recv-support and readiness gates each warn once; an invalid or failed reception changes nothing; a valid frame is pushed after the stale buckets are dropped, and a completed body that decodes is returned with the frame's metadata |
| LoraLink.WarnOnce | lora_transport.py:346-356 | with the link failed, only the first send logs the warning and neither send reaches the radio |
| MessageQueueC.Ring | rocket_c/src/message_queue.c:9-19 | the queued messages are the count slots from the head, wrapping at the capacity |
| MessageQueueC.RingPush | rocket_c/src/message_queue.c:89-91 | writing at the tail and counting one more appends the message and keeps the others |
| MessageQueueC.RingPop | rocket_c/src/message_queue.c:126-128 | advancing the head past one message drops the oldest |
| MessageQueueC.SensorQueue.Contents | rocket_c/src/message_queue.c:9-19 | as many queued messages as the count |
| MessageQueueC.SensorQueue.constructor | rocket_c/src/message_queue.c:39-48 | the zeroed struct with a zeroed buffer of the given capacity: empty, open, head and tail at 0 |
| MessageQueueC.TailAfterHead | rocket_c/src/message_queue.c:89-91 | the tail is always the head plus the count, modulo the capacity |
| MessageQueueC.CapacityFor | rocket_c/src/message_queue.c:36-38 | a request of zero gets 32 slots, and any other request gets what it asked for |
| MessageQueueC.Create | rocket_c/src/message_queue.c:35-53 | NULL exactly when an allocation fails; otherwise an open, empty queue of the capacity CapacityFor gives |
| MessageQueueC.Close | rocket_c/src/message_queue.c:66-75 | the queue is closed and keeps its messages; closing again changes nothing |
| MessageQueueC.Push | rocket_c/src/message_queue.c:77-95 | false for a NULL queue or message and for a closed queue, which stay as they were; otherwise the message joins the back |
| MessageQueueC.Pop | rocket_c/src/message_queue.c:97-132 | true exactly when there is a queue, an output and a queued message; then the oldest message comes out, even from a closed queue, and otherwise nothing changes |
| MessageQueueC.FirstInFirstOut | rocket_c/src/message_queue.c:77-132 | what the pops return, followed by what is left, is exactly what was queued and then pushed, in order: nothing is lost, duplicated or reordered |
| PyDict.Put | aggregator.py:142 | assigning a new key appends it to the insertion order, and an existing key keeps its place |
| PyDict.PutGet | aggregator.py:142 | after an assignment the key reads the new value and every other key reads as before |
| PyDict.GetListed | aggregator.py:50 | a key is present exactly when it is listed in the insertion order |
| PyDict.FromKeys | aggregator.py:31-33 | the comprehension has exactly the given keys, each with the given value |
| PyDict.FromKeysOrder | aggregator.py:31-33 | the comprehension keeps each key once, at its first occurrence |
| PyDict.DedupFacts | aggregator.py:31-33 | removing repeats keeps every key and leaves no duplicate |
| ReceiverProtocol.MarkersDistinct | receptor_arudino/serial_bridge.py:188-214 | a line that begins with the end marker is an end line and one that begins with the start marker is a start line, whatever follows; a JSON line starts with a brace or a bracket |
| ReceiverProtocol.StrLessAsymmetric | receptor_arudino/serial_bridge.py:155 | string order is asymmetric |
| ReceiverProtocol.StrLessTotal | receptor_arudino/serial_bridge.py:155 | string order is total: two different strings are ordered one way or the other |
| ReceiverProtocol.Insert | receptor_arudino/serial_bridge.py:159 | inserting an entry adds exactly that entry |
| ReceiverProtocol.SortBy | receptor_arudino/serial_bridge.py:155-159 | sorting is a permutation of the entries |
| ReceiverProtocol.InsertSorted | receptor_arudino/serial_bridge.py:159 | inserting into a sorted list keeps it sorted |
| ReceiverProtocol.SortSorted | receptor_arudino/serial_bridge.py:155-159 | the sort's result never descends by its key |
| ReceiverProtocol.PreferredFirst | receptor_arudino/serial_bridge.py:159 | in a list sorted by (not preferred, device), the first entry is preferred whenever any entry is |
| ReceiverProtocol.SelectAuto | receptor_arudino/serial_bridge.py:163-168 | the automatic choice is the first preferred entry's device, else the first entry's, else nothing |
| ReceiverProtocol.FirstWhere | receptor_arudino/serial_bridge.py:165-167 | the index found is the first entry with the property, and none means no entry has it |
| ReceiverProtocol.AutoIsFirst | receptor_arudino/serial_bridge.py:159-168 | on a list sorted preferred-first, the automatic choice is the first entry |
| SerialBridgePy.StampFacts | receptor_arudino/serial_bridge.py:216-226 | a payload that is not a dict, or whose _meta is not a dict, is written as it was; otherwise _meta keeps its keys and its topic, gains the bridge's topic or "sensors" when it had none, and always gets received_at; the payload's other keys are untouched |
| SerialBridgePy.SerialPayloadBridge.constructor | receptor_arudino/serial_bridge.py:182-186 | no topic, not capturing, nothing written |
| SerialBridgePy.SerialPayloadBridge.ProcessLine | receptor_arudino/serial_bridge.py:188-230 | the new capture state and topic follow the line rules of BridgeRules, and a JSON line inside a block writes its stamped payload when it parses |
| SerialBridgePy.SerialPayloadBridge.HandlePayloadLine | receptor_arudino/serial_bridge.py:216-230 | valid JSON writes the stamped payload, and invalid JSON writes nothing |
| SerialBridgePy.AfterFirstColon | receptor_arudino/serial_bridge.py:203 | what follows the first colon is a suffix of the line |
| SerialBridgePy.FirstColonAt | receptor_arudino/serial_bridge.py:203 | the text kept is everything after the first colon |
| SerialBridgePy.TopicText | receptor_arudino/serial_bridge.py:202-203 | for a Topic: line the text kept is everything after "Topic:" |
| SerialBridgePy.BridgeRules | receptor_arudino/serial_bridge.py:188-214 | blank lines change nothing; outside a block only the start marker matters; the start marker opens a block with no topic; the end marker closes it and forgets the topic; a topic is the trimmed text after "Topic:", none when empty; a JSON line never changes the state; outside a block no topic is kept |
| SerialBridgePy.NothingBeforeStart | receptor_arudino/serial_bridge.py:199-200 | an idle bridge writes nothing until a start marker arrives |
| SerialBridgePy.PreferredExamples | receptor_arudino/serial_bridge.py:135-149 | a known vendor id alone makes a port preferred, and so does a device name containing ttyacm after lower-casing |
| SerialBridgePy.FoundContains | receptor_arudino/serial_bridge.py:143-147 | Python's `in` as a left-to-right scan finds a keyword exactly when it occurs in the text |
| SerialBridgePy.AnyFoundIn | receptor_arudino/serial_bridge.py:143-147 | the keyword-by-keyword `any(...)` holds exactly when some keyword of the list occurs in the text |
| SerialBridgePy.PreferredIff | receptor_arudino/serial_bridge.py:135-149 | for every port: preferred exactly when its vendor id is one of the four known ones, or a port keyword occurs in the lower-cased manufacturer, description or hardware id, or a device keyword occurs in the lower-cased device name |
| SerialBridgePy.PreferredIgnoresCase | receptor_arudino/serial_bridge.py:137-140 | the verdict does not depend on the case of the port's texts |
| SerialBridgePy.EntryOf | receptor_arudino/serial_bridge.py:156-157 | each entry carries the port's information and its preferred flag |
| SerialBridgePy.Entries | receptor_arudino/serial_bridge.py:155-158 | one flagged entry per port, in order |
| SerialBridgePy.EnumerateFacts | receptor_arudino/serial_bridge.py:152-168 | the listing holds every reported port once, flagged, sorted preferred first and then by device name, and the automatic choice is its first entry |
| SerialBridgePy.EnumerateMembers | receptor_arudino/serial_bridge.py:152-160 | every reported port appears, flagged, and every entry is a reported port |
| SerialBridgePy.ArgsRule | receptor_arudino/serial_bridge.py:112-116 | without --list-ports, the arguments are accepted exactly when one of --auto or --port is given, not both; --list-ports is always accepted |
| Sensors.NameFrom | rocket_c/src/sensors.c:22-29 | the name found is the table's name for the sensor, or "unknown" |
| Sensors.TypeFrom | rocket_c/src/sensors.c:35-41 | the sensor found has that name in the table, and none means no entry has it |
| Sensors.SensorFromName | rocket_c/src/sensors.c:31-42 | a NULL name or output fails |
| Sensors.SensorNames | rocket_c/src/sensors.c:10-29 | the three sensors are named mpu6050, bmp180 and neo6m, and any other value is named "unknown" |
| Sensors.NameRoundTrip | rocket_c/src/sensors.c:22-42 | looking a sensor's name back up gives the sensor |
| Sensors.UnknownRefused | rocket_c/src/sensors.c:31-42 | a name that is not in the table, "unknown" included, is refused |
| Sensors.SensorListOrder | rocket_c/src/sensors.c:16-20 | the sensor list holds every sensor once, in enum order |
| Sensors.NameBytesAgree | rocket_c/src/sensors.c:10-14 | the name bytes the aggregator writes spell the table's name |
| SensorMessages.MergeKeysFacts | sensor_messages.py:14 | unpacking one dict into another keeps the first dict's keys in place and adds the new keys after them; a key of the second dict reads its value, and any other key reads the first's |
| SensorMessages.ToPayloadFacts | sensor_messages.py:13-14 | the payload starts with "timestamp", then the data's other keys in order; the data's own timestamp wins over the formatted one; every other key reads as in the data |
| SensorMessages.Header | sensor_messages.py:14 | the dict holds only the "timestamp" key |
| SensorMessages.BuildPayload | sensor_messages.py:19-24 | reported_at is the formatted report time |
| SensorMessages.BodyFacts | sensor_messages.py:19-24 | the snapshot lists exactly the expected sensors, each once, in the order given; an expected sensor with a reading maps to its payload and one without maps to None; other readings never appear |
| SensorWorkersC.SignedWord | rocket_c/src/sensor_workers.c:94-95 | a big-endian word read as two's complement is a signed 16-bit value, negative exactly when the high byte is 128 or more |
| SensorWorkersC.SignedWordRoundTrip | rocket_c/src/sensor_workers.c:94-95 | decoding and encoding are inverse: the byte pairs and the 16-bit values correspond one to one |
| SensorWorkersC.TemperatureIgnored | rocket_c/src/sensor_workers.c:93-96 | the temperature bytes 6 and 7 play no part in the six words |
| SensorWorkersC.MpuReadRaw | rocket_c/src/sensor_workers.c:80-98 | the read succeeds exactly when all 14 bytes arrive; then each axis is decoded from its word, and otherwise both arrays are left alone |
| SensorWorkersC.CollectShaped | rocket_c/src/sensor_workers.c:271-300 | every line collected ends with its newline, fits the buffer with room for the NUL, and holds no carriage return and no earlier newline |
| SensorWorkersC.LinesAreShaped | rocket_c/src/sensor_workers.c:266-303 | every line serial_readline returns is shaped as CollectShaped says |
| SensorWorkersC.CarriageReturnDropped | rocket_c/src/sensor_workers.c:293-295 | a carriage return between reads changes nothing |
| SensorWorkersC.CollectStep | rocket_c/src/sensor_workers.c:271-300 | one step of the loop: a timeout ends it with 0, an interrupted wait retries, a failed wait or read ends it with -1, a carriage return is skipped, a newline ends the line, and any other byte is stored |
| SensorWorkersC.SerialReadline | rocket_c/src/sensor_workers.c:266-303 | the result code is the one ReadLine gives, and a complete line is stored in the buffer followed by a NUL |
| SensorWorkersC.FixTime | rocket_c/src/sensor_workers.c:383-392 | empty for a missing or short time or a buffer under 9 bytes; otherwise HH:MM:SS, whose digits are the first six characters in order |
| SensorWorkersC.RunLength | rocket_c/src/sensor_workers.c:400-404 | the run ends at the first comma or at the end of the text |
| SensorWorkersC.Fields | rocket_c/src/sensor_workers.c:400-404 | every token is non-empty and does not start with a comma |
| SensorWorkersC.FieldsKeepText | rocket_c/src/sensor_workers.c:400-404 | the tokens hold every byte but the commas, in order |
| SensorWorkersC.FieldsCommaFree | rocket_c/src/sensor_workers.c:400-404 | no token holds a comma |
| SensorWorkersC.RunUncomma | rocket_c/src/sensor_workers.c:400-404 | removing the commas from text works run by run |
| SensorWorkersC.EmptyFieldShifts | rocket_c/src/sensor_workers.c:400-404 | an empty field shifts every later field one token to the left: "A,,B" gives the tokens A and B |
| SensorWorkersC.Copied | rocket_c/src/sensor_workers.c:395-397 | strncpy to a buffer with a NUL in its last byte keeps a prefix of at most size - 1 bytes |
| SensorWorkersC.Tokens | rocket_c/src/sensor_workers.c:394-404 | at most 16 tokens are kept, none of them empty |
| SensorWorkersC.GpsData.constructor | rocket_c/src/sensor_workers.c:510-511 | the zeroed message: no position, no time, no raw text, not dummy |
| SensorWorkersC.TakeTokens | rocket_c/src/sensor_workers.c:400-404 | the loop keeps the first 16 tokens, or all of them when there are fewer |
| SensorWorkersC.ParseGga | rocket_c/src/sensor_workers.c:394-449 | a sentence is accepted exactly when it has at least ten tokens and a fix quality other than 0; a refused one leaves the output alone; an accepted one writes the signed latitude and longitude, the altitude and the fix time with their flags, is marked real and keeps its first 127 bytes |
| SensorWorkersC.WriteFix | rocket_c/src/sensor_workers.c:420-447 | the signed position, the altitude and the formatted fix time are written with their flags, the message is marked real, and the raw sentence is kept |
| SensorWorkersC.Position | rocket_c/src/sensor_workers.c:420-439 | the hemisphere letters S and W negate the latitude and the longitude, and the altitude is the number of its token |
| SensorWorkersC.SentenceNames | rocket_c/src/sensor_workers.c:507 | the sentence prefixes are the ASCII of $GPGGA and $GPRMC |
| SensorWorkersC.StripNewline | rocket_c/src/sensor_workers.c:504-506 | the line loses its trailing newline, and nothing else, exactly when it has one |
| SensorWorkersC.GpsLine | rocket_c/src/sensor_workers.c:504-527 | a message is made exactly when the line is a GGA or RMC sentence that parses with a fix; its fields are those ParseGga writes, and RMC sentences are read with the GGA field positions |
| SerialManagerJs.NormalizeHex | receptor_arudino/webpage/electron/serialManager.js:19-23 | a normalised id is never empty and has no upper-case letter |
| SerialManagerJs.NormalizeHexFacts | receptor_arudino/webpage/electron/serialManager.js:19-23 | exactly a missing or empty id and a bare 0x or 0X normalise to nothing; an id without the prefix is only lower-cased, and one with it loses the prefix |
| SerialManagerJs.NormalizeHexOnce | receptor_arudino/webpage/electron/serialManager.js:21 | only one 0x prefix is removed: normalising is not idempotent, 0x0x12 gives 0x12 and then 12 |
| SerialManagerJs.EnrichPort | receptor_arudino/webpage/electron/serialManager.js:25-50 | the path is the first of path, device and comName that is set; the vendor id is normalised; the port is preferred exactly when a keyword, a known vendor id or a device slug says so |
| SerialManagerJs.ComSlugMatchesAnyPath | receptor_arudino/webpage/electron/serialManager.js:35-37 | any path containing "com" in any case is preferred, not only Windows COM ports |
| SerialManagerJs.WithPath | receptor_arudino/webpage/electron/serialManager.js:72 | exactly the entries with a non-empty path are kept, each as often as it occurs |
| SerialManagerJs.Enriched | receptor_arudino/webpage/electron/serialManager.js:72 | every port is enriched, one entry each, in order |
| SerialManagerJs.ListPortsFacts | receptor_arudino/webpage/electron/serialManager.js:70-89 | the listing is a permutation of the enriched ports with a path, preferred ones first and each group ordered by path; the automatic choice is the first listed path, or nothing for an empty listing |
| SerialManagerJs.DropLineEnd | receptor_arudino/webpage/electron/serialManager.js:159 | removing the trailing run of line ends leaves a prefix of the line |
| SerialManagerJs.TrimLeftAt | receptor_arudino/webpage/electron/serialManager.js:160 | trimming the left drops exactly the leading run of whitespace |
| SerialManagerJs.TrimLeftDropLast | receptor_arudino/webpage/electron/serialManager.js:160 | dropping a trailing space drops the last character of the left-trimmed text |
| SerialManagerJs.StripDropLast | receptor_arudino/webpage/electron/serialManager.js:159-160 | a trailing whitespace character makes no difference to the trimmed text |
| SerialManagerJs.SameStrippedLine | receptor_arudino/webpage/electron/serialManager.js:159-160 | trimming after removing the line end gives what trimming the raw line gives, so both receivers see the same line |
| SerialManagerJs.SerialManager.constructor | receptor_arudino/webpage/electron/serialManager.js:53-68 | a new manager is not capturing and has emitted, written and failed nothing |
| SerialManagerJs.SerialManager.HandleLine | receptor_arudino/webpage/electron/serialManager.js:153-197 | an empty raw line changes nothing; otherwise the line event carries the text without its line end, its trimmed form and the raw text, and the capture state, the payloads written and the errors follow the marker rules on the trimmed line |
| SerialManagerJs.SerialManager.HandleTrimmed | receptor_arudino/webpage/electron/serialManager.js:168-196 | the start marker opens a block, the end marker closes it, a JSON line inside a block is handed to handlePayload, and everything else changes nothing |
| SerialManagerJs.SerialManager.HandlePayload | receptor_arudino/webpage/electron/serialManager.js:199-211 | a payload that parses is stamped and written and no error is emitted; one that does not parse writes nothing and emits one error |
| SerialManagerJs.SplitColon | receptor_arudino/webpage/electron/serialManager.js:184 | the pieces hold no colon and joined with colons give the line back |
| SerialManagerJs.SecondPiece | receptor_arudino/webpage/electron/serialManager.js:184 | a topic is taken exactly when there is a second piece that is not blank |
| SerialManagerJs.SameCapture | receptor_arudino/webpage/electron/serialManager.js:153-197 | fed the same raw line, the Electron manager and the Python bridge open and close payload blocks alike |
| SerialManagerJs.SameStep | receptor_arudino/webpage/electron/serialManager.js:168-196 | on the same trimmed line both receivers move to the same capture state |
| SerialManagerJs.SameRun | receptor_arudino/webpage/electron/serialManager.js:153-197 | over any sequence of lines both receivers end in the same capture state and write the same number of payloads |
| SerialManagerJs.TopicDivergence | receptor_arudino/webpage/electron/serialManager.js:183-206 | after a Topic line, the Python bridge stamps the named topic on a payload without _meta while the Electron manager stamps "sensors", because split(':', 1) keeps only the text before the colon |
| SerialManagerJs.EmptyTopicDivergence | receptor_arudino/webpage/electron/serialManager.js:203-204 | an existing but empty topic is kept by the Python bridge and replaced with "sensors" by the Electron manager |
| SerialManagerJs.DeviceSlugsAgree | receptor_arudino/webpage/electron/serialManager.js:35-37 | a port the Python heuristic prefers by its device name is preferred by the Electron heuristic too |
| StringBuilderC.Grow | rocket_c/src/aggregator.c:46-48 | doubling reaches at least the required size and never shrinks below the start |
| StringBuilderC.GrowTarget | rocket_c/src/aggregator.c:45-48 | the new capacity holds what is required, is 256 for an empty builder and at least twice the old one otherwise |
| StringBuilderC.GrowBound | rocket_c/src/aggregator.c:45-48 | doubling never overshoots: the capacity is the start itself or under twice what was required |
| StringBuilderC.GrowKeepsCapacity | rocket_c/src/aggregator.c:45-48 | every capacity reached is zero or 256 times a power of two |
| StringBuilderC.EnoughMemory | rocket_c/src/aggregator.c:40-56 | with at least 256 bytes available, and twice what is required, every reservation succeeds |
| StringBuilderC.Blanks | rocket_c/src/aggregator.c:100 | the indentation is exactly the number of blanks asked for |
| StringBuilderC.StringBuilder.Contents | rocket_c/src/aggregator.c:34-150 | the text is the length bytes before the terminating NUL |
| StringBuilderC.StringBuilder.constructor | rocket_c/src/aggregator.c:34-38 | a new builder has no memory, no text and no capacity |
| StringBuilderC.StringBuilder.Reserve | rocket_c/src/aggregator.c:40-56 | the text is kept; the reservation succeeds exactly when the room is there or the grown block can be had; a grown capacity is the doubling target, and a failed realloc changes nothing |
| StringBuilderC.StringBuilder.Put | rocket_c/src/aggregator.c:66-68 | the bytes are copied after the text, and the text stays terminated |
| StringBuilderC.StringBuilder.Append | rocket_c/src/aggregator.c:58-70 | NULL text succeeds and changes nothing; otherwise the text grows by exactly the bytes given, or is unchanged when memory runs out |
| StringBuilderC.StringBuilder.AppendFormat | rocket_c/src/aggregator.c:72-91 | an encoding error fails; otherwise the formatted bytes are appended, or nothing changes when memory runs out |
| StringBuilderC.StringBuilder.AppendIndent | rocket_c/src/aggregator.c:93-104 | a count of zero or less appends nothing; otherwise exactly that many blanks are appended, or nothing changes |
| StringBuilderC.StringBuilder.AppendEscaped | rocket_c/src/aggregator.c:113-138 | the JSON escape of one byte is appended whole, or nothing changes |
| StringBuilderC.StringBuilder.AppendNext | rocket_c/src/aggregator.c:111-139 | one round of the loop adds the escape of the next byte after those of the bytes before it |
| StringBuilderC.StringBuilder.AppendEscapedText | rocket_c/src/aggregator.c:110-140 | the escapes of all bytes are appended in order; when memory runs out what was appended is a prefix of them |
| StringBuilderC.StringBuilder.AppendJsonString | rocket_c/src/aggregator.c:106-142 | success appends the quoted, escaped value (empty quotes for NULL); failure leaves a prefix of that literal after the old text |
| StringBuilderC.StringBuilder.Finalize | rocket_c/src/aggregator.c:144-150 | a builder with memory yields its text; one without reserves its first block and yields the empty text, or nothing when fewer than 256 bytes are available |
| StringBuilderC.StringBuilder.FinalizeAsWritten | rocket_c/src/aggregator.c:144-150 | as written, a builder without memory writes through NULL exactly when fewer than 256 bytes are available |
| StringBuilderC.PrefixOfEscape | rocket_c/src/aggregator.c:111-139 | the escapes of the first bytes are a prefix of the escapes of all of them |
| SummariesC.Clip | rocket_c/src/summaries.c:14-18 | a clipped text is a prefix within the bound, and a text that fits is kept whole |
| SummariesC.ClipAgain | rocket_c/src/summaries.c:17-18 | clipping before appending more and clipping again is clipping once |
| SummariesC.CatIsClip | rocket_c/src/summaries.c:17-18 | strncat bounded by the room left appends the text clipped to the buffer |
| SummariesC.NameBuffer.Text | rocket_c/src/summaries.c:12-20 | the text before the NUL fits the buffer and holds no NUL |
| SummariesC.NameBuffer.constructor | rocket_c/src/summaries.c:23-24 | a buffer initialised with "" holds the empty text |
| SummariesC.NameBuffer.Print | rocket_c/src/summaries.c:14 | snprintf keeps as much of the name as fits before the NUL in the last byte |
| SummariesC.NameBuffer.Cat | rocket_c/src/summaries.c:17-18 | strncat appends at most n bytes of the text, then a NUL |
| SummariesC.NameBuffer.AppendName | rocket_c/src/summaries.c:12-20 | the first name is printed and clears the flag; a later one follows ", ", the whole clipped to the buffer, so nothing is written past it |
| SummariesC.Names | rocket_c/src/summaries.c:63 | each sensor's name, in order |
| SummariesC.Listed | rocket_c/src/summaries.c:12-20 | a list of names never outgrows the 127 bytes before the NUL |
| SummariesC.Shown | rocket_c/src/summaries.c:73-75 | the text shown for a list is "ninguno" when nothing was appended, and the buffer otherwise |
| SummariesC.ListedAppend | rocket_c/src/summaries.c:12-20 | one more name extends the list as append_name does |
| SummariesC.ListedJoined | rocket_c/src/summaries.c:12-20 | the buffer holds the names joined by ", ", cut to 127 bytes: cutting at each step is cutting once |
| SummariesC.NamesHaveNoNul | rocket_c/src/summaries.c:63 | the sensor names hold no NUL |
| SummariesC.AddName | rocket_c/src/summaries.c:12-20 | appending a name to a buffer that holds a list makes it hold the longer list |
| SummariesC.GroupsFit | rocket_c/src/summaries.c:12-20 | no group of the three names is cut short: a group prints exactly its names joined by ", " |
| SummariesC.JoinFits | rocket_c/src/summaries.c:12-20 | a list of at most three names needs at most nine bytes a name |
| SummariesC.StatusTable | rocket_c/src/summaries.c:64-66 | the status of every sensor as the tracker's two getters give it |
| SummariesC.File | rocket_c/src/summaries.c:61-71 | a sensor's name goes to exactly one list, the one its status picks |
| SummariesC.FileNext | rocket_c/src/summaries.c:61-71 | filing the next sensor extends the groups of the sensors before it |
| SummariesC.LogFinalSummary | rocket_c/src/summaries.c:53-92 | each sensor in enum order goes to the group of its status (no data, dummy or real), an empty group reads "ninguno", and the zero line reports the tracker's latch |
| SummariesC.FileAll | rocket_c/src/summaries.c:61-71 | after the loop every sensor is filed under its status, in enum order |
| SummariesC.FinalGroupsExact | rocket_c/src/summaries.c:61-71 | every sensor is listed in exactly one group of the final summary, the group of its status |
| SummariesC.GroupsExact | rocket_c/src/summaries.c:61-71 | the three groups together are the sensors listed, and each sensor is in its status's group only |
| SummariesC.FlaggedAppend | rocket_c/src/summaries.c:28-42 | one more sensor extends the list of its flag only |
| SummariesC.FlaggedMembers | rocket_c/src/summaries.c:28-42 | a sensor is listed exactly when its capability is the one wanted |
| SummariesC.PlaceName | rocket_c/src/summaries.c:28-42 | one capability test appends the name to exactly one of the two lists |
| SummariesC.Place | rocket_c/src/summaries.c:28-42 | placing the next sensor extends the flagged lists of the sensors before it |
| SummariesC.LogStartSummary | rocket_c/src/summaries.c:22-51 | a sensor is listed as available exactly when its capability flag is set and as not available otherwise, in enum order, an empty list reading "ninguno" |
| SummariesC.StartListsExact | rocket_c/src/summaries.c:28-45 | each sensor is in exactly one of the two start lists, the one its flag picks |
| TableLayout.JoinAt | receptor_arudino/webpage/src/components/CommandTerminal.jsx:61-63 | each cell of a joined row sits whole at its offset |
| TableLayout.JoinSepAt | receptor_arudino/webpage/src/components/CommandTerminal.jsx:58-63 | every part but the last is followed by the separator |
| TableLayout.JoinLength | receptor_arudino/webpage/src/components/CommandTerminal.jsx:58-63 | a joined text is as long as its parts plus one separator between each two |
| TableLayout.Borders | receptor_arudino/webpage/src/components/CommandTerminal.jsx:58-63 | in a framed joined text the border mark stands at every part offset, the last one at the end |
| TableLayout.FramedPart | receptor_arudino/webpage/src/components/CommandTerminal.jsx:60-63 | each cell of a framed row appears after the left frame at its offset |
| TableLayout.Edge | receptor_arudino/webpage/src/components/CommandTerminal.jsx:54-63 | the border before a column lies within the line, and the last border is at the sum of the widths plus three a column |
| TableLayout.OffsetIsEdge | receptor_arudino/webpage/src/components/CommandTerminal.jsx:58-63 | parts that fill their column and its share of the separators start at the column borders |
| TableLayout.ColumnWidth | receptor_arudino/webpage/src/components/CommandTerminal.jsx:54-56 | a column is as wide as its longest cell: every cell fits, and some cell reaches the width |
| TableLayout.Widths | receptor_arudino/webpage/src/components/CommandTerminal.jsx:54-56 | one width per column of the first row, each the width of its column |
| TableLayout.Repeat | receptor_arudino/webpage/src/components/CommandTerminal.jsx:58 | exactly k copies of the character |
| TableLayout.PadEnd | receptor_arudino/webpage/src/components/CommandTerminal.jsx:62 | padding never shortens: the text is kept and blanks follow up to the width |
| TableLayout.Dashes | receptor_arudino/webpage/src/components/CommandTerminal.jsx:58 | each column contributes its width plus two dashes |
| TableLayout.Padded | receptor_arudino/webpage/src/components/CommandTerminal.jsx:62 | each cell is padded to its column's width |
| TableLayout.TableLines | receptor_arudino/webpage/src/components/CommandTerminal.jsx:65-71 | a table has three more lines than rows |
| TableLayout.Framed | receptor_arudino/webpage/src/components/CommandTerminal.jsx:65-71 | the header framed by separators and the whole closed by one: three more lines than rows |
| TableLayout.SeparatorShape | receptor_arudino/webpage/src/components/CommandTerminal.jsx:58 | a separator is the sum of the widths plus three a column plus one long, with a + on every column border |
| TableLayout.RowShape | receptor_arudino/webpage/src/components/CommandTerminal.jsx:60-63 | a row whose cells fit is as long as a separator, has a pipe on every column border and shows each cell left-aligned one space after its border |
| TableLayout.TableRowLine | receptor_arudino/webpage/src/components/CommandTerminal.jsx:65-71 | each row's line is that row rendered to the table's widths |
| TableLayout.FramedRowLine | receptor_arudino/webpage/src/components/CommandTerminal.jsx:65-71 | in the framed lines, the header is line 1 and row r at r + 2 |
| TableLayout.CellsFit | receptor_arudino/webpage/src/components/CommandTerminal.jsx:54-56 | every cell of a table fits its column's width |
| TableLayout.TableSeparators | receptor_arudino/webpage/src/components/CommandTerminal.jsx:65-71 | the first, third and last lines are the separator |
| TableLayout.TableRow | receptor_arudino/webpage/src/components/CommandTerminal.jsx:60-71 | each row's line has a pipe on every column border and shows the row |
| TableLayout.TableShape | receptor_arudino/webpage/src/components/CommandTerminal.jsx:54-71 | every line is equally long; the first, third and last are the separator with + on each column border; every row's line has a pipe on each border and shows each of the row's cells in its column |
| TelemetryTerminalJs.Pushed | receptor_arudino/webpage/src/components/TelemetryTerminal.jsx:18-28 | the i-th line pushed is message i mod n |
| TelemetryTerminalJs.PushedSnoc | receptor_arudino/webpage/src/components/TelemetryTerminal.jsx:18-28 | one more push appends the next message in turn |
| TelemetryTerminalJs.NewestPush | receptor_arudino/webpage/src/components/TelemetryTerminal.jsx:22-25 | appending a line and dropping the oldest when over ten keeps the newest ten lines of the longer history |
| TelemetryTerminalJs.ShownNext | receptor_arudino/webpage/src/components/TelemetryTerminal.jsx:18-28 | one push shows the next message in turn after the newest lines, the oldest going when they were full |
| TelemetryTerminalJs.ShownFirst | receptor_arudino/webpage/src/components/TelemetryTerminal.jsx:8-30 | nothing is shown before the first push, and the first message after it |
| TelemetryTerminalJs.TelemetryTerminal.constructor | receptor_arudino/webpage/src/components/TelemetryTerminal.jsx:4-6 | the first render shows nothing and runs no timer |
| TelemetryTerminalJs.TelemetryTerminal.PushLine | receptor_arudino/webpage/src/components/TelemetryTerminal.jsx:18-28 | the counter advances by one and the buffer is what the log shows after that many pushes |
| TelemetryTerminalJs.TelemetryTerminal.SetMessages | receptor_arudino/webpage/src/components/TelemetryTerminal.jsx:8-31 | a new messages value resets the buffer and the counter; a non-empty array shows its first message at once |
| TelemetryTerminalJs.TelemetryTerminal.SetInterval | receptor_arudino/webpage/src/components/TelemetryTerminal.jsx:13-39 | a new interval restarts the timer and pushes a line at once, with no reset |
| TelemetryTerminalJs.TelemetryTerminal.Tick | receptor_arudino/webpage/src/components/TelemetryTerminal.jsx:31 | a tick pushes one line while there are messages, and changes nothing otherwise |
| TelemetryTerminalJs.ShownLines | receptor_arudino/webpage/src/components/TelemetryTerminal.jsx:18-28 | after k pushes the log shows min(k, 10) lines, the j-th being message (k - shown + j) mod n, in the order pushed |
| TelemetryTerminalJs.ShownLine | receptor_arudino/webpage/src/components/TelemetryTerminal.jsx:18-28 | the j-th line shown after k pushes is the one pushed shown - j pushes ago |
| TelemetryTerminalJs.EveryMessageShown | receptor_arudino/webpage/src/components/TelemetryTerminal.jsx:18-31 | with at most ten messages and at least ten pushes, every message is on screen |

## Left out

- Threads and blocking waits: the sensor and aggregator threads, their creation and cancellation, and the mutex and condition-variable waits of the C queue are not modelled. Each loop body is one sequential step, and a wait that must have ended is a precondition of Push and Pop.
- Hardware and OS I/O: the I2C bus, the SMBus handle, `select`/`read` on the GPS serial port and the loralib calls are scripted outcomes or parameters. Opening devices and configuring the serial port are not modelled.
- Floating point: acceleration magnitudes, timestamps and intervals are `real` inputs. The square root, the filters and calibration, `atof`/`parse_coordinate`, and `%.Nf` and `toFixed` formatting are not modelled; their results are inputs.
- `isoformat_utc`, `gmtime_r`, `datetime.now().isoformat()`, `new Date().toISOString()` and `toLocaleString('es-MX')` are not modelled: every ISO or local time text is an input.
- `json.dumps`, `json.loads`, `JSON.parse` and `JSON.stringify` are not modelled: encoding gives the body bytes as an input, and parsing is a function parameter.
- The per-sensor payload text of the C aggregator (`append_mpu_payload`, `append_bmp_payload`, `append_gps_payload`) is an input. Only the structure of `build_payload_json` around it is modelled.
- The file read of `_load_config` is an input; infinite and NaN values in the file are not modelled, because the model's numbers are exact reals.
- `receive_loop`, the serial loop and `main` of serial_bridge.py, `connect`/`disconnect` in serialManager.js, and `main.c` are orchestration over the modelled steps. They are not modelled.
- Logging and console output are not modelled. The summaries return the text each `%s` receives, and the LoRa readiness line of the summaries is not modelled.
- AccelerationPy.RetryResult: the `retry_delay` argument of `read_word` and its `time.sleep(retry_delay)` between attempts are not modelled; attempts follow one another at once, since the model has no clock.
- LoraConfig.Normalise: a configuration file that is not valid UTF-8 raises `UnicodeDecodeError`, which `_load_config` does not catch, so the module import fails; the model has no such outcome, and `NoObject` covers only a missing or unreadable file, malformed JSON, or a top-level value that is not an object.
- Python exceptions other than `OSError` in `read_word`, and other exceptions from the wake-up write, are not modelled.
- The aggregator's queue timeout is a `None` message. The GPIO pulse is the `gpio` flag of the step's outcome.
- `sensor_queue_destroy`, `mpu_calibrate` and the BMP180 worker are not part of this model.
- Whitespace and case: `Strip`, `trim()`, `toLowerCase()` and `lower()` are modelled for ASCII text only. Unicode whitespace and case folding are not modelled.
- Strip: Python's `str.strip()` also removes the control characters 0x1C to 0x1F, which JavaScript's `trim()` keeps. The model strips only space, tab, newline, carriage return, vertical tab and form feed on both sides, so a line edged by those four characters is stripped differently by the Python bridge and the Python mode text than the model says.
- `localeCompare` is modelled as code-point order of the path text. The two orders differ: locale collation compares letters without regard to case at its first level and orders punctuation such as `_` differently, so `'a'.localeCompare('B')` is negative while code-point order puts `B` first. SerialManagerJs.ListPortsFacts states the ordering under code-point order only.
- String lengths in the JavaScript components count characters, not UTF-16 code units.
- The dashboard's `setTimeout` delays are modelled as immediate. Focus, scrolling and the closing animation are not modelled.
- The `'line'` event's timestamp is not modelled. The payload file is the list of payloads written to it, so write errors and the order of asynchronous writes are not modelled.
- The scale factors and offsets `read_accel_gyro` applies to the raw words are floating point and are not modelled. Only its register map and read order are.
- The Electron `Topic:` rule is modelled as written. It always clears the topic; see TopicDivergence.
- The zero-acceleration detector follows the code: `last_detection` starts at 0.0 and the time test is strict. A first reading at time 0 is therefore not a detection.

## Findings

| source | as written | input that shows it | evidently intended | confidence | as-written member | corrected member |
|---|---|---|---|---|---|---|
| rocket_c/src/aggregator.c:144-150 | `sb_finalize` ignores the result of `sb_reserve(sb, 1)` and then writes `sb->data[0]`, so a builder that never obtained memory writes through NULL when that reservation fails too | `build_payload_json` when `realloc` cannot supply the first 256-byte block: every append fails, and so does the reservation in `sb_finalize` | return NULL when the reservation fails, which `aggregator_thread_main` already handles by not sending | not executed | StringBuilderC.StringBuilder.FinalizeAsWritten | StringBuilderC.StringBuilder.Finalize |

=== FILE: acceleration.dfy ===
/** The Python node's MPU6050 access (acceleration.py): the cached SMBus
    handle `_bus`, `_get_bus`/`_reset_bus`, the retrying `read_word` and
    the register map of `read_accel_gyro`. The I2C bus itself is a script
    of outcomes: every hardware call (opening the bus, the wake-up write,
    a byte read) takes the next outcome, and a script that has run out
    answers every call with an `OSError`. */
module AccelerationPy {
  import opened Common
  import SensorWorkersC

  /** The power-management register the wake-up write clears. */
  const PWR_MGMT_1: nat := 0x6B
  /** `read_word`'s default number of attempts. */
  const DEFAULT_RETRIES: int := 3
  /** The high-byte registers `read_accel_gyro` reads: acceleration x, y,
      z, then rotation rate x, y, z. */
  const MPU_REGISTERS: seq<nat> := [0x3B, 0x3D, 0x3F, 0x43, 0x45, 0x47]

  /** `read_word`'s decoding: `(h << 8) + l`, and `-((65535 - val) + 1)`
      for values from 0x8000 on. It is the C node's `SignedWord`, so both
      nodes read the same numbers from the same two bytes. */
  function WordValue(h: Byte, l: Byte): (v: int)
    ensures v == SensorWorkersC.SignedWord(h, l)
    ensures -32768 <= v <= 32767 && (v < 0 <==> h >= 128)
  {
    var val := h * 256 + l;
    if val >= 0x8000 then -((65535 - val) + 1) else val
  }

  /** The outcome of one hardware call. */
  datatype Io = Answer(value: Byte) | OSError

  /** The module's state: the cached bus (numbered in creation order),
      how many buses were opened, the buses closed in order, the outcomes
      of the calls still to come, and the registers read in order. */
  datatype Hw = Hw(bus: Option<nat>, created: nat, closed: seq<nat>, script: seq<Io>, registers: seq<nat>)

  /** One hardware call: the next scripted outcome. */
  function Call(h: Hw): (r: (Io, Hw))
    ensures r.1 == h.(script := r.1.script) && |r.1.script| == Max(0, |h.script| - 1)
  {
    if h.script == [] then (OSError, h) else (h.script[0], h.(script := h.script[1..]))
  }

  /** `bus.read_byte_data(MPU_ADDR, reg)`. */
  function ReadByte(h: Hw, reg: nat): (r: (Io, Hw))
    ensures r.1.registers == h.registers + [reg] && r.1.bus == h.bus && r.1.closed == h.closed
  {
    Call(h.(registers := h.registers + [reg]))
  }

  /** `_reset_bus`: closes the cached bus, if any (a failing close is
      swallowed), and forgets it. */
  function AfterReset(h: Hw): (r: Hw)
    ensures r.bus == None
    ensures r.closed == h.closed + (if h.bus.Some? then [h.bus.value] else [])
    ensures r.script == h.script && r.registers == h.registers && r.created == h.created
  {
    h.(bus := None, closed := h.closed + if h.bus.Some? then [h.bus.value] else [])
  }

  /** `_get_bus`: the cached bus, or a newly opened one that is woken up
      and cached. When opening fails, or the wake-up write fails, the
      error propagates (`None`) and nothing is cached; a bus whose wake-up
      failed is closed first. */
  function GetBusResult(h: Hw): (r: (Option<nat>, Hw))
  {
    if h.bus.Some? then (h.bus, h)
    else
      var (made, h1) := Call(h);
      if made.OSError? then (None, h1)
      else
        var id := h1.created;
        var (wake, h2) := Call(h1.(created := id + 1));
        if wake.OSError? then (None, h2.(closed := h2.closed + [id]))
        else (Some(id), h2.(bus := Some(id)))
  }

  /** One pass of `read_word`'s loop body: get the bus, read the high and
      the low byte; on an `OSError`, reset the bus. */
  function AttemptResult(h: Hw, reg: nat): (r: (Option<int>, Hw))
  {
    var (bus, h1) := GetBusResult(h);
    if bus.None? then (None, AfterReset(h1))
    else
      var (hi, h2) := ReadByte(h1, reg);
      if hi.OSError? then (None, AfterReset(h2))
      else
        var (lo, h3) := ReadByte(h2, reg + 1);
        if lo.OSError? then (None, AfterReset(h3))
        else (Some(WordValue(hi.value, lo.value)), h3)
  }

  /** `read_word(reg, retries)` after `done` failed attempts: the word,
      or `None` for the re-raised error, with the final state and the
      number of attempts made in all. */
  function RetryResult(h: Hw, reg: nat, retries: int, done: nat): (r: (Option<int>, Hw, nat))
    decreases Max(0, retries - done)
  {
    var (word, h1) := AttemptResult(h, reg);
    if word.Some? then (word, h1, done + 1)
    else if done + 1 >= retries then (None, h1, done + 1)
    else RetryResult(h1, reg, retries, done + 1)
  }

  // ------------------------------------------------------------ properties

  /** The cache: a bus that is cached is returned as it is and nothing
      happens; otherwise at most one bus is opened, a bus is returned
      exactly when it is the new cached one, and a failure leaves nothing
      cached, with the opened bus, if any, closed. */
  lemma GetBusCaches(h: Hw)
    ensures h.bus.Some? ==> GetBusResult(h) == (h.bus, h)
    ensures h.bus.None? && GetBusResult(h).0.Some? ==>
      GetBusResult(h).0 == Some(h.created) && GetBusResult(h).1.bus == Some(h.created)
      && GetBusResult(h).1.created == h.created + 1 && GetBusResult(h).1.closed == h.closed
    ensures GetBusResult(h).0.None? ==>
      GetBusResult(h).1.bus == None
      && (GetBusResult(h).1.created == h.created || GetBusResult(h).1.closed == h.closed + [h.created])
  {
  }

  /** A second `_get_bus` after a successful one returns the same bus and
      makes no hardware call. */
  lemma GetBusTwice(h: Hw)
    requires GetBusResult(h).0.Some?
    ensures GetBusResult(GetBusResult(h).1) == GetBusResult(h)
  {
  }

  /** Every failed attempt leaves no bus cached, and a bus it had got is
      closed; a successful attempt read `reg` and then `reg + 1`, and its
      word is those two bytes decoded. */
  lemma AttemptOutcome(h: Hw, reg: nat)
    ensures AttemptResult(h, reg).0.None? ==> AttemptResult(h, reg).1.bus == None
    ensures AttemptResult(h, reg).0.Some? ==>
      var h1 := AttemptResult(h, reg).1;
      |h1.registers| >= 2 && h1.registers == h.registers + [reg, reg + 1]
      && h1.bus.Some? && |h.script| >= 2
    ensures AttemptResult(h, reg).0.Some? ==>
      // the two byte reads follow the open and wake-up calls of a new bus
      var k := if h.bus.Some? then 0 else 2;
      && |h.script| >= k + 2 && h.script[k].Answer? && h.script[k + 1].Answer?
      && AttemptResult(h, reg).0.value == WordValue(h.script[k].value, h.script[k + 1].value)
      && AttemptResult(h, reg).1.script == h.script[k + 2..]
  {
    var (bus, h1) := GetBusResult(h);
    if bus.Some? {
      var k := if h.bus.Some? then 0 else 2;
      assert |h1.script| + k == |h.script| && h1.script == h.script[k..];
      var (hi, h2) := ReadByte(h1, reg);
      if hi.Answer? {
        var (lo, h3) := ReadByte(h2, reg + 1);
        if lo.Answer? {
          assert h1.registers == h.registers;
          assert hi == h.script[k] && lo == h.script[k + 1];
          assert h3.script == h.script[k + 2..];
          assert AttemptResult(h, reg).0.value == WordValue(hi.value, lo.value);
        }
      }
    }
  }

  /** `read_word` makes between one and `max(1, retries)` attempts; it
      stops at the first success, and it re-raises only after the last
      allowed attempt has failed, with no bus cached. */
  lemma {:induction false} RetryBounds(h: Hw, reg: nat, retries: int, done: nat)
    requires done == 0 || done < retries
    ensures var r := RetryResult(h, reg, retries, done);
      done + 1 <= r.2 <= Max(done + 1, retries)
      && (r.0.None? ==> r.2 == Max(done + 1, retries) && r.1.bus == None)
    decreases Max(0, retries - done)
  {
    AttemptOutcome(h, reg);
    var (word, h1) := AttemptResult(h, reg);
    if word.None? && done + 1 < retries {
      RetryBounds(h1, reg, retries, done + 1);
    }
  }

  /** A first attempt that succeeds is the only attempt. */
  lemma FirstSuccessReturns(h: Hw, reg: nat, retries: int)
    requires AttemptResult(h, reg).0.Some?
    ensures RetryResult(h, reg, retries, 0) == (AttemptResult(h, reg).0, AttemptResult(h, reg).1, 1)
  {
  }

  /** Every register `read_word(reg)` reads is `reg` or `reg + 1`, and on
      success the last two it read are `reg` and then `reg + 1`. */
  lemma {:induction false} RetryRegisters(h: Hw, reg: nat, retries: int, done: nat)
    ensures var r := RetryResult(h, reg, retries, done);
      h.registers <= r.1.registers
      && (forall i :: |h.registers| <= i < |r.1.registers| ==> r.1.registers[i] == reg || r.1.registers[i] == reg + 1)
      && (r.0.Some? ==> |r.1.registers| >= |h.registers| + 2 && r.1.registers[|r.1.registers| - 2..] == [reg, reg + 1])
    decreases Max(0, retries - done)
  {
    AttemptRegisters(h, reg);
    var (word, h1) := AttemptResult(h, reg);
    if word.None? && done + 1 < retries {
      RetryRegisters(h1, reg, retries, done + 1);
    }
  }

  /** One attempt reads `reg`, then possibly `reg + 1`, and nothing else. */
  lemma AttemptRegisters(h: Hw, reg: nat)
    ensures var h1 := AttemptResult(h, reg).1;
      h.registers <= h1.registers
      && (forall i :: |h.registers| <= i < |h1.registers| ==> h1.registers[i] == reg || h1.registers[i] == reg + 1)
      && (AttemptResult(h, reg).0.Some? ==> h1.registers == h.registers + [reg, reg + 1])
  {
    AttemptOutcome(h, reg);
  }

  /** The register map agrees with the C node's block layout: the `i`-th
      word `read_accel_gyro` reads starts at the register of the byte the
      C decoder takes for that axis (acceleration at byte `2 * axis`,
      rotation rate at `8 + 2 * axis`, past the temperature word). */
  lemma RegisterMap()
    ensures |MPU_REGISTERS| == 6
    ensures forall axis :: 0 <= axis < 3 ==>
      MPU_REGISTERS[axis] == SensorWorkersC.MPU_FIRST_REGISTER + 2 * axis
      && MPU_REGISTERS[3 + axis] == SensorWorkersC.MPU_FIRST_REGISTER + 8 + 2 * axis
  {
  }

  /** `read_accel_gyro`'s six `read_word` calls in order, each with the
      default retries; the first error propagates and ends the read. */
  function ReadAllResult(h: Hw, regs: seq<nat>): (r: (Option<seq<int>>, Hw))
    ensures r.0.Some? ==> |r.0.value| == |regs|
    decreases |regs|
  {
    if regs == [] then (Some([]), h)
    else
      var (word, h1, _) := RetryResult(h, regs[0], DEFAULT_RETRIES, 0);
      if word.None? then (None, h1)
      else
        var (rest, h2) := ReadAllResult(h1, regs[1..]);
        if rest.None? then (None, h2) else (Some([word.value] + rest.value), h2)
  }

  /** A failed read leaves no bus cached. */
  lemma {:induction false} ReadAllFailure(h: Hw, regs: seq<nat>)
    ensures ReadAllResult(h, regs).0.None? ==> regs != [] && ReadAllResult(h, regs).1.bus == None
    decreases |regs|
  {
    if regs != [] {
      var (word, h1, n) := RetryResult(h, regs[0], DEFAULT_RETRIES, 0);
      RetryBounds(h, regs[0], DEFAULT_RETRIES, 0);
      if word.Some? {
        ReadAllFailure(h1, regs[1..]);
      }
    }
  }

  /** On success every word is a signed 16-bit value. */
  lemma {:induction false} ReadAllRange(h: Hw, regs: seq<nat>)
    ensures ReadAllResult(h, regs).0.Some? ==> forall i :: 0 <= i < |regs| ==> -32768 <= ReadAllResult(h, regs).0.value[i] <= 32767
    decreases |regs|
  {
    if regs != [] {
      var (word, h1, n) := RetryResult(h, regs[0], DEFAULT_RETRIES, 0);
      RetryRange(h, regs[0], DEFAULT_RETRIES, 0);
      if word.Some? {
        ReadAllRange(h1, regs[1..]);
        var rest := ReadAllResult(h1, regs[1..]).0;
        if rest.Some? {
          var words := ReadAllResult(h, regs).0.value;
          assert words == [word.value] + rest.value;
          forall i | 0 <= i < |regs| ensures -32768 <= words[i] <= 32767 {
            if i > 0 {
              assert words[i] == rest.value[i - 1];
            }
          }
        }
      }
    }
  }

  /** A `read_word` that succeeds returns a signed 16-bit value. */
  lemma {:induction false} RetryRange(h: Hw, reg: nat, retries: int, done: nat)
    ensures RetryResult(h, reg, retries, done).0.Some? ==> -32768 <= RetryResult(h, reg, retries, done).0.value <= 32767
    decreases Max(0, retries - done)
  {
    var (word, h1) := AttemptResult(h, reg);
    if word.None? && done + 1 < retries {
      RetryRange(h1, reg, retries, done + 1);
    }
  }

  /** Reading only appends to the log of registers read. */
  lemma {:induction false} ReadAllPrefix(h: Hw, regs: seq<nat>)
    ensures h.registers <= ReadAllResult(h, regs).1.registers
    decreases |regs|
  {
    if regs != [] {
      RetryRegisters(h, regs[0], DEFAULT_RETRIES, 0);
      var (word, h1, _) := RetryResult(h, regs[0], DEFAULT_RETRIES, 0);
      if word.Some? {
        ReadAllPrefix(h1, regs[1..]);
      }
    }
  }

  // ------------------------------------------------------------ the module state

  /** The module-level state of acceleration.py that the reads update. */
  class Accelerometer {
    var bus: Option<nat>
    var created: nat
    var closed: seq<nat>
    var script: seq<Io>
    var registers: seq<nat>

    /** The state as a value. */
    function State(): Hw
      reads this
    {
      Hw(bus, created, closed, script, registers)
    }

    /** `_bus = None` at import, with the bus's future outcomes. */
    constructor(script: seq<Io>)
      ensures State() == Hw(None, 0, [], script, [])
    {
      bus, created, closed, this.script, registers := None, 0, [], script, [];
    }

    /** One hardware call. */
    method Next() returns (o: Io)
      modifies this
      ensures (o, State()) == Call(old(State()))
    {
      if script == [] {
        o := OSError;
      } else {
        o := script[0];
        script := script[1..];
      }
    }

    /** `bus.read_byte_data(MPU_ADDR, reg)`. */
    method ReadByteData(reg: nat) returns (o: Io)
      modifies this
      ensures (o, State()) == ReadByte(old(State()), reg)
    {
      registers := registers + [reg];
      o := Next();
    }

    /** `_reset_bus` (acceleration.py:33-41). */
    method ResetBus()
      modifies this
      ensures State() == AfterReset(old(State()))
    {
      if bus.Some? {
        closed := closed + [bus.value];
      }
      bus := None;
    }

    /** `_get_bus` (acceleration.py:44-55); `None` is the propagated
        error. */
    method GetBus() returns (r: Option<nat>)
      modifies this
      ensures (r, State()) == GetBusResult(old(State()))
    {
      if bus.None? {
        var made := Next();
        if made.OSError? {
          return None;
        }
        var id := created;
        created := created + 1;
        var wake := Next();
        if wake.OSError? {
          closed := closed + [id];
          return None;
        }
        bus := Some(id);
      }
      r := bus;
    }

    /** `read_word(reg, retries)` (acceleration.py:57-72): `None` is the
        re-raised `OSError` of the last attempt; `attempts` counts the
        loop's passes. */
    method ReadWord(reg: nat, retries: int) returns (r: Option<int>, ghost attempts: nat)
      modifies this
      ensures (r, State(), attempts) == RetryResult(old(State()), reg, retries, 0)
    {
      var attempt: nat := 0;
      while true
        invariant attempt == 0 || attempt < retries
        invariant RetryResult(State(), reg, retries, attempt) == RetryResult(old(State()), reg, retries, 0)
        decreases retries - attempt
      {
        ghost var before := State();
        attempt := attempt + 1;
        var word: Option<int> := None;
        var got := GetBus();
        if got.Some? {
          var hi := ReadByteData(reg);
          if hi.Answer? {
            var lo := ReadByteData(reg + 1);
            if lo.Answer? {
              word := Some(WordValue(hi.value, lo.value));
            }
          }
        }
        if word.Some? {
          assert (word, State()) == AttemptResult(before, reg);
          return word, attempt;
        }
        ResetBus();
        assert (word, State()) == AttemptResult(before, reg);
        if attempt >= retries {
          return None, attempt;
        }
      }
    }

    /** `read_accel_gyro(offsets)` (acceleration.py:74-81) up to the
        offsets and scales: the six raw words, or `None` when a
        `read_word` raises. */
    method ReadAccelGyro() returns (words: Option<seq<int>>)
      modifies this
      ensures (words, State()) == ReadAllResult(old(State()), MPU_REGISTERS)
    {
      words := ReadWords(MPU_REGISTERS);
    }

    /** The six `read_word` calls of `read_accel_gyro`, one per register
        of `regs`, in order. */
    method ReadWords(regs: seq<nat>) returns (words: Option<seq<int>>)
      requires |regs| == 6
      modifies this
      ensures (words, State()) == ReadAllResult(old(State()), regs)
    {
      ghost var start := State();
      var done: seq<int> := [];
      ReadNothing(start, regs);
      ghost var h := State();
      var ax, _ := ReadWord(regs[0], DEFAULT_RETRIES);
      ReadStep(start, regs, done, h, 0, ax, State());
      if ax.None? { return None; }
      h, done := State(), done + [ax.value];
      var ay, _ := ReadWord(regs[1], DEFAULT_RETRIES);
      ReadStep(start, regs, done, h, 1, ay, State());
      if ay.None? { return None; }
      h, done := State(), done + [ay.value];
      var az, _ := ReadWord(regs[2], DEFAULT_RETRIES);
      ReadStep(start, regs, done, h, 2, az, State());
      if az.None? { return None; }
      h, done := State(), done + [az.value];
      var gx, _ := ReadWord(regs[3], DEFAULT_RETRIES);
      ReadStep(start, regs, done, h, 3, gx, State());
      if gx.None? { return None; }
      h, done := State(), done + [gx.value];
      var gy, _ := ReadWord(regs[4], DEFAULT_RETRIES);
      ReadStep(start, regs, done, h, 4, gy, State());
      if gy.None? { return None; }
      h, done := State(), done + [gy.value];
      var gz, _ := ReadWord(regs[5], DEFAULT_RETRIES);
      ReadStep(start, regs, done, h, 5, gz, State());
      if gz.None? { return None; }
      done := done + [gz.value];
      // the tuple (ax, ay, az, gx, gy, gz)
      words := Some(done);
      ReadEverything(start, regs, done, State());
    }
  }

  /** Before the first read, nothing is read yet. */
  lemma ReadNothing(h: Hw, regs: seq<nat>)
    ensures ReadAllResult(h, regs) == Extend([], ReadAllResult(h, regs[0..]))
  {
    assert regs[0..] == regs;
    var r := ReadAllResult(h, regs);
    if r.0.Some? {
      assert [] + r.0.value == r.0.value;
    }
  }

  /** After the last read, the whole read is what was read. */
  lemma ReadEverything(start: Hw, regs: seq<nat>, done: seq<int>, h: Hw)
    requires ReadAllResult(start, regs) == Extend(done, ReadAllResult(h, regs[|regs|..]))
    ensures ReadAllResult(start, regs) == (Some(done), h)
  {
    assert regs[|regs|..] == [];
    assert done + [] == done;
  }

  /** One `read_word` of a register list read in order: a failure ends
      the read there, a success adds its word to those already read. */
  lemma ReadStep(start: Hw, regs: seq<nat>, done: seq<int>, h: Hw, k: nat, word: Option<int>, h1: Hw)
    requires k < |regs|
    requires ReadAllResult(start, regs) == Extend(done, ReadAllResult(h, regs[k..]))
    requires (word, h1) == (RetryResult(h, regs[k], DEFAULT_RETRIES, 0).0, RetryResult(h, regs[k], DEFAULT_RETRIES, 0).1)
    ensures word.None? ==> ReadAllResult(start, regs) == (None, h1)
    ensures word.Some? ==> ReadAllResult(start, regs) == Extend(done + [word.value], ReadAllResult(h1, regs[k + 1..]))
  {
    assert regs[k..][0] == regs[k] && regs[k..][1..] == regs[k + 1..];
    if word.Some? {
      var rest := ReadAllResult(h1, regs[k + 1..]);
      if rest.0.Some? {
        assert done + ([word.value] + rest.0.value) == done + [word.value] + rest.0.value;
      }
    }
  }

  /** Words already read, put in front of the rest of a read. */
  function Extend(done: seq<int>, rest: (Option<seq<int>>, Hw)): (Option<seq<int>>, Hw)
  {
    if rest.0.None? then (None, rest.1) else (Some(done + rest.0.value), rest.1)
  }
}

=== FILE: activity.dfy ===
/** What both nodes agree on about sensor activity: the three-way
    classification of sensors for the final summary (aggregator.py:46-57,
    rocket_c/src/summaries.c:61-71) and the zero-acceleration detector
    with its one-shot latch (aggregator.py:24-27, 118-136;
    rocket_c/src/aggregator.c:15-18, 327-345,
    rocket_c/src/activity_tracker.c:41-51). The Python and C models state
    their steps in terms of the definitions here. */
module Activity {

  /** The group a sensor is reported in. */
  datatype Status = Real | Dummy | NoData

  /** Never seen: no data; seen and the last message was dummy: dummy;
      otherwise real. */
  function Classify(seen: bool, lastDummy: bool): Status {
    if !seen then NoData else if lastDummy then Dummy else Real
  }

  /** The three lists `reales`, `dummy`, `sin_datos`. */
  datatype Groups<T> = Groups(reales: seq<T>, dummy: seq<T>, noData: seq<T>)

  /** The items whose status is `want`, in order. */
  function Select<T>(items: seq<T>, status: T -> Status, want: Status): seq<T>
  {
    if items == [] then []
    else Select(items[..|items| - 1], status, want)
         + (if status(items[|items| - 1]) == want then [items[|items| - 1]] else [])
  }

  /** Appending one item extends the group of its status only. */
  lemma SelectAppend<T>(items: seq<T>, x: T, status: T -> Status, want: Status)
    ensures Select(items + [x], status, want) == Select(items, status, want) + (if status(x) == want then [x] else [])
  {
    assert (items + [x])[..|items|] == items;
  }

  /** An item is selected exactly when its status is the one wanted. */
  lemma {:induction false} SelectMembers<T>(items: seq<T>, status: T -> Status, want: Status)
    ensures forall x :: x in Select(items, status, want) <==> x in items && status(x) == want
  {
    if items != [] {
      var init := items[..|items| - 1];
      SelectMembers(init, status, want);
      assert items == init + [items[|items| - 1]];
    }
  }

  /** Each group lists, in the given order, the items of its status. */
  function Partition<T>(items: seq<T>, status: T -> Status): Groups<T>
  {
    Groups(Select(items, status, Real), Select(items, status, Dummy), Select(items, status, NoData))
  }

  /** The groups together hold exactly the items, as many times as they
      occur, and every item lands in the group of its status. */
  lemma {:induction false} PartitionExact<T>(items: seq<T>, status: T -> Status)
    ensures var g := Partition(items, status);
      && multiset(g.reales) + multiset(g.dummy) + multiset(g.noData) == multiset(items)
      && (forall x :: x in items ==>
            (x in g.reales <==> status(x) == Real)
            && (x in g.dummy <==> status(x) == Dummy)
            && (x in g.noData <==> status(x) == NoData))
  {
    SelectMembers(items, status, Real);
    SelectMembers(items, status, Dummy);
    SelectMembers(items, status, NoData);
    PartitionCount(items, status);
  }

  lemma {:induction false} PartitionCount<T>(items: seq<T>, status: T -> Status)
    ensures multiset(Select(items, status, Real)) + multiset(Select(items, status, Dummy))
            + multiset(Select(items, status, NoData)) == multiset(items)
  {
    if items != [] {
      var init := items[..|items| - 1];
      var last := items[|items| - 1];
      PartitionCount(init, status);
      SelectSnoc(items, status, Real);
      SelectSnoc(items, status, Dummy);
      SelectSnoc(items, status, NoData);
      var e := multiset{last};
      var ea := if status(last) == Real then e else multiset{};
      var eb := if status(last) == Dummy then e else multiset{};
      var ec := if status(last) == NoData then e else multiset{};
      assert ea + eb + ec == e;
      MultisetSnoc(items);
      Algebra(multiset(Select(items, status, Real)), multiset(Select(items, status, Dummy)), multiset(Select(items, status, NoData)),
              multiset(Select(init, status, Real)), multiset(Select(init, status, Dummy)), multiset(Select(init, status, NoData)),
              ea, eb, ec, multiset(init), multiset(items));
    }
  }

  /** Appending an item adds it to the group of its status only. */
  lemma SelectSnoc<T>(items: seq<T>, status: T -> Status, want: Status)
    requires items != []
    ensures multiset(Select(items, status, want))
         == multiset(Select(items[..|items| - 1], status, want))
            + (if status(items[|items| - 1]) == want then multiset{items[|items| - 1]} else multiset{})
  {
  }

  lemma MultisetSnoc<T>(s: seq<T>)
    requires s != []
    ensures multiset(s) == multiset(s[..|s| - 1]) + multiset{s[|s| - 1]}
  {
    assert s == s[..|s| - 1] + [s[|s| - 1]];
  }

  /** Union bookkeeping for one appended item. */
  lemma Algebra<T>(a: multiset<T>, b: multiset<T>, c: multiset<T>, a0: multiset<T>, b0: multiset<T>, c0: multiset<T>,
                   ea: multiset<T>, eb: multiset<T>, ec: multiset<T>, m0: multiset<T>, m: multiset<T>)
    requires a == a0 + ea && b == b0 + eb && c == c0 + ec && a0 + b0 + c0 == m0 && m == m0 + (ea + eb + ec)
    ensures a + b + c == m
  {
  }

  // ------------------------------------------------------------ detector

  const ZERO_ACCEL_REF: real := 1.0
  const ZERO_ACCEL_TOLERANCE: real := 0.05
  const ZERO_ACCEL_REQUIRED: int := 2
  const ZERO_ACCEL_MIN_DELAY: real := 1.0

  /** `abs(magnitude - 1.0) <= 0.05`: the reading is close to 1 g. */
  predicate NearOneG(magnitude: real) {
    -ZERO_ACCEL_TOLERANCE <= magnitude - ZERO_ACCEL_REF <= ZERO_ACCEL_TOLERANCE
  }

  /** The detection counter and the time of the last counted detection;
      both nodes start from `(0, 0.0)`. */
  datatype Detector = Detector(count: int, lastDetection: real)

  const START: Detector := Detector(0, 0.0)

  /** A reading counts when it is close to 1 g and comes strictly more than
      one second after the last counted one. */
  predicate Counts(d: Detector, magnitude: real, timestamp: real) {
    NearOneG(magnitude) && timestamp - d.lastDetection > ZERO_ACCEL_MIN_DELAY
  }

  /** One detection step: the new counter, and whether the signal is to be
      recorded (the count has reached 2). */
  function Detect(d: Detector, magnitude: real, timestamp: real): (r: (Detector, bool))
    ensures !Counts(d, magnitude, timestamp) ==> r == (d, false)
    ensures Counts(d, magnitude, timestamp) ==>
      r.0 == Detector(d.count + 1, timestamp) && (r.1 <==> d.count + 1 >= ZERO_ACCEL_REQUIRED)
  {
    if Counts(d, magnitude, timestamp) then
      (Detector(d.count + 1, timestamp), d.count + 1 >= ZERO_ACCEL_REQUIRED)
    else (d, false)
  }

  /** The one-shot latch: the first recorded timestamp and magnitude. */
  datatype Latch = Latch(sent: bool, timestamp: real, magnitude: real)

  const UNSENT: Latch := Latch(false, 0.0, 0.0)

  /** Recording is a no-op once the latch is set. */
  function Record(l: Latch, timestamp: real, magnitude: real): (r: Latch)
    ensures r.sent
    ensures l.sent ==> r == l
    ensures !l.sent ==> r.timestamp == timestamp && r.magnitude == magnitude
  {
    if l.sent then l else Latch(true, timestamp, magnitude)
  }

  /** One accelerometer reading as the detector sees it: `eligible` is
      false for dummy readings and for messages without acceleration. */
  datatype Reading = Reading(eligible: bool, magnitude: real, timestamp: real)

  /** Both nodes' zero-acceleration step: nothing happens while the latch
      is set or for an ineligible reading; `fired` says the signal was
      recorded (and, in Python, the GPIO line activated). */
  function ZeroStep(d: Detector, l: Latch, r: Reading): (result: (Detector, Latch, bool))
    ensures result.2 ==> !l.sent && result.1.sent
    ensures l.sent ==> result == (d, l, false)
  {
    if !r.eligible || l.sent then (d, l, false)
    else
      var (d2, rec) := Detect(d, r.magnitude, r.timestamp);
      if rec then (d2, Record(l, r.timestamp, r.magnitude), true) else (d2, l, false)
  }

  /** A sequence of readings from a given state; the last field counts the
      readings that fired. */
  function ZeroRun(d: Detector, l: Latch, rs: seq<Reading>): (Detector, Latch, nat) {
    if rs == [] then (d, l, 0)
    else
      var (d1, l1, n) := ZeroRun(d, l, rs[..|rs| - 1]);
      var (d2, l2, fired) := ZeroStep(d1, l1, rs[|rs| - 1]);
      (d2, l2, n + if fired then 1 else 0)
  }

  /** The signal fires at most once over any run, and never again once the
      latch is set; the recorded values are then never overwritten. */
  lemma {:induction false} FiresAtMostOnce(d: Detector, l: Latch, rs: seq<Reading>)
    ensures var (d2, l2, n) := ZeroRun(d, l, rs);
      && n <= (if l.sent then 0 else 1)
      && (l.sent ==> l2 == l)
      && (n == 1 <==> !l.sent && l2.sent)
  {
    if rs != [] {
      FiresAtMostOnce(d, l, rs[..|rs| - 1]);
    }
  }

  /** A reading that counted towards the signal. */
  predicate Detection(r: Reading) {
    r.eligible && NearOneG(r.magnitude)
  }

  /** From the start state, the counter and latch are explained by the
      readings: a count of one or more means a detection at the recorded
      time, later than 1.0 s; a count of two or more means an earlier
      detection more than a second before it; a set latch holds the
      reading of the detection that made the count two. */
  lemma {:induction false} RunExplained(rs: seq<Reading>)
    ensures var (d, l, n) := ZeroRun(START, UNSENT, rs);
      && (d.count >= 1 ==> exists j :: 0 <= j < |rs| && Detection(rs[j]) && rs[j].timestamp == d.lastDetection
                                        && rs[j].timestamp > ZERO_ACCEL_MIN_DELAY)
      && (d.count >= 2 ==> exists i, j :: 0 <= i < j < |rs| && Detection(rs[i]) && Detection(rs[j])
                                        && rs[j].timestamp == d.lastDetection
                                        && rs[i].timestamp > ZERO_ACCEL_MIN_DELAY
                                        && rs[j].timestamp - rs[i].timestamp > ZERO_ACCEL_MIN_DELAY)
      && (l.sent ==> d.count >= 2 && l.timestamp == d.lastDetection && NearOneG(l.magnitude))
      && d.count >= 0
      && (d.count == 0 ==> d.lastDetection == 0.0)
  {
    if rs != [] {
      var init := rs[..|rs| - 1];
      var r := rs[|rs| - 1];
      RunExplained(init);
      var (d1, l1, n1) := ZeroRun(START, UNSENT, init);
      var (d2, l2, f) := ZeroStep(d1, l1, r);
      assert ZeroRun(START, UNSENT, rs) == (d2, l2, n1 + if f then 1 else 0);
      forall k | 0 <= k < |init| ensures rs[k] == init[k] { }
      if d2 != d1 {
        assert r.eligible && Counts(d1, r.magnitude, r.timestamp);
        assert d2 == Detector(d1.count + 1, r.timestamp);
        assert Detection(rs[|rs| - 1]);
        if d1.count >= 1 {
          var j :| 0 <= j < |init| && Detection(init[j]) && init[j].timestamp == d1.lastDetection
                  && init[j].timestamp > ZERO_ACCEL_MIN_DELAY;
          assert rs[j] == init[j];
        }
      }
      if d2 == d1 && d1.count >= 2 {
        var i, j :| 0 <= i < j < |init| && Detection(init[i]) && Detection(init[j])
                    && init[j].timestamp == d1.lastDetection
                    && init[i].timestamp > ZERO_ACCEL_MIN_DELAY
                    && init[j].timestamp - init[i].timestamp > ZERO_ACCEL_MIN_DELAY;
        assert rs[i] == init[i] && rs[j] == init[j];
      }
      if d2 == d1 && d1.count >= 1 {
        var j :| 0 <= j < |init| && Detection(init[j]) && init[j].timestamp == d1.lastDetection
                && init[j].timestamp > ZERO_ACCEL_MIN_DELAY;
        assert rs[j] == init[j];
      }
    }
  }

  /** The signal is recorded only after two detections more than a second
      apart, the first later than 1.0 s, and it holds the second one. */
  lemma SignalNeedsTwoDetections(rs: seq<Reading>)
    requires ZeroRun(START, UNSENT, rs).1.sent
    ensures exists i, j :: 0 <= i < j < |rs| && Detection(rs[i]) && Detection(rs[j])
                           && rs[i].timestamp > ZERO_ACCEL_MIN_DELAY
                           && rs[j].timestamp - rs[i].timestamp > ZERO_ACCEL_MIN_DELAY
                           && ZeroRun(START, UNSENT, rs).1.timestamp == rs[j].timestamp
  {
    RunExplained(rs);
  }

  /** Since the last detection starts at 0.0 and the gap test is strict, a
      reading at or before 1.0 s never counts, however close to 1 g. */
  lemma EarlyReadingIgnored(r: Reading)
    requires r.timestamp <= ZERO_ACCEL_MIN_DELAY
    ensures ZeroRun(START, UNSENT, [r]) == (START, UNSENT, 0)
  {
    assert [r][..0] == [];
  }
}

=== FILE: activity_tracker_c.dfy ===
/** The C node's activity tracker (rocket_c/src/activity_tracker.c): a
    caller-owned struct with one `seen` and one `last_dummy` flag per sensor
    type and the fields of the one-shot zero-acceleration latch. Every entry
    point accepts NULL, modelled as a `Tracker?` that is `null`. */
module ActivityTrackerC {
  import opened Sensors
  import Activity

  class Tracker {
    const seen: array<bool>
    const lastDummy: array<bool>
    var zeroSent: bool
    var zeroTimestamp: real
    var zeroMagnitude: real

    /** Both flag arrays hold one entry per sensor type. */
    ghost predicate Valid()
      reads this
    {
      seen.Length == SENSOR_COUNT && lastDummy.Length == SENSOR_COUNT && seen != lastDummy
    }

    /** The struct as the caller declared it: whatever its storage held. */
    constructor(seen0: seq<bool>, lastDummy0: seq<bool>, sent0: bool, timestamp0: real, magnitude0: real)
      requires |seen0| == SENSOR_COUNT && |lastDummy0| == SENSOR_COUNT
      ensures Valid() && fresh(seen) && fresh(lastDummy)
      ensures seen[..] == seen0 && lastDummy[..] == lastDummy0
      ensures zeroSent == sent0 && zeroTimestamp == timestamp0 && zeroMagnitude == magnitude0
    {
      seen := new bool[SENSOR_COUNT](i requires 0 <= i < SENSOR_COUNT => seen0[i]);
      lastDummy := new bool[SENSOR_COUNT](i requires 0 <= i < SENSOR_COUNT => lastDummy0[i]);
      zeroSent := sent0;
      zeroTimestamp := timestamp0;
      zeroMagnitude := magnitude0;
    }
  }

  /** The latch fields of a tracker, as the shared latch value. */
  function LatchOf(t: Tracker): Activity.Latch
    reads t
  {
    Activity.Latch(t.zeroSent, t.zeroTimestamp, t.zeroMagnitude)
  }

  /** `activity_tracker_init` (activity_tracker.c:5-10): the struct is
      zeroed, so every flag is false and the latch is unset with zero
      timestamp and magnitude. */
  method Init(t: Tracker?)
    requires t != null ==> t.Valid()
    modifies if t == null then {} else {t, t.seen, t.lastDummy}
    ensures t != null ==> t.Valid()
    ensures t != null ==> t.seen[..] == [false, false, false] && t.lastDummy[..] == [false, false, false]
    ensures t != null ==> LatchOf(t) == Activity.UNSENT
  {
    if t == null {
      return;
    }
    for i := 0 to SENSOR_COUNT
      invariant forall j :: 0 <= j < i ==> !t.seen[j] && !t.lastDummy[j]
    {
      t.seen[i] := false;
      t.lastDummy[i] := false;
    }
    t.zeroSent := false;
    t.zeroTimestamp := 0.0;
    t.zeroMagnitude := 0.0;
  }

  /** `activity_tracker_update` (activity_tracker.c:12-18): only the entries
      of an in-range sensor change. */
  method Update(t: Tracker?, sensor: int, isDummy: bool)
    requires t != null ==> t.Valid()
    modifies if t == null then {} else {t.seen, t.lastDummy}
    ensures t != null && IsSensor(sensor) ==>
      t.seen[..] == old(t.seen[..])[sensor := true] && t.lastDummy[..] == old(t.lastDummy[..])[sensor := isDummy]
    ensures t != null && !IsSensor(sensor) ==>
      t.seen[..] == old(t.seen[..]) && t.lastDummy[..] == old(t.lastDummy[..])
  {
    if t == null || sensor < 0 || sensor >= SENSOR_COUNT {
      return;
    }
    t.seen[sensor] := true;
    t.lastDummy[sensor] := isDummy;
  }

  /** `activity_tracker_seen` (activity_tracker.c:20-25). */
  function Seen(t: Tracker?, sensor: int): (r: bool)
    requires t != null ==> t.Valid()
    reads t, if t == null then {} else {t.seen}
    ensures r ==> t != null && IsSensor(sensor)
  {
    if t == null || sensor < 0 || sensor >= SENSOR_COUNT then false else t.seen[sensor]
  }

  /** `activity_tracker_last_dummy` (activity_tracker.c:27-32). */
  function LastDummy(t: Tracker?, sensor: int): (r: bool)
    requires t != null ==> t.Valid()
    reads t, if t == null then {} else {t.lastDummy}
    ensures r ==> t != null && IsSensor(sensor)
  {
    if t == null || sensor < 0 || sensor >= SENSOR_COUNT then false else t.lastDummy[sensor]
  }

  /** The group the final summary puts a sensor in, from the two getters. */
  function StatusOf(t: Tracker?, sensor: int): Activity.Status
    requires t != null ==> t.Valid()
    reads t, if t == null then {} else {t.seen, t.lastDummy}
  {
    Activity.Classify(Seen(t, sensor), LastDummy(t, sensor))
  }

  /** A NULL tracker or an out-of-range sensor reads as never seen. */
  lemma UnknownHasNoData(t: Tracker?, sensor: int)
    requires t != null ==> t.Valid()
    requires t == null || !IsSensor(sensor)
    ensures StatusOf(t, sensor) == Activity.NoData
  {
  }

  /** After an update of an in-range sensor it is seen, its dummy flag is
      the one given, and every other sensor keeps its group. */
  lemma {:induction false} UpdateStatus(t: Tracker, sensor: int, isDummy: bool,
                                        seenBefore: seq<bool>, dummyBefore: seq<bool>)
    requires t.Valid() && IsSensor(sensor)
    requires |seenBefore| == SENSOR_COUNT && |dummyBefore| == SENSOR_COUNT
    requires t.seen[..] == seenBefore[sensor := true] && t.lastDummy[..] == dummyBefore[sensor := isDummy]
    ensures StatusOf(t, sensor) == (if isDummy then Activity.Dummy else Activity.Real)
    ensures forall s :: IsSensor(s) && s != sensor ==>
      StatusOf(t, s) == Activity.Classify(seenBefore[s], dummyBefore[s])
  {
    assert t.seen[sensor] == t.seen[..][sensor];
    assert t.lastDummy[sensor] == t.lastDummy[..][sensor];
    forall s | IsSensor(s) && s != sensor
      ensures StatusOf(t, s) == Activity.Classify(seenBefore[s], dummyBefore[s])
    {
      assert t.seen[s] == t.seen[..][s];
      assert t.lastDummy[s] == t.lastDummy[..][s];
    }
  }

  /** `activity_tracker_zero_sent` (activity_tracker.c:34-39). */
  function ZeroSent(t: Tracker?): (r: bool)
    reads t
    ensures r ==> t != null
  {
    if t == null then false else t.zeroSent
  }

  /** `activity_tracker_record_zero_signal` (activity_tracker.c:41-51): the
      shared one-shot latch step; a NULL tracker is left alone. */
  method RecordZeroSignal(t: Tracker?, timestamp: real, magnitude: real)
    modifies t
    ensures t != null ==> LatchOf(t) == Activity.Record(old(LatchOf(t)), timestamp, magnitude)
  {
    if t == null {
      return;
    }
    if t.zeroSent {
      return;
    }
    t.zeroSent := true;
    t.zeroTimestamp := timestamp;
    t.zeroMagnitude := magnitude;
  }

  /** `ZeroSignalInfo`. */
  datatype ZeroSignalInfo = ZeroSignalInfo(sent: bool, timestamp: real, magnitude: real)

  /** `activity_tracker_zero_details` (activity_tracker.c:53-62). */
  function ZeroDetails(t: Tracker?): (info: ZeroSignalInfo)
    reads t
    ensures info.sent == ZeroSent(t)
    ensures t == null ==> info == ZeroSignalInfo(false, 0.0, 0.0)
  {
    if t == null then ZeroSignalInfo(false, 0.0, 0.0)
    else ZeroSignalInfo(t.zeroSent, t.zeroTimestamp, t.zeroMagnitude)
  }

  /** Once recorded, the details keep the first signal whatever is recorded
      later: two calls in a row report the first call's values. */
  method RecordTwice(t: Tracker, ts1: real, m1: real, ts2: real, m2: real) returns (info: ZeroSignalInfo)
    modifies t
    ensures !old(t.zeroSent) ==> info == ZeroSignalInfo(true, ts1, m1)
    ensures old(t.zeroSent) ==> info == old(ZeroDetails(t))
  {
    RecordZeroSignal(t, ts1, m1);
    RecordZeroSignal(t, ts2, m2);
    info := ZeroDetails(t);
  }
}

=== FILE: aggregator_c.dfy ===
/** The C node's aggregator (rocket_c/src/aggregator.c): the snapshot text
    `build_payload_json` writes, the zero-acceleration check of
    `aggregator_handle_mpu`, one round of `aggregator_thread_main` and the
    argument check of `aggregator_start`. The text each `append_*_payload`
    renders for a reading (numbers printed with `%.Nf`, the ISO time) is
    taken as given: it is the `body` of a message. */
module AggregatorC {
  import opened Common
  import opened Sensors
  import JsonText
  import opened StringBuilderC
  import Activity
  import ActivityTrackerC

  /** A popped `SensorMessage`: its type, time and dummy flag, the
      magnitude of its acceleration (`sqrt` of the sum of squares, for an
      MPU6050 reading) and the rendered text its `append_*_payload` writes
      at indent 6. */
  datatype Message = Message(sensor: int, timestamp: real, dummy: bool, magnitude: real, body: seq<Byte>)

  // The fixed pieces of the snapshot text (aggregator.c:282-319), as bytes;
  // `LiteralPieces` ties each to the C literal it stands for.
  const HEAD: seq<Byte> := [123, 10, 32, 32, 34, 114, 101, 112, 111, 114, 116, 101, 100, 95, 97, 116, 34, 58, 32]
  const SENSORS_OPEN: seq<Byte> := [44, 10, 32, 32, 34, 115, 101, 110, 115, 111, 114, 115, 34, 58, 32, 123, 10]
  const KEY_END: seq<Byte> := [34, 58, 32]
  const NULL: seq<Byte> := [110, 117, 108, 108]
  const COMMA_NEWLINE: seq<Byte> := [44, 10]
  const NEWLINE: seq<Byte> := [10]
  const TAIL: seq<Byte> := [32, 32, 125, 10, 125, 10]

  lemma LiteralPieces()
    ensures HEAD == Ascii("{\n  \"reported_at\": ")
    ensures SENSORS_OPEN == Ascii(",\n  \"sensors\": {\n")
    ensures KEY_END == Ascii("\": ") && NULL == Ascii("null")
    ensures COMMA_NEWLINE == Ascii(",\n") && NEWLINE == Ascii("\n")
    ensures TAIL == Ascii("  }\n}\n")
  {
  }

  /** A sensor's value in the snapshot: its rendered reading, or `null`
      when there is none. */
  function ValueText(rendered: Option<seq<Byte>>): seq<Byte> {
    if rendered.Some? then rendered.value else NULL
  }

  /** One entry of the `sensors` object without its separator: indent,
      quoted name, `: ` and the value. */
  function Item(sensor: int, rendered: Option<seq<Byte>>): seq<Byte> {
    Blanks(4) + [JsonText.QUOTE] + NameBytes(sensor) + KEY_END + ValueText(rendered)
  }

  /** What follows an entry: `,\n`, or `\n` after the last one. */
  function Separator(last: bool): seq<Byte> {
    if last then NEWLINE else COMMA_NEWLINE
  }

  /** The readings by sensor type: `objects[s]` is the rendered reading of
      sensor `s`, None when `has_latest[s]` is false. */
  predicate ObjectTable(objects: seq<Option<seq<Byte>>>) {
    |objects| == SENSOR_COUNT
  }

  predicate Expected(expected: seq<int>) {
    forall i :: 0 <= i < |expected| ==> IsSensor(expected[i])
  }

  /** The entries in the configured order, one per expected sensor. */
  function Items(expected: seq<int>, objects: seq<Option<seq<Byte>>>): (items: seq<seq<Byte>>)
    requires Expected(expected) && ObjectTable(objects)
    ensures |items| == |expected|
    ensures forall i :: 0 <= i < |expected| ==> items[i] == Item(expected[i], objects[expected[i]])
  {
    seq(|expected|, i requires 0 <= i < |expected| => Item(expected[i], objects[expected[i]]))
  }

  /** The text of the first `n` rounds of the loop at aggregator.c:286-318. */
  function Entries(items: seq<seq<Byte>>, n: nat): seq<Byte>
    requires n <= |items|
  {
    if n == 0 then [] else Entries(items, n - 1) + (items[n - 1] + Separator(n == |items|))
  }

  /** Everything before the entries. */
  function Header(iso: seq<Byte>): seq<Byte> {
    HEAD + JsonText.Quote(Some(iso)) + SENSORS_OPEN
  }

  /** The snapshot text `build_payload_json` (aggregator.c:275-320) builds
      when no allocation fails. */
  function PayloadJson(iso: seq<Byte>, expected: seq<int>, objects: seq<Option<seq<Byte>>>): seq<Byte>
    requires Expected(expected) && ObjectTable(objects)
  {
    Header(iso) + Entries(Items(expected, objects), |expected|) + TAIL
  }

  /** The entries are the items joined by `,\n` and closed by `\n`: one per
      expected sensor, in order, with no comma after the last. */
  lemma EntriesJoined(items: seq<seq<Byte>>)
    requires items != []
    ensures Entries(items, |items|) == Join(items, COMMA_NEWLINE) + NEWLINE
  {
    EntriesPrefix(items, |items|);
    assert items[..|items|] == items;
  }

  lemma {:induction false} EntriesPrefix(items: seq<seq<Byte>>, n: nat)
    requires 1 <= n <= |items|
    ensures Entries(items, n) == Join(items[..n], COMMA_NEWLINE) + Separator(n == |items|)
  {
    var sep := Separator(n == |items|);
    assert items[..n] == items[..n - 1] + [items[n - 1]];
    if n == 1 {
      assert Entries(items, 1) == [] + items[0] + sep;
      assert Join(items[..1], COMMA_NEWLINE) == items[0];
    } else {
      EntriesPrefix(items, n - 1);
      JoinSnoc(items[..n - 1], items[n - 1], COMMA_NEWLINE);
    }
  }

  /** Longer runs of the loop write longer prefixes. */
  lemma {:induction false} EntriesGrow(items: seq<seq<Byte>>, i: nat, j: nat)
    requires i <= j <= |items|
    ensures |Entries(items, i)| <= |Entries(items, j)|
    decreases j - i
  {
    if i < j {
      EntriesGrow(items, i, j - 1);
    }
  }

  /** The `reported_at` literal reads back as the time text, and what
      follows it is the rest of the snapshot. */
  lemma ReportedAtReadsBack(iso: seq<Byte>, expected: seq<int>, objects: seq<Option<seq<Byte>>>)
    requires Expected(expected) && ObjectTable(objects)
    ensures var p := PayloadJson(iso, expected, objects);
      |HEAD| <= |p| && p[..|HEAD|] == HEAD
      && JsonText.ReadString(p[|HEAD|..]) == Some((iso, SENSORS_OPEN + Entries(Items(expected, objects), |expected|) + TAIL))
  {
    var rest := SENSORS_OPEN + Entries(Items(expected, objects), |expected|) + TAIL;
    var p := PayloadJson(iso, expected, objects);
    Regroup(HEAD, JsonText.Quote(Some(iso)), SENSORS_OPEN, Entries(Items(expected, objects), |expected|), TAIL);
    JsonText.QuoteRoundTrip(Some(iso), rest);
  }

  /** The name is appended raw, not through `sb_append_json_string`; it
      needs no escape, so each key still reads back as the sensor's name,
      followed by `: ` and the value. */
  lemma KeyReadsBack(sensor: int, rendered: Option<seq<Byte>>)
    ensures var item := Item(sensor, rendered);
      |item| >= 4 && JsonText.ReadString(item[4..]) == Some((NameBytes(sensor), [58, 32] + ValueText(rendered)))
  {
    var name := NameBytes(sensor);
    assert JsonText.Escape(name) == name by {
      JsonText.EscapePlain(name);
    }
    var quote, colon, value := [JsonText.QUOTE], [58, 32], ValueText(rendered);
    assert KEY_END == quote + colon;
    Regroup(Blanks(4), quote, name, quote + colon, value);
    Splice(quote, name, quote, colon, value);
    JsonText.QuoteRoundTrip(Some(name), colon + value);
  }

  /** Five pieces, regrouped after the first two. */
  lemma Regroup<T>(a: seq<T>, b: seq<T>, c: seq<T>, d: seq<T>, e: seq<T>)
    ensures a + b + c + d + e == a + (b + (c + d + e))
    ensures |a| <= |a + b + c + d + e| && (a + b + c + d + e)[..|a|] == a
    ensures (a + b + c + d + e)[|a|..] == b + (c + d + e)
  {
  }

  /** A piece split in two, regrouped with its neighbours. */
  lemma Splice<T>(a: seq<T>, b: seq<T>, c: seq<T>, d: seq<T>, e: seq<T>)
    ensures a + (b + (c + d) + e) == (a + b + c) + (d + e)
  {
  }

  /** Two appends in a row, each writing its piece when memory is ample,
      write the two pieces together when memory is ample for both. */
  lemma Chain(available: nat, c0: seq<Byte>, c1: seq<Byte>, c2: seq<Byte>, p: seq<Byte>, q: seq<Byte>, whole: seq<Byte>)
    requires Ample(|c0|, |p|, available) ==> c1 == c0 + p
    requires Ample(|c1|, |q|, available) ==> c2 == c1 + q
    requires whole == p + q
    ensures Ample(|c0|, |whole|, available) ==> c2 == c0 + whole
  {
  }

  /** Two steps in a row, each writing its piece when memory is ample for
      it, write both pieces when memory is ample for both. */
  lemma Chain2(available: nat, c0: seq<Byte>, c1: seq<Byte>, c2: seq<Byte>, p: seq<Byte>, q: seq<Byte>)
    requires Ample(|c0|, |p|, available) ==> c1 == c0 + p
    requires Ample(|c1|, |q|, available) ==> c2 == c1 + q
    ensures Ample(|c0|, |p + q|, available) ==> c2 == c0 + (p + q)
  {
  }

  /** Three steps in a row, each writing its piece when memory is ample
      for it, write the three pieces when memory is ample for all. */
  lemma Chain3(available: nat, c0: seq<Byte>, c1: seq<Byte>, c2: seq<Byte>, c3: seq<Byte>,
               p: seq<Byte>, q: seq<Byte>, r: seq<Byte>)
    requires Ample(|c0|, |p|, available) ==> c1 == c0 + p
    requires Ample(|c1|, |q|, available) ==> c2 == c1 + q
    requires Ample(|c2|, |r|, available) ==> c3 == c2 + r
    ensures Ample(|c0|, |p + q + r|, available) ==> c3 == c0 + (p + q + r)
  {
  }

  /** A round of the loop, given memory for the whole snapshot, writes
      its entry. */
  lemma LoopStep(available: nat, header: seq<Byte>, items: seq<seq<Byte>>, idx: nat, tail: seq<Byte>,
                 before: seq<Byte>, after: seq<Byte>)
    requires idx < |items| && before == header + Entries(items, idx)
    requires Ample(|before|, |items[idx] + Separator(idx + 1 == |items|)|, available) ==>
      after == before + (items[idx] + Separator(idx + 1 == |items|))
    requires Ample(0, |header + Entries(items, |items|) + tail|, available)
    ensures after == header + Entries(items, idx + 1)
  {
    var piece := items[idx] + Separator(idx + 1 == |items|);
    assert Entries(items, idx + 1) == Entries(items, idx) + piece;
    EntriesGrow(items, idx + 1, |items|);
    assert |before| + |piece| <= |header + Entries(items, |items|) + tail|;
    assert Ample(|before|, |piece|, available);
  }

  /** An entry is its indent, the quoted key with `": `, and the value with
      its separator. */
  lemma EntryPieces(sensor: int, rendered: Option<seq<Byte>>, last: bool)
    ensures Item(sensor, rendered) + Separator(last) ==
      Blanks(4) + ([JsonText.QUOTE] + NameBytes(sensor) + KEY_END) + (ValueText(rendered) + Separator(last))
  {
    Regroup6(Blanks(4), [JsonText.QUOTE], NameBytes(sensor), KEY_END, ValueText(rendered), Separator(last));
  }

  /** Six pieces, regrouped as one, three and two. */
  lemma Regroup6<T>(a: seq<T>, b: seq<T>, c: seq<T>, d: seq<T>, e: seq<T>, f: seq<T>)
    ensures a + b + c + d + e + f == a + (b + c + d) + (e + f)
  {
  }

  /** Two `sb_append` calls in a row, their results ignored. */
  method AppendPair(sb: StringBuilder, a: seq<Byte>, b: seq<Byte>)
    requires sb.Valid()
    modifies sb, sb.data
    ensures sb.Valid()
    ensures sb.data == old(sb.data) || fresh(sb.data)
    ensures Ample(old(sb.length), |a + b|, sb.available) ==> sb.Contents() == old(sb.Contents()) + (a + b)
  {
    ghost var c0 := sb.Contents();
    var _ := sb.Append(Some(a));
    ghost var c1 := sb.Contents();
    var _ := sb.Append(Some(b));
    Chain2(sb.available, c0, c1, sb.Contents(), a, b);
  }

  /** Three `sb_append` calls in a row, their results ignored. */
  method AppendTriple(sb: StringBuilder, a: seq<Byte>, b: seq<Byte>, c: seq<Byte>)
    requires sb.Valid()
    modifies sb, sb.data
    ensures sb.Valid()
    ensures sb.data == old(sb.data) || fresh(sb.data)
    ensures Ample(old(sb.length), |a + b + c|, sb.available) ==> sb.Contents() == old(sb.Contents()) + (a + b + c)
  {
    ghost var c0 := sb.Contents();
    var _ := sb.Append(Some(a));
    ghost var c1 := sb.Contents();
    var _ := sb.Append(Some(b));
    ghost var c2 := sb.Contents();
    var _ := sb.Append(Some(c));
    Chain3(sb.available, c0, c1, c2, sb.Contents(), a, b, c);
  }

  /** One round of the loop of `build_payload_json` (aggregator.c:287-317):
      indent, quote, the sensor's name, `": `, the rendered reading (what
      `append_*_payload` writes) or `null`, and the separator. The results
      of the appends are ignored, as in the source; with memory to spare
      the entry is written whole. */
  method AppendEntry(sb: StringBuilder, sensor: int, rendered: Option<seq<Byte>>, last: bool)
    requires sb.Valid()
    modifies sb, sb.data
    ensures sb.Valid()
    ensures sb.data == old(sb.data) || fresh(sb.data)
    ensures Ample(old(sb.length), |Item(sensor, rendered) + Separator(last)|, sb.available) ==>
      sb.Contents() == old(sb.Contents()) + (Item(sensor, rendered) + Separator(last))
  {
    ghost var c0 := sb.Contents();
    var _ := sb.AppendIndent(4);
    ghost var c1 := sb.Contents();
    AppendTriple(sb, [JsonText.QUOTE], NameBytes(sensor), KEY_END);
    ghost var c2 := sb.Contents();
    AppendPair(sb, ValueText(rendered), Separator(last));
    Chain3(sb.available, c0, c1, c2, sb.Contents(), Blanks(4), [JsonText.QUOTE] + NameBytes(sensor) + KEY_END,
           ValueText(rendered) + Separator(last));
    EntryPieces(sensor, rendered, last);
  }

  /** The start of the snapshot (aggregator.c:282-284). */
  method WriteHeader(sb: StringBuilder, iso: seq<Byte>)
    requires sb.Valid()
    modifies sb, sb.data
    ensures sb.Valid()
    ensures sb.data == old(sb.data) || fresh(sb.data)
    ensures Ample(old(sb.length), |Header(iso)|, sb.available) ==>
      sb.Contents() == old(sb.Contents()) + Header(iso)
  {
    ghost var c0 := sb.Contents();
    var _ := sb.Append(Some(HEAD));
    ghost var c1 := sb.Contents();
    var _ := sb.AppendJsonString(Some(iso));
    ghost var c2 := sb.Contents();
    var _ := sb.Append(Some(SENSORS_OPEN));
    Chain3(sb.available, c0, c1, c2, sb.Contents(), HEAD, JsonText.Quote(Some(iso)), SENSORS_OPEN);
  }

  /** `build_payload_json` up to `sb_finalize` (aggregator.c:276-319), on
      a builder just set up by `sb_init`: with memory to spare it writes
      exactly the snapshot text. */
  method WritePayload(sb: StringBuilder, iso: seq<Byte>, expected: seq<int>, objects: seq<Option<seq<Byte>>>)
    requires Expected(expected) && ObjectTable(objects)
    requires sb.Valid() && sb.length == 0
    modifies sb, sb.data
    ensures sb.Valid()
    ensures sb.data == old(sb.data) || fresh(sb.data)
    ensures Ample(0, |PayloadJson(iso, expected, objects)|, sb.available) ==>
      sb.Contents() == PayloadJson(iso, expected, objects)
  {
    ghost var items := Items(expected, objects);
    ghost var header := Header(iso);
    ghost var good := Ample(0, |header + Entries(items, |items|) + TAIL|, sb.available);
    WriteHeader(sb, iso);
    for idx := 0 to |expected|
      invariant sb.Valid()
      invariant sb.data == old(sb.data) || fresh(sb.data)
      invariant good ==> sb.Contents() == header + Entries(items, idx)
    {
      var sensor := expected[idx];
      ghost var before := sb.Contents();
      AppendEntry(sb, sensor, objects[sensor], idx + 1 == |expected|);
      if good {
        LoopStep(sb.available, header, items, idx, TAIL, before, sb.Contents());
      }
    }
    ghost var before := sb.Contents();
    var _ := sb.Append(Some(TAIL));
  }

  /** `build_payload_json` (aggregator.c:275-320) with `sb_finalize` as it
      should be: the snapshot text when memory is ample, and NULL (which
      the caller skips) when not even the first block can be had. */
  method BuildPayloadJson(available: nat, iso: seq<Byte>, expected: seq<int>, objects: seq<Option<seq<Byte>>>)
    returns (payload: Option<seq<Byte>>)
    requires Expected(expected) && ObjectTable(objects)
    ensures Ample(0, |PayloadJson(iso, expected, objects)|, available) ==>
      payload == Some(PayloadJson(iso, expected, objects))
    ensures payload.None? <==> available < 256
  {
    var sb := new StringBuilder(available);
    WritePayload(sb, iso, expected, objects);
    payload := sb.Finalize();
  }

  /** `build_payload_json` as written: when the first block of 256 bytes
      cannot be had, every append fails, `sb_finalize` reserves again, fails
      again, and writes through NULL. */
  method BuildPayloadJsonAsWritten(available: nat, iso: seq<Byte>, expected: seq<int>, objects: seq<Option<seq<Byte>>>)
    returns (r: Finalized)
    requires Expected(expected) && ObjectTable(objects)
    ensures Ample(0, |PayloadJson(iso, expected, objects)|, available) ==>
      r == Text(PayloadJson(iso, expected, objects))
    ensures r == NullWrite <==> available < 256
  {
    var sb := new StringBuilder(available);
    WritePayload(sb, iso, expected, objects);
    r := sb.FinalizeAsWritten();
  }

  // ------------------------------------------------------------ the thread

  /** A zeroed message, as `calloc` leaves the `latest` table. */
  const BLANK: Message := Message(0, 0.0, false, 0.0, [])

  /** `AggregatorState` together with the thread's `last_emit` local: the
      configuration (expected sensors in order, emit interval, tracker,
      whether a send callback is set), the latest message per sensor type,
      the zero-acceleration counter and the time of the last emission. */
  class Aggregator {
    const expected: seq<int>
    const emitInterval: real
    const hasSender: bool
    const tracker: ActivityTrackerC.Tracker
    const latest: array<Message>
    const hasLatest: array<bool>
    var zeroCount: int
    var zeroLastDetection: real
    var lastEmit: real

    ghost predicate Valid()
      reads this, tracker
    {
      && Expected(expected)
      && latest.Length == SENSOR_COUNT && hasLatest.Length == SENSOR_COUNT
      && tracker.Valid()
      && hasLatest != tracker.seen && hasLatest != tracker.lastDummy
    }

    /** `aggregator_start` after its checks (aggregator.c:408-409): the
        state is zeroed and takes the configuration; the thread starts with
        `last_emit` at 0. */
    constructor(expected: seq<int>, emitInterval: real, hasSender: bool, tracker: ActivityTrackerC.Tracker)
      requires Expected(expected) && tracker.Valid()
      ensures Valid() && fresh(latest) && fresh(hasLatest)
      ensures this.expected == expected && this.emitInterval == emitInterval
      ensures this.hasSender == hasSender && this.tracker == tracker
      ensures hasLatest[..] == [false, false, false]
      ensures DetectorOf() == Activity.START && lastEmit == 0.0
    {
      this.expected := expected;
      this.emitInterval := emitInterval;
      this.hasSender := hasSender;
      this.tracker := tracker;
      latest := new Message[SENSOR_COUNT](_ => BLANK);
      hasLatest := new bool[SENSOR_COUNT](_ => false);
      zeroCount := 0;
      zeroLastDetection := 0.0;
      lastEmit := 0.0;
      new;
      assert hasLatest[..] == [hasLatest[0], hasLatest[1], hasLatest[2]];
    }

    /** The zero-acceleration counter as the shared detector value. */
    function DetectorOf(): Activity.Detector
      reads this
    {
      Activity.Detector(zeroCount, zeroLastDetection)
    }

    /** What the snapshot shows per sensor type: the rendered latest
        reading, or nothing before the first one. */
    function Objects(): (objects: seq<Option<seq<Byte>>>)
      reads latest, hasLatest
      requires latest.Length == SENSOR_COUNT && hasLatest.Length == SENSOR_COUNT
      ensures ObjectTable(objects)
      ensures forall s :: 0 <= s < SENSOR_COUNT ==>
        objects[s] == (if hasLatest[s] then Some(latest[s].body) else None)
    {
      seq(SENSOR_COUNT, s requires 0 <= s < SENSOR_COUNT reads latest, hasLatest =>
        if hasLatest[s] then Some(latest[s].body) else None)
    }

    /** `aggregator_handle_mpu` (aggregator.c:327-345): the shared
        zero-acceleration step, a dummy reading being ineligible and the
        latch living in the tracker. */
    method HandleMpu(m: Message)
      requires Valid()
      modifies this`zeroCount, this`zeroLastDetection, tracker
      ensures Valid()
      ensures var (d, l, _) := Activity.ZeroStep(old(DetectorOf()), old(ActivityTrackerC.LatchOf(tracker)),
                                                 Activity.Reading(!m.dummy, m.magnitude, m.timestamp));
        DetectorOf() == d && ActivityTrackerC.LatchOf(tracker) == l
    {
      if !m.dummy && !ActivityTrackerC.ZeroSent(tracker) {
        var delta := if m.magnitude >= Activity.ZERO_ACCEL_REF then m.magnitude - Activity.ZERO_ACCEL_REF
                     else Activity.ZERO_ACCEL_REF - m.magnitude;
        if delta <= Activity.ZERO_ACCEL_TOLERANCE {
          var now := m.timestamp;
          if now - zeroLastDetection > Activity.ZERO_ACCEL_MIN_DELAY {
            zeroCount := zeroCount + 1;
            zeroLastDetection := now;
            if zeroCount >= Activity.ZERO_ACCEL_REQUIRED {
              ActivityTrackerC.RecordZeroSignal(tracker, now, m.magnitude);
            }
          }
        }
      }
    }

    /** The bookkeeping for a popped message (aggregator.c:361-380): the
        MPU6050 check, the tracker update and the latest-reading table. */
    method Absorb(m: Message)
      requires Valid() && IsSensor(m.sensor)
      modifies this`zeroCount, this`zeroLastDetection, latest, hasLatest, tracker, tracker.seen, tracker.lastDummy
      ensures Valid()
      ensures latest[..] == old(latest[..])[m.sensor := m]
      ensures hasLatest[..] == old(hasLatest[..])[m.sensor := true]
      ensures tracker.seen[..] == old(tracker.seen[..])[m.sensor := true]
      ensures tracker.lastDummy[..] == old(tracker.lastDummy[..])[m.sensor := m.dummy]
      ensures m.sensor == MPU6050 ==>
        var (d, l, _) := Activity.ZeroStep(old(DetectorOf()), old(ActivityTrackerC.LatchOf(tracker)),
                                           Activity.Reading(!m.dummy, m.magnitude, m.timestamp));
        DetectorOf() == d && ActivityTrackerC.LatchOf(tracker) == l
      ensures m.sensor != MPU6050 ==>
        DetectorOf() == old(DetectorOf()) && ActivityTrackerC.LatchOf(tracker) == old(ActivityTrackerC.LatchOf(tracker))
    {
      if m.sensor == MPU6050 {
        HandleMpu(m);
      }
      ActivityTrackerC.Update(tracker, m.sensor, m.dummy);
      latest[m.sensor] := m;
      hasLatest[m.sensor] := true;
    }

    /** The emission part of a round (aggregator.c:382-396): nothing until
        the emit interval has passed since the last emission; then the
        snapshot, handed to the send callback when there is one (its result
        is only logged), and `last_emit` moves to `now`. A snapshot that
        could not be built is skipped and `last_emit` stays. `now` and
        `iso` are the clock's time and its text, `available` the memory
        the snapshot may use. */
    method Emit(now: real, iso: seq<Byte>, available: nat) returns (payload: Option<seq<Byte>>, sendCalled: bool)
      requires Valid()
      modifies this`lastEmit
      ensures now - old(lastEmit) < emitInterval ==> payload.None?
      ensures now - old(lastEmit) >= emitInterval ==> (payload.None? <==> available < 256)
      ensures now - old(lastEmit) >= emitInterval && Ample(0, |PayloadJson(iso, expected, Objects())|, available) ==>
        payload == Some(PayloadJson(iso, expected, Objects()))
      ensures lastEmit == (if payload.Some? then now else old(lastEmit))
      ensures sendCalled <==> payload.Some? && hasSender
    {
      payload, sendCalled := None, false;
      if now - lastEmit < emitInterval {
        return;
      }
      payload := BuildPayloadJson(available, iso, expected, Objects());
      if payload.None? {
        return;
      }
      sendCalled := hasSender;
      lastEmit := now;
    }

    /** One round of `aggregator_thread_main` (aggregator.c:351-397) after
        a message was popped. */
    method Step(m: Message, now: real, iso: seq<Byte>, available: nat)
      returns (payload: Option<seq<Byte>>, sendCalled: bool)
      requires Valid() && IsSensor(m.sensor)
      modifies this, latest, hasLatest, tracker, tracker.seen, tracker.lastDummy
      ensures Valid()
      ensures latest[..] == old(latest[..])[m.sensor := m]
      ensures hasLatest[..] == old(hasLatest[..])[m.sensor := true]
      ensures tracker.seen[..] == old(tracker.seen[..])[m.sensor := true]
      ensures tracker.lastDummy[..] == old(tracker.lastDummy[..])[m.sensor := m.dummy]
      ensures m.sensor == MPU6050 ==>
        var (d, l, _) := Activity.ZeroStep(old(DetectorOf()), old(ActivityTrackerC.LatchOf(tracker)),
                                           Activity.Reading(!m.dummy, m.magnitude, m.timestamp));
        DetectorOf() == d && ActivityTrackerC.LatchOf(tracker) == l
      ensures m.sensor != MPU6050 ==>
        DetectorOf() == old(DetectorOf()) && ActivityTrackerC.LatchOf(tracker) == old(ActivityTrackerC.LatchOf(tracker))
      ensures now - old(lastEmit) < emitInterval ==> payload.None?
      ensures now - old(lastEmit) >= emitInterval ==> (payload.None? <==> available < 256)
      ensures now - old(lastEmit) >= emitInterval && Ample(0, |PayloadJson(iso, expected, Objects())|, available) ==>
        payload == Some(PayloadJson(iso, expected, Objects()))
      ensures lastEmit == (if payload.Some? then now else old(lastEmit))
      ensures sendCalled <==> payload.Some? && hasSender
    {
      Absorb(m);
      payload, sendCalled := Emit(now, iso, available);
    }
  }

  /** The checks of `aggregator_start` (aggregator.c:401-416): -1 for a
      missing thread handle, configuration, queue, tracker, sensor list or
      stop flag, for an empty sensor list, and when the state cannot be
      allocated or the thread cannot be created; 0 otherwise. */
  function StartResult(hasThread: bool, hasConfig: bool, hasQueue: bool, hasTracker: bool,
                       hasExpected: bool, sensorCount: nat, hasStopFlag: bool,
                       gotState: bool, created: bool): (r: int)
    ensures r == 0 || r == -1
    ensures r == 0 <==> hasThread && hasConfig && hasQueue && hasTracker && hasExpected
                        && sensorCount > 0 && hasStopFlag && gotState && created
  {
    if !hasThread || !hasConfig || !hasQueue || !hasTracker || !hasExpected || sensorCount == 0 || !hasStopFlag then -1
    else if !gotState then -1
    else if !created then -1
    else 0
  }
}

=== FILE: aggregator_py.dfy ===
/** The Python node's aggregator (aggregator.py): the `ActivityTracker`
    class and one iteration of `aggregator_loop`, whose local variables are
    the fields of `AggregatorLoop`. The clock, the link-failure flag, the
    acceleration magnitude (a square root of floats) and the ISO time texts
    are inputs; logging is not modelled. */
module AggregatorPy {
  import opened Common
  import opened PyDict
  import opened SensorMessages
  import Activity

  /** A sensor's entry in `_state`. */
  datatype Flags = Flags(seen: bool, lastDummy: bool)

  /** The group of a sensor given `_state`; a sensor the tracker does not
      know has no data. */
  function StatusIn(state: Dict<Flags>, sensor: string): Activity.Status {
    if sensor in state.entries then Activity.Classify(state.entries[sensor].seen, state.entries[sensor].lastDummy)
    else Activity.NoData
  }

  /** `StatusIn` as a function value, for the partition. */
  function StatusFn(state: Dict<Flags>): string -> Activity.Status {
    s => StatusIn(state, s)
  }

  /** `zero_accel_signal_details()`. */
  datatype ZeroDetails = ZeroDetails(sent: bool, timestamp: Option<real>, magnitude: Option<real>)

  /** `ActivityTracker` (aggregator.py:29-77). */
  class ActivityTracker {
    var state: Dict<Flags>
    var zeroTimestamp: Option<real>
    var zeroMagnitude: Option<real>
    var zeroSent: bool

    /** `_state` is a well-formed dict and the recorded values are present
        exactly when the signal was sent. */
    ghost predicate Valid()
      reads this
    {
      && PyDict.Valid(state)
      && (zeroSent <==> zeroTimestamp.Some?)
      && (zeroSent <==> zeroMagnitude.Some?)
    }

    /** The latch, as the shared one-shot latch value. */
    function Latch(): Activity.Latch
      reads this
    {
      Activity.Latch(zeroSent, if zeroTimestamp.Some? then zeroTimestamp.value else 0.0,
                     if zeroMagnitude.Some? then zeroMagnitude.value else 0.0)
    }

    /** `__init__` (aggregator.py:30-38): every given sensor, once, unseen,
        with `last_dummy` True, and no signal. */
    constructor(sensors: seq<string>)
      ensures Valid()
      ensures state.order == Dedup(sensors)
      ensures forall s :: s in state.entries <==> s in sensors
      ensures forall s :: s in state.entries ==> state.entries[s] == Flags(false, true)
      ensures !zeroSent && Latch() == Activity.UNSENT
    {
      FromKeysOrder(sensors, Flags(false, true));
      state := FromKeys(sensors, Flags(false, true));
      zeroTimestamp := None;
      zeroMagnitude := None;
      zeroSent := false;
    }

    /** `update` (aggregator.py:40-44): a sensor not given at construction
        is ignored; otherwise it becomes seen with the given dummy flag and
        keeps its place. */
    method Update(sensor: string, isDummy: bool)
      requires Valid()
      modifies this
      ensures Valid()
      ensures sensor in old(state.entries) ==> state == Put(old(state), sensor, Flags(true, isDummy))
      ensures sensor !in old(state.entries) ==> state == old(state)
      ensures state.order == old(state.order)
      ensures zeroSent == old(zeroSent) && zeroTimestamp == old(zeroTimestamp) && zeroMagnitude == old(zeroMagnitude)
    {
      if sensor !in state.entries {
        return;
      }
      PutGet(state, sensor, Flags(true, isDummy));
      state := Put(state, sensor, Flags(true, isDummy));
    }

    /** `groups` (aggregator.py:46-57): one pass over `_state` in insertion
        order. */
    method Groups() returns (g: Activity.Groups<string>)
      requires Valid()
      ensures g == Activity.Partition(state.order, StatusFn(state))
    {
      var st := StatusFn(state);
      var reales, dummy, sinDatos := [], [], [];
      for i := 0 to |state.order|
        invariant reales == Activity.Select(state.order[..i], st, Activity.Real)
        invariant dummy == Activity.Select(state.order[..i], st, Activity.Dummy)
        invariant sinDatos == Activity.Select(state.order[..i], st, Activity.NoData)
      {
        var sensor := state.order[i];
        var flags := state.entries[sensor];
        assert state.order[..i + 1] == state.order[..i] + [sensor];
        Activity.SelectAppend(state.order[..i], sensor, st, Activity.Real);
        Activity.SelectAppend(state.order[..i], sensor, st, Activity.Dummy);
        Activity.SelectAppend(state.order[..i], sensor, st, Activity.NoData);
        if !flags.seen {
          sinDatos := sinDatos + [sensor];
        } else if flags.lastDummy {
          dummy := dummy + [sensor];
        } else {
          reales := reales + [sensor];
        }
      }
      assert state.order[..|state.order|] == state.order;
      g := Activity.Groups(reales, dummy, sinDatos);
    }

    /** `sensors` (aggregator.py:59-60). */
    function Sensors(): (r: seq<string>)
      reads this
      requires Valid()
      ensures forall s :: s in r <==> s in state.entries
    {
      state.order
    }

    /** `zero_accel_signal_sent` (aggregator.py:62-63). */
    function ZeroAccelSignalSent(): (r: bool)
      reads this
      ensures r == Latch().sent
    {
      zeroSent
    }

    /** `record_zero_accel_signal` (aggregator.py:65-70): the shared
        one-shot latch step. */
    method RecordZeroAccelSignal(timestamp: real, magnitude: real)
      requires Valid()
      modifies this
      ensures Valid() && state == old(state)
      ensures Latch() == Activity.Record(old(Latch()), timestamp, magnitude)
      ensures !old(zeroSent) ==> zeroTimestamp == Some(timestamp) && zeroMagnitude == Some(magnitude)
      ensures old(zeroSent) ==> zeroTimestamp == old(zeroTimestamp) && zeroMagnitude == old(zeroMagnitude)
    {
      if zeroSent {
        return;
      }
      zeroTimestamp := Some(timestamp);
      zeroMagnitude := Some(magnitude);
      zeroSent := true;
    }

    /** `zero_accel_signal_details` (aggregator.py:72-77). */
    function Details(): (d: ZeroDetails)
      reads this
      requires Valid()
      ensures d.sent <==> d.timestamp.Some?
      ensures d.sent <==> d.magnitude.Some?
      ensures d.sent ==> d.timestamp.value == Latch().timestamp && d.magnitude.value == Latch().magnitude
    {
      ZeroDetails(zeroSent, zeroTimestamp, zeroMagnitude)
    }
  }

  /** Each sensor of the tracker lands in exactly one group, by its flags,
      and the groups keep the construction order. */
  lemma GroupsBySensor(state: Dict<Flags>)
    ensures var g := Activity.Partition(state.order, StatusFn(state));
      && multiset(g.reales) + multiset(g.dummy) + multiset(g.noData) == multiset(state.order)
      && forall s :: s in state.order && s in state.entries ==>
           (s in g.noData <==> !state.entries[s].seen)
           && (s in g.dummy <==> state.entries[s].seen && state.entries[s].lastDummy)
           && (s in g.reales <==> state.entries[s].seen && !state.entries[s].lastDummy)
  {
    Activity.PartitionExact(state.order, StatusFn(state));
  }

  // ------------------------------------------------------------ the loop

  /** What one iteration did besides changing the loop state: whether
      `gpio_activate` was called, the snapshot built (and logged), whether
      the link-failure warning was printed and whether `send_payload` was
      called. */
  datatype Outcome = Outcome(gpio: bool, snapshot: Option<Payload>, warned: bool, sendCalled: bool)

  const NOTHING: Outcome := Outcome(false, None, false, false)

  /** The emission rule (aggregator.py:143-163) once a message was
      consumed: the new `last_emit`, the new `warned_link_failure`, whether
      the warning is printed and whether the payload is sent. */
  datatype Emission = Emission(lastEmit: real, warnedFlag: bool, warnNow: bool, emit: bool, send: bool)

  function Emit(lastEmit: real, warnedFlag: bool, now: real, emitEvery: real, linkFailure: bool): (e: Emission)
    ensures !e.emit ==> e == Emission(lastEmit, warnedFlag, false, false, false)
    ensures e.emit <==> now - lastEmit >= emitEvery
    ensures e.send <==> e.emit && !linkFailure
    ensures e.send ==> e.lastEmit == now && !e.warnedFlag
    ensures e.emit && linkFailure ==> e.lastEmit == lastEmit && e.warnedFlag && (e.warnNow <==> !warnedFlag)
    ensures e.warnNow ==> e.emit && linkFailure && !warnedFlag
  {
    if now - lastEmit < emitEvery then Emission(lastEmit, warnedFlag, false, false, false)
    else if linkFailure then Emission(lastEmit, true, !warnedFlag, true, false)
    else Emission(now, false, false, true, true)
  }

  /** One emission attempt of a run: the clock reading and the link state. */
  datatype Tick = Tick(now: real, linkFailure: bool)

  /** A run of emission attempts; the last field counts the warnings. */
  function EmitRun(lastEmit: real, warnedFlag: bool, emitEvery: real, ts: seq<Tick>): (real, bool, nat) {
    if ts == [] then (lastEmit, warnedFlag, 0)
    else
      var (l, w, n) := EmitRun(lastEmit, warnedFlag, emitEvery, ts[..|ts| - 1]);
      var e := Emit(l, w, ts[|ts| - 1].now, emitEvery, ts[|ts| - 1].linkFailure);
      (e.lastEmit, e.warnedFlag, n + if e.warnNow then 1 else 0)
  }

  /** While the link stays failed the warning is printed at most once, and
      not at all if it was already printed; `last_emit` does not move. */
  lemma {:induction false} WarnOncePerEpisode(lastEmit: real, warnedFlag: bool, emitEvery: real, ts: seq<Tick>)
    requires forall i :: 0 <= i < |ts| ==> ts[i].linkFailure
    ensures var (l, w, n) := EmitRun(lastEmit, warnedFlag, emitEvery, ts);
      && l == lastEmit
      && n <= (if warnedFlag then 0 else 1)
      && (n == 1 ==> w)
      && (w <==> warnedFlag || n == 1)
  {
    if ts != [] {
      WarnOncePerEpisode(lastEmit, warnedFlag, emitEvery, ts[..|ts| - 1]);
    }
  }

  /** A successful send ends the episode: the next failure warns again. */
  lemma WarnAgainAfterRecovery(lastEmit: real, warnedFlag: bool, emitEvery: real, t1: real, t2: real)
    requires t1 - lastEmit >= emitEvery && t2 - t1 >= emitEvery
    ensures var e1 := Emit(lastEmit, warnedFlag, t1, emitEvery, false);
      Emit(e1.lastEmit, e1.warnedFlag, t2, emitEvery, true).warnNow
  {
  }

  /** The loop's first consumed message emits, since `last_emit` starts at
      0.0, as soon as the clock reads at least `emit_every`. */
  lemma FirstMessageEmits(now: real, emitEvery: real, linkFailure: bool)
    requires now >= emitEvery
    ensures Emit(0.0, false, now, emitEvery, linkFailure).emit
  {
  }

  /** The reading the detector sees: only an mpu6050 message whose data has
      an `accel_g` dict and whose `dummy` value is falsy is eligible. */
  function ReadingOf(m: SensorMessage, magnitude: real): Activity.Reading {
    Activity.Reading(m.sensor == "mpu6050" && HasAccel(m) && !IsDummy(m), magnitude, m.timestamp)
  }

  /** `message.data.get("dummy", False)`, as a truth value. */
  predicate IsDummy(m: SensorMessage) {
    "dummy" in m.data.entries && Truthy(m.data.entries["dummy"])
  }

  /** `isinstance(message.data.get("accel_g"), dict)`. */
  predicate HasAccel(m: SensorMessage) {
    "accel_g" in m.data.entries && m.data.entries["accel_g"].VDict?
  }

  /** The state of `aggregator_loop` (aggregator.py:83-165). */
  class AggregatorLoop {
    const expected: seq<string>
    const emitEvery: real
    const tracker: ActivityTracker
    var latest: Dict<SensorMessage>
    var lastEmit: real
    var detector: Activity.Detector
    var warnedLinkFailure: bool

    ghost predicate Valid()
      reads this, tracker
    {
      && tracker.Valid()
      && PyDict.Valid(latest)
      && (forall s :: s in latest.entries ==> PyDict.Valid(latest.entries[s].data))
    }

    /** The loop's prologue (aggregator.py:91-96). */
    constructor(expectedSensors: seq<string>, tracker: ActivityTracker, emitEvery: real)
      requires tracker.Valid()
      ensures Valid()
      ensures this.expected == expectedSensors && this.tracker == tracker && this.emitEvery == emitEvery
      ensures latest == Dict([], map[]) && lastEmit == 0.0 && detector == Activity.START && !warnedLinkFailure
    {
      expected := expectedSensors;
      this.tracker := tracker;
      this.emitEvery := emitEvery;
      latest := Dict([], map[]);
      lastEmit := 0.0;
      detector := Activity.START;
      warnedLinkFailure := false;
    }

    /** One iteration (aggregator.py:98-163). `message` is None when the
        queue wait timed out; `magnitude` is the acceleration magnitude of
        the message, `now` the clock after it was stored, `linkFailure`
        what `has_link_failure()` returns and `iso` `isoformat_utc`. An
        exception from `send_payload` is caught and changes nothing. */
    method Step(message: Option<SensorMessage>, magnitude: real, now: real, linkFailure: bool,
                iso: real -> string)
      returns (o: Outcome)
      requires Valid()
      requires message.Some? ==> PyDict.Valid(message.value.data)
      modifies this, tracker
      ensures Valid()
      ensures message.None? ==>
        o == NOTHING && latest == old(latest) && lastEmit == old(lastEmit)
        && detector == old(detector) && warnedLinkFailure == old(warnedLinkFailure)
        && tracker.state == old(tracker.state) && tracker.Latch() == old(tracker.Latch())
      ensures message.Some? ==>
        var m := message.value;
        var e := Emit(old(lastEmit), old(warnedLinkFailure), now, emitEvery, linkFailure);
        && tracker.state == (if m.sensor in old(tracker.state.entries)
                             then Put(old(tracker.state), m.sensor, Flags(true, IsDummy(m)))
                             else old(tracker.state))
        && (detector, tracker.Latch(), o.gpio)
           == Activity.ZeroStep(old(detector), old(tracker.Latch()), ReadingOf(m, magnitude))
        && latest == Put(old(latest), m.sensor, m)
        && o.snapshot == (if e.emit then Some(BuildPayload(latest, expected, now, iso)) else None)
        && lastEmit == e.lastEmit && warnedLinkFailure == e.warnedFlag
        && o.warned == e.warnNow && o.sendCalled == e.send
    {
      if message.None? {
        return NOTHING;
      }
      var gpio := Consume(message.value, magnitude);
      var snapshot, warned, sent := EmitAfter(now, linkFailure, iso);
      o := Outcome(gpio, snapshot, warned, sent);
    }

    /** The part of an iteration that consumes the message
        (aggregator.py:103-142): tracker update, detection and `latest`. */
    method Consume(m: SensorMessage, magnitude: real) returns (gpio: bool)
      requires Valid() && PyDict.Valid(m.data)
      modifies this, tracker
      ensures Valid()
      ensures tracker.state == (if m.sensor in old(tracker.state.entries)
                                then Put(old(tracker.state), m.sensor, Flags(true, IsDummy(m)))
                                else old(tracker.state))
      ensures (detector, tracker.Latch(), gpio)
              == Activity.ZeroStep(old(detector), old(tracker.Latch()), ReadingOf(m, magnitude))
      ensures latest == Put(old(latest), m.sensor, m)
      ensures lastEmit == old(lastEmit) && warnedLinkFailure == old(warnedLinkFailure)
    {
      var dummy := IsDummy(m);
      tracker.Update(m.sensor, dummy);
      gpio := false;
      if m.sensor == "mpu6050" && HasAccel(m) && !tracker.ZeroAccelSignalSent() && !dummy {
        var (d2, rec) := Activity.Detect(detector, magnitude, m.timestamp);
        detector := d2;
        if rec {
          tracker.RecordZeroAccelSignal(m.timestamp, magnitude);
          gpio := true;
        }
      }
      PutGet(latest, m.sensor, m);
      latest := Put(latest, m.sensor, m);
    }

    /** The part of an iteration after the message is stored
        (aggregator.py:143-163). */
    method EmitAfter(now: real, linkFailure: bool, iso: real -> string)
      returns (snapshot: Option<Payload>, warned: bool, sent: bool)
      requires Valid()
      modifies this
      ensures Valid()
      ensures var e := Emit(old(lastEmit), old(warnedLinkFailure), now, emitEvery, linkFailure);
        && snapshot == (if e.emit then Some(BuildPayload(latest, expected, now, iso)) else None)
        && lastEmit == e.lastEmit && warnedLinkFailure == e.warnedFlag
        && warned == e.warnNow && sent == e.send
      ensures latest == old(latest) && detector == old(detector)
    {
      if now - lastEmit < emitEvery {
        return None, false, false;
      }
      var payload := BuildPayload(latest, expected, now, iso);
      if linkFailure {
        warned := !warnedLinkFailure;
        warnedLinkFailure := true;
        return Some(payload), warned, false;
      }
      warnedLinkFailure := false;
      lastEmit := now;
      snapshot, warned, sent := Some(payload), false, true;
    }
  }
}

=== FILE: command_terminal.dfy ===
/** The dashboard's interactive terminal
    (receptor_arudino/webpage/src/components/CommandTerminal.jsx): a
    command typed at the prompt is trimmed, echoed as an input entry and
    dispatched on its first lower-cased word; the up and down arrows walk
    back and forth through the commands submitted so far; `tabla` prints
    the latest readings as an ASCII table. React state becomes the fields
    of a class, each handler a method. */
module CommandTerminalJs {
  import opened Common
  import opened TableLayout

  // ------------------------------------------------------------ words

  predicate NoSpace(w: string) {
    forall i :: 0 <= i < |w| ==> !IsSpace(w[i])
  }

  /** What `split(/\s+/).filter(Boolean)` yields: non-empty text without
      whitespace. */
  predicate IsWord(w: string) {
    w != [] && NoSpace(w)
  }

  /** The run of non-space characters at the start of `s`. */
  function TakeWord(s: string): (w: string)
    ensures |w| <= |s|
    ensures s != [] && !IsSpace(s[0]) ==> w != []
  {
    if s == [] || IsSpace(s[0]) then [] else [s[0]] + TakeWord(s[1..])
  }

  /** The word taken is the longest prefix without whitespace. */
  lemma {:induction false} TakeWordIsRun(s: string)
    ensures var w := TakeWord(s);
      && w == s[..|w|] && NoSpace(w)
      && (|w| < |s| ==> IsSpace(s[|w|]))
  {
    if s != [] && !IsSpace(s[0]) {
      TakeWordIsRun(s[1..]);
      var w := TakeWord(s[1..]);
      assert TakeWord(s) == [s[0]] + w;
    }
  }

  /** `split(/\s+/).filter(Boolean)`: the maximal runs of non-space
      characters, in order. */
  function Words(s: string): (r: seq<string>)
    decreases |s|
  {
    if s == [] then []
    else if IsSpace(s[0]) then Words(s[1..])
    else
      var w := TakeWord(s);
      [w] + Words(s[|w|..])
  }

  /** Every token is non-empty and free of whitespace, as after
      `filter(Boolean)`. */
  lemma {:induction false} WordsAreWords(s: string)
    ensures forall i :: 0 <= i < |Words(s)| ==> IsWord(Words(s)[i])
    decreases |s|
  {
    if s == [] {
    } else if IsSpace(s[0]) {
      WordsAreWords(s[1..]);
    } else {
      var w := TakeWord(s);
      TakeWordIsRun(s);
      WordsAreWords(s[|w|..]);
    }
  }

  /** A word followed by a space or nothing is taken whole. */
  lemma {:induction false} TakeWordOf(w: string, rest: string)
    requires NoSpace(w) && (rest == [] || IsSpace(rest[0]))
    ensures TakeWord(w + rest) == w
    decreases |w|
  {
    if w != [] {
      assert (w + rest)[1..] == w[1..] + rest;
      TakeWordOf(w[1..], rest);
    }
  }

  /** Words joined by single spaces split back into the same words. */
  lemma {:induction false} WordsOfJoin(ws: seq<string>)
    requires forall i :: 0 <= i < |ws| ==> IsWord(ws[i])
    ensures Words(Join(ws, " ")) == ws
  {
    if ws == [] {
    } else if |ws| == 1 {
      assert Join(ws, " ") == ws[0];
      WordsThen(ws[0], []);
      assert ws[0] + [] == ws[0];
    } else {
      var tail := Join(ws[1..], " ");
      assert Join(ws, " ") == ws[0] + (" " + tail);
      WordsThen(ws[0], " " + tail);
      WordsOfJoin(ws[1..]);
      assert (" " + tail)[1..] == tail;
      assert [ws[0]] + ws[1..] == ws;
    }
  }

  /** A word followed by a space or nothing is the first word. */
  lemma WordsThen(w: string, rest: string)
    requires IsWord(w) && (rest == [] || IsSpace(rest[0]))
    ensures Words(w + rest) == [w] + Words(rest)
  {
    var s := w + rest;
    TakeWordOf(w, rest);
    assert s[|w|..] == rest;
  }

  /** `tokens[0] ?? ''` */
  function Primary(tokens: seq<string>): string {
    if tokens == [] then "" else tokens[0]
  }

  /** `tokens[1]`, which only matters when it is `detallado`. */
  function Second(tokens: seq<string>): string {
    if |tokens| < 2 then "" else tokens[1]
  }

  // ------------------------------------------------------------ dispatch

  datatype Command = Clear | Exit | Help | Mpu | Neo | All | Table | Unknown

  /** The aliases `handleCommand` tests, in its order. */
  function CommandOf(primary: string): Command {
    if primary == "clear" || primary == "limpiar" then Clear
    else if primary in ["exit", "salir", "cerrar"] then Exit
    else if primary == "help" || primary == "ayuda" then Help
    else if primary == "mpu" || primary == "mpu6050" then Mpu
    else if primary == "neo" || primary == "neo6m" || primary == "gps" then Neo
    else if primary == "all" || primary == "todos" then All
    else if primary == "tabla" || primary == "table" then Table
    else Unknown
  }

  // ------------------------------------------------------------ readings

  /** A number as the terminal prints it: `Some` of its `toFixed` text
      when the field is a number, `None` otherwise. */
  type Num = Option<string>

  const DASH: string := "—"
  const NO_DATE: string := "Sin dato"

  /** `formatNumber` and the inline latitude/longitude formatting. */
  function NumText(n: Num): (r: string)
    ensures n.None? ==> r == DASH
  {
    if n.Some? then n.value else DASH
  }

  /** An ISO timestamp field and, when `new Date` parses it, its
      `es-MX` local rendering. */
  datatype Stamp = Stamp(iso: Option<string>, local: Option<string>)

  /** `formatTimestamp`: `Sin dato` for a missing or empty value, the
      value itself when it is not a date, else its local rendering. */
  function StampText(t: Stamp): (r: string)
    ensures (t.iso.None? || t.iso.value == "") ==> r == NO_DATE
    ensures t.iso.Some? && t.iso.value != "" && t.local.None? ==> r == t.iso.value
  {
    if t.iso.None? || t.iso.value == "" then NO_DATE
    else if t.local.None? then t.iso.value
    else t.local.value
  }

  const NO_STAMP: Stamp := Stamp(None, None)

  /** The latest MPU6050 reading; `json` stands for
      `JSON.stringify(mpuData, null, 2)`. */
  datatype MpuData = MpuData(
    timestamp: Stamp,
    ax: Num, ay: Num, az: Num,
    gx: Num, gy: Num, gz: Num,
    pitch: Num, roll: Num, yaw: Num,
    json: string)

  /** The latest NEO-6M fix; `raw` is the NMEA sentence, if any. */
  datatype NeoData = NeoData(
    timestamp: Stamp,
    latitude: Num, longitude: Num, altitude: Num,
    fixTime: Stamp,
    raw: Option<string>)

  datatype Snapshot = Snapshot(mpu: Option<MpuData>, neo: Option<NeoData>, reportedAt: Stamp)

  /** What optional chaining reads from a missing reading: nothing. */
  function MpuOrEmpty(m: Option<MpuData>): MpuData {
    if m.Some? then m.value
    else MpuData(NO_STAMP, None, None, None, None, None, None, None, None, None, "")
  }

  function NeoOrEmpty(n: Option<NeoData>): NeoData {
    if n.Some? then n.value else NeoData(NO_STAMP, None, None, None, NO_STAMP, None)
  }

  // ------------------------------------------------------------ the table

  /** `buildAsciiTable`'s rows: the header, nine MPU6050 rows and four
      NEO-6M rows. */
  function Rows(snap: Snapshot): (rows: seq<seq<string>>)
    ensures |rows| == 14
    ensures forall r :: 0 <= r < 14 ==> |rows[r]| == 3
  {
    var m := MpuOrEmpty(snap.mpu);
    var n := NeoOrEmpty(snap.neo);
    [ ["Sensor", "Métrica", "Valor"],
      ["MPU6050", "Aceleración X (g)", NumText(m.ax)],
      ["MPU6050", "Aceleración Y (g)", NumText(m.ay)],
      ["MPU6050", "Aceleración Z (g)", NumText(m.az)],
      ["MPU6050", "Giro X (°/s)", NumText(m.gx)],
      ["MPU6050", "Giro Y (°/s)", NumText(m.gy)],
      ["MPU6050", "Giro Z (°/s)", NumText(m.gz)],
      ["MPU6050", "Pitch (°)", NumText(m.pitch)],
      ["MPU6050", "Roll (°)", NumText(m.roll)],
      ["MPU6050", "Yaw (°)", NumText(m.yaw)],
      ["NEO-6M", "Latitud", NumText(n.latitude)],
      ["NEO-6M", "Longitud", NumText(n.longitude)],
      ["NEO-6M", "Altitud (m)", NumText(n.altitude)],
      ["NEO-6M", "Fix Time", StampText(n.fixTime)] ]
  }

  /** The table's lines joined by line breaks. */
  function AsciiTable(snap: Snapshot): string {
    Join(TableLines(Rows(snap)), "\n")
  }

  /** The table of a snapshot has seventeen lines of one width: separator,
      header, separator, the thirteen readings, separator; every column
      border lines up and every cell, the readings included, shows in its
      column. */
  lemma AsciiTableShape(snap: Snapshot)
    ensures var rows, widths, lines := Rows(snap), Widths(Rows(snap)), TableLines(Rows(snap));
      && |lines| == 17 && |widths| == 3
      && lines[0] == lines[2] == lines[16] == Separator(widths)
      && Bordered(Separator(widths), widths, '+')
      && forall r :: 0 <= r < 14 ==>
           && Bordered(lines[RowLine(r)], widths, '|')
           && Shows(lines[RowLine(r)], rows[r], widths)
  {
    TableShape(Rows(snap));
  }

  // ------------------------------------------------------------ responses

  const HELP_LINES: seq<string> := [
    "Comandos disponibles:",
    "  help | ayuda          Muestra esta ayuda.",
    "  clear | limpiar       Limpia la terminal.",
    "  exit | cerrar         Cierra la terminal.",
    "  mpu [detallado]       Datos actuales del MPU6050.",
    "  neo | gps             Datos actuales del NEO-6M.",
    "  all | todos           Resumen combinado de sensores.",
    "  tabla | table         Tabla ASCII con todos los datos."]

  const CLOSING: string := "Cerrando terminal…"
  const NO_MPU: string := "No existen datos del MPU6050 disponibles."
  const NO_NEO: string := "No existen datos del NEO-6M disponibles."
  const RAW_HEADER: string := "  Datos capturados del payload bruto:"

  function MpuLines(m: MpuData): seq<string> {
    [ "MPU6050 @ " + StampText(m.timestamp) + ":",
      "  Aceleración (g): ax=" + NumText(m.ax) + " ay=" + NumText(m.ay) + " az=" + NumText(m.az),
      "  Giroscopio (°/s): gx=" + NumText(m.gx) + " gy=" + NumText(m.gy) + " gz=" + NumText(m.gz),
      "  Actitud (°): pitch=" + NumText(m.pitch) + " roll=" + NumText(m.roll) + " yaw=" + NumText(m.yaw) ]
  }

  function NeoLines(n: NeoData): seq<string> {
    [ "NEO-6M @ " + StampText(n.timestamp) + ":",
      "  Coordenadas: lat=" + NumText(n.latitude) + " lon=" + NumText(n.longitude),
      "  Altitud: " + NumText(n.altitude) + " m",
      "  Fix: " + StampText(n.fixTime),
      "  NMEA: " + (if n.raw.Some? then n.raw.value else DASH) ]
  }

  function AllLines(snap: Snapshot): seq<string> {
    var m := MpuOrEmpty(snap.mpu);
    var n := NeoOrEmpty(snap.neo);
    [ "Reporte completo @ " + StampText(snap.reportedAt),
      "  MPU6050 -> pitch=" + NumText(m.pitch) + " roll=" + NumText(m.roll) + " yaw=" + NumText(m.yaw),
      "  NEO-6M  -> lat=" + NumText(n.latitude) + " lon=" + NumText(n.longitude) + " alt=" + NumText(n.altitude) + " m" ]
  }

  function UnknownLine(command: string): string {
    "Comando no reconocido: \"" + command + "\". Escribe \"help\" para ver las opciones disponibles."
  }

  /** What one command does besides echoing itself: the output lines it
      adds, whether it clears the log and whether it asks to close. */
  datatype Response = Response(output: seq<string>, clear: bool, close: bool)

  /** The dispatch of `handleCommand` on the trimmed command. */
  function Respond(command: string, snap: Snapshot): Response {
    if command == "" then Response([], false, false)
    else
      var tokens := Words(Lower(command));
      Answer(CommandOf(Primary(tokens)), Second(tokens) == "detallado", command, snap)
  }

  /** The response to a recognised command (or to an unknown one);
      `detailed` is whether the second word is `detallado`. */
  function Answer(c: Command, detailed: bool, command: string, snap: Snapshot): Response {
    match c
    case Clear => Response([], true, false)
    case Exit => Response([CLOSING], false, true)
    case Help => Response(HELP_LINES, false, false)
    case Mpu =>
      if snap.mpu.None? then Response([NO_MPU], false, false)
      else
        var extra := if detailed then [RAW_HEADER, snap.mpu.value.json] else [];
        Response(MpuLines(snap.mpu.value) + extra, false, false)
    case Neo =>
      if snap.neo.None? then Response([NO_NEO], false, false)
      else Response(NeoLines(snap.neo.value), false, false)
    case All => Response(AllLines(snap), false, false)
    case Table => Response([AsciiTable(snap)], false, false)
    case Unknown => Response([UnknownLine(command)], false, false)
  }

  /** An empty command only echoes itself; any other command either
      clears the log or answers with at least one line; only `clear`
      clears, and then nothing is printed; only `exit` asks to close, and
      then it says so in a single line. */
  lemma RespondFacts(command: string, snap: Snapshot)
    ensures command == "" ==> Respond(command, snap) == Response([], false, false)
    ensures command != "" && !Respond(command, snap).clear ==> |Respond(command, snap).output| >= 1
    ensures Respond(command, snap).clear ==> Respond(command, snap).output == [] && !Respond(command, snap).close
    ensures Respond(command, snap).close ==> Respond(command, snap).output == [CLOSING]
  {
    if command != "" {
      var tokens := Words(Lower(command));
      AnswerFacts(CommandOf(Primary(tokens)), Second(tokens) == "detallado", command, snap);
    }
  }

  lemma AnswerFacts(c: Command, detailed: bool, command: string, snap: Snapshot)
    ensures var a := Answer(c, detailed, command, snap);
      && (a.clear <==> c == Clear)
      && (a.close <==> c == Exit)
      && (!a.clear ==> |a.output| >= 1)
      && (a.clear ==> a.output == [])
      && (a.close ==> a.output == [CLOSING])
  {
    match c
    case Help => assert |HELP_LINES| == 8;
    case Mpu =>
    case _ =>
  }

  /** An unrecognised command answers with one line that quotes the
      command as typed, before lower-casing. */
  lemma UnknownEchoes(command: string, snap: Snapshot)
    requires command != "" && CommandOf(Primary(Words(Lower(command)))) == Unknown
    ensures |Respond(command, snap).output| == 1
    ensures Contains(Respond(command, snap).output[0], command)
  {
    var line := UnknownLine(command);
    var pre := "Comando no reconocido: \"";
    assert line == pre + command + "\". Escribe \"help\" para ver las opciones disponibles.";
    assert OccursAt(line, command, |pre|);
  }

  /** `mpu` without a reading prints only that there is none; with one it
      prints four lines, and two more, ending with the raw JSON, when the
      second word is `detallado`. */
  lemma MpuResponse(command: string, snap: Snapshot)
    requires command != "" && CommandOf(Primary(Words(Lower(command)))) == Mpu
    ensures var out := Respond(command, snap).output;
      && (snap.mpu.None? ==> out == [NO_MPU])
      && (snap.mpu.Some? ==>
            && out[..4] == MpuLines(snap.mpu.value)
            && if Second(Words(Lower(command))) == "detallado"
               then |out| == 6 && out[4] == RAW_HEADER && out[5] == snap.mpu.value.json
               else |out| == 4)
  {
    var tokens := Words(Lower(command));
    MpuAnswer(Second(tokens) == "detallado", command, snap);
  }

  lemma MpuAnswer(detailed: bool, command: string, snap: Snapshot)
    ensures var out := Answer(Mpu, detailed, command, snap).output;
      && (snap.mpu.None? ==> out == [NO_MPU])
      && (snap.mpu.Some? ==>
            && |out| == (if detailed then 6 else 4)
            && out[..4] == MpuLines(snap.mpu.value)
            && (detailed ==> out[4] == RAW_HEADER && out[5] == snap.mpu.value.json))
  {
    if snap.mpu.Some? {
      var lines := MpuLines(snap.mpu.value);
      var extra: seq<string> := if detailed then [RAW_HEADER, snap.mpu.value.json] else [];
      assert Answer(Mpu, detailed, command, snap).output == lines + extra;
      assert (lines + extra)[..4] == lines;
    }
  }

  /** A command is recognised by its first word, whatever follows: words
      separated by single spaces dispatch on the first. */
  lemma FirstWordDispatches(ws: seq<string>)
    requires ws != [] && forall i :: 0 <= i < |ws| ==> IsWord(ws[i])
    ensures Primary(Words(Join(ws, " "))) == ws[0]
    ensures |ws| >= 2 ==> Second(Words(Join(ws, " "))) == ws[1]
  {
    WordsOfJoin(ws);
  }

  // ------------------------------------------------------------ history

  /** ArrowUp on a non-empty history: from the fresh prompt (-1) to the
      newest entry, otherwise one older, stopping at the oldest. */
  function UpIndex(i: int, n: nat): (r: int)
    requires 0 < n && -1 <= i < n
    ensures 0 <= r < n
  {
    if i < 0 then n - 1 else Max(i - 1, 0)
  }

  /** ArrowDown on a non-empty history: the fresh prompt stays, otherwise
      one newer, stopping at the newest. */
  function DownIndex(i: int, n: nat): (r: int)
    requires 0 < n && -1 <= i < n
    ensures -1 <= r < n
  {
    if i < 0 then -1 else Min(i + 1, n - 1)
  }

  /** Down undoes Up everywhere but at the oldest entry and the fresh
      prompt, and Up undoes Down everywhere but at the newest entry. */
  lemma UpDownInverse(i: int, n: nat)
    requires 0 < n && -1 <= i < n
    ensures 0 < i ==> DownIndex(UpIndex(i, n), n) == i
    ensures 0 <= i < n - 1 ==> UpIndex(DownIndex(i, n), n) == i
  {
  }

  /** Once an entry is shown, Down never returns to the fresh prompt: the
      newest entry stays. */
  lemma DownStaysInHistory(i: int, n: nat)
    requires 0 < n && 0 <= i < n
    ensures 0 <= DownIndex(i, n)
    ensures i == n - 1 ==> DownIndex(i, n) == i
  {
  }

  /** `k` presses of ArrowUp. */
  function UpTimes(i: int, n: nat, k: nat): (r: int)
    requires 0 < n && -1 <= i < n
    ensures -1 <= r < n
    decreases k
  {
    if k == 0 then i else UpTimes(UpIndex(i, n), n, k - 1)
  }

  /** From the fresh prompt, `k >= 1` presses of ArrowUp show the k-th
      newest entry, or the oldest once there are fewer. */
  lemma {:induction false} UpFromFresh(n: nat, k: nat)
    requires 0 < n && 1 <= k
    ensures UpTimes(-1, n, k) == Max(n - k, 0)
  {
    UpFrom(n - 1, n, k - 1);
  }

  lemma {:induction false} UpFrom(i: int, n: nat, k: nat)
    requires 0 < n && 0 <= i < n
    ensures UpTimes(i, n, k) == Max(i - k, 0)
    decreases k
  {
    if k > 0 {
      UpFrom(UpIndex(i, n), n, k - 1);
    }
  }

  // ------------------------------------------------------------ the component

  datatype Entry = Input(content: string) | Output(content: string)

  function Outputs(lines: seq<string>): (r: seq<Entry>)
    ensures |r| == |lines| && forall i :: 0 <= i < |lines| ==> r[i] == Output(lines[i])
  {
    seq(|lines|, i requires 0 <= i < |lines| => Output(lines[i]))
  }

  /** The log after a command: cleared, or with the command echoed and
      its response appended. */
  function Logged(entries: seq<Entry>, command: string, response: Response): seq<Entry> {
    if response.clear then [] else entries + [Input(command)] + Outputs(response.output)
  }

  const WELCOME: seq<string> := [
    "Dynx Interactive Terminal lista.",
    "Escribe \"help\" u \"ayuda\" para ver los comandos disponibles."]

  /** `text.trim()` is truthy: the text has a character other than
      whitespace. */
  predicate HasText(s: string) {
    s != [] && (!IsSpace(s[0]) || HasText(s[1..]))
  }

  /** Text has text exactly when trimming leaves something. */
  lemma HasTextIffTrimmed(s: string)
    ensures HasText(s) <==> Strip(s) != ""
  {
    HasTextSomewhere(s);
  }

  lemma {:induction false} HasTextSomewhere(s: string)
    ensures HasText(s) <==> exists i :: 0 <= i < |s| && !IsSpace(s[i])
  {
    if s != [] {
      HasTextSomewhere(s[1..]);
      if exists i :: 0 <= i < |s| && !IsSpace(s[i]) {
        var i :| 0 <= i < |s| && !IsSpace(s[i]);
        if i > 0 {
          assert s[1..][i - 1] == s[i];
        }
      }
      if exists j :: 0 <= j < |s[1..]| && !IsSpace(s[1..][j]) {
        var j :| 0 <= j < |s[1..]| && !IsSpace(s[1..][j]);
        assert s[j + 1] == s[1..][j];
      }
    }
  }

  /** Only commands with text are remembered. */
  predicate Remembered(history: seq<string>) {
    forall i :: 0 <= i < |history| ==> HasText(history[i])
  }

  lemma RememberedSnoc(history: seq<string>, command: string)
    requires Remembered(history) && HasText(command)
    ensures Remembered(history + [command])
  {
    var h := history + [command];
    forall i | 0 <= i < |h|
      ensures HasText(h[i])
    {
      if i < |history| {
        assert h[i] == history[i];
      }
    }
  }

  /** `ArrowUp`, `ArrowDown`, `Escape`, or any other key. */
  datatype Key = ArrowUp | ArrowDown | Escape | OtherKey

  class CommandTerminal {
    var entries: seq<Entry>
    var input: string
    var history: seq<string>
    /** -1 at the fresh prompt, else the history entry being shown. */
    var historyIndex: int
    /** Whether `onClose` has been called. */
    var closeRequested: bool

    /** The index is the fresh prompt or an entry of the history, and
        only commands with text are remembered. */
    ghost predicate Valid()
      reads this
    {
      && -1 <= historyIndex < |history|
      && Remembered(history)
    }

    constructor()
      ensures Valid()
      ensures entries == [] && input == "" && history == [] && historyIndex == -1 && !closeRequested
    {
      entries, input, history, historyIndex, closeRequested := [], "", [], -1, false;
    }

    /** The `open` effect (CommandTerminal.jsx:87-97): the log restarts
        with the welcome lines and the prompt is fresh; the history is
        kept. */
    method Open()
      requires Valid()
      modifies this`entries, this`input, this`historyIndex
      ensures Valid()
      ensures entries == Outputs(WELCOME) && input == "" && historyIndex == -1
    {
      entries := Outputs(WELCOME);
      input := "";
      historyIndex := -1;
    }

    /** Typing into the prompt (`onChange`). */
    method Type(text: string)
      modifies this`input
      ensures input == text
    {
      input := text;
    }

    /** `handleCommand` (CommandTerminal.jsx:127-233): the trimmed
        command is echoed, then its response is printed, or the log is
        cleared, and `onClose` is called for `exit`. */
    method HandleCommand(raw: string, snap: Snapshot) returns (response: Response)
      modifies this`entries, this`closeRequested
      ensures response == Respond(Strip(raw), snap)
      ensures entries == Logged(old(entries), Strip(raw), response)
      ensures closeRequested == (old(closeRequested) || response.close)
    {
      var command := Strip(raw);
      response := Respond(command, snap);
      Record(command, response);
    }

    /** The log and the close request after a command's response. */
    method Record(command: string, response: Response)
      modifies this`entries, this`closeRequested
      ensures entries == Logged(old(entries), command, response)
      ensures closeRequested == (old(closeRequested) || response.close)
    {
      entries := entries + [Input(command)];
      if response.clear {
        entries := [];
      } else {
        entries := entries + Outputs(response.output);
      }
      if response.close {
        closeRequested := true;
      }
    }

    /** The history update of `handleSubmit` (CommandTerminal.jsx:239):
        only a command with text is remembered. */
    method Remember(command: string)
      requires Valid()
      modifies this`history
      ensures Valid()
      ensures history == old(history) + (if HasText(command) then [command] else [])
    {
      if HasText(command) {
        RememberedSnoc(history, command);
        history := history + [command];
      }
    }

    /** `handleSubmit` (CommandTerminal.jsx:235-243): a command with
        text joins the history, the prompt is cleared and fresh, and the
        command is handled. */
    method Submit(snap: Snapshot) returns (response: Response)
      requires Valid()
      modifies this`entries, this`closeRequested, this`input, this`history, this`historyIndex
      ensures Valid()
      ensures history == old(history) + (if HasText(old(input)) then [old(input)] else [])
      ensures historyIndex == -1 && input == ""
      ensures response == Respond(Strip(old(input)), snap)
      ensures entries == Logged(old(entries), Strip(old(input)), response)
      ensures closeRequested == (old(closeRequested) || response.close)
    {
      var command := input;
      Remember(command);
      response := HandleCommand(command, snap);
      // React applies the state updates of one handler together, so
      // resetting the prompt after handling the command changes nothing.
      historyIndex := -1;
      input := "";
    }

    /** `handleKeyDown` (CommandTerminal.jsx:245-280): Escape closes;
        the arrows do nothing on an empty history and otherwise move the
        index and show that entry, or an empty prompt at -1. */
    method KeyDown(key: Key)
      requires Valid()
      modifies this`input, this`historyIndex, this`closeRequested
      ensures Valid()
      ensures closeRequested == (old(closeRequested) || key == Escape)
      ensures key == ArrowUp && history != [] ==>
        historyIndex == UpIndex(old(historyIndex), |history|) && input == history[historyIndex]
      ensures key == ArrowDown && history != [] ==>
        historyIndex == DownIndex(old(historyIndex), |history|)
        && input == (if historyIndex >= 0 then history[historyIndex] else "")
      ensures (key == OtherKey || key == Escape || history == []) ==>
        historyIndex == old(historyIndex) && input == old(input)
    {
      if key == Escape {
        closeRequested := true;
      } else if key == ArrowUp {
        if |history| == 0 {
          return;
        }
        var next := UpIndex(historyIndex, |history|);
        historyIndex := next;
        input := history[next];
      } else if key == ArrowDown {
        if |history| == 0 {
          return;
        }
        var next := DownIndex(historyIndex, |history|);
        historyIndex := next;
        input := if next >= 0 then history[next] else "";
      }
    }
  }
}

=== FILE: common.dfy ===
/** Small building blocks shared by the modules of the telemetry model:
    an Option type, bytes, and the handful of text operations the Python,
    C and JavaScript sources rely on (strip, ASCII lower-casing, prefixes,
    substrings, joining). */
module Common {

  datatype Option<+T> = None | Some(value: T)

  /** An unsigned 8-bit value, as stored in a frame or read from a register. */
  type Byte = b: int | 0 <= b < 256

  /** Whitespace as removed by JavaScript's `String.prototype.trim()` for
      ASCII text. Python's `str.strip()` removes these and also the
      separators 0x1C to 0x1F, which this predicate leaves in place. */
  predicate IsSpace(c: char) {
    c == ' ' || c == '\t' || c == '\n' || c == '\r' || c == 11 as char || c == 12 as char
  }

  function TrimLeft(s: string): (r: string)
    ensures |r| <= |s|
  {
    if s != [] && IsSpace(s[0]) then TrimLeft(s[1..]) else s
  }

  /** `TrimLeft` keeps a suffix that starts with a non-space and drops
      only spaces. */
  lemma {:induction false} TrimLeftShape(s: string)
    ensures TrimLeft(s) == s[|s| - |TrimLeft(s)|..]
    ensures TrimLeft(s) != [] ==> !IsSpace(TrimLeft(s)[0])
    ensures forall i :: 0 <= i < |s| - |TrimLeft(s)| ==> IsSpace(s[i])
  {
    if s != [] && IsSpace(s[0]) {
      TrimLeftShape(s[1..]);
    }
  }

  function TrimRight(s: string): (r: string)
    ensures |r| <= |s|
  {
    if s != [] && IsSpace(s[|s| - 1]) then TrimRight(s[..|s| - 1]) else s
  }

  /** `TrimRight` keeps a prefix that ends with a non-space and drops only
      spaces. */
  lemma {:induction false} TrimRightShape(s: string)
    ensures TrimRight(s) == s[..|TrimRight(s)|]
    ensures TrimRight(s) != [] ==> !IsSpace(TrimRight(s)[|TrimRight(s)| - 1])
    ensures forall i :: |TrimRight(s)| <= i < |s| ==> IsSpace(s[i])
  {
    if s != [] && IsSpace(s[|s| - 1]) {
      TrimRightShape(s[..|s| - 1]);
    }
  }

  /** `str.strip()` / `trim()`: drop leading and trailing whitespace. */
  function Strip(s: string): (r: string)
    ensures |r| <= |s|
    ensures r != [] ==> !IsSpace(r[0]) && !IsSpace(r[|r| - 1])
    ensures (forall i :: 0 <= i < |s| ==> IsSpace(s[i])) <==> r == []
  {
    var l := TrimLeft(s);
    TrimLeftShape(s);
    TrimRightShape(l);
    var r := TrimRight(l);
    assert r == [] ==> l == [];
    r
  }

  /** Text without surrounding whitespace is left alone by `Strip`. */
  lemma StripClean(s: string)
    requires s != [] && !IsSpace(s[0]) && !IsSpace(s[|s| - 1])
    ensures Strip(s) == s
  {
    assert TrimLeft(s) == s;
    assert TrimRight(s) == s;
  }

  function LowerChar(c: char): char {
    if 'A' <= c <= 'Z' then (c as int + 32) as char else c
  }

  /** ASCII lower-casing (`lower()` / `toLowerCase()` on ASCII text). */
  function Lower(s: string): (r: string)
    ensures |r| == |s|
    ensures forall i :: 0 <= i < |s| ==> r[i] == LowerChar(s[i])
  {
    if s == [] then [] else [LowerChar(s[0])] + Lower(s[1..])
  }

  predicate StartsWith(s: string, prefix: string) {
    |prefix| <= |s| && s[..|prefix|] == prefix
  }

  /** Python's `sub in s` / JavaScript's `s.includes(sub)`. */
  predicate Contains(s: string, sub: string) {
    exists i :: 0 <= i <= |s| - |sub| && OccursAt(s, sub, i)
  }

  predicate OccursAt(s: string, sub: string, i: int) {
    0 <= i <= |s| - |sub| && s[i..i + |sub|] == sub
  }

  /** `sep.join(parts)` */
  function Join<T>(parts: seq<seq<T>>, sep: seq<T>): seq<T> {
    if parts == [] then []
    else if |parts| == 1 then parts[0]
    else parts[0] + sep + Join(parts[1..], sep)
  }

  /** `sep.join(parts + [last])`, the same text built from the other end. */
  lemma {:induction false} JoinSnoc<T>(parts: seq<seq<T>>, last: seq<T>, sep: seq<T>)
    requires parts != []
    ensures Join(parts + [last], sep) == Join(parts, sep) + sep + last
  {
    if |parts| == 1 {
      assert parts + [last] == [parts[0], last];
      assert Join([last], sep) == last;
    } else {
      assert (parts + [last])[1..] == parts[1..] + [last];
      JoinSnoc(parts[1..], last, sep);
    }
  }

  /** Concatenation of a sequence of byte strings (`b"".join(...)`). */
  function Concat<T>(parts: seq<seq<T>>): seq<T> {
    if parts == [] then [] else parts[0] + Concat(parts[1..])
  }

  lemma {:induction false} ConcatAppend<T>(parts: seq<seq<T>>, last: seq<T>)
    ensures Concat(parts + [last]) == Concat(parts) + last
  {
    if parts == [] {
      assert parts + [last] == [last];
    } else {
      assert (parts + [last])[1..] == parts[1..] + [last];
      ConcatAppend(parts[1..], last);
    }
  }

  lemma {:induction false} ConcatLength<T>(parts: seq<seq<T>>, n: nat)
    requires forall i :: 0 <= i < |parts| ==> |parts[i]| == n
    ensures |Concat(parts)| == |parts| * n
  {
    if parts != [] {
      ConcatLength(parts[1..], n);
    }
  }

  /** A text of 8-bit characters as the bytes a C string literal holds. */
  function Ascii(s: string): (b: seq<Byte>)
    requires forall i :: 0 <= i < |s| ==> s[i] as int < 256
    ensures |b| == |s|
  {
    seq(|s|, i requires 0 <= i < |s| => s[i] as int)
  }

  /** A C string's bytes hold no NUL. */
  predicate NoNul(s: seq<Byte>) {
    forall i :: 0 <= i < |s| ==> s[i] != 0
  }

  /** The C string a byte buffer holds: its bytes before the first NUL. */
  function CString(s: seq<Byte>): (r: seq<Byte>)
    ensures r <= s && NoNul(r)
    ensures |r| < |s| ==> s[|r|] == 0
  {
    if s == [] || s[0] == 0 then [] else [s[0]] + CString(s[1..])
  }

  function Min(a: int, b: int): int { if a <= b then a else b }
  function Max(a: int, b: int): int { if a >= b then a else b }
}

=== FILE: frame_assembler.dfy ===
/** Receiver-side reassembly of chunked frames, `_FrameAssembler` in
    lora_transport.py. Pending messages are kept per topic; a bucket holds
    the announced total, the chunks received so far by index, and the time
    of the last chunk. */
module Reassembly {
  import opened Common
  import FrameCodec

  datatype Bucket = Bucket(total: nat, frames: map<int, seq<Byte>>, stamp: real)

  type Pending = map<string, Bucket>

  /** Every index in 1..total has arrived. */
  predicate Complete(frames: map<int, seq<Byte>>, total: nat) {
    |frames| == total && forall i :: 1 <= i <= total ==> i in frames
  }

  /** What a stored bucket always satisfies: a positive total, indices in
      range, and at least one chunk still missing (a complete bucket is
      handed out and dropped at once). */
  predicate BucketOk(b: Bucket) {
    && b.total >= 1
    && (forall i :: i in b.frames ==> 1 <= i <= b.total)
    && !Complete(b.frames, b.total)
  }

  predicate PendingOk(p: Pending) {
    forall t :: t in p ==> BucketOk(p[t])
  }

  /** The chunks 1..k joined in index order. */
  function Assemble(frames: map<int, seq<Byte>>, k: nat): seq<Byte>
    requires forall i :: 1 <= i <= k ==> i in frames
  {
    if k == 0 then [] else Assemble(frames, k - 1) + frames[k]
  }

  /** One call of `push`: the new pending table and the message, if one was
      completed (lora_transport.py:152-169). */
  function PushSpec(p: Pending, topic: string, index: int, total: int, payload: seq<Byte>, now: real)
    : (Pending, Option<seq<Byte>>)
  {
    var t: nat := if total <= 0 then 1 else total;
    if index < 1 || index > t then (p, None)
    else
      var base := if topic in p && p[topic].total == t then p[topic] else Bucket(t, map[], now);
      var frames := base.frames[index := payload];
      if Complete(frames, t) then (p - {topic}, Some(Assemble(frames, t)))
      else (p[topic := Bucket(t, frames, now)], None)
  }

  /** What one `push` does (lora_transport.py:152-169): a total of 0 or less
      counts as 1; an index outside 1..total is ignored; other topics are
      untouched; a message comes out exactly when the topic's bucket is
      complete and dropped; otherwise the bucket has the new total, the new
      stamp and the chunk under its index. */
  lemma {:induction false} PushFacts(p: Pending, topic: string, index: int, total: int, payload: seq<Byte>, now: real)
    ensures var r := PushSpec(p, topic, index, total, payload, now);
      && (forall u :: u != topic ==> (u in r.0 <==> u in p))
      && (forall u :: u != topic && u in p ==> r.0[u] == p[u])
      && ((index < 1 || index > Max(1, total)) ==> r == (p, None))
      && (r.1.Some? <==> topic !in r.0 && 1 <= index <= Max(1, total))
      && (1 <= index <= Max(1, total) && topic in r.0 ==>
           && r.0[topic].total == Max(1, total) && r.0[topic].stamp == now
           && index in r.0[topic].frames && r.0[topic].frames[index] == payload)
  {
  }

  /** `push` keeps every stored bucket well formed. */
  lemma {:induction false} PushKeepsOk(p: Pending, topic: string, index: int, total: int, payload: seq<Byte>, now: real)
    requires PendingOk(p)
    ensures PendingOk(PushSpec(p, topic, index, total, payload, now).0)
  {
  }

  function IsStale(b: Bucket, now: real, timeout: real): bool {
    now - b.stamp > timeout
  }

  /** `cleanup` (lora_transport.py:171-178): exactly the buckets whose last
      chunk is older than the timeout are dropped. */
  function CleanupSpec(p: Pending, now: real, timeout: real): (r: Pending)
    ensures forall t :: t in r <==> t in p && !IsStale(p[t], now, timeout)
    ensures forall t :: t in r ==> r[t] == p[t]
  {
    map t | t in p && !IsStale(p[t], now, timeout) :: p[t]
  }

  /** Cleaning twice at the same instant drops nothing more, and cleaning
      keeps the table well formed. */
  lemma {:induction false} CleanupIdempotent(p: Pending, now: real, timeout: real)
    ensures CleanupSpec(CleanupSpec(p, now, timeout), now, timeout) == CleanupSpec(p, now, timeout)
    ensures PendingOk(p) ==> PendingOk(CleanupSpec(p, now, timeout))
  {
  }

  class FrameAssembler {
    var timeout: real
    var pending: Pending

    ghost predicate Valid()
      reads this
    {
      timeout >= 0.1 && PendingOk(pending)
    }

    /** `_FrameAssembler.__init__` (lora_transport.py:148-150): the timeout is
        raised to at least 0.1 seconds. */
    constructor(timeout: real)
      ensures Valid()
      ensures this.timeout == (if timeout >= 0.1 then timeout else 0.1)
      ensures pending == map[]
    {
      this.timeout := if timeout >= 0.1 then timeout else 0.1;
      pending := map[];
    }

    /** `_FrameAssembler.push` (lora_transport.py:152-169). */
    method Push(topic: string, index: int, total: int, payload: seq<Byte>, now: real)
      returns (message: Option<seq<Byte>>)
      requires Valid()
      modifies this
      ensures Valid() && timeout == old(timeout)
      ensures (pending, message) == PushSpec(old(pending), topic, index, total, payload, now)
    {
      PushKeepsOk(pending, topic, index, total, payload, now);
      var t := total;
      if t <= 0 {
        t := 1;
      }
      if index < 1 || index > t {
        return None;
      }
      // a bucket announcing another total is discarded and started afresh
      var frames: map<int, seq<Byte>> := map[];
      if topic in pending && pending[topic].total == t {
        frames := pending[topic].frames;
      }
      frames := frames[index := payload];
      ghost var before := pending;
      pending := pending[topic := Bucket(t, frames, now)];
      if Complete(frames, t) {
        message := Some(Assemble(frames, t));
        pending := pending - {topic};
        RemoveUpdated(before, topic, Bucket(t, frames, now));
      } else {
        message := None;
      }
    }

    /** `_FrameAssembler.cleanup` (lora_transport.py:171-178): collect the
        stale topics, then delete them one by one. */
    method Cleanup(now: real)
      requires Valid()
      modifies this
      ensures Valid() && timeout == old(timeout)
      ensures pending == CleanupSpec(old(pending), now, timeout)
    {
      CleanupIdempotent(pending, now, timeout);
      ghost var original := pending;
      var stale := set t | t in pending && IsStale(pending[t], now, timeout);
      while stale != {}
        invariant timeout == old(timeout)
        invariant forall t :: t in pending <==> t in original && (t in stale || !IsStale(original[t], now, timeout))
        invariant forall t :: t in pending ==> pending[t] == original[t]
        invariant forall t :: t in stale ==> t in original && IsStale(original[t], now, timeout)
        decreases stale
      {
        var t :| t in stale;
        pending := pending - {t};
        stale := stale - {t};
      }
      assert pending == CleanupSpec(original, now, timeout);
    }
  }

  // ------------------------------------------------------- reassembly order

  /** One call of `push` for a fixed topic and total. */
  datatype Arrival = Arrival(index: int, payload: seq<Byte>, now: real)

  /** Successive `push` calls: the final table and every call's result. */
  function Feed(p: Pending, topic: string, total: int, arrivals: seq<Arrival>)
    : (r: (Pending, seq<Option<seq<Byte>>>))
    ensures |r.1| == |arrivals|
  {
    if arrivals == [] then (p, [])
    else
      var prev := Feed(p, topic, total, arrivals[..|arrivals| - 1]);
      var a := arrivals[|arrivals| - 1];
      var step := PushSpec(prev.0, topic, a.index, total, a.payload, a.now);
      (step.0, prev.1 + [step.1])
  }

  /** The indices 1..n, each exactly once, in some arrival order. */
  predicate IsOrder(order: seq<int>, n: nat) {
    && |order| == n
    && (forall k :: 0 <= k < n ==> 1 <= order[k] <= n)
    && (forall j, k :: 0 <= j < k < n ==> order[j] != order[k])
    && (forall v :: 1 <= v <= n ==> v in order)
  }

  /** The chunks of a message (chunk i has index i+1), delivered in some order. */
  predicate Delivers(arrivals: seq<Arrival>, chunks: seq<seq<Byte>>) {
    && IsOrder(Indices(arrivals), |chunks|)
    && forall k :: 0 <= k < |arrivals| ==> arrivals[k].payload == chunks[arrivals[k].index - 1]
  }

  function Indices(arrivals: seq<Arrival>): (r: seq<int>)
    ensures |r| == |arrivals| && forall k :: 0 <= k < |arrivals| ==> r[k] == arrivals[k].index
  {
    if arrivals == [] then [] else Indices(arrivals[..|arrivals| - 1]) + [arrivals[|arrivals| - 1].index]
  }

  /** The bucket contents after the listed arrivals. */
  function FramesOf(arrivals: seq<Arrival>): map<int, seq<Byte>> {
    if arrivals == [] then map[]
    else
      var a := arrivals[|arrivals| - 1];
      FramesOf(arrivals[..|arrivals| - 1])[a.index := a.payload]
  }

  lemma {:induction false} FramesOfKeys(arrivals: seq<Arrival>)
    ensures forall i :: i in FramesOf(arrivals) <==> exists k :: 0 <= k < |arrivals| && arrivals[k].index == i
  {
    if arrivals != [] {
      var init := arrivals[..|arrivals| - 1];
      FramesOfKeys(init);
      forall i ensures i in FramesOf(arrivals) <==> exists k :: 0 <= k < |arrivals| && arrivals[k].index == i {
        if i in FramesOf(init) {
          var k :| 0 <= k < |init| && init[k].index == i;
          assert arrivals[k].index == i;
        }
        if exists k :: 0 <= k < |arrivals| && arrivals[k].index == i {
          var k :| 0 <= k < |arrivals| && arrivals[k].index == i;
          if k < |init| {
            assert init[k].index == i;
          }
        }
      }
    }
  }

  lemma {:induction false} FramesOfValues(arrivals: seq<Arrival>, chunks: seq<seq<Byte>>)
    requires forall k :: 0 <= k < |arrivals| ==> 1 <= arrivals[k].index <= |chunks|
    requires forall k :: 0 <= k < |arrivals| ==> arrivals[k].payload == chunks[arrivals[k].index - 1]
    ensures forall i :: i in FramesOf(arrivals) ==> 1 <= i <= |chunks| && FramesOf(arrivals)[i] == chunks[i - 1]
  {
    if arrivals != [] {
      var init := arrivals[..|arrivals| - 1];
      FramesOfValues(init, chunks);
    }
  }

  function Nones(k: nat): seq<Option<seq<Byte>>>
    ensures |Nones(k)| == k && forall j :: 0 <= j < k ==> Nones(k)[j] == None
  {
    if k == 0 then [] else Nones(k - 1) + [None]
  }

  /** One push of an in-range index into a known bucket. */
  lemma {:induction false} PushStep(q: Pending, topic: string, idx: int, n: nat, chunk: seq<Byte>, now: real,
                                    held: map<int, seq<Byte>>)
    requires n >= 1 && 1 <= idx <= n
    requires if topic in q && q[topic].total == n then q[topic].frames == held else held == map[]
    ensures var f := held[idx := chunk];
      PushSpec(q, topic, idx, n, chunk, now)
        == if Complete(f, n) then (q - {topic}, Some(Assemble(f, n)))
           else (q[topic := Bucket(n, f, now)], None)
  {
  }

  /** The k-th step of `Feed` is one push after the first k-1. */
  lemma {:induction false} FeedUnfold(p: Pending, topic: string, total: int, arrivals: seq<Arrival>, k: nat,
                                      q: Pending, rs: seq<Option<seq<Byte>>>, q': Pending, r: Option<seq<Byte>>)
    requires 1 <= k <= |arrivals|
    requires Feed(p, topic, total, arrivals[..k - 1]) == (q, rs)
    requires PushSpec(q, topic, arrivals[k - 1].index, total, arrivals[k - 1].payload, arrivals[k - 1].now) == (q', r)
    ensures Feed(p, topic, total, arrivals[..k]) == (q', rs + [r])
  {
    assert arrivals[..k][..k - 1] == arrivals[..k - 1];
  }

  lemma {:induction false} Overwrite<K, V>(m: map<K, V>, key: K, a: V, b: V)
    ensures m[key := a][key := b] == m[key := b]
  {
  }

  lemma {:induction false} RemoveUpdated<K, V>(m: map<K, V>, key: K, a: V)
    ensures m[key := a] - {key} == m - {key}
  {
  }

  /** Fewer than n distinct chunks never complete a bucket of n. */
  lemma {:induction false} PrefixIncomplete(arrivals: seq<Arrival>, n: nat, k: nat)
    requires IsOrder(Indices(arrivals), n) && k < n
    ensures !Complete(FramesOf(arrivals[..k]), n)
  {
    var pre := arrivals[..k];
    FramesOfKeys(pre);
    var order := Indices(arrivals);
    assert 1 <= order[k] <= n;
    forall j | 0 <= j < k ensures pre[j].index != arrivals[k].index {
      assert pre[j].index == order[j];
    }
    assert arrivals[k].index !in FramesOf(pre);
  }

  /** After k < n distinct chunks the topic's bucket holds exactly those,
      and no call has produced a message yet. */
  lemma {:induction false} FeedPartial(p: Pending, topic: string, arrivals: seq<Arrival>, n: nat, k: nat)
    requires IsOrder(Indices(arrivals), n)
    requires topic !in p || p[topic].total != n
    requires 1 <= k < n
    ensures Feed(p, topic, n, arrivals[..k])
      == (p[topic := Bucket(n, FramesOf(arrivals[..k]), arrivals[k - 1].now)], Nones(k))
  {
    var a := arrivals[k - 1];
    var held := FramesOf(arrivals[..k - 1]);
    var bucket := Bucket(n, FramesOf(arrivals[..k]), a.now);
    var q := if k == 1 then p else p[topic := Bucket(n, held, arrivals[k - 2].now)];
    assert Feed(p, topic, n, arrivals[..k - 1]) == (q, Nones(k - 1)) by {
      if k == 1 {
        assert arrivals[..0] == [];
      } else {
        FeedPartial(p, topic, arrivals, n, k - 1);
      }
    }
    assert PushSpec(q, topic, a.index, n, a.payload, a.now) == (p[topic := bucket], None) by {
      assert arrivals[..k][..k - 1] == arrivals[..k - 1];
      assert held[a.index := a.payload] == bucket.frames;
      PrefixIncomplete(arrivals, n, k);
      assert 1 <= Indices(arrivals)[k - 1] <= n;
      if k == 1 {
        assert held == map[];
      } else {
        Overwrite(p, topic, Bucket(n, held, arrivals[k - 2].now), bucket);
      }
      PushStep(q, topic, a.index, n, a.payload, a.now, held);
    }
    assert Nones(k - 1) + [None] == Nones(k);
    FeedUnfold(p, topic, n, arrivals, k, q, Nones(k - 1), p[topic := bucket], None);
  }

  lemma {:induction false} DistinctCard(s: seq<int>)
    requires forall j, k :: 0 <= j < k < |s| ==> s[j] != s[k]
    ensures |set x | x in s| == |s|
  {
    if s != [] {
      var init := s[..|s| - 1];
      DistinctCard(init);
      assert (set x | x in s) == (set x | x in init) + {s[|s| - 1]};
    }
  }

  /** All n distinct chunks complete a bucket of n. */
  lemma {:induction false} AllArrived(arrivals: seq<Arrival>, n: nat)
    requires IsOrder(Indices(arrivals), n)
    ensures Complete(FramesOf(arrivals), n)
  {
    var order := Indices(arrivals);
    var frames := FramesOf(arrivals);
    FramesOfKeys(arrivals);
    DistinctCard(order);
    var keys := set x | x in order;
    forall x ensures x in frames.Keys <==> x in keys {
      if x in frames.Keys {
        var k :| 0 <= k < |arrivals| && arrivals[k].index == x;
        assert order[k] == x;
      }
      if x in keys {
        var k :| 0 <= k < |order| && order[k] == x;
        assert arrivals[k].index == x;
      }
    }
    assert frames.Keys == keys;
    assert |frames| == |frames.Keys|;
  }

  lemma {:induction false} AssembleChunks(frames: map<int, seq<Byte>>, chunks: seq<seq<Byte>>, k: nat)
    requires k <= |chunks|
    requires forall i :: 1 <= i <= k ==> i in frames && frames[i] == chunks[i - 1]
    ensures Assemble(frames, k) == Concat(chunks[..k])
  {
    if k > 0 {
      AssembleChunks(frames, chunks, k - 1);
      assert chunks[..k] == chunks[..k - 1] + [chunks[k - 1]];
      ConcatAppend(chunks[..k - 1], chunks[k - 1]);
    }
  }

  /** Reassembly does not depend on arrival order (lora_transport.py:152-169):
      pushing the n chunks of one message in any order, with no bucket of
      the same total already waiting under the topic, yields nothing for the
      first n-1 chunks, the whole message on the last, and leaves no bucket
      for the topic. */
  lemma {:induction false} ReassembleAnyOrder(p: Pending, topic: string, arrivals: seq<Arrival>,
                                              chunks: seq<seq<Byte>>)
    requires |chunks| >= 1 && Delivers(arrivals, chunks)
    requires topic !in p || p[topic].total != |chunks|
    ensures var r := Feed(p, topic, |chunks|, arrivals);
      && r.0 == p - {topic}
      && (forall k :: 0 <= k < |chunks| - 1 ==> r.1[k] == None)
      && r.1[|chunks| - 1] == Some(Concat(chunks))
  {
    var n := |chunks|;
    var a := arrivals[n - 1];
    var held := FramesOf(arrivals[..n - 1]);
    var q := if n == 1 then p else p[topic := Bucket(n, held, arrivals[n - 2].now)];
    assert Feed(p, topic, n, arrivals[..n - 1]) == (q, Nones(n - 1)) by {
      if n == 1 {
        assert arrivals[..0] == [];
      } else {
        FeedPartial(p, topic, arrivals, n, n - 1);
      }
    }
    assert PushSpec(q, topic, a.index, n, a.payload, a.now) == (p - {topic}, Some(Concat(chunks))) by {
      var frames := FramesOf(arrivals);
      assert arrivals[..n] == arrivals;
      assert held[a.index := a.payload] == frames;
      AllArrived(arrivals, n);
      assert Assemble(frames, n) == Concat(chunks) by {
        FramesOfValues(arrivals, chunks);
        AssembleChunks(frames, chunks, n);
        assert chunks[..n] == chunks;
      }
      assert 1 <= Indices(arrivals)[n - 1] <= n;
      if n == 1 {
        assert held == map[];
      } else {
        RemoveUpdated(p, topic, Bucket(n, held, arrivals[n - 2].now));
      }
      PushStep(q, topic, a.index, n, a.payload, a.now, held);
    }
    assert arrivals[..n] == arrivals;
    FeedUnfold(p, topic, n, arrivals, n, q, Nones(n - 1), p - {topic}, Some(Concat(chunks)));
  }

  /** The payloads a receiver parses out of a run of frames. */
  function ParsedPayloads(frames: seq<seq<Byte>>): (r: seq<seq<Byte>>)
    ensures |r| == |frames|
  {
    seq(|frames|, i requires 0 <= i < |frames| =>
      match FrameCodec.ParseFrame(frames[i])
      case Some(f) => f.payload
      case None => [])
  }

  /** End to end (lora_transport.py:319-336, 374-393, 152-169): the frames
      `_make_frames` builds for a non-empty body under an ASCII topic of 1 to
      15 characters parse back to that topic, index i+1 and the total, and
      pushing the parsed payloads under their indices, in any order, gives
      the body back on the last push. */
  lemma {:induction false} SendThenReassemble(p: Pending, topic: string, body: seq<Byte>,
                                              frames: seq<seq<Byte>>, arrivals: seq<Arrival>)
    requires FrameCodec.IsAscii(topic) && 1 <= |topic| <= FrameCodec.MAX_TOPIC
    requires body != []
    requires frames == FrameCodec.FrameSeq(topic, body, FrameCodec.LORA_MAX_BYTES) && |frames| <= 255
    requires Delivers(arrivals, ParsedPayloads(frames))
    requires topic !in p || p[topic].total != |frames|
    ensures |frames| >= 1
    ensures forall i :: 0 <= i < |frames| ==>
      FrameCodec.ParseFrame(frames[i])
        == Some(FrameCodec.ParsedFrame(topic, i + 1, |frames|, ParsedPayloads(frames)[i]))
    ensures Feed(p, topic, |frames|, arrivals).1[|frames| - 1] == Some(body)
  {
    FrameCodec.FrameSeqShape(topic, body, FrameCodec.LORA_MAX_BYTES);
    ParsedPayloadsOfFrames(topic, body, frames);
    ReassembleAnyOrder(p, topic, arrivals, ParsedPayloads(frames));
  }

  lemma {:induction false} ParsedPayloadsOfFrames(topic: string, body: seq<Byte>, frames: seq<seq<Byte>>)
    requires FrameCodec.IsAscii(topic) && 1 <= |topic| <= FrameCodec.MAX_TOPIC
    requires frames == FrameCodec.FrameSeq(topic, body, FrameCodec.LORA_MAX_BYTES) && |frames| <= 255
    ensures forall i :: 0 <= i < |frames| ==>
      FrameCodec.ParseFrame(frames[i])
        == Some(FrameCodec.ParsedFrame(topic, i + 1, |frames|, ParsedPayloads(frames)[i]))
    ensures Concat(ParsedPayloads(frames)) == body
  {
    var tb := FrameCodec.TopicBytes(topic);
    FrameCodec.FrameSeqShape(topic, body, FrameCodec.LORA_MAX_BYTES);
    FrameCodec.ParseMakeFrames(topic, body, FrameCodec.LORA_MAX_BYTES);
    FrameCodec.TopicRoundTrip(topic);
    assert ParsedPayloads(frames) == seq(|frames|, i requires 0 <= i < |frames| => frames[i][4 + |tb|..]);
  }
}

=== FILE: frame_codec.dfy ===
/** The chunked radio frame format shared by the Python node
    (lora_transport.py) and the C node (rocket_c/src/lora_transport.c):

      'J' | topic_len | topic bytes | index | total | chunk

    Index and total are single bytes, so they are written modulo 256. The
    body handed to the codec is the already-encoded JSON text as bytes. */
module FrameCodec {
  import opened Common

  /** The tag byte, the character 'J'. */
  const TAG: Byte := 74
  /** The radio's maximum transport unit. */
  const LORA_MAX_BYTES: int := 200
  /** Topics are cut to this many ASCII bytes. */
  const MAX_TOPIC: nat := 15
  /** The topic a receiver assumes when a frame carries none. */
  const DEFAULT_TOPIC: string := "sensors"

  datatype ParsedFrame = ParsedFrame(topic: string, index: nat, total: nat, payload: seq<Byte>)

  // ---------------------------------------------------------------- chunking

  /** `_chunk_bytes(data, n)`: consecutive slices `data[i:i+n]`. */
  function Chunks(data: seq<Byte>, n: nat): (parts: seq<seq<Byte>>)
    requires n >= 1
    decreases |data|
  {
    if data == [] then []
    else if |data| <= n then [data]
    else [data[..n]] + Chunks(data[n..], n)
  }

  /** Chunk `i` is the slice `[i*n, min(len, (i+1)*n))` of the data, and
      there are exactly ceil(len / n) chunks. */
  lemma ChunkAt(data: seq<Byte>, n: nat)
    requires n >= 1
    ensures |Chunks(data, n)| == (|data| + n - 1) / n
    ensures forall i :: 0 <= i < |Chunks(data, n)| ==>
      i * n < |data| && Chunks(data, n)[i] == data[i * n .. Min(|data|, (i + 1) * n)]
  {
    ChunkCount(data, n);
    ChunkSlices(data, n);
  }

  lemma {:induction false} ChunkCount(data: seq<Byte>, n: nat)
    requires n >= 1
    ensures |Chunks(data, n)| == (|data| + n - 1) / n
    decreases |data|
  {
    if data == [] {
    } else if |data| <= n {
      DivOne(|data|, n);
    } else {
      var rest := data[n..];
      ChunkCount(rest, n);
      assert |Chunks(data, n)| == |Chunks(rest, n)| + 1;
      var a := |rest| + n - 1;
      assert a + n == |data| + n - 1;
      DivShift(a, n);
    }
  }

  lemma {:induction false} ChunkSlices(data: seq<Byte>, n: nat)
    requires n >= 1
    ensures forall i :: 0 <= i < |Chunks(data, n)| ==>
      i * n < |data| && Chunks(data, n)[i] == data[i * n .. Min(|data|, (i + 1) * n)]
    decreases |data|
  {
    var parts := Chunks(data, n);
    if |data| > n {
      var rest := data[n..];
      ChunkSlices(rest, n);
      var tail := Chunks(rest, n);
      assert parts == [data[..n]] + tail;
      forall i | 1 <= i < |parts|
        ensures i * n < |data| && parts[i] == data[i * n .. Min(|data|, (i + 1) * n)]
      {
        ChunkShift(data, n, i, tail[i - 1]);
      }
    }
  }

  lemma ChunkShift(data: seq<Byte>, n: nat, i: nat, c: seq<Byte>)
    requires n >= 1 && i >= 1 && |data| > n
    requires (i - 1) * n < |data| - n && c == data[n..][(i - 1) * n .. Min(|data| - n, i * n)]
    ensures i * n < |data| && c == data[i * n .. Min(|data|, (i + 1) * n)]
  {
    assert (i - 1) * n + n == i * n;
    assert (i + 1) * n == i * n + n;
  }

  lemma {:induction false} DivOne(a: nat, n: nat)
    requires 1 <= a <= n
    ensures (a + n - 1) / n == 1
  {
    DivBounds(a + n - 1, n, 1);
  }

  lemma {:induction false} DivShift(a: nat, n: nat)
    requires n >= 1
    ensures (a + n) / n == a / n + 1
  {
    var q := a / n;
    assert q * n <= a < q * n + n;
    assert (q + 1) * n == q * n + n;
    DivBounds(a + n, n, q + 1);
  }

  /** Integer division is determined by its bounds. */
  lemma {:induction false} DivBounds(x: nat, n: nat, k: nat)
    requires n >= 1 && k * n <= x < k * n + n
    ensures x / n == k
  {
    var q := x / n;
    var r := x % n;
    var d := q - k;
    assert d * n == q * n - k * n;
    MulSign(d, n);
  }

  lemma {:induction false} MulSign(d: int, n: int)
    requires n >= 1
    ensures d >= 1 ==> d * n >= n
    ensures d <= -1 ==> d * n <= -n
  {
    assert d * n - n == (d - 1) * n;
    assert d * n + n == (d + 1) * n;
  }

  /** `_chunk_bytes` for n >= 1 (lora_transport.py:315-316): concatenating the
      chunks gives the data back; every chunk is non-empty and at most n bytes;
      only the last may be shorter; empty data gives no chunks. */
  lemma {:induction false} ChunksSpec(data: seq<Byte>, n: nat)
    requires n >= 1
    ensures Concat(Chunks(data, n)) == data
    ensures data == [] <==> Chunks(data, n) == []
    ensures forall i :: 0 <= i < |Chunks(data, n)| ==> 0 < |Chunks(data, n)[i]| <= n
    ensures forall i :: 0 <= i < |Chunks(data, n)| - 1 ==> |Chunks(data, n)[i]| == n
    decreases |data|
  {
    var parts := Chunks(data, n);
    if data != [] && |data| > n {
      var tail := Chunks(data[n..], n);
      ChunksSpec(data[n..], n);
      assert parts == [data[..n]] + tail;
      assert parts[1..] == tail;
      assert Concat(parts) == data[..n] + Concat(tail);
      assert data[..n] + data[n..] == data;
      forall i | 0 <= i < |parts| ensures 0 < |parts[i]| <= n {
        if i > 0 { assert parts[i] == tail[i - 1]; }
      }
      forall i | 0 <= i < |parts| - 1 ensures |parts[i]| == n {
        if i > 0 { assert parts[i] == tail[i - 1]; }
      }
    } else if data != [] {
      assert parts == [data];
      assert Concat(parts) == data + Concat([]);
    }
  }

  // ------------------------------------------------------------------ topic

  /** `topic.encode("ascii", errors="ignore")`: non-ASCII characters vanish. */
  function AsciiBytes(s: string): (r: seq<Byte>)
    ensures |r| <= |s|
    ensures forall i :: 0 <= i < |r| ==> r[i] < 128
  {
    if s == [] then []
    else if s[0] as int < 128 then [s[0] as int as Byte] + AsciiBytes(s[1..])
    else AsciiBytes(s[1..])
  }

  /** `bytes.decode("ascii", errors="ignore")`: bytes >= 128 vanish. */
  function AsciiChars(b: seq<Byte>): (r: string)
    ensures |r| <= |b|
  {
    if b == [] then []
    else if b[0] < 128 then [b[0] as char] + AsciiChars(b[1..])
    else AsciiChars(b[1..])
  }

  /** The topic as it is put on the wire: ASCII-filtered, cut to 15 bytes. */
  function TopicBytes(topic: string): (r: seq<Byte>)
    ensures |r| <= MAX_TOPIC
    ensures forall i :: 0 <= i < |r| ==> r[i] < 128
  {
    var a := AsciiBytes(topic);
    if |a| <= MAX_TOPIC then a else a[..MAX_TOPIC]
  }

  /** The topic a receiver reads back from wire bytes. */
  function DecodeTopic(tb: seq<Byte>): string {
    var s := AsciiChars(tb);
    if s == "" then DEFAULT_TOPIC else s
  }

  predicate IsAscii(s: string) {
    forall i :: 0 <= i < |s| ==> s[i] as int < 128
  }

  lemma {:induction false} AsciiRoundTrip(s: string)
    requires IsAscii(s)
    ensures |AsciiBytes(s)| == |s|
    ensures AsciiChars(AsciiBytes(s)) == s
  {
    if s != [] {
      AsciiRoundTrip(s[1..]);
    }
  }

  /** A non-empty ASCII topic of at most 15 characters survives the wire. */
  lemma {:induction false} TopicRoundTrip(topic: string)
    requires IsAscii(topic) && 1 <= |topic| <= MAX_TOPIC
    ensures DecodeTopic(TopicBytes(topic)) == topic
  {
    AsciiRoundTrip(topic);
  }

  // ----------------------------------------------------------------- frames

  function EncodeFrame(tb: seq<Byte>, index: Byte, total: Byte, chunk: seq<Byte>): seq<Byte>
    requires |tb| <= MAX_TOPIC
  {
    [TAG, |tb| as Byte] + tb + [index, total] + chunk
  }

  /** Bytes left for the chunk: `max(1, max_len - head_fixed)`. */
  function Room(tb: seq<Byte>, maxLen: int): nat {
    Max(1, maxLen - (4 + |tb|))
  }

  /** The frames `_make_frames` builds from an encoded body. */
  function FrameSeq(topic: string, body: seq<Byte>, maxLen: int): seq<seq<Byte>> {
    var tb := TopicBytes(topic);
    var parts := Chunks(body, Room(tb, maxLen));
    seq(|parts|, i requires 0 <= i < |parts| =>
      EncodeFrame(tb, (i + 1) % 256, |parts| % 256, parts[i]))
  }

  /** `_make_frames` (lora_transport.py:319-336): a loop appending one frame
      per chunk. The JSON encoding of the payload is the `body` input. */
  method MakeFrames(topic: string, body: seq<Byte>, maxLen: int) returns (frames: seq<seq<Byte>>)
    ensures frames == FrameSeq(topic, body, maxLen)
  {
    var topicBytes := TopicBytes(topic);
    var headFixed := 1 + 1 + |topicBytes| + 1 + 1;
    var room := Max(1, maxLen - headFixed);
    var parts := Chunks(body, room);
    var total := |parts|;
    frames := [];
    for idx := 1 to total + 1
      invariant |frames| == idx - 1
      invariant forall k :: 0 <= k < idx - 1 ==>
        frames[k] == EncodeFrame(topicBytes, (k + 1) % 256, total % 256, parts[k])
    {
      var frame: seq<Byte> := [TAG];
      frame := frame + [|topicBytes| as Byte];
      frame := frame + topicBytes;
      frame := frame + [idx % 256];
      frame := frame + [total % 256];
      frame := frame + parts[idx - 1];
      frames := frames + [frame];
    }
  }

  /** Layout and size of every frame (lora_transport.py:321-335): the header
      is 'J', the topic length (at most 15), the topic, the index and total
      modulo 256; an empty body makes no frame; a frame never exceeds
      `max_len` once `max_len >= 5 + topic_len`. */
  lemma {:induction false} FrameSeqShape(topic: string, body: seq<Byte>, maxLen: int)
    ensures var tb := TopicBytes(topic);
      var frames := FrameSeq(topic, body, maxLen);
      && (body == [] <==> frames == [])
      && |frames| == (|body| + Room(tb, maxLen) - 1) / Room(tb, maxLen)
      && forall i :: 0 <= i < |frames| ==>
        && |frames[i]| > 4 + |tb|
        && frames[i][0] == TAG && frames[i][1] == |tb| <= MAX_TOPIC
        && frames[i][2..2 + |tb|] == tb
        && frames[i][2 + |tb|] == (i + 1) % 256
        && frames[i][3 + |tb|] == |frames| % 256
        && (maxLen >= 5 + |tb| ==> |frames[i]| <= maxLen)
  {
    var tb := TopicBytes(topic);
    var room := Room(tb, maxLen);
    ChunkAt(body, room);
    ChunksSpec(body, room);
  }

  // ---------------------------------------------------------------- parsing

  /** `_parse_frame` (lora_transport.py:374-393). */
  function ParseFrame(frame: seq<Byte>): Option<ParsedFrame> {
    if |frame| < 5 then None
    else if frame[0] != TAG then None
    else
      var topicLen := frame[1];
      if 2 + topicLen + 2 > |frame| then None
      else
        var index := if frame[2 + topicLen] == 0 then 1 else frame[2 + topicLen];
        var total := if frame[3 + topicLen] == 0 then 1 else frame[3 + topicLen];
        Some(ParsedFrame(DecodeTopic(frame[2..2 + topicLen]), index, total, frame[4 + topicLen..]))
  }

  /** What `_parse_frame` rejects and how it normalises (lora_transport.py:374-393):
      None exactly for a frame shorter than 5 bytes, a wrong tag, or a header
      longer than the frame; otherwise index and total are at least 1 and
      the topic is never empty. */
  lemma {:induction false} ParseFrameSpec(frame: seq<Byte>)
    ensures ParseFrame(frame).None? <==>
      (|frame| < 5 || frame[0] != TAG || 4 + frame[1] > |frame|)
    ensures ParseFrame(frame).Some? ==>
      var p := ParseFrame(frame).value;
      && 1 <= p.index <= 255 && 1 <= p.total <= 255
      && p.topic != ""
      && p.payload == frame[4 + frame[1]..]
      && (frame[2 + frame[1]] != 0 ==> p.index == frame[2 + frame[1]])
      && (frame[3 + frame[1]] != 0 ==> p.total == frame[3 + frame[1]])
  {
  }

  /** Round trip (lora_transport.py:319-393): for a body that needs at most
      255 chunks, frame i parses back to the topic, index i+1, the total and
      chunk i, and the parsed chunks concatenate to the body. */
  lemma {:induction false} ParseMakeFrames(topic: string, body: seq<Byte>, maxLen: int)
    requires |FrameSeq(topic, body, maxLen)| <= 255
    ensures var tb := TopicBytes(topic);
      var frames := FrameSeq(topic, body, maxLen);
      && (forall i :: 0 <= i < |frames| ==>
          ParseFrame(frames[i]) == Some(ParsedFrame(DecodeTopic(tb), i + 1, |frames|,
                                                    frames[i][4 + |tb|..])))
      && Concat(seq(|frames|, i requires 0 <= i < |frames| => frames[i][4 + |tb|..])) == body
  {
    var tb := TopicBytes(topic);
    var room := Room(tb, maxLen);
    var parts := Chunks(body, room);
    var frames := FrameSeq(topic, body, maxLen);
    ChunksSpec(body, room);
    forall i | 0 <= i < |frames|
      ensures ParseFrame(frames[i]) == Some(ParsedFrame(DecodeTopic(tb), i + 1, |frames|, frames[i][4 + |tb|..]))
    {
      assert frames[i][2..2 + |tb|] == tb;
    }
    var payloads := seq(|frames|, i requires 0 <= i < |frames| => frames[i][4 + |tb|..]);
    assert payloads == parts by {
      forall i | 0 <= i < |frames| ensures payloads[i] == parts[i] {
        assert frames[i][4 + |tb|..] == parts[i];
      }
    }
  }

  /** Past 255 chunks the one-byte fields wrap silently (lora_transport.py:324-333):
      with 256 chunks the last frame reads back as index 1 of 1, the same
      header as the first frame. */
  lemma {:induction false} WrapAt256(topic: string, body: seq<Byte>, maxLen: int)
    requires |FrameSeq(topic, body, maxLen)| == 256
    ensures var frames := FrameSeq(topic, body, maxLen);
      && ParseFrame(frames[255]).Some? && ParseFrame(frames[255]).value.index == 1
      && ParseFrame(frames[255]).value.total == 1
      && ParseFrame(frames[0]).Some? && ParseFrame(frames[0]).value.index == 1
  {
    var tb := TopicBytes(topic);
    var frames := FrameSeq(topic, body, maxLen);
    FrameSeqShape(topic, body, maxLen);
    assert frames[255][2 + |tb|] == 0 && frames[255][3 + |tb|] == 0;
    assert frames[0][2 + |tb|] == 1;
  }

  // ------------------------------------------------------------ the C twin

  /** The C node's frame count: `max(1, ceil(len / room))`, so an empty
      payload still makes one frame. */
  function CTotal(len: nat, room: nat): nat
    requires room >= 1
  {
    var t := (len + room - 1) / room;
    if t == 0 then 1 else t
  }

  /** Frame `idx` of `lora_send_json` (rocket_c/src/lora_transport.c:89-117):
      payload bytes `[idx*room, min(len, (idx+1)*room))` after the header. */
  function CFrame(tb: seq<Byte>, payload: seq<Byte>, room: nat, idx: nat, total: nat): seq<Byte>
    requires |tb| <= MAX_TOPIC && room >= 1
  {
    var start := idx * room;
    var chunk := if start >= |payload| then [] else payload[start .. Min(|payload|, start + room)];
    EncodeFrame(tb, (idx + 1) % 256, total % 256, chunk)
  }

  /** All frames the C node would send for a payload under topic "sensors". */
  function CFrameSeq(payload: seq<Byte>): seq<seq<Byte>> {
    var tb := TopicBytes(DEFAULT_TOPIC);
    var room := Room(tb, LORA_MAX_BYTES);
    var total := CTotal(|payload|, room);
    seq(total, idx requires 0 <= idx < total => CFrame(tb, payload, room, idx, total))
  }

  /** The two twins agree on every non-empty payload; on the empty payload
      Python sends no frame and C sends one frame with an empty chunk. */
  lemma {:induction false} TwinsAgree(payload: seq<Byte>)
    ensures payload != [] ==> CFrameSeq(payload) == FrameSeq(DEFAULT_TOPIC, payload, LORA_MAX_BYTES)
    ensures payload == [] ==>
      && FrameSeq(DEFAULT_TOPIC, payload, LORA_MAX_BYTES) == []
      && CFrameSeq(payload) == [EncodeFrame(TopicBytes(DEFAULT_TOPIC), 1, 1, [])]
  {
    var tb := TopicBytes(DEFAULT_TOPIC);
    var room := Room(tb, LORA_MAX_BYTES);
    ChunkAt(payload, room);
    var parts := Chunks(payload, room);
    if payload != [] {
      ChunksSpec(payload, room);
      assert |parts| >= 1;
      var c := CFrameSeq(payload);
      var p := FrameSeq(DEFAULT_TOPIC, payload, LORA_MAX_BYTES);
      assert |c| == |p|;
      forall i | 0 <= i < |c| ensures c[i] == p[i] {
        assert parts[i] == payload[i * room .. Min(|payload|, (i + 1) * room)];
        assert i * room + room == (i + 1) * room;
      }
    }
  }

  /** The C frames carry the whole payload back, and each is at most 200
      bytes (rocket_c/src/lora_transport.c:100-120). */
  lemma {:induction false} CFramesCover(payload: seq<Byte>)
    ensures var tb := TopicBytes(DEFAULT_TOPIC);
      var frames := CFrameSeq(payload);
      && |frames| >= 1
      && (forall i :: 0 <= i < |frames| ==> 4 + |tb| <= |frames[i]| <= LORA_MAX_BYTES)
      && Concat(seq(|frames|, i requires 0 <= i < |frames| => frames[i][4 + |tb|..])) == payload
  {
    var tb := TopicBytes(DEFAULT_TOPIC);
    var frames := CFrameSeq(payload);
    TwinsAgree(payload);
    if payload == [] {
      var payloads := seq(|frames|, i requires 0 <= i < |frames| => frames[i][4 + |tb|..]);
      assert payloads == [[]];
    } else {
      FrameSeqShape(DEFAULT_TOPIC, payload, LORA_MAX_BYTES);
      assert |tb| == 7 by { AsciiRoundTrip(DEFAULT_TOPIC); }
      ParseMakeFramesConcat(payload);
    }
  }

  lemma {:induction false} ParseMakeFramesConcat(payload: seq<Byte>)
    ensures var tb := TopicBytes(DEFAULT_TOPIC);
      var frames := FrameSeq(DEFAULT_TOPIC, payload, LORA_MAX_BYTES);
      Concat(seq(|frames|, i requires 0 <= i < |frames| => frames[i][4 + |tb|..])) == payload
  {
    var tb := TopicBytes(DEFAULT_TOPIC);
    var room := Room(tb, LORA_MAX_BYTES);
    var parts := Chunks(payload, room);
    var frames := FrameSeq(DEFAULT_TOPIC, payload, LORA_MAX_BYTES);
    ChunksSpec(payload, room);
    var payloads := seq(|frames|, i requires 0 <= i < |frames| => frames[i][4 + |tb|..]);
    assert payloads == parts by {
      forall i | 0 <= i < |frames| ensures payloads[i] == parts[i] {
        assert frames[i][4 + |tb|..] == parts[i];
      }
    }
  }
}

=== FILE: json_text.dfy ===
/** JSON string literals as the C aggregator writes them
    (`sb_append_json_string`, rocket_c/src/aggregator.c:106-142), and a
    reader for the string syntax of section 7 of RFC 8259 against which the
    writer is checked. Text is bytes: a C string's bytes before its NUL. */
module JsonText {
  import opened Common

  const QUOTE: Byte := 34
  const BACKSLASH: Byte := 92

  /** A lower-case hexadecimal digit, as `%x` prints it. */
  function HexDigit(n: nat): (d: Byte)
    requires n < 16
    ensures 48 <= d <= 57 || 97 <= d <= 102
  {
    if n < 10 then 48 + n else 87 + n
  }

  /** The value of a hexadecimal digit of either case, if it is one. */
  function HexValue(d: Byte): Option<nat> {
    if 48 <= d <= 57 then Some(d - 48)
    else if 97 <= d <= 102 then Some(d - 87)
    else if 65 <= d <= 70 then Some(d - 55)
    else None
  }

  lemma HexRoundTrip(n: nat)
    requires n < 16
    ensures HexValue(HexDigit(n)) == Some(n)
  {
  }

  /** `\u%04x` for a byte below 0x20: `\u00`, then `0` or `1`, then the
      low hex digit. */
  function UnicodeEscape(c: Byte): (e: seq<Byte>)
    requires c < 32
    ensures |e| == 6
  {
    if c < 16 then [BACKSLASH, 117, 48, 48, 48, HexDigit(c)]
    else [BACKSLASH, 117, 48, 48, 49, HexDigit(c - 16)]
  }

  /** The letter of the short escape the writer uses for `c`, if any. */
  function ShortEscape(c: Byte): Option<Byte> {
    if c == BACKSLASH || c == QUOTE then Some(c)
    else if c == 10 then Some(110)
    else if c == 13 then Some(114)
    else if c == 9 then Some(116)
    else None
  }

  /** What the writer emits for one byte. */
  function EscapeByte(c: Byte): (e: seq<Byte>)
    ensures e != []
  {
    if ShortEscape(c).Some? then [BACKSLASH, ShortEscape(c).value]
    else if c < 32 then UnicodeEscape(c)
    else [c]
  }

  /** The escaped text of a string, byte by byte. */
  function Escape(s: seq<Byte>): seq<Byte> {
    if s == [] then [] else EscapeByte(s[0]) + Escape(s[1..])
  }

  /** Escaping works piece by piece. */
  lemma {:induction false} EscapeAppend(a: seq<Byte>, b: seq<Byte>)
    ensures Escape(a + b) == Escape(a) + Escape(b)
  {
    if a == [] {
      assert a + b == b;
    } else {
      var h := EscapeByte(a[0]);
      assert Escape(a + b) == h + Escape(a[1..] + b) by {
        assert (a + b)[0] == a[0];
        assert (a + b)[1..] == a[1..] + b;
      }
      assert Escape(a[1..] + b) == Escape(a[1..]) + Escape(b) by {
        EscapeAppend(a[1..], b);
      }
    }
  }

  /** Escaping one more byte appends that byte's escape. */
  lemma EscapeSnoc(s: seq<Byte>, c: Byte)
    ensures Escape(s + [c]) == Escape(s) + EscapeByte(c)
  {
    EscapeAppend(s, [c]);
    assert Escape([c]) == EscapeByte(c) + Escape([]);
  }

  /** The quoted literal; a NULL value is written as `""`. */
  function Quote(value: Option<seq<Byte>>): seq<Byte> {
    [QUOTE] + Escape(TextOf(value)) + [QUOTE]
  }

  /** The bytes of a possibly NULL C string; NULL has none. */
  function TextOf(value: Option<seq<Byte>>): seq<Byte> {
    if value.Some? then value.value else []
  }

  /** The four hex digits after `\u`, as a byte value when below 256. */
  function Hex4(e: seq<Byte>): Option<Byte>
    requires |e| >= 4
  {
    var a, b, c, d := HexValue(e[0]), HexValue(e[1]), HexValue(e[2]), HexValue(e[3]);
    if a.None? || b.None? || c.None? || d.None? then None
    else
      var v := ((a.value * 16 + b.value) * 16 + c.value) * 16 + d.value;
      if v < 256 then Some(v) else None
  }

  /** Reads the body of a JSON string literal up to its closing quote
      (section 7 of RFC 8259): the decoded bytes and what follows the
      quote. None when the literal is unterminated, holds a raw control
      byte, or has an escape the grammar does not allow (a `\u` escape of a
      value above 0xFF is outside this byte-level reader). */
  function ReadBody(e: seq<Byte>): Option<(seq<Byte>, seq<Byte>)>
    decreases |e|
  {
    if e == [] then None
    else if e[0] == QUOTE then Some(([], e[1..]))
    else if e[0] < 32 then None
    else if e[0] != BACKSLASH then
      var r := ReadBody(e[1..]);
      if r.None? then None else Some(([e[0]] + r.value.0, r.value.1))
    else if |e| < 2 then None
    else
      var esc := e[1];
      var decoded: Option<(Byte, nat)> :=
        if ShortUnescape(esc).Some? then Some((ShortUnescape(esc).value, 2))
        else if esc == 117 && |e| >= 6 && Hex4(e[2..6]).Some? then Some((Hex4(e[2..6]).value, 6))
        else None;
      if decoded.None? then None
      else
        var r := ReadBody(e[decoded.value.1..]);
        if r.None? then None else Some(([decoded.value.0] + r.value.0, r.value.1))
  }

  /** The byte a two-character escape `\x` stands for, for the eight
      letters the grammar allows after the backslash other than `u`. */
  function ShortUnescape(x: Byte): Option<Byte> {
    if x == QUOTE || x == BACKSLASH || x == 47 then Some(x)
    else if x == 98 then Some(8)
    else if x == 102 then Some(12)
    else if x == 110 then Some(10)
    else if x == 114 then Some(13)
    else if x == 116 then Some(9)
    else None
  }

  /** Reads one string literal: an opening quote, then the body. */
  function ReadString(e: seq<Byte>): Option<(seq<Byte>, seq<Byte>)> {
    if e != [] && e[0] == QUOTE then ReadBody(e[1..]) else None
  }

  /** The reader decodes one escaped byte and continues after it. */
  lemma ReadEscapedByte(c: Byte, rest: seq<Byte>)
    ensures ReadBody(EscapeByte(c) + rest) ==
      (if ReadBody(rest).None? then None else Some(([c] + ReadBody(rest).value.0, ReadBody(rest).value.1)))
  {
    if ShortEscape(c).Some? {
      ReadNamedEscape(c, rest);
    } else if c < 32 {
      ReadUnicodeEscape(c, rest);
    } else {
      assert (EscapeByte(c) + rest)[1..] == rest;
    }
  }

  lemma ReadNamedEscape(c: Byte, rest: seq<Byte>)
    requires ShortEscape(c).Some?
    ensures ReadBody(EscapeByte(c) + rest) ==
      (if ReadBody(rest).None? then None else Some(([c] + ReadBody(rest).value.0, ReadBody(rest).value.1)))
  {
    var x := ShortEscape(c).value;
    assert ShortUnescape(x) == Some(c);
    var e := [BACKSLASH, x] + rest;
    assert EscapeByte(c) + rest == e;
    assert e[0] == BACKSLASH && e[1] == x && e[2..] == rest;
  }

  lemma ReadUnicodeEscape(c: Byte, rest: seq<Byte>)
    requires c < 32 && ShortEscape(c).None?
    ensures ReadBody(EscapeByte(c) + rest) ==
      (if ReadBody(rest).None? then None else Some(([c] + ReadBody(rest).value.0, ReadBody(rest).value.1)))
  {
    var e := UnicodeEscape(c) + rest;
    assert EscapeByte(c) == UnicodeEscape(c);
    var low := if c < 16 then c else c - 16;
    HexRoundTrip(low);
    assert e[2..6] == [48, 48, if c < 16 then 48 else 49, HexDigit(low)];
    assert Hex4(e[2..6]) == Some(c);
    assert e[6..] == rest;
    assert e[0] == BACKSLASH && e[1] == 117 && ShortUnescape(117).None?;
    var r := ReadBody(rest);
    assert ReadBody(e) == if r.None? then None else Some(([c] + r.value.0, r.value.1));
  }

  /** Every string round-trips: the reader recovers the value from the
      writer's literal and stops right after its closing quote. */
  lemma {:induction false} ReadEscape(s: seq<Byte>, rest: seq<Byte>)
    ensures ReadBody(Escape(s) + [QUOTE] + rest) == Some((s, rest))
  {
    if s == [] {
      assert Escape(s) + [QUOTE] + rest == [QUOTE] + rest;
    } else {
      ReadEscape(s[1..], rest);
      assert Escape(s) + [QUOTE] + rest == EscapeByte(s[0]) + (Escape(s[1..]) + [QUOTE] + rest);
      ReadEscapedByte(s[0], Escape(s[1..]) + [QUOTE] + rest);
      assert [s[0]] + s[1..] == s;
    }
  }

  /** Bytes that are printable and neither a quote nor a backslash are
      written as they are. */
  lemma {:induction false} EscapePlain(s: seq<Byte>)
    requires forall i :: 0 <= i < |s| ==> 32 <= s[i] && s[i] != QUOTE && s[i] != BACKSLASH
    ensures Escape(s) == s
  {
    if s != [] {
      EscapePlain(s[1..]);
      assert EscapeByte(s[0]) == [s[0]];
    }
  }

  /** A quoted value reads back as the value (NULL as the empty string),
      whatever follows it. */
  lemma QuoteRoundTrip(value: Option<seq<Byte>>, rest: seq<Byte>)
    ensures ReadString(Quote(value) + rest) == Some((TextOf(value), rest))
  {
    var s := TextOf(value);
    var q := Quote(value) + rest;
    assert q == [QUOTE] + (Escape(s) + [QUOTE] + rest);
    ReadEscape(s, rest);
  }

  /** The literal has no raw control byte, as section 7 of RFC 8259
      requires. */
  lemma {:induction false} EscapeHasNoControl(s: seq<Byte>)
    ensures forall i :: 0 <= i < |Escape(s)| ==> Escape(s)[i] >= 32
  {
    if s != [] {
      EscapeHasNoControl(s[1..]);
      var h := EscapeByte(s[0]);
      assert forall i :: 0 <= i < |h| ==> h[i] >= 32;
      assert forall i :: |h| <= i < |Escape(s)| ==> Escape(s)[i] == Escape(s[1..])[i - |h|];
    }
  }
}

=== FILE: lora_c.dfy ===
/** The C node's radio sender (rocket_c/src/lora_transport.c): a readiness
    flag set by `lora_init_tx`, and `lora_send_json`, which cuts a JSON text
    into frames built byte by byte in a heap buffer. Whether loralib is
    compiled in, what `loralib_init`/`loralib_send` return and whether
    `malloc` succeeds are inputs. */
module LoraC {
  import opened Common
  import FrameCodec

  /** The bytes of the fixed topic "sensors" (7 bytes, under the 15 cap). */
  const SENSORS: seq<Byte> := [115, 101, 110, 115, 111, 114, 115]

  /** The C topic bytes are the ones the Python node puts on the wire. */
  lemma SensorsTopic()
    ensures SENSORS == FrameCodec.TopicBytes(FrameCodec.DEFAULT_TOPIC)
  {
    assert FrameCodec.AsciiBytes("s") == [115];
    assert FrameCodec.AsciiBytes("rs") == [114] + FrameCodec.AsciiBytes("s");
    assert FrameCodec.AsciiBytes("ors") == [111] + FrameCodec.AsciiBytes("rs");
    assert FrameCodec.AsciiBytes("sors") == [115] + FrameCodec.AsciiBytes("ors");
    assert FrameCodec.AsciiBytes("nsors") == [110] + FrameCodec.AsciiBytes("sors");
    assert FrameCodec.AsciiBytes("ensors") == [101] + FrameCodec.AsciiBytes("nsors");
    assert FrameCodec.AsciiBytes("sensors") == [115] + FrameCodec.AsciiBytes("ensors");
  }

  /** What happened to the frame of one loop iteration: whether `malloc`
      returned a buffer, and what `loralib_send` returned for it. */
  datatype FrameAttempt = FrameAttempt(gotBuffer: bool, rc: int)

  /** The iteration stops the loop: no buffer, or a send refused by loralib
      (without loralib every send counts as done). */
  predicate Fails(a: FrameAttempt, hasLoralib: bool) {
    !a.gotBuffer || (hasLoralib && a.rc != 0)
  }

  /** The first iteration in `[from, total)` that stops the loop, or `total`. */
  function FirstFailure(attempt: nat -> FrameAttempt, hasLoralib: bool, from: nat, total: nat): (k: nat)
    ensures from <= total ==> from <= k <= total
    ensures k < total ==> Fails(attempt(k), hasLoralib)
    ensures forall j :: from <= j < k && j < total ==> !Fails(attempt(j), hasLoralib)
    decreases total - from
  {
    if from >= total then total
    else if Fails(attempt(from), hasLoralib) then from
    else FirstFailure(attempt, hasLoralib, from + 1, total)
  }

  /** The first stopping iteration is `k` when none before it stops and
      `k` does (or `k` is the end). */
  lemma {:induction false} FirstFailureAt(attempt: nat -> FrameAttempt, hasLoralib: bool, from: nat, k: nat, total: nat)
    requires from <= k <= total
    requires forall j :: from <= j < k ==> !Fails(attempt(j), hasLoralib)
    requires k < total ==> Fails(attempt(k), hasLoralib)
    ensures FirstFailure(attempt, hasLoralib, from, total) == k
    decreases k - from
  {
    if from < k {
      FirstFailureAt(attempt, hasLoralib, from + 1, k, total);
    }
  }

  class Radio {
    const hasLoralib: bool
    var ready: bool

    constructor(hasLoralib: bool)
      ensures this.hasLoralib == hasLoralib && !ready
    {
      this.hasLoralib := hasLoralib;
      ready := false;
    }

    /** `lora_init_tx` (lora_transport.c:38-48): ready exactly when
        `loralib_init` returned 0; the stub without loralib returns -1. */
    method InitTx(rc: int) returns (ok: bool)
      modifies this
      ensures ready == (hasLoralib && rc == 0) && ok == ready
    {
      var code := if hasLoralib then rc else -1;
      ready := code == 0;
      ok := ready;
    }

    /** `lora_is_ready` (lora_transport.c:50-52). */
    function IsReady(): (r: bool)
      reads this
      ensures r <==> ready
    {
      ready
    }

    /** `lora_send_json` (lora_transport.c:73-129). `payload` is None for
        NULL, and otherwise the bytes before the C string's NUL (so no 0
        byte is meant to occur in it). `sent` lists, in order, the frames passed to
        `send_frame`: the prefix of `CFrameSeq` up to the first iteration
        that stops the loop, including that iteration's frame when its
        buffer was allocated. The result is true when every frame went out,
        and also when the radio is not ready (nothing is sent). */
    method SendJson(payload: Option<seq<Byte>>, attempt: nat -> FrameAttempt)
      returns (ok: bool, sent: seq<seq<Byte>>)
      ensures payload.None? ==> !ok && sent == []
      ensures payload.Some? && !ready ==> ok && sent == []
      ensures payload.Some? && ready ==>
        var frames := FrameCodec.CFrameSeq(payload.value);
        var k := FirstFailure(attempt, hasLoralib, 0, |frames|);
        && ok == (k == |frames|)
        && sent == frames[..k] + (if k < |frames| && attempt(k).gotBuffer then [frames[k]] else [])
    {
      sent := [];
      if payload.None? {
        return false, sent;
      }
      var p := payload.value;
      if !ready {
        return true, sent;
      }
      var headFixed, room, total := FrameGeometry(|p|);
      ok, sent := SendFrames(p, headFixed, room, total, attempt, hasLoralib);
      FramesOf(p);
      ghost var frames := FrameCodec.CFrameSeq(p);
      ghost var k := FirstFailure(attempt, hasLoralib, 0, total);
      assert sent == frames[..k] + (if k < |frames| && attempt(k).gotBuffer then [frames[k]] else []);
    }
  }

  /** Header size, chunk room and frame count of `lora_send_json`
      (lora_transport.c:89-98): 11 header bytes for the 7-byte topic, 189
      payload bytes per frame, at least one frame. */
  method FrameGeometry(len: nat) returns (headFixed: nat, room: nat, total: nat)
    ensures headFixed == 4 + |SENSORS| && room == 189 && total == FrameCodec.CTotal(len, 189)
  {
    var topicLen := |SENSORS|;
    headFixed := 1 + 1 + topicLen + 1 + 1;
    var r: int := if FrameCodec.LORA_MAX_BYTES > headFixed then FrameCodec.LORA_MAX_BYTES - headFixed else 1;
    if r == 0 {
      r := 1;
    }
    room := r;
    var t: int := (len + room - 1) / room;
    if t == 0 {
      t := 1;
    }
    total := t;
  }

  /** Frame `idx` as the loop body of `lora_send_json` builds it. */
  function FrameOf(p: seq<Byte>, idx: nat): seq<Byte> {
    var start := idx * 189;
    var chunk := if start >= |p| then [] else p[start .. Min(|p|, start + 189)];
    FrameCodec.EncodeFrame(SENSORS, (idx + 1) % 256, FrameCodec.CTotal(|p|, 189) % 256, chunk)
  }

  /** The loop's frames are the codec twin's frames. */
  lemma FramesOf(p: seq<Byte>)
    ensures |FrameCodec.CFrameSeq(p)| == FrameCodec.CTotal(|p|, 189)
    ensures forall idx :: 0 <= idx < FrameCodec.CTotal(|p|, 189) ==> FrameCodec.CFrameSeq(p)[idx] == FrameOf(p, idx)
  {
    SensorsTopic();
  }

  /** The loop of `lora_send_json` (lora_transport.c:100-128). */
  method SendFrames(p: seq<Byte>, headFixed: nat, room: nat, total: nat, attempt: nat -> FrameAttempt,
                    hasLoralib: bool)
    returns (ok: bool, sent: seq<seq<Byte>>)
    requires headFixed == 4 + |SENSORS| && room == 189 && total == FrameCodec.CTotal(|p|, 189)
    ensures var k := FirstFailure(attempt, hasLoralib, 0, total);
      && ok == (k == total)
      && |sent| == (if k < total && attempt(k).gotBuffer then k + 1 else k)
      && forall j :: 0 <= j < |sent| ==> sent[j] == FrameOf(p, j)
  {
    sent := [];
    for idx := 0 to total
      invariant |sent| == idx
      invariant forall j :: 0 <= j < idx ==> sent[j] == FrameOf(p, j)
      invariant forall j :: 0 <= j < idx ==> !Fails(attempt(j), hasLoralib)
    {
      var start := idx * room;
      var remaining := if |p| > start then |p| - start else 0;
      var chunkLen := if remaining > room then room else remaining;
      var a := attempt(idx);
      if !a.gotBuffer {
        FirstFailureAt(attempt, hasLoralib, 0, idx, total);
        return false, sent;
      }
      var frame := new Byte[headFixed + chunkLen];
      FillFrame(frame, p, idx, total, start, chunkLen);
      assert frame[..] == FrameOf(p, idx);
      sent := sent + [frame[..]];
      var delivered := !hasLoralib || a.rc == 0;
      if !delivered {
        FirstFailureAt(attempt, hasLoralib, 0, idx, total);
        return false, sent;
      }
    }
    FirstFailureAt(attempt, hasLoralib, 0, total, total);
    ok := true;
  }

  /** The buffer filling of one loop iteration (lora_transport.c:111-117):
      tag, topic length, topic, index and total (each kept to 8 bits), then
      `chunkLen` payload bytes from `start`. */
  method FillFrame(frame: array<Byte>, p: seq<Byte>, idx: nat, total: nat, start: nat, chunkLen: nat)
    requires frame.Length == 4 + |SENSORS| + chunkLen
    requires start + chunkLen <= |p| || chunkLen == 0
    modifies frame
    ensures frame[..] == FrameCodec.EncodeFrame(SENSORS, (idx + 1) % 256, total % 256,
                                                if chunkLen == 0 then [] else p[start .. start + chunkLen])
  {
    ghost var chunk := if chunkLen == 0 then [] else p[start .. start + chunkLen];
    ghost var want := FrameCodec.EncodeFrame(SENSORS, (idx + 1) % 256, total % 256, chunk);
    assert |want| == frame.Length;
    var pos := 0;
    frame[pos] := FrameCodec.TAG;
    pos := pos + 1;
    frame[pos] := |SENSORS|;
    pos := pos + 1;
    for j := 0 to |SENSORS|
      invariant forall i :: 0 <= i < 2 + j ==> frame[i] == want[i]
    {
      frame[pos + j] := SENSORS[j];
    }
    pos := pos + |SENSORS|;
    frame[pos] := (idx + 1) % 256;
    pos := pos + 1;
    frame[pos] := total % 256;
    pos := pos + 1;
    if chunkLen > 0 {
      for j := 0 to chunkLen
        invariant forall i :: 0 <= i < pos + j ==> frame[i] == want[i]
      {
        assert want[pos + j] == chunk[j];
        frame[pos + j] := p[start + j];
      }
    }
    assert frame[..] == want;
  }
}

=== FILE: lora_config.dfy ===
/** Normalisation of the radio configuration of the Python node
    (`_load_config`, lora_transport.py:47-126). Reading and decoding the
    file is an input: the outcome is either that no usable object was
    read, or the decoded top-level JSON object. Python's `int(str)` and
    `float(str)` on text values are function parameters. */
module LoraConfig {
  import opened Common

  datatype Mode = Tx | Rx

  /** A JSON value as `json.load` returns it; `JOther` is a list or an
      object, which `int()` and `float()` reject with TypeError. */
  datatype JValue = JStr(s: string) | JInt(i: int) | JReal(r: real) | JBool(b: bool) | JNull | JOther

  /** What reading the file gave: a missing or unreadable file, malformed
      JSON, or a top-level value that is not an object, is `NoObject`. */
  datatype RawConfig = NoObject | Object(entries: map<string, JValue>)

  datatype Config = Config(mode: Mode, frequencyHz: int, spreadFactor: int, pollInterval: real, frameTimeout: real)

  const DEFAULT_FREQUENCY: int := 433_000_000
  const DEFAULT_SF: int := 7
  const DEFAULT_POLL: real := 0.05
  const DEFAULT_TIMEOUT: real := 2.0

  /** `_DEFAULT_CONFIG` (lora_transport.py:50-56). */
  const DEFAULTS: Config := Config(Tx, DEFAULT_FREQUENCY, DEFAULT_SF, DEFAULT_POLL, DEFAULT_TIMEOUT)

  /** Python's `int()` on a finite float: truncation toward zero. */
  function Truncate(r: real): (t: int)
    ensures r >= 0.0 ==> t as real <= r < t as real + 1.0
    ensures r < 0.0 ==> t as real - 1.0 < r <= t as real
  {
    if r >= 0.0 then r.Floor else -((-r).Floor)
  }

  /** `_coerce_int` (lora_transport.py:61-65): `int(value)`, or the default
      when it raises TypeError or ValueError. */
  function CoerceInt(v: JValue, default: int, parseInt: string -> Option<int>): int {
    match v
    case JStr(s) => if parseInt(s).Some? then parseInt(s).value else default
    case JInt(i) => i
    case JReal(r) => Truncate(r)
    case JBool(b) => if b then 1 else 0
    case JNull => default
    case JOther => default
  }

  /** `_coerce_float` (lora_transport.py:68-72). */
  function CoerceFloat(v: JValue, default: real, parseFloat: string -> Option<real>): real {
    match v
    case JStr(s) => if parseFloat(s).Some? then parseFloat(s).value else default
    case JInt(i) => i as real
    case JReal(r) => r
    case JBool(b) => if b then 1.0 else 0.0
    case JNull => default
    case JOther => default
  }

  /** The mode rule (lora_transport.py:95-104): a text value, stripped and
      lower-cased, must read "tx" or "rx"; anything else means TX. */
  function NormaliseMode(v: JValue): Mode {
    if v.JStr? && Lower(Strip(v.s)) == "rx" then Rx else Tx
  }

  /** The two accepted spellings read back as their modes. */
  lemma ModeTexts()
    ensures NormaliseMode(JStr("rx")) == Rx && NormaliseMode(JStr("tx")) == Tx
  {
    CleanText("rx");
    CleanText("tx");
  }

  lemma CleanText(s: string)
    requires s == "rx" || s == "tx"
    ensures Lower(Strip(s)) == s
  {
    assert s[0] in "rt" && s[1] == 'x';
    StripClean(s);
    var l := Lower(s);
    assert l[0] == s[0] && l[1] == s[1];
  }

  /** The value a key takes after the file's entries are copied over the
      defaults (lora_transport.py:92-94). */
  function Entry(entries: map<string, JValue>, key: string, default: JValue): JValue {
    if key in entries then entries[key] else default
  }

  function Positive(f: int): int {
    if f <= 0 then DEFAULT_FREQUENCY else f
  }

  function ValidSf(sf: int): int {
    if 7 <= sf <= 12 then sf else DEFAULT_SF
  }

  /** `_load_config` after the file is read (lora_transport.py:76-125). */
  function Normalise(raw: RawConfig, parseInt: string -> Option<int>, parseFloat: string -> Option<real>): (c: Config)
    ensures raw.NoObject? ==> c == DEFAULTS
    ensures ConfigOk(c)
  {
    match raw
    case NoObject => DEFAULTS
    case Object(e) =>
      Config(
        NormaliseMode(Entry(e, "mode", JStr("tx"))),
        Positive(CoerceInt(Entry(e, "frequency_hz", JInt(DEFAULT_FREQUENCY)), DEFAULT_FREQUENCY, parseInt)),
        ValidSf(CoerceInt(Entry(e, "spread_factor", JInt(DEFAULT_SF)), DEFAULT_SF, parseInt)),
        Max(0.0, CoerceFloat(Entry(e, "poll_interval", JReal(DEFAULT_POLL)), DEFAULT_POLL, parseFloat)),
        Max(0.1, CoerceFloat(Entry(e, "frame_timeout", JReal(DEFAULT_TIMEOUT)), DEFAULT_TIMEOUT, parseFloat)))
  }

  function Max(a: real, b: real): real { if a >= b then a else b }

  /** What every normalised configuration satisfies. */
  predicate ConfigOk(c: Config) {
    && c.frequencyHz > 0
    && 7 <= c.spreadFactor <= 12
    && c.pollInterval >= 0.0
    && c.frameTimeout >= 0.1
  }

  /** The frequency keeps a positive integer from the file; an absent
      key or a value that is not positive gives 433 MHz. */
  lemma NormaliseFrequency(e: map<string, JValue>, parseInt: string -> Option<int>, parseFloat: string -> Option<real>)
    ensures var c := Normalise(Object(e), parseInt, parseFloat);
      && ("frequency_hz" !in e ==> c.frequencyHz == DEFAULT_FREQUENCY)
      && ("frequency_hz" in e && e["frequency_hz"].JInt? ==>
            c.frequencyHz == if e["frequency_hz"].i > 0 then e["frequency_hz"].i else DEFAULT_FREQUENCY)
  {
  }

  /** The spreading factor keeps an integer in 7..12 from the file, else 7. */
  lemma NormaliseSpreadFactor(e: map<string, JValue>, parseInt: string -> Option<int>, parseFloat: string -> Option<real>)
    ensures var c := Normalise(Object(e), parseInt, parseFloat);
      && ("spread_factor" !in e ==> c.spreadFactor == DEFAULT_SF)
      && ("spread_factor" in e && e["spread_factor"].JInt? ==>
            c.spreadFactor == if 7 <= e["spread_factor"].i <= 12 then e["spread_factor"].i else DEFAULT_SF)
  {
  }

  /** The poll interval is clamped below at 0, the frame timeout at 0.1. */
  lemma NormaliseIntervals(e: map<string, JValue>, parseInt: string -> Option<int>, parseFloat: string -> Option<real>)
    ensures var c := Normalise(Object(e), parseInt, parseFloat);
      && ("poll_interval" !in e ==> c.pollInterval == DEFAULT_POLL)
      && ("frame_timeout" !in e ==> c.frameTimeout == DEFAULT_TIMEOUT)
      && ("poll_interval" in e && e["poll_interval"].JReal? ==>
            c.pollInterval == if e["poll_interval"].r >= 0.0 then e["poll_interval"].r else 0.0)
      && ("frame_timeout" in e && e["frame_timeout"].JReal? ==>
            c.frameTimeout == if e["frame_timeout"].r >= 0.1 then e["frame_timeout"].r else 0.1)
  {
  }

  /** An empty object gives the defaults, as a missing file does. */
  lemma NormaliseEmpty(parseInt: string -> Option<int>, parseFloat: string -> Option<real>)
    ensures Normalise(Object(map[]), parseInt, parseFloat) == Normalise(NoObject, parseInt, parseFloat)
  {
    var c := Normalise(Object(map[]), parseInt, parseFloat);
    assert c.mode == Tx by {
      ModeTexts();
    }
    assert c.frequencyHz == DEFAULT_FREQUENCY && c.spreadFactor == DEFAULT_SF;
  }

  /** The configuration written back as a JSON object. */
  function Encode(c: Config): map<string, JValue> {
    map["mode" := JStr(if c.mode == Rx then "rx" else "tx"),
        "frequency_hz" := JInt(c.frequencyHz),
        "spread_factor" := JInt(c.spreadFactor),
        "poll_interval" := JReal(c.pollInterval),
        "frame_timeout" := JReal(c.frameTimeout)]
  }

  /** Normalisation is idempotent: a normalised configuration written back
      to the file is read unchanged, whatever the text parsers do. */
  lemma NormaliseEncode(c: Config, parseInt: string -> Option<int>, parseFloat: string -> Option<real>)
    requires ConfigOk(c)
    ensures Normalise(Object(Encode(c)), parseInt, parseFloat) == c
  {
    var r := Normalise(Object(Encode(c)), parseInt, parseFloat);
    EncodeEntries(c);
    assert r.mode == c.mode by {
      ModeTexts();
    }
    assert r.frequencyHz == c.frequencyHz && r.spreadFactor == c.spreadFactor;
  }

  lemma EncodeEntries(c: Config)
    ensures var e := Encode(c);
      && Entry(e, "mode", JStr("tx")) == JStr(if c.mode == Rx then "rx" else "tx")
      && Entry(e, "frequency_hz", JInt(DEFAULT_FREQUENCY)) == JInt(c.frequencyHz)
      && Entry(e, "spread_factor", JInt(DEFAULT_SF)) == JInt(c.spreadFactor)
      && Entry(e, "poll_interval", JReal(DEFAULT_POLL)) == JReal(c.pollInterval)
      && Entry(e, "frame_timeout", JReal(DEFAULT_TIMEOUT)) == JReal(c.frameTimeout)
  {
  }
}

=== FILE: lora_link.dfy ===
/** The radio link state of the Python node (lora_transport.py): the
    module-level flags `_LORA_MODE`, `_LORA_READY`, `_LORA_INIT_ERROR`,
    `_LORA_LINK_FAILURE` and the three `_WARNED_*` flags, the frame
    assembler, and the operations that read and rewrite them. What
    `loralib.init`, `loralib.send` and `loralib.recv` do is an input of each
    operation; JSON decoding of a reassembled body is a function parameter. */
module LoraLink {
  import opened Common
  import FrameCodec
  import Reassembly
  import opened LoraConfig

  /** A value `loralib.init` may return, as `_ensure_init_success` sees it.
      `PyText` stands for any other object, given by its `str()`. */
  datatype PyValue = PyNone | PyInt(i: int) | PyBool(b: bool) | PyText(text: string)

  /** What one call of `loralib.init` did. */
  datatype InitOutcome = Returned(value: PyValue) | Raised(message: string)

  /** The text stored in `_LORA_INIT_ERROR`, by origin. */
  datatype Reason =
    | LibMissing(importError: Option<string>)   // loralib could not be imported
    | NoResponse                                 // init returned 3
    | CodeRejected(value: PyValue)               // "loralib.init retornó código {result}"
    | Message(text: string)                      // str() of any other exception

  /** `_ensure_init_success` (lora_transport.py:184-197): None when the value
      counts as success, else the error it raises. Since `bool` is a
      subclass of `int`, `False` is accepted as code 0 and `True` is
      rejected as a non-zero code; the `bool` branch is never reached. */
  function EnsureInitSuccess(v: PyValue): (r: Option<Reason>)
    ensures r.None? <==>
      v == PyNone || v == PyInt(0) || v == PyBool(false)
      || (v.PyText? && forall i :: 0 <= i < |v.text| ==> IsSpace(v.text[i]))
    ensures r.Some? && v.PyText? ==> r.value.Message? && r.value.text == Strip(v.text)
    ensures r.Some? && !v.PyText? ==> r == Some(CodeRejected(v))
  {
    match v
    case PyNone => None
    case PyInt(i) => if i == 0 then None else Some(CodeRejected(v))
    case PyBool(b) => if !b then None else Some(CodeRejected(v))
    case PyText(t) =>
      var m := Strip(t);
      if m != "" then Some(Message(m)) else None
  }

  /** `result == 3`: only the integer 3 compares equal (True is 1). */
  predicate IsNoResponse(v: PyValue) {
    v == PyInt(3)
  }

  /** Why `send_to_lora` returned, in the order of its checks. */
  datatype SendGate = SkippedRxMode | SkippedNoLib | SkippedLinkFailure | SkippedNotReady | Sent | SendRaised

  /** What one call of `loralib.recv` did. */
  datatype RecvOutcome =
    | RecvRaised
    | Received(buffer: seq<Byte>, length: int, lastRssi: int, rssi: int, snr: real, error: int)

  datatype Metadata = Metadata(lastRssi: int, rssi: int, snr: real, frameIndex: int, frameTotal: int)

  datatype Packet<J> = Packet(topic: string, payload: J, metadata: Metadata)

  /** `buffer[:length]` for a positive length. */
  function Prefix(buffer: seq<Byte>, length: int): (r: seq<Byte>)
    requires length > 0
    ensures |r| == Min(length, |buffer|) && r == buffer[..|r|]
  {
    if length <= |buffer| then buffer[..length] else buffer
  }

  class Link {
    const libAvailable: bool
    const hasRecv: bool
    const importError: Option<string>
    const config: Config
    const assembler: Reassembly.FrameAssembler
    var mode: Mode
    var ready: bool
    var initError: Option<Reason>
    var linkFailure: bool
    var warnedTx: bool
    var warnedRx: bool
    var warnedRecv: bool

    /** The radio is never ready while the link is marked failed or an
        init error is recorded. */
    ghost predicate Valid()
      reads this, assembler
    {
      && assembler.Valid()
      && (ready ==> !linkFailure && initError.None?)
      && (hasRecv ==> libAvailable)
    }

    /** Module import (lora_transport.py:28-44, 128-143, 181): the mode and
        frame timeout come from the normalised configuration; not ready, no
        error, no failure, nothing warned; `_HAS_RECV` needs loralib. */
    constructor(config: Config, libAvailable: bool, recvAttribute: bool, importError: Option<string>)
      ensures Valid() && fresh(assembler) && this.config == config
      ensures mode == config.mode && !ready && initError.None? && !linkFailure
      ensures !warnedTx && !warnedRx && !warnedRecv
      ensures this.libAvailable == libAvailable && hasRecv == (libAvailable && recvAttribute)
      ensures assembler.pending == map[]
    {
      this.libAvailable := libAvailable;
      this.hasRecv := libAvailable && recvAttribute;
      this.importError := importError;
      this.config := config;
      mode := config.mode;
      ready := false;
      initError := None;
      linkFailure := false;
      warnedTx := false;
      warnedRx := false;
      warnedRecv := false;
      assembler := new Reassembly.FrameAssembler(config.frameTimeout);
    }

    /** `lora_init_tx` (target Tx) and `lora_init_rx` (target Rx)
        (lora_transport.py:200-209, 212-281): without loralib the radio is
        not ready; a 3 marks the link failed; success clears the failure,
        sets the mode and readiness; any other outcome records the error. */
    method Init(target: Mode, outcome: InitOutcome)
      requires Valid()
      modifies this
      ensures Valid()
      ensures !libAvailable ==>
        && !ready && initError == Some(LibMissing(importError))
        && mode == old(mode) && linkFailure == old(linkFailure)
        && warnedTx == old(warnedTx) && warnedRx == old(warnedRx)
      ensures libAvailable && outcome.Returned? && IsNoResponse(outcome.value) ==>
        && !ready && linkFailure && initError == Some(NoResponse) && !warnedTx
        && mode == old(mode) && warnedRx == old(warnedRx)
      ensures libAvailable && outcome.Raised? ==>
        && !ready && initError == Some(Message(outcome.message))
        && mode == old(mode) && linkFailure == old(linkFailure)
        && warnedTx == old(warnedTx) && warnedRx == old(warnedRx)
      ensures libAvailable && outcome.Returned? && !IsNoResponse(outcome.value)
              && EnsureInitSuccess(outcome.value).Some? ==>
        && !ready && initError == EnsureInitSuccess(outcome.value)
        && mode == old(mode) && linkFailure == old(linkFailure)
        && warnedTx == old(warnedTx) && warnedRx == old(warnedRx)
      ensures libAvailable && outcome.Returned? && !IsNoResponse(outcome.value)
              && EnsureInitSuccess(outcome.value).None? ==>
        && ready && mode == target && initError.None? && !linkFailure && !warnedTx && !warnedRx
      ensures warnedRecv == old(warnedRecv)
    {
      if !libAvailable {
        ready := false;
        initError := Some(LibMissing(importError));
        return;
      }
      match outcome {
        case Raised(message) =>
          ready := false;
          initError := Some(Message(message));
        case Returned(result) =>
          if IsNoResponse(result) {
            // _mark_link_failure
            ready := false;
            linkFailure := true;
            initError := Some(NoResponse);
            warnedTx := false;
            return;
          }
          var failure := EnsureInitSuccess(result);
          if failure.Some? {
            ready := false;
            initError := failure;
            return;
          }
          // _clear_link_failure
          linkFailure := false;
          warnedTx := false;
          mode := target;
          ready := true;
          initError := None;
          warnedRx := false;
      }
    }

    /** `configure_from_config` (lora_transport.py:284-289): initialise in
        the configured mode and report the mode in force afterwards, which
        is the configured one on success and the previous one otherwise. */
    method Configure(outcome: InitOutcome) returns (current: Mode)
      requires Valid()
      modifies this
      ensures Valid() && current == mode
      ensures ready ==> current == config.mode
      ensures !ready ==> current == old(mode)
    {
      Init(config.mode, outcome);
      current := mode;
    }

    /** `record_init_error` (lora_transport.py:304-308). */
    method RecordInitError(reason: string)
      requires Valid()
      modifies this
      ensures Valid()
      ensures !ready && initError == Some(Message(reason)) && !linkFailure
      ensures mode == old(mode) && warnedTx == old(warnedTx) && warnedRx == old(warnedRx)
      ensures warnedRecv == old(warnedRecv)
    {
      ready := false;
      initError := Some(Message(reason));
      linkFailure := false;
    }

    /** `send_to_lora` (lora_transport.py:339-371) on an encoded body. The
        k-th call of `loralib.send` (from 0) raises when `raisesAt == Some(k)`.
        `attempted` lists the frames handed to `loralib.send`; `warned` says
        whether the link-failure error was logged. */
    method SendToLora(body: seq<Byte>, raisesAt: Option<nat>)
      returns (gate: SendGate, attempted: seq<seq<Byte>>, warned: bool)
      requires Valid()
      modifies this
      ensures Valid()
      ensures mode == old(mode) && ready == old(ready) && initError == old(initError)
      ensures linkFailure == old(linkFailure) && warnedRx == old(warnedRx) && warnedRecv == old(warnedRecv)
      ensures warnedTx == (old(warnedTx) || (mode == Tx && libAvailable && linkFailure))
      ensures warned <==> gate == SkippedLinkFailure && !old(warnedTx)
      ensures gate == SkippedRxMode <==> mode != Tx
      ensures gate == SkippedNoLib <==> mode == Tx && !libAvailable
      ensures gate == SkippedLinkFailure <==> mode == Tx && libAvailable && linkFailure
      ensures gate == SkippedNotReady <==> mode == Tx && libAvailable && !linkFailure && !ready
      ensures gate !in {Sent, SendRaised} ==> attempted == []
      ensures gate in {Sent, SendRaised} ==>
        var frames := FrameCodec.FrameSeq(FrameCodec.DEFAULT_TOPIC, body, FrameCodec.LORA_MAX_BYTES);
        if raisesAt.Some? && raisesAt.value < |frames|
        then gate == SendRaised && attempted == frames[..raisesAt.value + 1]
        else gate == Sent && attempted == frames
    {
      warned := false;
      attempted := [];
      if mode != Tx {
        return SkippedRxMode, attempted, warned;
      }
      if !libAvailable {
        return SkippedNoLib, attempted, warned;
      }
      if linkFailure {
        if !warnedTx {
          warned := true;
          warnedTx := true;
        }
        return SkippedLinkFailure, attempted, warned;
      }
      if !ready {
        return SkippedNotReady, attempted, warned;
      }
      var frames := FrameCodec.MakeFrames(FrameCodec.DEFAULT_TOPIC, body, FrameCodec.LORA_MAX_BYTES);
      if |frames| == 1 {
        attempted := [frames[0]];
        if raisesAt == Some(0) {
          return SendRaised, attempted, warned;
        }
        assert attempted == frames;
        return Sent, attempted, warned;
      }
      for i := 0 to |frames|
        invariant attempted == frames[..i]
        invariant raisesAt.Some? ==> raisesAt.value >= i
      {
        attempted := attempted + [frames[i]];
        if raisesAt == Some(i) {
          return SendRaised, attempted, warned;
        }
      }
      assert attempted == frames;
      gate := Sent;
    }

    /** `poll_received_payload` (lora_transport.py:396-449): off RX mode
        it returns nothing silently; the `recv`-support and readiness gates
        each warn once; then one received frame: invalid or failed
        receptions give nothing; a valid frame is pushed after stale buckets
        are cleaned; a completed body is decoded with `parseJson` and
        returned with the last frame's metadata. */
    method PollReceived<J>(recv: RecvOutcome, now: real, parseJson: seq<Byte> -> Option<J>)
      returns (packet: Option<Packet<J>>)
      requires Valid()
      modifies this, assembler
      ensures Valid()
      ensures mode == old(mode) && ready == old(ready) && initError == old(initError)
      ensures linkFailure == old(linkFailure) && warnedTx == old(warnedTx)
      ensures assembler.timeout == old(assembler.timeout)
      ensures warnedRecv == (old(warnedRecv) || (mode == Rx && !hasRecv))
      ensures warnedRx == (old(warnedRx) || (mode == Rx && hasRecv && !ready))
      ensures var received := mode == Rx && hasRecv && ready && recv.Received? && recv.error == 0
                              && recv.length > 0;
        var parsed := if received then FrameCodec.ParseFrame(Prefix(recv.buffer, recv.length)) else None;
        if parsed.None? then
          packet.None? && assembler.pending == old(assembler.pending)
        else
          var f := parsed.value;
          var r := Reassembly.PushSpec(Reassembly.CleanupSpec(old(assembler.pending), now, assembler.timeout),
                                       f.topic, f.index, f.total, f.payload, now);
          && assembler.pending == r.0
          && (r.1.None? || parseJson(r.1.value).None? ==> packet.None?)
          && (r.1.Some? && parseJson(r.1.value).Some? ==>
               packet == Some(Packet(f.topic, parseJson(r.1.value).value,
                                     Metadata(recv.lastRssi, recv.rssi, recv.snr, f.index, f.total))))
    {
      packet := None;
      if mode != Rx {
        return;
      }
      if !hasRecv {
        if !warnedRecv {
          warnedRecv := true;
        }
        return;
      }
      if !ready {
        if !warnedRx {
          warnedRx := true;
        }
        return;
      }
      if recv.RecvRaised? {
        return;
      }
      if recv.error != 0 || recv.length <= 0 {
        return;
      }
      var frame := Prefix(recv.buffer, recv.length);
      var parsed := FrameCodec.ParseFrame(frame);
      if parsed.None? {
        return;
      }
      var f := parsed.value;
      assembler.Cleanup(now);
      var assembled := assembler.Push(f.topic, f.index, f.total, f.payload, now);
      if assembled.None? {
        return;
      }
      var decoded := parseJson(assembled.value);
      if decoded.None? {
        return;
      }
      packet := Some(Packet(f.topic, decoded.value,
                            Metadata(recv.lastRssi, recv.rssi, recv.snr, f.index, f.total)));
    }
  }

  /** Once the link-failure warning has been logged, later sends stay
      silent until an init resets the flag (lora_transport.py:349-359). */
  method WarnOnce(link: Link, body: seq<Byte>) returns (first: bool, second: bool, attempted: seq<seq<Byte>>)
    requires link.Valid() && link.mode == Tx && link.libAvailable && link.linkFailure
    modifies link
    ensures link.Valid() && link.warnedTx
    ensures first == !old(link.warnedTx) && !second && attempted == []
  {
    var g1, a1, w1 := link.SendToLora(body, None);
    var g2, a2, w2 := link.SendToLora(body, None);
    first, second, attempted := w1, w2, a1 + a2;
  }
}

=== FILE: message_queue.dfy ===
/** The C node's bounded message queue (rocket_c/src/message_queue.c): a
    ring buffer of sensor messages with `head`, `tail`, `count`,
    `capacity` and `closed`, shared by the sensor threads and the
    aggregator. The model is sequential: a wait on a condition variable
    either has ended (the caller's precondition) or, for a timed pop, has
    timed out. Messages are any value type `T` with a zero value, as
    `calloc` gives. */
module MessageQueueC {
  import opened Common

  /** `sensor_queue_create` turns a requested capacity of zero into 32. */
  const DEFAULT_CAPACITY: nat := 32

  /** One step round a ring of `n` slots from below `2 * n`. */
  function Wrap(x: nat, n: nat): nat {
    if x < n then x else x - n
  }

  /** Below twice the modulus, `%` is `Wrap`. */
  lemma ModOnce(x: nat, n: nat)
    requires 0 < n && x < 2 * n
    ensures x % n == Wrap(x, n)
  {
    if x >= n {
      assert x == (x - n) + n;
    }
  }

  /** The `count` messages of a ring buffer starting at `head`, oldest
      first. */
  function Ring<T>(buf: seq<T>, head: nat, count: nat): (r: seq<T>)
    requires head < |buf| && count <= |buf|
    ensures |r| == count
    ensures forall i :: 0 <= i < count ==> r[i] == buf[Wrap(head + i, |buf|)]
  {
    seq(count, i requires 0 <= i < count => buf[Wrap(head + i, |buf|)])
  }

  /** Writing at the tail and counting one more appends the written
      message and keeps the others. */
  lemma RingPush<T>(buf: seq<T>, head: nat, count: nat, m: T)
    requires head < |buf| && count < |buf|
    ensures Ring(buf[Wrap(head + count, |buf|) := m], head, count + 1) == Ring(buf, head, count) + [m]
  {
  }

  /** Advancing the head past one message drops the oldest. */
  lemma RingPop<T>(buf: seq<T>, head: nat, count: nat)
    requires head < |buf| && 0 < count <= |buf|
    ensures Ring(buf, Wrap(head + 1, |buf|), count - 1) == Ring(buf, head, count)[1..]
  {
  }

  /** `struct SensorQueue` without its mutex and condition variables. */
  class SensorQueue<T(0)> {
    const buffer: array<T>
    const capacity: nat
    var head: nat
    var tail: nat
    var count: nat
    var closed: bool

    /** The ring invariant: indices in range, at most `capacity`
        messages, and the tail `count` slots after the head, round the
        ring (see `TailAfterHead`). */
    ghost predicate Valid()
      reads this
    {
      && buffer.Length == capacity && 0 < capacity
      && head < capacity && tail < capacity && count <= capacity
      && tail == Wrap(head + count, capacity)
    }

    /** The queued messages, oldest first. */
    function Contents(): (c: seq<T>)
      reads this, buffer
      requires Valid()
      ensures |c| == count
    {
      Ring(buffer[..], head, count)
    }

    /** The zeroed struct `calloc` gives, with its buffer of `capacity`
        zeroed messages. */
    constructor(capacity: nat)
      requires capacity > 0
      ensures Valid() && fresh(buffer) && this.capacity == capacity
      ensures Contents() == [] && !closed && head == 0 && tail == 0
    {
      this.capacity := capacity;
      buffer := new T[capacity];
      head, tail, count, closed := 0, 0, 0, false;
    }
  }

  /** The tail is `(head + count) % capacity`, as push and pop keep it. */
  lemma TailAfterHead<T(0)>(q: SensorQueue<T>)
    requires q.Valid()
    ensures q.tail == (q.head + q.count) % q.capacity
  {
    ModOnce(q.head + q.count, q.capacity);
  }

  /** The capacity `sensor_queue_create` allocates for a request. */
  function CapacityFor(requested: nat): (c: nat)
    ensures c > 0
    ensures requested > 0 ==> c == requested
    ensures requested == 0 ==> c == DEFAULT_CAPACITY
  {
    if requested == 0 then DEFAULT_CAPACITY else requested
  }

  /** `sensor_queue_create` (message_queue.c:35-53): NULL when either
      `calloc` fails (`memory` false); otherwise an open, empty queue of
      the requested capacity, 32 for a request of zero. */
  method Create<T(0)>(requested: nat, memory: bool) returns (q: SensorQueue?<T>)
    ensures q == null <==> !memory
    ensures q != null ==> fresh(q) && fresh(q.buffer) && q.Valid()
    ensures q != null ==> q.capacity == CapacityFor(requested) && q.Contents() == [] && !q.closed
  {
    var capacity := requested;
    if capacity == 0 {
      capacity := DEFAULT_CAPACITY;
    }
    if !memory {
      return null;
    }
    q := new SensorQueue(capacity);
  }

  /** `sensor_queue_close` (message_queue.c:66-75): marks the queue closed
      and leaves its messages; closing again changes nothing. */
  method Close<T(0)>(q: SensorQueue?<T>)
    requires q != null ==> q.Valid()
    modifies q
    ensures q != null ==> q.Valid() && q.closed && q.Contents() == old(q.Contents())
    ensures q != null && old(q.closed) ==> unchanged(q)
  {
    if q == null {
      return;
    }
    q.closed := true;
  }

  /** Whether a push does not block: the queue is closed or has room. */
  predicate PushReady<T(0)>(q: SensorQueue?<T>)
    reads q
  {
    q == null || q.closed || q.count < q.capacity
  }

  /** `sensor_queue_push` (message_queue.c:77-95): false for a NULL queue
      or message and for a closed queue, which stay as they were;
      otherwise the message joins the back of the queue. A push to a full
      open queue waits for a pop; the model starts after that wait. */
  method Push<T(0)>(q: SensorQueue?<T>, message: Option<T>) returns (ok: bool)
    requires q != null ==> q.Valid()
    requires PushReady(q)
    modifies q, if q == null then {} else {q.buffer}
    ensures ok <==> q != null && message.Some? && !old(q.closed)
    ensures q != null ==> q.Valid() && q.closed == old(q.closed)
    ensures ok ==> q.Contents() == old(q.Contents()) + [message.value]
    ensures q != null && !ok ==> unchanged(q, q.buffer)
  {
    if q == null || message.None? {
      return false;
    }
    if q.closed {
      return false;
    }
    ghost var buf := q.buffer[..];
    q.buffer[q.tail] := message.value;
    RingPush(buf, q.head, q.count, message.value);
    ModOnce(q.tail + 1, q.capacity);
    q.tail := (q.tail + 1) % q.capacity;
    q.count := q.count + 1;
    ok := true;
  }

  /** Whether a pop does not wait forever: an untimed pop (negative
      timeout) on an open empty queue blocks until a push. */
  predicate PopReady<T(0)>(q: SensorQueue?<T>, timeoutSeconds: real)
    reads q
  {
    q == null || q.closed || q.count > 0 || timeoutSeconds >= 0.0
  }

  /** `sensor_queue_pop` (message_queue.c:97-132): false for a NULL queue
      or output, for a timed pop that times out on an open empty queue,
      and for a closed empty queue; otherwise the oldest message comes
      out, even from a closed queue, which pops drain. */
  method Pop<T(0)>(q: SensorQueue?<T>, hasOut: bool, timeoutSeconds: real) returns (ok: bool, out: Option<T>)
    requires q != null ==> q.Valid()
    requires PopReady(q, timeoutSeconds)
    modifies q
    ensures ok <==> q != null && hasOut && old(q.count) > 0
    ensures ok <==> out.Some?
    ensures q != null ==> q.Valid() && q.closed == old(q.closed)
    ensures ok ==> out.value == old(q.Contents())[0] && q.Contents() == old(q.Contents())[1..]
    ensures q != null && !ok ==> unchanged(q)
  {
    if q == null || !hasOut {
      return false, None;
    }
    if !q.closed && q.count == 0 {
      // the timed wait runs out: nothing else pushes in a sequential run
      return false, None;
    }
    if q.count == 0 {
      return false, None;
    }
    out := Some(q.buffer[q.head]);
    RingPop(q.buffer[..], q.head, q.count);
    ModOnce(q.head + 1, q.capacity);
    q.head := (q.head + 1) % q.capacity;
    q.count := q.count - 1;
    ok := true;
  }

  // ------------------------------------------------------------ order

  /** A call on the queue: a push of a message or a pop. */
  datatype Op<T> = PushOp(message: T) | PopOp

  /** What a sequence of calls does to the queue's messages, on their
      values: each push appends, each pop on a non-empty queue takes the
      front out. Returns the popped messages and the messages left. */
  function Run<T>(contents: seq<T>, ops: seq<Op<T>>): (r: (seq<T>, seq<T>))
    decreases |ops|
  {
    if ops == [] then ([], contents)
    else match ops[0]
      case PushOp(m) => Run(contents + [m], ops[1..])
      case PopOp =>
        if contents == [] then Run(contents, ops[1..])
        else var rest := Run(contents[1..], ops[1..]); ([contents[0]] + rest.0, rest.1)
  }

  /** The messages pushed by some calls, in call order. */
  function Pushed<T>(ops: seq<Op<T>>): seq<T>
  {
    if ops == [] then []
    else (if ops[0].PushOp? then [ops[0].message] else []) + Pushed(ops[1..])
  }

  /** First in, first out: what the pops return, followed by what is left,
      is exactly what was queued before and then pushed, in order. No
      message is lost, duplicated or reordered. */
  lemma {:induction false} FirstInFirstOut<T>(contents: seq<T>, ops: seq<Op<T>>)
    ensures Run(contents, ops).0 + Run(contents, ops).1 == contents + Pushed(ops)
    decreases |ops|
  {
    if ops != [] {
      match ops[0]
      case PushOp(m) =>
        FirstInFirstOut(contents + [m], ops[1..]);
        assert contents + [m] + Pushed(ops[1..]) == contents + Pushed(ops);
      case PopOp =>
        if contents == [] {
          FirstInFirstOut(contents, ops[1..]);
        } else {
          var rest := Run(contents[1..], ops[1..]);
          FirstInFirstOut(contents[1..], ops[1..]);
          assert Run(contents, ops) == ([contents[0]] + rest.0, rest.1);
          assert Pushed(ops) == Pushed(ops[1..]);
          assert [contents[0]] + rest.0 + rest.1 == [contents[0]] + (rest.0 + rest.1);
          assert contents == [contents[0]] + contents[1..];
        }
    }
  }
}

=== FILE: py_dict.dfy ===
/** Python's `dict` as the Python node uses it: a map that remembers the
    order in which its keys were first inserted. Assigning to an existing
    key keeps its position; a new key goes last. */
module PyDict {
  import opened Common

  /** Keys are text, as everywhere the node uses a dict. */
  datatype Dict<V> = Dict(order: seq<string>, entries: map<string, V>)

  /** The keys are listed once each, and exactly the keys have entries. */
  ghost predicate Valid<V>(d: Dict<V>) {
    && (forall i, j :: 0 <= i < j < |d.order| ==> d.order[i] != d.order[j])
    && (forall k :: k in d.entries <==> k in d.order)
  }

  function Empty<V>(): (d: Dict<V>)
    ensures Valid(d) && d.order == []
  {
    Dict([], map[])
  }

  /** `d.get(k)`. */
  function Get<V>(d: Dict<V>, k: string): Option<V> {
    if k in d.entries then Some(d.entries[k]) else None
  }

  /** `d[k] = v`. */
  function Put<V>(d: Dict<V>, k: string, v: V): (r: Dict<V>)
    ensures r.order == if k in d.entries then d.order else d.order + [k]
  {
    Dict(if k in d.entries then d.order else d.order + [k], d.entries[k := v])
  }

  /** After `d[k] = v`, `k` reads `v` and every other key reads as before;
      the dictionary stays well formed. */
  lemma PutGet<V>(d: Dict<V>, k: string, v: V)
    requires Valid(d)
    ensures Valid(Put(d, k, v))
    ensures forall k2 :: Get(Put(d, k, v), k2) == if k2 == k then Some(v) else Get(d, k2)
  {
  }

  /** A key is present exactly when it is listed. */
  lemma GetListed<V>(d: Dict<V>, k: string)
    requires Valid(d)
    ensures Get(d, k).Some? <==> k in d.order
  {
  }

  /** `{k: v for k in keys}`: the keys in first-occurrence order. */
  function FromKeys<V>(keys: seq<string>, v: V): (d: Dict<V>)
    ensures d.entries.Keys == set k | k in keys
    ensures forall k :: k in d.entries ==> d.entries[k] == v
  {
    if keys == [] then Dict([], map[])
    else Put(FromKeys(keys[..|keys| - 1], v), keys[|keys| - 1], v)
  }

  /** The comprehension keeps each key once, at its first occurrence. */
  lemma {:induction false} FromKeysOrder<V>(keys: seq<string>, v: V)
    ensures Valid(FromKeys(keys, v))
    ensures FromKeys(keys, v).order == Dedup(keys)
  {
    if keys != [] {
      var init := keys[..|keys| - 1];
      FromKeysOrder(init, v);
      DedupFacts(init);
    }
  }

  /** The first occurrence of each element, in order. */
  function Dedup(s: seq<string>): seq<string> {
    if s == [] then []
    else
      var init := Dedup(s[..|s| - 1]);
      if s[|s| - 1] in s[..|s| - 1] then init else init + [s[|s| - 1]]
  }

  lemma {:induction false} DedupFacts(s: seq<string>)
    ensures forall k :: k in Dedup(s) <==> k in s
    ensures forall i, j :: 0 <= i < j < |Dedup(s)| ==> Dedup(s)[i] != Dedup(s)[j]
  {
    if s != [] {
      var init := s[..|s| - 1];
      DedupFacts(init);
      assert s == init + [s[|s| - 1]];
    }
  }
}

=== FILE: receiver_protocol.dfy ===
/** What the two ground receivers share (receptor_arudino/serial_bridge.py
    and receptor_arudino/webpage/electron/serialManager.js): the markers
    around a payload block the receptor Arduino prints, the order in which
    a stripped line is recognised, and the port ordering both use to put
    likely Arduino ports first and pick one automatically. */
module ReceiverProtocol {
  import opened Common

  const START_MARKER: string := "===== Payload recibido ====="
  const END_MARKER: string := "============================"
  const TOPIC_PREFIX: string := "Topic:"

  /** What a stripped line is, checked in the receivers' order: empty,
      start marker, `Topic:`, JSON (`{` or `[`), end marker. */
  datatype Kind = Blank | Start | TopicLine | PayloadLine | End | Other

  function KindOf(line: string): Kind {
    if line == "" then Blank
    else if StartsWith(line, START_MARKER) then Start
    else if StartsWith(line, TOPIC_PREFIX) then TopicLine
    else if StartsWith(line, "{") || StartsWith(line, "[") then PayloadLine
    else if StartsWith(line, END_MARKER) then End
    else Other
  }

  /** The markers cannot be confused: a line that begins with the end
      marker is an end line and one that begins with the start marker a
      start line, whatever follows them; a JSON line is never a topic. */
  lemma MarkersDistinct(line: string)
    ensures StartsWith(line, END_MARKER) ==> KindOf(line) == End
    ensures StartsWith(line, START_MARKER) ==> KindOf(line) == Start
    ensures KindOf(line) == PayloadLine ==> line[0] == '{' || line[0] == '['
  {
    if StartsWith(line, END_MARKER) {
      assert line[5] == line[..|END_MARKER|][5] == END_MARKER[5] == '=';
      assert START_MARKER[5] == ' ';
      assert line[0] == line[..|END_MARKER|][0] == '=';
    }
  }

  // ------------------------------------------------------------ port order

  /** Python's `<` on strings: code-point lexicographic order. */
  predicate StrLess(a: string, b: string)
    decreases |a|
  {
    if a == [] then b != []
    else if b == [] then false
    else if a[0] != b[0] then a[0] < b[0]
    else StrLess(a[1..], b[1..])
  }

  lemma {:induction false} StrLessAsymmetric(a: string, b: string)
    ensures !(StrLess(a, b) && StrLess(b, a))
    decreases |a|
  {
    if a != [] && b != [] && a[0] == b[0] {
      StrLessAsymmetric(a[1..], b[1..]);
    }
  }

  lemma {:induction false} StrLessTotal(a: string, b: string)
    ensures a == b || StrLess(a, b) || StrLess(b, a)
    decreases |a|
  {
    if a != [] && b != [] && a[0] == b[0] {
      StrLessTotal(a[1..], b[1..]);
      assert a == [a[0]] + a[1..] && b == [b[0]] + b[1..];
    }
  }

  /** A sort key: whether the port is NOT preferred (so preferred ports,
      `False`, come first), then its name. */
  type Key = (bool, string)

  predicate KeyLess(a: Key, b: Key) {
    (!a.0 && b.0) || (a.0 == b.0 && StrLess(a.1, b.1))
  }

  /** Adjacent entries never descend. */
  predicate SortedBy<T>(s: seq<T>, key: T -> Key) {
    forall i :: 0 <= i < |s| - 1 ==> !KeyLess(key(s[i + 1]), key(s[i]))
  }

  /** Puts `x` after the leading entries whose key is not above its own,
      as a stable sort places a later entry. */
  function Insert<T>(x: T, s: seq<T>, key: T -> Key): (r: seq<T>)
    ensures multiset(r) == multiset(s) + multiset{x}
    ensures |r| == |s| + 1
  {
    if s == [] || KeyLess(key(x), key(s[0])) then [x] + s
    else
      assert s == [s[0]] + s[1..];
      [s[0]] + Insert(x, s[1..], key)
  }

  /** `sorted(s, key=...)` / `list.sort(key=...)`: a stable insertion of
      each entry in turn. */
  function SortBy<T>(s: seq<T>, key: T -> Key): (r: seq<T>)
    ensures multiset(r) == multiset(s)
    ensures |r| == |s|
  {
    if s == [] then []
    else
      assert s == s[..|s| - 1] + [s[|s| - 1]];
      Insert(s[|s| - 1], SortBy(s[..|s| - 1], key), key)
  }

  lemma {:induction false} InsertSorted<T>(x: T, s: seq<T>, key: T -> Key)
    requires SortedBy(s, key)
    ensures SortedBy(Insert(x, s, key), key)
    ensures Insert(x, s, key)[0] == x || (s != [] && Insert(x, s, key)[0] == s[0])
    decreases |s|
  {
    if s == [] {
    } else if KeyLess(key(x), key(s[0])) {
      var r := [x] + s;
      assert !KeyLess(key(s[0]), key(x)) by { StrLessAsymmetric(key(x).1, key(s[0]).1); }
      assert forall i :: 1 <= i < |r| - 1 ==> r[i] == s[i - 1] && r[i + 1] == s[i];
    } else {
      InsertSorted(x, s[1..], key);
      var t := Insert(x, s[1..], key);
      var r := [s[0]] + t;
      assert !KeyLess(key(t[0]), key(s[0])) by {
        if t[0] == x {
        } else {
          assert t[0] == s[1];
        }
      }
      assert forall i :: 1 <= i < |r| - 1 ==> r[i] == t[i - 1] && r[i + 1] == t[i];
    }
  }

  /** The sort's result never descends and holds the same entries. */
  lemma {:induction false} SortSorted<T>(s: seq<T>, key: T -> Key)
    ensures SortedBy(SortBy(s, key), key)
  {
    if s != [] {
      SortSorted(s[..|s| - 1], key);
      InsertSorted(s[|s| - 1], SortBy(s[..|s| - 1], key), key);
    }
  }

  /** In a list sorted by such keys, the preferred entries come first: if
      any entry is preferred, the first one is. */
  lemma {:induction false} PreferredFirst<T>(s: seq<T>, key: T -> Key, i: nat)
    requires SortedBy(s, key) && i < |s| && !key(s[i]).0
    ensures !key(s[0]).0
    decreases i
  {
    if i > 0 {
      assert !KeyLess(key(s[i]), key(s[i - 1]));
      PreferredFirst(s, key, i - 1);
    }
  }

  /** `select_auto_port` / `selectAutoPort`: the name of the first
      preferred entry, else of the first entry, else nothing. */
  function SelectAuto<T>(entries: seq<T>, preferred: T -> bool, name: T -> Option<string>): (r: Option<string>)
    ensures entries == [] ==> r == None
    ensures (exists i :: 0 <= i < |entries| && preferred(entries[i])) ==>
      exists i :: 0 <= i < |entries| && preferred(entries[i]) && r == name(entries[i])
        && forall j :: 0 <= j < i ==> !preferred(entries[j])
    ensures (forall i :: 0 <= i < |entries| ==> !preferred(entries[i])) && entries != [] ==> r == name(entries[0])
  {
    match FirstWhere(entries, preferred)
    case Some(i) => name(entries[i])
    case None => if entries == [] then None else name(entries[0])
  }

  /** The index of the first entry with the property. */
  function FirstWhere<T>(s: seq<T>, p: T -> bool): (r: Option<nat>)
    ensures r.Some? ==> r.value < |s| && p(s[r.value]) && forall j :: 0 <= j < r.value ==> !p(s[j])
    ensures r.None? ==> forall j :: 0 <= j < |s| ==> !p(s[j])
  {
    if s == [] then None
    else if p(s[0]) then Some(0)
    else match FirstWhere(s[1..], p)
      case Some(i) => Some(i + 1)
      case None => None
  }

  /** Picking automatically from a list sorted preferred-first takes its
      first entry. */
  lemma AutoIsFirst<T>(entries: seq<T>, key: T -> Key, preferred: T -> bool, name: T -> Option<string>)
    requires SortedBy(entries, key) && entries != []
    requires forall e :: preferred(e) == !key(e).0
    ensures SelectAuto(entries, preferred, name) == name(entries[0])
  {
    match FirstWhere(entries, preferred)
    case Some(i) => PreferredFirst(entries, key, i);
    case None =>
  }
}

=== FILE: sensor_messages.dfy ===
/** The Python node's message record and the snapshot it sends
    (sensor_messages.py). `isoformat_utc` is not modelled: the ISO texts of
    the timestamps are inputs. */
module SensorMessages {
  import opened Common
  import opened PyDict

  /** The values a reading's `data` dict holds. */
  datatype Value =
    | VNone
    | VBool(b: bool)
    | VNum(r: real)
    | VStr(s: string)
    | VList(items: seq<Value>)
    | VDict(d: Dict<Value>)

  /** Python's truth value of a data value. */
  predicate Truthy(v: Value) {
    match v
    case VNone => false
    case VBool(b) => b
    case VNum(r) => r != 0.0
    case VStr(s) => s != ""
    case VList(items) => items != []
    case VDict(d) => d.order != []
  }

  /** `SensorMessage` (sensor_messages.py:7-11). */
  datatype SensorMessage = SensorMessage(sensor: string, timestamp: real, data: Dict<Value>)

  /** `{**a, **b}` restricted to the keys `keys` of `b`, taken in order. */
  function MergeKeys<V>(a: Dict<V>, b: Dict<V>, keys: seq<string>): Dict<V>
    requires forall k :: k in keys ==> k in b.entries
  {
    if keys == [] then a
    else Put(MergeKeys(a, b, keys[..|keys| - 1]), keys[|keys| - 1], b.entries[keys[|keys| - 1]])
  }

  /** `{**a, **b}`. */
  function Merge<V>(a: Dict<V>, b: Dict<V>): Dict<V>
    requires Valid(b)
  {
    MergeKeys(a, b, b.order)
  }

  /** The keys of `keys` that `a` does not have yet, each once, in order. */
  function NewKeys<V>(a: Dict<V>, keys: seq<string>): seq<string> {
    if keys == [] then []
    else
      var init := NewKeys(a, keys[..|keys| - 1]);
      var k := keys[|keys| - 1];
      if k in a.entries || k in keys[..|keys| - 1] then init else init + [k]
  }

  /** Merging keeps `a`'s keys in place and adds `b`'s new keys after them;
      a key of `b` reads `b`'s value, any other key reads `a`'s. */
  lemma {:induction false} MergeKeysFacts<V>(a: Dict<V>, b: Dict<V>, keys: seq<string>)
    requires Valid(a)
    requires forall k :: k in keys ==> k in b.entries
    ensures Valid(MergeKeys(a, b, keys))
    ensures MergeKeys(a, b, keys).order == a.order + NewKeys(a, keys)
    ensures forall k :: Get(MergeKeys(a, b, keys), k) == if k in keys then Some(b.entries[k]) else Get(a, k)
  {
    if keys != [] {
      var init := keys[..|keys| - 1];
      var k := keys[|keys| - 1];
      MergeKeysFacts(a, b, init);
      var m := MergeKeys(a, b, init);
      PutGet(m, k, b.entries[k]);
      assert k in m.entries <==> k in a.entries || k in init by {
        assert Get(m, k).Some? <==> k in init || Get(a, k).Some?;
      }
      assert forall x :: x in keys <==> x in init || x == k;
    }
  }

  /** `to_payload` (sensor_messages.py:13-14): `timestamp` comes first and
      the data is spread after it, so a `timestamp` key in the data
      replaces the ISO text but keeps the first position. */
  function ToPayload(m: SensorMessage, iso: string): Dict<Value>
    requires Valid(m.data)
  {
    Merge(Header(iso), m.data)
  }

  lemma ToPayloadFacts(m: SensorMessage, iso: string)
    requires Valid(m.data)
    ensures Valid(ToPayload(m, iso))
    ensures ToPayload(m, iso).order == ["timestamp"] + NewKeys(Header(iso), m.data.order)
    ensures Get(ToPayload(m, iso), "timestamp") == Some(if "timestamp" in m.data.entries then m.data.entries["timestamp"] else VStr(iso))
    ensures forall k :: k != "timestamp" ==> Get(ToPayload(m, iso), k) == Get(m.data, k)
  {
    var h := Header(iso);
    var r := MergeKeys(h, m.data, m.data.order);
    assert ToPayload(m, iso) == r;
    MergeKeysFacts(h, m.data, m.data.order);
    assert Get(r, "timestamp") == if "timestamp" in m.data.order then Some(m.data.entries["timestamp"]) else Get(h, "timestamp");
    forall k | k != "timestamp"
      ensures Get(r, k) == Get(m.data, k)
    {
      assert Get(h, k) == None;
      assert k in m.data.order <==> k in m.data.entries;
    }
  }

  /** The dict `{"timestamp": iso}`. */
  function Header(iso: string): (h: Dict<Value>)
    ensures Valid(h) && h.order == ["timestamp"]
  {
    Dict(["timestamp"], map["timestamp" := VStr(iso)])
  }

  /** The snapshot: the ISO text of `reported_at` and the `sensors` dict. */
  datatype Payload = Payload(reportedAt: string, sensors: Dict<Option<Dict<Value>>>)

  /** The loop of `build_payload` over the expected sensors. */
  function Body(latest: Dict<SensorMessage>, expected: seq<string>, iso: real -> string): Dict<Option<Dict<Value>>>
    requires forall s :: s in latest.entries ==> Valid(latest.entries[s].data)
  {
    if expected == [] then Dict([], map[])
    else
      var s := expected[|expected| - 1];
      Put(Body(latest, expected[..|expected| - 1], iso), s,
          if s in latest.entries then Some(ToPayload(latest.entries[s], iso(latest.entries[s].timestamp))) else None)
  }

  /** `build_payload` (sensor_messages.py:19-24); `iso` stands for
      `isoformat_utc`. */
  function BuildPayload(latest: Dict<SensorMessage>, expected: seq<string>, reportedAt: real,
                        iso: real -> string): (p: Payload)
    requires forall s :: s in latest.entries ==> Valid(latest.entries[s].data)
    ensures p.reportedAt == iso(reportedAt)
  {
    Payload(iso(reportedAt), Body(latest, expected, iso))
  }

  /** The snapshot lists exactly the expected sensors, each once, in the
      order given; an expected sensor with a reading maps to that reading's
      payload and one without maps to None; other readings never appear. */
  lemma {:induction false} BodyFacts(latest: Dict<SensorMessage>, expected: seq<string>, iso: real -> string)
    requires forall s :: s in latest.entries ==> Valid(latest.entries[s].data)
    ensures Valid(Body(latest, expected, iso))
    ensures Body(latest, expected, iso).order == Dedup(expected)
    ensures forall s :: s in expected ==>
      Get(Body(latest, expected, iso), s)
        == Some(if s in latest.entries then Some(ToPayload(latest.entries[s], iso(latest.entries[s].timestamp))) else None)
    ensures forall s :: s !in expected ==> Get(Body(latest, expected, iso), s) == None
  {
    if expected != [] {
      var init := expected[..|expected| - 1];
      var s := expected[|expected| - 1];
      BodyFacts(latest, init, iso);
      var b := Body(latest, init, iso);
      PutGet(b, s, if s in latest.entries then Some(ToPayload(latest.entries[s], iso(latest.entries[s].timestamp))) else None);
      GetListed(b, s);
      DedupFacts(init);
      assert forall x :: x in expected <==> x in init || x == s;
    }
  }
}

=== FILE: sensor_workers.dfy ===
/** The decoding helpers of the C sensor workers
    (rocket_c/src/sensor_workers.c): the MPU6050 register block, the
    serial line reader, the NMEA 0183 GGA fields as `strtok` splits them,
    the `HHMMSS` fix time, and the GPS worker's sentence filter. Device
    I/O becomes input: the bytes an I2C read returns, the outcomes of
    successive `select`/`read` calls. `atof` and `parse_coordinate` work on
    doubles and are parameters. */
module SensorWorkersC {
  import opened Common

  const CR: Byte := 13
  const LF: Byte := 10
  const COMMA: Byte := 44
  const COLON: Byte := 58
  const DIGIT_ZERO: Byte := 48
  const SOUTH: Byte := 83
  const WEST: Byte := 87

  // ------------------------------------------------------------ MPU6050

  /** `uint8_t buffer[14]`: the registers from 0x3B on. */
  const MPU_BLOCK: nat := 14
  /** The first register read, ACCEL_XOUT_H. */
  const MPU_FIRST_REGISTER: Byte := 0x3B

  /** `(int16_t)((hi << 8) | lo)`: a big-endian word read as two's
      complement. */
  function SignedWord(hi: Byte, lo: Byte): (v: int)
    ensures -32768 <= v <= 32767
    ensures v < 0 <==> hi >= 128
  {
    var w := hi * 256 + lo;
    if w >= 32768 then w - 65536 else w
  }

  /** The two bytes, high first, that hold a 16-bit two's-complement
      value. */
  function WordBytes(v: int): (b: (Byte, Byte))
    requires -32768 <= v <= 32767
  {
    var w := if v < 0 then v + 65536 else v;
    (w / 256, w % 256)
  }

  /** Decoding undoes encoding and encoding undoes decoding: the 65536
      byte pairs and the 16-bit values correspond one to one. */
  lemma SignedWordRoundTrip(hi: Byte, lo: Byte, v: int)
    requires -32768 <= v <= 32767
    ensures WordBytes(SignedWord(hi, lo)) == (hi, lo)
    ensures SignedWord(WordBytes(v).0, WordBytes(v).1) == v
  {
    var w := hi * 256 + lo;
    assert w / 256 == hi && w % 256 == lo;
    var u := if v < 0 then v + 65536 else v;
    assert u == (u / 256) * 256 + u % 256;
  }

  /** Axis `axis`'s acceleration: the word at bytes `2 * axis` and
      `2 * axis + 1`. */
  function Accel(block: seq<Byte>, axis: nat): int
    requires |block| == MPU_BLOCK && axis < 3
  {
    SignedWord(block[2 * axis], block[2 * axis + 1])
  }

  /** Axis `axis`'s rotation rate: the word at bytes `8 + 2 * axis` and
      `9 + 2 * axis`, past the temperature word at bytes 6 and 7. */
  function Gyro(block: seq<Byte>, axis: nat): int
    requires |block| == MPU_BLOCK && axis < 3
  {
    SignedWord(block[8 + 2 * axis], block[9 + 2 * axis])
  }

  /** The temperature bytes 6 and 7 play no part in the six words. */
  lemma TemperatureIgnored(a: seq<Byte>, b: seq<Byte>, axis: nat)
    requires |a| == MPU_BLOCK && |b| == MPU_BLOCK && axis < 3
    requires forall i :: 0 <= i < MPU_BLOCK && i != 6 && i != 7 ==> a[i] == b[i]
    ensures Accel(a, axis) == Accel(b, axis) && Gyro(a, axis) == Gyro(b, axis)
  {
    assert a[2 * axis] == b[2 * axis] && a[2 * axis + 1] == b[2 * axis + 1];
    assert a[8 + 2 * axis] == b[8 + 2 * axis] && a[9 + 2 * axis] == b[9 + 2 * axis];
  }

  /** `mpu_read_raw` (sensor_workers.c:80-98). `reply` is what
      `i2c_read_bytes` gets: None when writing the register address
      fails, otherwise the bytes `read` returned (none on a read error).
      Anything but all 14 bytes is a failure that leaves both arrays
      alone; otherwise each axis is decoded from its word. */
  method MpuReadRaw(reply: Option<seq<Byte>>, accel: array<int>, gyro: array<int>) returns (ok: bool)
    requires accel.Length == 3 && gyro.Length == 3 && accel != gyro
    modifies accel, gyro
    ensures ok <==> reply.Some? && |reply.value| == MPU_BLOCK
    ensures ok ==> forall axis :: 0 <= axis < 3 ==>
      accel[axis] == Accel(reply.value, axis) && gyro[axis] == Gyro(reply.value, axis)
    ensures !ok ==> unchanged(accel, gyro)
  {
    if reply.None? || |reply.value| != MPU_BLOCK {
      return false;
    }
    var buffer := reply.value;
    for i := 0 to 3
      invariant forall axis :: 0 <= axis < i ==> accel[axis] == Accel(buffer, axis) && gyro[axis] == Gyro(buffer, axis)
    {
      accel[i] := SignedWord(buffer[i * 2], buffer[i * 2 + 1]);
      gyro[i] := SignedWord(buffer[8 + i * 2], buffer[8 + i * 2 + 1]);
    }
    return true;
  }

  // ------------------------------------------------------------ serial lines

  /** What one pass of the read loop sees: `select` timing out, being
      interrupted, failing, or reporting data, after which `read` fails or
      delivers one character. */
  datatype Event = Timeout | Interrupted | SelectFailed | ReadFailed | Received(c: Byte)

  /** How `serial_readline` ends: a stored line, a timeout, or an error. */
  datatype LineResult = Line(text: seq<Byte>) | TimedOut | Failed

  /** The `ssize_t` it returns: the stored count, 0, or -1. */
  function Code(r: LineResult): int {
    match r
    case Line(text) => |text|
    case TimedOut => 0
    case Failed => -1
  }

  /** The rest of a read into a `len`-byte buffer that already holds
      `stored`: carriage returns are dropped, a newline is stored and ends
      the line, and the line also ends with `len - 1` characters stored.
      Running out of events is a `select` that times out. */
  function Collect(events: seq<Event>, stored: seq<Byte>, len: nat): LineResult
    decreases |events|
  {
    if |stored| + 1 >= len then Line(stored)
    else if events == [] then TimedOut
    else match events[0]
      case Timeout => TimedOut
      case Interrupted => Collect(events[1..], stored, len)
      case SelectFailed => Failed
      case ReadFailed => Failed
      case Received(c) =>
        if c == CR then Collect(events[1..], stored, len)
        else if c == LF then Line(stored + [c])
        else Collect(events[1..], stored + [c], len)
  }

  /** `serial_readline` on a `len`-byte buffer: -1 at once when `len` is
      zero. */
  function ReadLine(events: seq<Event>, len: nat): LineResult {
    if len == 0 then Failed else Collect(events, [], len)
  }

  /** A line holds no carriage return, a newline only as its last
      character, and at most `len - 1` characters; it ends at a newline or
      with the buffer full. */
  predicate LineShaped(text: seq<Byte>, len: nat) {
    && |text| + 1 <= len
    && (forall i :: 0 <= i < |text| ==> text[i] != CR)
    && (forall i :: 0 <= i < |text| - 1 ==> text[i] != LF)
    && ((text != [] && text[|text| - 1] == LF) || |text| + 1 == len)
  }

  lemma {:induction false} CollectShaped(events: seq<Event>, stored: seq<Byte>, len: nat)
    requires |stored| + 1 <= len
    requires forall i :: 0 <= i < |stored| ==> stored[i] != CR && stored[i] != LF
    ensures Collect(events, stored, len).Line? ==> LineShaped(Collect(events, stored, len).text, len)
    decreases |events|
  {
    if |stored| + 1 < len && events != [] {
      match events[0]
      case Timeout =>
      case Interrupted => CollectShaped(events[1..], stored, len);
      case SelectFailed =>
      case ReadFailed =>
      case Received(c) =>
        if c == CR {
          CollectShaped(events[1..], stored, len);
        } else if c != LF {
          CollectShaped(events[1..], stored + [c], len);
        }
    }
  }

  /** Every line `serial_readline` returns is shaped as the character
      rules say. */
  lemma LinesAreShaped(events: seq<Event>, len: nat)
    ensures ReadLine(events, len).Line? ==> LineShaped(ReadLine(events, len).text, len)
  {
    if len > 0 {
      CollectShaped(events, [], len);
    }
  }

  /** A carriage return between reads changes nothing. */
  lemma {:induction false} CarriageReturnDropped(before: seq<Event>, after: seq<Event>, stored: seq<Byte>, len: nat)
    requires |stored| + 1 < len
    ensures Collect(before + [Received(CR)] + after, stored, len) == Collect(before + after, stored, len)
    decreases |before|
  {
    if before == [] {
      var events := before + [Received(CR)] + after;
      assert events == [Received(CR)] + after;
      assert events[0] == Received(CR) && events[1..] == after;
      assert before + after == after;
    } else {
      assert (before + [Received(CR)] + after)[0] == before[0];
      assert (before + [Received(CR)] + after)[1..] == before[1..] + [Received(CR)] + after;
      assert (before + after)[0] == before[0];
      assert (before + after)[1..] == before[1..] + after;
      match before[0]
      case Timeout =>
      case Interrupted => CarriageReturnDropped(before[1..], after, stored, len);
      case SelectFailed =>
      case ReadFailed =>
      case Received(c) =>
        if c == CR {
          CarriageReturnDropped(before[1..], after, stored, len);
        } else if c != LF && |stored| + 2 < len {
          CarriageReturnDropped(before[1..], after, stored + [c], len);
        }
    }
  }

  /** One step of `Collect`, for the loop below. */
  lemma CollectStep(events: seq<Event>, k: nat, stored: seq<Byte>, len: nat)
    requires k < |events| && |stored| + 1 < len
    ensures Collect(events[k..], stored, len)
         == match events[k]
            case Timeout => TimedOut
            case Interrupted => Collect(events[k + 1..], stored, len)
            case SelectFailed => Failed
            case ReadFailed => Failed
            case Received(c) =>
              if c == CR then Collect(events[k + 1..], stored, len)
              else if c == LF then Line(stored + [c])
              else Collect(events[k + 1..], stored + [c], len)
  {
    assert events[k..][0] == events[k];
    assert events[k..][1..] == events[k + 1..];
  }

  /** `serial_readline` (sensor_workers.c:266-303): reads events until a
      line is complete, storing it followed by a NUL, and returns what
      `ReadLine` says. */
  method SerialReadline(events: seq<Event>, buffer: array<Byte>) returns (n: int)
    modifies buffer
    ensures n == Code(ReadLine(events, buffer.Length))
    ensures ReadLine(events, buffer.Length).Line? ==>
      0 <= n < buffer.Length && buffer[..n] == ReadLine(events, buffer.Length).text && buffer[n] == 0
  {
    if buffer.Length == 0 {
      return -1;
    }
    var pos := 0;
    var k := 0;
    while pos + 1 < buffer.Length
      invariant 0 <= k <= |events| && pos < buffer.Length
      invariant Collect(events[k..], buffer[..pos], buffer.Length) == ReadLine(events, buffer.Length)
      decreases |events| - k
    {
      if k == |events| {
        return 0;
      }
      CollectStep(events, k, buffer[..pos], buffer.Length);
      var e := events[k];
      k := k + 1;
      match e
      case Timeout =>
        return 0;
      case Interrupted =>
      case SelectFailed =>
        return -1;
      case ReadFailed =>
        return -1;
      case Received(c) =>
        if c != CR {
          ghost var stored := buffer[..pos];
          buffer[pos] := c;
          pos := pos + 1;
          assert buffer[..pos] == stored + [c];
          if c == LF {
            break;
          }
        }
    }
    buffer[pos] := 0;
    return pos;
  }

  // ------------------------------------------------------------ fix time

  /** `format_fix_time` (sensor_workers.c:383-392): empty for a missing
      or short time or a buffer under 9 bytes; otherwise `HH:MM:SS` from
      the first six characters. */
  function FixTime(time: Option<seq<Byte>>, len: nat): (r: seq<Byte>)
    ensures r == [] <==> time.None? || |time.value| < 6 || len < 9
    ensures r != [] ==> |r| == 8 && |r| < len && r[2] == COLON && r[5] == COLON
    ensures r != [] ==> r[..2] + r[3..5] + r[6..] == time.value[..6]
  {
    if time.None? || |time.value| < 6 || len < 9 then []
    else
      var t := time.value;
      [t[0], t[1], COLON, t[2], t[3], COLON, t[4], t[5]]
  }

  // ------------------------------------------------------------ strtok

  /** The number of leading bytes before the first comma. */
  function RunLength(s: seq<Byte>): (n: nat)
    ensures n <= |s|
    ensures forall i :: 0 <= i < n ==> s[i] != COMMA
    ensures n < |s| ==> s[n] == COMMA
  {
    if s == [] || s[0] == COMMA then 0 else 1 + RunLength(s[1..])
  }

  /** The tokens successive `strtok(…, ",")` calls return: the maximal
      runs without a comma. Empty fields produce no token. */
  function Fields(s: seq<Byte>): (f: seq<seq<Byte>>)
    ensures forall i :: 0 <= i < |f| ==> f[i] != [] && f[i][0] != COMMA
    decreases |s|
  {
    if s == [] then []
    else if s[0] == COMMA then Fields(s[1..])
    else
      var n := RunLength(s);
      [s[..n]] + Fields(s[n..])
  }

  /** The bytes of `s` other than commas, in order. */
  function Uncomma(s: seq<Byte>): seq<Byte> {
    if s == [] then [] else (if s[0] == COMMA then [] else [s[0]]) + Uncomma(s[1..])
  }

  /** The tokens hold every byte but the commas, in order. */
  lemma {:induction false} FieldsKeepText(s: seq<Byte>)
    ensures Concat(Fields(s)) == Uncomma(s)
    decreases |s|
  {
    if s != [] {
      if s[0] == COMMA {
        FieldsKeepText(s[1..]);
      } else {
        var n := RunLength(s);
        var rest := Fields(s[n..]);
        FieldsKeepText(s[n..]);
        RunUncomma(s, n);
        assert Fields(s) == [s[..n]] + rest;
        assert ([s[..n]] + rest)[1..] == rest;
      }
    }
  }

  /** No token holds a comma. */
  lemma {:induction false} FieldsCommaFree(s: seq<Byte>)
    ensures forall i, j :: 0 <= i < |Fields(s)| && 0 <= j < |Fields(s)[i]| ==> Fields(s)[i][j] != COMMA
    decreases |s|
  {
    if s != [] {
      if s[0] == COMMA {
        FieldsCommaFree(s[1..]);
      } else {
        var n := RunLength(s);
        var rest := Fields(s[n..]);
        FieldsCommaFree(s[n..]);
        assert Fields(s) == [s[..n]] + rest;
      }
    }
  }

  /** A run without commas is its own `Uncomma`, and `Uncomma` splits. */
  lemma {:induction false} RunUncomma(s: seq<Byte>, n: nat)
    requires n <= |s|
    requires forall i :: 0 <= i < n ==> s[i] != COMMA
    ensures Uncomma(s) == s[..n] + Uncomma(s[n..])
    decreases n
  {
    if n > 0 {
      RunUncomma(s[1..], n - 1);
      assert s[1..][..n - 1] == s[1..n];
      assert s[1..][n - 1..] == s[n..];
      assert s[..n] == [s[0]] + s[1..n];
    }
  }

  /** An empty field shifts every later field one token to the left:
      "A,,B" gives the tokens "A" and "B". */
  lemma EmptyFieldShifts()
    ensures Fields([65, COMMA, COMMA, 66]) == [[65], [66]]
  {
    var s: seq<Byte> := [65, COMMA, COMMA, 66];
    var b: seq<Byte> := [66];
    assert RunLength(b) == 1;
    assert b[..1] == b && b[1..] == [];
    assert Fields(b) == [b];
    assert Fields([COMMA] + b) == Fields(b);
    assert Fields([COMMA, COMMA] + b) == Fields([COMMA] + b);
    assert RunLength(s) == 1;
    assert s[..1] == [65] && s[1..] == [COMMA, COMMA] + b;
  }

  // ------------------------------------------------------------ GGA

  /** `char copy[256]`. */
  const COPY_SIZE: nat := 256
  /** `char *tokens[16]`. */
  const MAX_TOKENS: nat := 16
  /** Fewer tokens than this and the sentence is refused. */
  const MIN_TOKENS: nat := 10
  /** `char raw[128]`. */
  const RAW_SIZE: nat := 128
  /** `char fix_time[32]`. */
  const FIX_TIME_SIZE: nat := 32

  /** `strncpy(dst, src, size - 1)` followed by a NUL in the last byte:
      the first `size - 1` bytes of a C string. */
  function Copied(s: seq<Byte>, size: nat): (r: seq<Byte>)
    requires size > 0
    ensures r <= s && |r| <= size - 1
  {
    s[..Min(|s|, size - 1)]
  }

  /** The tokens `parse_gga_sentence` keeps: at most 16 from the first 255
      bytes of the line. */
  function Tokens(line: seq<Byte>): (t: seq<seq<Byte>>)
    ensures |t| <= MAX_TOKENS
    ensures forall i :: 0 <= i < |t| ==> t[i] != []
  {
    var all := Fields(Copied(line, COPY_SIZE));
    all[..Min(|all|, MAX_TOKENS)]
  }

  /** Whether the tokens make a fix: ten or more, the quality token (the
      seventh) not starting with '0'. */
  predicate HasFix(t: seq<seq<Byte>>)
    requires forall i :: 0 <= i < |t| ==> t[i] != []
  {
    |t| >= MIN_TOKENS && t[6][0] != DIGIT_ZERO
  }

  /** A coordinate with the sign of its hemisphere token. */
  function Hemisphere(value: real, hemi: seq<Byte>, negative: Byte): real
    requires hemi != []
  {
    if hemi[0] == negative then -value else value
  }

  /** The fields of `GpsData` that parsing writes. */
  class GpsData {
    var latitude: real
    var longitude: real
    var altitude: real
    var hasLatitude: bool
    var hasLongitude: bool
    var hasAltitude: bool
    var fixTime: seq<Byte>
    var hasFixTime: bool
    var raw: seq<Byte>
    var hasRaw: bool
    var dummy: bool

    /** `memset(&msg, 0, sizeof(msg))`. */
    constructor()
      ensures latitude == 0.0 && longitude == 0.0 && altitude == 0.0
      ensures !hasLatitude && !hasLongitude && !hasAltitude && !hasFixTime && !hasRaw && !dummy
      ensures fixTime == [] && raw == []
    {
      latitude, longitude, altitude := 0.0, 0.0, 0.0;
      hasLatitude, hasLongitude, hasAltitude := false, false, false;
      fixTime, hasFixTime, raw, hasRaw, dummy := [], false, [], false, false;
    }
  }

  /** The `strtok` loop (sensor_workers.c:400-404): tokens are taken until
      they run out or 16 are held. */
  method TakeTokens(all: seq<seq<Byte>>) returns (tokens: seq<seq<Byte>>)
    ensures tokens == all[..Min(|all|, MAX_TOKENS)]
  {
    tokens := [];
    var next := 0;
    while next < |all| && |tokens| < MAX_TOKENS
      invariant next == |tokens| <= Min(|all|, MAX_TOKENS)
      invariant tokens == all[..next]
    {
      tokens := tokens + [all[next]];
      next := next + 1;
    }
  }

  /** `parse_gga_sentence` (sensor_workers.c:394-449). Refused sentences
      leave `out` alone. Otherwise latitude (tokens 2, 3), longitude (4,
      5), altitude (9) and the fix time (1) are written with their flags;
      as `strtok` never yields an empty token, every flag is set, even
      when the time is too short to format. The sentence is marked real
      and its first 127 bytes kept. `coordinate` is `parse_coordinate` and
      `number` is `atof`. */
  method ParseGga(line: seq<Byte>, out: GpsData, coordinate: seq<Byte> -> real, number: seq<Byte> -> real)
    returns (ok: bool)
    requires NoNul(line)
    modifies out
    ensures ok <==> HasFix(Tokens(line))
    ensures !ok ==> unchanged(out)
    ensures ok ==> var t := Tokens(line);
      && out.latitude == Hemisphere(coordinate(t[2]), t[3], SOUTH) && out.hasLatitude
      && out.longitude == Hemisphere(coordinate(t[4]), t[5], WEST) && out.hasLongitude
      && out.altitude == number(t[9]) && out.hasAltitude
      && out.fixTime == FixTime(Some(t[1]), FIX_TIME_SIZE) && out.hasFixTime
      && !out.dummy && out.hasRaw && out.raw == Copied(line, RAW_SIZE)
  {
    var copy := Copied(line, COPY_SIZE);
    var tokens := TakeTokens(Fields(copy));
    assert tokens == Tokens(line);
    if |tokens| < MIN_TOKENS {
      return false;
    }
    if tokens[6][0] == DIGIT_ZERO {
      return false;
    }
    WriteFix(out, tokens, line, coordinate, number);
    return true;
  }

  /** The writes of a sentence that has a fix (sensor_workers.c:420-447);
      the fields are named as the source names the tokens. */
  method WriteFix(out: GpsData, tokens: seq<seq<Byte>>, line: seq<Byte>, coordinate: seq<Byte> -> real, number: seq<Byte> -> real)
    requires |tokens| >= MIN_TOKENS
    requires tokens[1] != [] && tokens[2] != [] && tokens[3] != [] && tokens[4] != [] && tokens[5] != [] && tokens[9] != []
    modifies out
    ensures out.latitude == Hemisphere(coordinate(tokens[2]), tokens[3], SOUTH) && out.hasLatitude
    ensures out.longitude == Hemisphere(coordinate(tokens[4]), tokens[5], WEST) && out.hasLongitude
    ensures out.altitude == number(tokens[9]) && out.hasAltitude
    ensures out.fixTime == FixTime(Some(tokens[1]), FIX_TIME_SIZE) && out.hasFixTime
    ensures !out.dummy && out.hasRaw && out.raw == Copied(line, RAW_SIZE)
  {
    var lat, lon, alt := Position(tokens, coordinate, number);
    // strtok tokens are never empty, so every `*field` test holds
    var time := FixTime(Some(tokens[1]), FIX_TIME_SIZE);
    out.latitude, out.hasLatitude, out.longitude, out.hasLongitude := lat, true, lon, true;
    out.altitude, out.hasAltitude, out.fixTime, out.hasFixTime := alt, true, time, true;
    out.dummy, out.hasRaw, out.raw := false, true, Copied(line, RAW_SIZE);
  }

  /** The signed latitude and longitude and the altitude of a sentence
      with a fix (sensor_workers.c:420-439): the hemisphere letters 'S'
      and 'W' negate. */
  method Position(tokens: seq<seq<Byte>>, coordinate: seq<Byte> -> real, number: seq<Byte> -> real) returns (lat: real, lon: real, alt: real)
    requires |tokens| >= MIN_TOKENS
    requires tokens[2] != [] && tokens[3] != [] && tokens[4] != [] && tokens[5] != [] && tokens[9] != []
    ensures lat == Hemisphere(coordinate(tokens[2]), tokens[3], SOUTH)
    ensures lon == Hemisphere(coordinate(tokens[4]), tokens[5], WEST)
    ensures alt == number(tokens[9])
  {
    var latField, latHemi := tokens[2], tokens[3];
    var lonField, lonHemi, altField := tokens[4], tokens[5], tokens[9];
    if latField != [] {
      lat := coordinate(latField);
      if latHemi != [] && latHemi[0] == SOUTH {
        lat := -lat;
      }
    }
    if lonField != [] {
      lon := coordinate(lonField);
      if lonHemi != [] && lonHemi[0] == WEST {
        lon := -lon;
      }
    }
    if altField != [] {
      alt := number(altField);
    }
  }

  // ------------------------------------------------------------ GPS worker

  /** "$GPGGA" and "$GPRMC". */
  const GPGGA: seq<Byte> := [36, 71, 80, 71, 71, 65]
  const GPRMC: seq<Byte> := [36, 71, 80, 82, 77, 67]

  lemma SentenceNames()
    ensures GPGGA == Ascii("$GPGGA") && GPRMC == Ascii("$GPRMC")
  {
  }

  /** The line without its trailing newline, when it has one. */
  function StripNewline(line: seq<Byte>): (r: seq<Byte>)
    ensures r <= line && |line| - 1 <= |r|
    ensures r != line <==> line != [] && line[|line| - 1] == LF
  {
    if line != [] && line[|line| - 1] == LF then line[..|line| - 1] else line
  }

  /** `strncmp(line, name, 6) == 0` for one of the two sentence names; a
      shorter string differs at its NUL. */
  predicate Wanted(line: seq<Byte>) {
    |line| >= 6 && (line[..6] == GPGGA || line[..6] == GPRMC)
  }

  /** One line of the GPS worker loop (sensor_workers.c:504-527) after a
      successful read of `stored`: the newline goes, the C string up to
      any NUL is what the string functions see, sentences other than GGA
      and RMC are skipped, and a sentence that parses becomes a fresh
      message; RMC sentences are read with the GGA field positions. */
  method GpsLine(stored: seq<Byte>, coordinate: seq<Byte> -> real, number: seq<Byte> -> real)
    returns (msg: GpsData?)
    ensures var line := CString(StripNewline(stored));
      msg != null <==> Wanted(line) && HasFix(Tokens(line))
    ensures msg != null ==> fresh(msg)
    ensures msg != null ==> var line := CString(StripNewline(stored)); var t := Tokens(line);
      && msg.latitude == Hemisphere(coordinate(t[2]), t[3], SOUTH)
      && msg.longitude == Hemisphere(coordinate(t[4]), t[5], WEST)
      && msg.altitude == number(t[9])
      && msg.fixTime == FixTime(Some(t[1]), FIX_TIME_SIZE)
      && !msg.dummy && msg.raw == Copied(line, RAW_SIZE)
  {
    var line := CString(StripNewline(stored));
    if !Wanted(line) {
      return null;
    }
    var data := new GpsData();
    var ok := ParseGga(line, data, coordinate, number);
    if !ok {
      return null;
    }
    data.hasRaw := true;
    data.raw := Copied(line, RAW_SIZE);
    msg := data;
  }
}

=== FILE: sensors.dfy ===
/** The C node's sensor table (rocket_c/src/sensors.c): three sensor types
    numbered 0..2 with their names, and the two lookups over that table. A
    sensor type is an `int` because the lookups accept any value of the
    enum's underlying type. */
module Sensors {
  import opened Common

  const MPU6050: int := 0
  const BMP180: int := 1
  const NEO6M: int := 2
  const SENSOR_COUNT: int := 3

  /** `SENSOR_NAMES` (sensors.c:10-14), in table order. */
  const SENSOR_NAMES: seq<(int, string)> := [(MPU6050, "mpu6050"), (BMP180, "bmp180"), (NEO6M, "neo6m")]

  /** `SENSOR_LIST` (sensors.c:16-20). */
  const SENSOR_LIST: seq<int> := [MPU6050, BMP180, NEO6M]

  predicate IsSensor(s: int) {
    0 <= s < SENSOR_COUNT
  }

  /** The first table entry from `from` on whose type is `sensor`. */
  function NameFrom(sensor: int, from: nat): (r: string)
    requires from <= |SENSOR_NAMES|
    ensures r == "unknown" || exists i :: from <= i < |SENSOR_NAMES| && SENSOR_NAMES[i] == (sensor, r)
    decreases |SENSOR_NAMES| - from
  {
    if from == |SENSOR_NAMES| then "unknown"
    else if SENSOR_NAMES[from].0 == sensor then SENSOR_NAMES[from].1
    else NameFrom(sensor, from + 1)
  }

  /** `sensor_name` (sensors.c:22-29). */
  function SensorName(sensor: int): string {
    NameFrom(sensor, 0)
  }

  /** The first table entry from `from` on whose name is `name`. */
  function TypeFrom(name: string, from: nat): (r: Option<int>)
    requires from <= |SENSOR_NAMES|
    ensures r.Some? ==> exists i :: from <= i < |SENSOR_NAMES| && SENSOR_NAMES[i] == (r.value, name)
    ensures r.None? ==> forall i :: from <= i < |SENSOR_NAMES| ==> SENSOR_NAMES[i].1 != name
    decreases |SENSOR_NAMES| - from
  {
    if from == |SENSOR_NAMES| then None
    else if SENSOR_NAMES[from].1 == name then Some(SENSOR_NAMES[from].0)
    else TypeFrom(name, from + 1)
  }

  /** `sensor_from_name` (sensors.c:31-42): `name` is None for NULL
      and `hasOut` is false for a NULL `out`. The result is the
      value written to `*out`; None means false was returned and `*out`
      was not written. */
  function SensorFromName(name: Option<string>, hasOut: bool): (r: Option<int>)
    ensures name.None? || !hasOut ==> r.None?
  {
    if name.None? || !hasOut then None else TypeFrom(name.value, 0)
  }

  /** The names of the three sensors, and "unknown" for any other value. */
  lemma {:induction false} SensorNames(sensor: int)
    ensures sensor == MPU6050 ==> SensorName(sensor) == "mpu6050"
    ensures sensor == BMP180 ==> SensorName(sensor) == "bmp180"
    ensures sensor == NEO6M ==> SensorName(sensor) == "neo6m"
    ensures !IsSensor(sensor) ==> SensorName(sensor) == "unknown"
  {
    assert NameFrom(sensor, 3) == "unknown";
    if !IsSensor(sensor) {
      assert NameFrom(sensor, 2) == "unknown";
      assert NameFrom(sensor, 1) == "unknown";
    }
  }

  /** Looking a sensor's name back up gives the sensor. */
  lemma {:induction false} NameRoundTrip(sensor: int)
    requires IsSensor(sensor)
    ensures SensorFromName(Some(SensorName(sensor)), true) == Some(sensor)
  {
    SensorNames(sensor);
    assert TypeFrom("mpu6050", 0) == Some(MPU6050);
    if sensor != MPU6050 {
      assert TypeFrom("bmp180", 0) == TypeFrom("bmp180", 1) by {
        assert "mpu6050" != "bmp180";
      }
      assert TypeFrom("neo6m", 0) == TypeFrom("neo6m", 1) by {
        assert "mpu6050"[0] != "neo6m"[0];
      }
      assert TypeFrom("neo6m", 1) == TypeFrom("neo6m", 2) by {
        assert "bmp180"[0] != "neo6m"[0];
      }
    }
  }

  /** A name that is not in the table, such as "unknown", is refused, so
      `sensor_from_name(sensor_name(x))` fails for an out-of-range `x`. */
  lemma UnknownRefused(name: string)
    requires name != "mpu6050" && name != "bmp180" && name != "neo6m"
    ensures SensorFromName(Some(name), true).None?
  {
  }

  /** `SENSOR_LIST` holds every sensor once, in enum order. */
  lemma SensorListOrder()
    ensures |SENSOR_LIST| == SENSOR_COUNT
    ensures forall i :: 0 <= i < SENSOR_COUNT ==> SENSOR_LIST[i] == i
  {
  }

  /** The bytes of `sensor_name(sensor)`. */
  function NameBytes(sensor: int): seq<Byte> {
    if sensor == MPU6050 then [109, 112, 117, 54, 48, 53, 48]
    else if sensor == BMP180 then [98, 109, 112, 49, 56, 48]
    else if sensor == NEO6M then [110, 101, 111, 54, 109]
    else [117, 110, 107, 110, 111, 119, 110]
  }

  /** `NameBytes` spells the name the sensor table gives. */
  lemma NameBytesAgree(sensor: int)
    ensures forall i :: 0 <= i < |SensorName(sensor)| ==> SensorName(sensor)[i] as int < 256
    ensures NameBytes(sensor) == Ascii(SensorName(sensor))
  {
    SensorNames(sensor);
  }
}

=== FILE: serial_bridge.dfy ===
/** The Python ground receiver (receptor_arudino/serial_bridge.py): the
    `SerialPayloadBridge` that hunts payload blocks in the receptor's
    serial log and writes each JSON payload, stamped with its topic and
    reception time, to the file the user interface reads; the port
    heuristics, ordering and automatic choice; and the command-line rule.
    `json.loads` is a parameter, the clock's ISO text an input, and the
    output file the list of payloads written to it. */
module SerialBridgePy {
  import opened Common
  import opened PyDict
  import opened SensorMessages
  import opened ReceiverProtocol

  // ------------------------------------------------------------ payload meta

  /** `self._topic or "sensors"`. */
  function TopicOrDefault(topic: Option<string>): string {
    if topic.Some? && topic.value != "" then topic.value else "sensors"
  }

  /** `_handle_payload_line`'s stamping of a parsed payload: a dict gains a
      `_meta` dict if it has none; when `_meta` is a dict, its `topic` is
      set only if absent and its `received_at` always becomes `now`. */
  function StampPayload(payload: Value, topic: Option<string>, now: string): Value {
    if !payload.VDict? then payload
    else
      var d := if "_meta" in payload.d.entries then payload.d else Put(payload.d, "_meta", VDict(Empty()));
      var meta := d.entries["_meta"];
      if !meta.VDict? then VDict(d)
      else
        var m := if "topic" in meta.d.entries then meta.d else Put(meta.d, "topic", VStr(TopicOrDefault(topic)));
        VDict(Put(d, "_meta", VDict(Put(m, "received_at", VStr(now)))))
  }

  /** The meta rule: a payload that is not a dict is written as it was,
      and so is a dict whose `_meta` is not a dict; otherwise `_meta`
      keeps every key it had, keeps an existing `topic`, gains the
      bridge's topic (or "sensors") when it had none, and always holds
      `now` as `received_at`; the payload's other keys are untouched. */
  lemma StampFacts(payload: Value, topic: Option<string>, now: string)
    ensures !payload.VDict? ==> StampPayload(payload, topic, now) == payload
    ensures payload.VDict? && "_meta" in payload.d.entries && !payload.d.entries["_meta"].VDict? ==>
      StampPayload(payload, topic, now) == payload
    ensures payload.VDict? && (Get(payload.d, "_meta").None? || Get(payload.d, "_meta").value.VDict?) ==>
      var r := StampPayload(payload, topic, now);
      var old_meta := if "_meta" in payload.d.entries then payload.d.entries["_meta"].d else Empty();
      && r.VDict? && "_meta" in r.d.entries && r.d.entries["_meta"].VDict?
      && (forall k :: k != "_meta" ==> Get(r.d, k) == Get(payload.d, k))
      && var meta := r.d.entries["_meta"].d;
      && Get(meta, "received_at") == Some(VStr(now))
      && Get(meta, "topic") == (if "topic" in old_meta.entries then Some(old_meta.entries["topic"]) else Some(VStr(TopicOrDefault(topic))))
      && (forall k :: k != "received_at" && k != "topic" ==> Get(meta, k) == Get(old_meta, k))
  {
  }

  // ------------------------------------------------------------ the bridge

  /** The state `process_line` keeps between lines. */
  class SerialPayloadBridge {
    var topic: Option<string>
    var capturing: bool
    /** Payloads written to the output file, in order. */
    var written: seq<Value>

    /** Outside a payload block no topic is remembered. */
    ghost predicate Valid()
      reads this
    {
      !capturing ==> topic == None
    }

    /** `SerialPayloadBridge.__init__` (serial_bridge.py:182-186). */
    constructor()
      ensures Valid() && topic == None && !capturing && written == []
    {
      topic, capturing, written := None, false, [];
    }

    /** `process_line` (serial_bridge.py:188-214) with
        `_handle_payload_line` (serial_bridge.py:216-230). */
    method ProcessLine(line: string, parse: string -> Option<Value>, now: string)
      requires Valid()
      modifies this
      ensures Valid()
      ensures (capturing, topic) == BridgeStep(old(capturing), old(topic), Strip(line))
      ensures written == old(written) + Written(old(capturing), old(topic), Strip(line), parse, now)
    {
      var stripped := Strip(line);
      // the prefix tests in their order: empty, start, Topic, JSON, end
      var kind := KindOf(stripped);
      if kind == Blank {
        return;
      }
      if kind == Start {
        capturing := true;
        topic := None;
        return;
      }
      if !capturing {
        return;
      }
      if kind == TopicLine {
        var text := Strip(AfterFirstColon(stripped));
        topic := if text == "" then None else Some(text);
        return;
      }
      if kind == PayloadLine {
        HandlePayloadLine(stripped, parse, now);
        return;
      }
      if kind == End {
        capturing := false;
        topic := None;
      }
    }

    /** `_handle_payload_line`: invalid JSON writes nothing. */
    method HandlePayloadLine(text: string, parse: string -> Option<Value>, now: string)
      modifies this`written
      ensures written == old(written) + (if parse(text).Some? then [StampPayload(parse(text).value, topic, now)] else [])
    {
      var payload := parse(text);
      if payload.Some? {
        written := written + [StampPayload(payload.value, topic, now)];
      }
    }
  }

  /** `text.split(":", 1)[1]`: what follows the first colon. */
  function AfterFirstColon(text: string): (r: string)
    ensures |r| <= |text| && r == text[|text| - |r|..]
  {
    if text == [] then []
    else if text[0] == ':' then text[1..]
    else AfterFirstColon(text[1..])
  }

  /** The text after a colon that no earlier colon precedes. */
  lemma {:induction false} FirstColonAt(text: string, k: nat)
    requires k < |text| && text[k] == ':' && forall i :: 0 <= i < k ==> text[i] != ':'
    ensures AfterFirstColon(text) == text[k + 1..]
    decreases k
  {
    if k > 0 {
      FirstColonAt(text[1..], k - 1);
      assert text[1..][k..] == text[k + 1..];
    }
  }

  /** For a `Topic:` line the first colon is the one after `Topic`. */
  lemma TopicText(line: string)
    requires StartsWith(line, TOPIC_PREFIX)
    ensures AfterFirstColon(line) == line[6..]
  {
    assert line[..6] == TOPIC_PREFIX;
    assert forall i :: 0 <= i < 6 ==> line[i] == TOPIC_PREFIX[i];
    FirstColonAt(line, 5);
  }

  /** How a stripped line changes the capture state. */
  function BridgeStep(capturing: bool, topic: Option<string>, stripped: string): (bool, Option<string>) {
    match KindOf(stripped)
    case Blank => (capturing, topic)
    case Start => (true, None)
    case TopicLine =>
      if !capturing then (capturing, topic)
      else var text := Strip(AfterFirstColon(stripped)); (true, if text == "" then None else Some(text))
    case PayloadLine => (capturing, topic)
    case End => if capturing then (false, None) else (capturing, topic)
    case Other => (capturing, topic)
  }

  /** What a stripped line writes: a JSON line inside a block whose text
      parses. */
  function Written(capturing: bool, topic: Option<string>, stripped: string, parse: string -> Option<Value>, now: string): seq<Value> {
    if capturing && KindOf(stripped) == PayloadLine && parse(stripped).Some? then [StampPayload(parse(stripped).value, topic, now)]
    else []
  }

  /** The line rules: blank lines change nothing; outside a block only the
      start marker matters; the start marker opens a block with no topic;
      the end marker closes it and forgets the topic; a topic is the
      stripped text after `Topic:`, none when that is empty; a JSON line
      never changes the state; and outside a block no topic is kept. */
  lemma BridgeRules(capturing: bool, topic: Option<string>, stripped: string)
    requires !capturing ==> topic == None
    ensures var (c, t) := BridgeStep(capturing, topic, stripped); !c ==> t == None
    ensures stripped == "" ==> BridgeStep(capturing, topic, stripped) == (capturing, topic)
    ensures !capturing && KindOf(stripped) != Start ==> BridgeStep(capturing, topic, stripped) == (capturing, topic)
    ensures StartsWith(stripped, START_MARKER) ==> BridgeStep(capturing, topic, stripped) == (true, None)
    ensures StartsWith(stripped, END_MARKER) ==> BridgeStep(capturing, topic, stripped) == (false, None)
    ensures capturing && KindOf(stripped) == TopicLine ==>
      BridgeStep(capturing, topic, stripped).1 == (if Strip(stripped[6..]) == "" then None else Some(Strip(stripped[6..])))
    ensures KindOf(stripped) == PayloadLine ==> BridgeStep(capturing, topic, stripped) == (capturing, topic)
  {
    MarkersDistinct(stripped);
    if KindOf(stripped) == TopicLine {
      TopicText(stripped);
    }
  }

  /** Lines that are processed one after the other, as the serial loop
      feeds them: the capture state afterwards and the payloads written. */
  function BridgeRun(capturing: bool, topic: Option<string>, lines: seq<string>, parse: string -> Option<Value>, now: string): (bool, Option<string>, seq<Value>)
    decreases |lines|
  {
    if lines == [] then (capturing, topic, [])
    else
      var stripped := Strip(lines[0]);
      var (c, t) := BridgeStep(capturing, topic, stripped);
      var (c2, t2, w) := BridgeRun(c, t, lines[1..], parse, now);
      (c2, t2, Written(capturing, topic, stripped, parse, now) + w)
  }

  /** Nothing is written outside a payload block: lines that never
      include a start marker write nothing from an idle bridge. */
  lemma {:induction false} NothingBeforeStart(lines: seq<string>, parse: string -> Option<Value>, now: string)
    requires forall i :: 0 <= i < |lines| ==> KindOf(Strip(lines[i])) != Start
    ensures BridgeRun(false, None, lines, parse, now) == (false, None, [])
    decreases |lines|
  {
    if lines != [] {
      var stripped := Strip(lines[0]);
      assert KindOf(stripped) != Start;
      assert BridgeStep(false, None, stripped) == (false, None);
      assert Written(false, None, stripped, parse, now) == [];
      assert forall i :: 0 <= i < |lines[1..]| ==> lines[1..][i] == lines[i + 1];
      NothingBeforeStart(lines[1..], parse, now);
      var none: seq<Value> := [];
      assert none + none == none;
      assert BridgeRun(false, None, lines, parse, now) == (false, None, none + none);
    }
  }

  // ------------------------------------------------------------ ports

  /** `serial_port_to_dict`'s fields the heuristics read. */
  datatype PortInfo = PortInfo(device: Option<string>, description: Option<string>, manufacturer: Option<string>, hwid: Option<string>, vid: Option<int>)

  const PORT_KEYWORDS: seq<string> := ["arduino", "nano", "wch", "ch340", "cp210", "silicon labs", "usb-serial"]
  const DEVICE_KEYWORDS: seq<string> := ["ttyusb", "ttyacm", "usbserial", "wchusb"]
  /** Arduino's two vendor ids, then those of the CH340 and Silicon Labs
      USB-serial chips. */
  const POPULAR_USB_VENDOR_IDS: set<int> := {0x2341, 0x2A03, 0x1A86, 0x10C4}

  /** `x or ""`. */
  function OrEmpty(s: Option<string>): string {
    if s.Some? then s.value else ""
  }

  /** `any(keyword in text for keyword in keywords)`. */
  predicate AnyIn(keywords: seq<string>, text: string) {
    exists k :: 0 <= k < |keywords| && Contains(text, keywords[k])
  }

  /** `is_preferred_port` (serial_bridge.py:135-149). */
  predicate IsPreferredPort(p: PortInfo) {
    var manufacturer, description := Lower(OrEmpty(p.manufacturer)), Lower(OrEmpty(p.description));
    var hwid, device := Lower(OrEmpty(p.hwid)), Lower(OrEmpty(p.device));
    || (exists k :: 0 <= k < |PORT_KEYWORDS| && (Contains(manufacturer, PORT_KEYWORDS[k]) || Contains(description, PORT_KEYWORDS[k]) || Contains(hwid, PORT_KEYWORDS[k])))
    || (p.vid.Some? && p.vid.value in POPULAR_USB_VENDOR_IDS)
    || AnyIn(DEVICE_KEYWORDS, device)
  }

  /** Python's `sub in s` read as a scan from the left: `sub` starts at
      the first position or somewhere after it. */
  function Found(s: string, sub: string): bool
    decreases |s|
  {
    if |sub| > |s| then false
    else if s[..|sub|] == sub then true
    else Found(s[1..], sub)
  }

  /** The scan finds exactly the occurrences `Contains` speaks of. */
  lemma {:induction false} FoundContains(s: string, sub: string)
    ensures Found(s, sub) <==> Contains(s, sub)
    decreases |s|
  {
    if |sub| <= |s| {
      if s[..|sub|] == sub {
        assert OccursAt(s, sub, 0);
      } else {
        FoundContains(s[1..], sub);
        ContainsPastFirst(s, sub);
      }
    }
  }

  /** When `sub` does not start `s`, its occurrences are those in `s[1..]`. */
  lemma ContainsPastFirst(s: string, sub: string)
    requires |sub| <= |s| && s[..|sub|] != sub
    ensures Contains(s, sub) <==> Contains(s[1..], sub)
  {
    if Contains(s[1..], sub) {
      var i :| 0 <= i <= |s[1..]| - |sub| && OccursAt(s[1..], sub, i);
      OccursShift(s, sub, i + 1);
    }
    if Contains(s, sub) {
      var i :| 0 <= i <= |s| - |sub| && OccursAt(s, sub, i);
      assert i != 0;
      OccursShift(s, sub, i);
    }
  }

  lemma OccursShift(s: string, sub: string, i: int)
    requires 0 < i <= |s| - |sub|
    ensures OccursAt(s, sub, i) <==> OccursAt(s[1..], sub, i - 1)
  {
    assert s[1..][i - 1..i - 1 + |sub|] == s[i..i + |sub|];
  }

  /** `any(keyword in text for keyword in keywords)` evaluated as the
      generator runs: keyword by keyword, stopping at the first hit. */
  function AnyFound(keywords: seq<string>, text: string): bool {
    |keywords| > 0 && (Found(text, keywords[0]) || AnyFound(keywords[1..], text))
  }

  lemma {:induction false} AnyFoundIn(keywords: seq<string>, text: string)
    ensures AnyFound(keywords, text) <==> AnyIn(keywords, text)
  {
    if |keywords| > 0 {
      FoundContains(text, keywords[0]);
      AnyFoundIn(keywords[1..], text);
      if AnyIn(keywords[1..], text) {
        var k :| 0 <= k < |keywords[1..]| && Contains(text, keywords[1..][k]);
        assert Contains(text, keywords[k + 1]);
      }
      if AnyIn(keywords, text) && !Contains(text, keywords[0]) {
        var k :| 0 <= k < |keywords| && Contains(text, keywords[k]);
        assert k != 0 && Contains(text, keywords[1..][k - 1]);
      }
    }
  }

  /** The heuristic as three separate tests: the port keywords scanned over
      the manufacturer, the description and the hardware id one text at a
      time; the vendor id; the device keywords over the device name. */
  predicate PreferredByScan(p: PortInfo) {
    var manufacturer, description := Lower(OrEmpty(p.manufacturer)), Lower(OrEmpty(p.description));
    var hwid, device := Lower(OrEmpty(p.hwid)), Lower(OrEmpty(p.device));
    || AnyFound(PORT_KEYWORDS, manufacturer) || AnyFound(PORT_KEYWORDS, description) || AnyFound(PORT_KEYWORDS, hwid)
    || (p.vid.Some? && p.vid.value in POPULAR_USB_VENDOR_IDS)
    || AnyFound(DEVICE_KEYWORDS, device)
  }

  /** For every port, `is_preferred_port` holds exactly when a known vendor
      id is reported, or a port keyword occurs in the lower-cased
      manufacturer, description or hardware id, or a device keyword occurs
      in the lower-cased device name. */
  lemma PreferredIff(p: PortInfo)
    ensures IsPreferredPort(p) <==> PreferredByScan(p)
  {
    var manufacturer, description := Lower(OrEmpty(p.manufacturer)), Lower(OrEmpty(p.description));
    var hwid, device := Lower(OrEmpty(p.hwid)), Lower(OrEmpty(p.device));
    AnyFoundIn(PORT_KEYWORDS, manufacturer);
    AnyFoundIn(PORT_KEYWORDS, description);
    AnyFoundIn(PORT_KEYWORDS, hwid);
    AnyFoundIn(DEVICE_KEYWORDS, device);
  }

  /** The port with its four texts lower-cased. */
  function LowerCased(p: PortInfo): (q: PortInfo)
    ensures q.vid == p.vid
  {
    PortInfo(LowerOpt(p.device), LowerOpt(p.description), LowerOpt(p.manufacturer), LowerOpt(p.hwid), p.vid)
  }

  function LowerOpt(s: Option<string>): Option<string> {
    if s.Some? then Some(Lower(s.value)) else None
  }

  lemma LowerTwice(s: string)
    ensures Lower(Lower(s)) == Lower(s)
  {
  }

  /** The heuristic ignores case: lower-casing the port's texts first does
      not change the verdict. */
  lemma PreferredIgnoresCase(p: PortInfo)
    ensures IsPreferredPort(LowerCased(p)) <==> IsPreferredPort(p)
  {
    LowerTwice(OrEmpty(p.device));
    LowerTwice(OrEmpty(p.description));
    LowerTwice(OrEmpty(p.manufacturer));
    LowerTwice(OrEmpty(p.hwid));
  }

  /** A known vendor id alone makes a port preferred, and so does a device
      name that contains `ttyacm` once lower-cased, such as
      `/dev/ttyACM0`. */
  lemma PreferredExamples(p: PortInfo)
    ensures p.vid == Some(0x2341) || p.vid == Some(0x10C4) ==> IsPreferredPort(p)
    ensures Contains(Lower(OrEmpty(p.device)), "ttyacm") ==> IsPreferredPort(p)
  {
    if Contains(Lower(OrEmpty(p.device)), "ttyacm") {
      assert DEVICE_KEYWORDS[1] == "ttyacm";
    }
  }

  /** An entry of `enumerate_serial_ports`. */
  datatype Entry = Entry(info: PortInfo, preferred: bool)

  /** `item.device or ""`, as the first sort's key. */
  function DeviceKey(p: PortInfo): Key {
    (false, OrEmpty(p.device))
  }

  /** `(not item["preferred"], item["device"] or "")`. */
  function EntryKey(e: Entry): Key {
    (!e.preferred, OrEmpty(e.info.device))
  }

  function EntryOf(p: PortInfo): (e: Entry)
    ensures e.info == p && (e.preferred <==> IsPreferredPort(p))
  {
    Entry(p, IsPreferredPort(p))
  }

  function Entries(ports: seq<PortInfo>): (r: seq<Entry>)
    ensures |r| == |ports| && forall i :: 0 <= i < |ports| ==> r[i] == EntryOf(ports[i])
  {
    seq(|ports|, i requires 0 <= i < |ports| => EntryOf(ports[i]))
  }

  /** `enumerate_serial_ports` (serial_bridge.py:152-160) over the ports
      `list_ports.comports()` reports: sorted by device, flagged, then
      sorted preferred first and by device. */
  function EnumerateSerialPorts(ports: seq<PortInfo>): seq<Entry> {
    SortBy(Entries(SortBy(ports, DeviceKey)), EntryKey)
  }

  /** The listing holds every reported port once, flagged by the
      heuristic, preferred ports first and each group by device name; the
      automatic choice is then the first entry. */
  lemma EnumerateFacts(ports: seq<PortInfo>)
    ensures var entries := EnumerateSerialPorts(ports);
      && multiset(entries) == multiset(Entries(SortBy(ports, DeviceKey)))
      && |entries| == |ports|
      && SortedBy(entries, EntryKey)
      && (forall i :: 0 <= i < |entries| ==> (entries[i].preferred <==> IsPreferredPort(entries[i].info)))
      && (entries != [] ==> SelectAutoPort(entries) == entries[0].info.device)
  {
    var byDevice := SortBy(ports, DeviceKey);
    var entries := EnumerateSerialPorts(ports);
    SortSorted(Entries(byDevice), EntryKey);
    forall i | 0 <= i < |entries| ensures entries[i].preferred <==> IsPreferredPort(entries[i].info) {
      assert entries[i] in multiset(Entries(byDevice));
    }
    if entries != [] {
      AutoIsFirst(entries, EntryKey, (e: Entry) => e.preferred, (e: Entry) => e.info.device);
    }
  }

  /** The listing holds exactly the reported ports: each reported port
      appears, flagged, and each entry is a reported port. */
  lemma EnumerateMembers(ports: seq<PortInfo>)
    ensures forall p :: p in ports ==> EntryOf(p) in EnumerateSerialPorts(ports)
    ensures forall e :: e in EnumerateSerialPorts(ports) ==> e.info in ports && e == EntryOf(e.info)
  {
    var byDevice := SortBy(ports, DeviceKey);
    var entries := EnumerateSerialPorts(ports);
    assert multiset(entries) == multiset(Entries(byDevice));
    forall p | p in ports ensures EntryOf(p) in entries {
      assert p in multiset(byDevice);
      var i :| 0 <= i < |byDevice| && byDevice[i] == p;
      assert Entries(byDevice)[i] == EntryOf(p);
      assert EntryOf(p) in multiset(Entries(byDevice));
    }
    forall e | e in entries ensures e.info in ports && e == EntryOf(e.info) {
      assert e in multiset(Entries(byDevice));
      var i :| 0 <= i < |byDevice| && Entries(byDevice)[i] == e;
      assert byDevice[i] in multiset(ports);
    }
  }

  /** `select_auto_port` (serial_bridge.py:163-168). */
  function SelectAutoPort(entries: seq<Entry>): Option<string> {
    SelectAuto(entries, (e: Entry) => e.preferred, (e: Entry) => e.info.device)
  }

  // ------------------------------------------------------------ arguments

  /** `parse_args`'s check (serial_bridge.py:112-116): unless the ports
      are only listed, exactly one of `--port` (a non-empty name) and
      `--auto` is given. */
  predicate ArgsAccepted(listPorts: bool, auto: bool, port: Option<string>) {
    var hasPort := port.Some? && port.value != "";
    listPorts || !((auto && hasPort) || (!auto && !hasPort))
  }

  lemma ArgsRule(listPorts: bool, auto: bool, port: Option<string>)
    ensures !listPorts ==> (ArgsAccepted(listPorts, auto, port) <==> (auto != (port.Some? && port.value != "")))
    ensures listPorts ==> ArgsAccepted(listPorts, auto, port)
  {
  }
}

=== FILE: serial_manager.dfy ===
/** The Electron ground receiver (receptor_arudino/webpage/electron/
    serialManager.js): the `SerialManager`'s line handling and payload
    stamping, and the port helpers `normalizeHex`, `enrichPort`,
    `listPorts` and `selectAutoPort`. `JSON.parse` is a parameter, the
    clock's ISO text an input; emitted events and written payloads are
    logs. The last part states how this receiver differs from the Python
    bridge. */
module SerialManagerJs {
  import opened Common
  import opened PyDict
  import opened SensorMessages
  import opened ReceiverProtocol
  import SerialBridgePy

  // ------------------------------------------------------------ JavaScript values

  /** `a || b` on optional text: `a` when it is a non-empty string. */
  function Or(a: Option<string>, b: Option<string>): Option<string> {
    if a.Some? && a.value != "" then a else b
  }

  /** `x || ''`, `${x}` of a string. */
  function Text(a: Option<string>): string {
    if a.Some? then a.value else ""
  }

  /** JavaScript's truth value of a parsed JSON value: unlike Python's,
      every array and object is true. */
  predicate JsTruthy(v: Value) {
    match v
    case VNone => false
    case VBool(b) => b
    case VNum(r) => r != 0.0
    case VStr(s) => s != ""
    case VList(_) => true
    case VDict(_) => true
  }

  // ------------------------------------------------------------ normalizeHex

  predicate IsUpper(c: char) {
    'A' <= c <= 'Z'
  }

  /** `normalizeHex` (serialManager.js:19-23): nothing for a missing or
      empty id; otherwise the text without one leading `0x` (either
      case), lower-cased, and nothing if that leaves no text. */
  function NormalizeHex(value: Option<string>): (r: Option<string>)
    ensures r.Some? ==> r.value != "" && forall i :: 0 <= i < |r.value| ==> !IsUpper(r.value[i])
  {
    if value.None? || value.value == "" then None
    else
      var s := value.value;
      var digits := if |s| >= 2 && s[0] == '0' && (s[1] == 'x' || s[1] == 'X') then s[2..] else s;
      var n := Lower(digits);
      if n == "" then None else Some(n)
  }

  /** Exactly the missing id, the empty one and a bare `0x` normalise to
      nothing; an id without the prefix is only lower-cased, and one
      with it loses the prefix. */
  lemma NormalizeHexFacts(value: Option<string>)
    ensures NormalizeHex(value).None? <==>
      value.None? || value.value == "" || value.value == "0x" || value.value == "0X"
    ensures value.Some? && value.value != "" && !(|value.value| >= 2 && value.value[0] == '0' && (value.value[1] == 'x' || value.value[1] == 'X')) ==>
      NormalizeHex(value) == Some(Lower(value.value))
    ensures value.Some? && |value.value| > 2 && value.value[..2] == "0X" ==>
      NormalizeHex(value) == Some(Lower(value.value[2..]))
  {
    if value.Some? && |value.value| >= 2 && value.value[0] == '0' && (value.value[1] == 'x' || value.value[1] == 'X') {
      var s := value.value;
      assert |Lower(s[2..])| == |s| - 2;
      if |s| == 2 {
        assert s == ['0', s[1]];
      }
    }
  }

  /** Only one prefix is removed, so normalising twice can differ from
      normalising once: `0x0x12` gives `0x12`, and that gives `12`. */
  lemma NormalizeHexOnce()
    ensures NormalizeHex(Some("0x0x12")) == Some("0x12")
    ensures NormalizeHex(NormalizeHex(Some("0x0x12"))) == Some("12")
  {
    assert "0x0x12"[2..] == "0x12";
    assert Lower("0x12") == "0x12" by {
      assert forall i :: 0 <= i < 4 ==> LowerChar("0x12"[i]) == "0x12"[i];
    }
    assert "0x12"[2..] == "12";
    assert Lower("12") == "12" by {
      assert forall i :: 0 <= i < 2 ==> LowerChar("12"[i]) == "12"[i];
    }
  }

  // ------------------------------------------------------------ ports

  /** The fields of a `SerialPort.list()` record `enrichPort` reads. */
  datatype PortRecord = PortRecord(
    path: Option<string>, device: Option<string>, comName: Option<string>,
    manufacturer: Option<string>, pnpId: Option<string>, friendlyName: Option<string>,
    vendorId: Option<string>, vendorID: Option<string>, productId: Option<string>, productID: Option<string>,
    serialNumber: Option<string>, locationId: Option<string>)

  /** The object `enrichPort` returns. */
  datatype PortEntry = PortEntry(
    path: Option<string>, manufacturer: Option<string>, serialNumber: Option<string>, locationId: Option<string>,
    vendorId: Option<string>, productId: Option<string>, friendlyName: Option<string>, pnpId: Option<string>,
    preferred: bool)

  const KEYWORDS: seq<string> := ["arduino", "nano", "ch340", "wch", "cp210", "silicon labs", "usb-serial"]
  const VENDOR_IDS: set<string> := {"2341", "2a03", "1a86", "10c4"}
  const PATH_SLUGS: seq<string> := ["ttyusb", "ttyacm", "usbserial", "wchusb", "com"]

  /** `KEYWORDS.some(...)` / the slug test. */
  predicate SomeIn(words: seq<string>, text: string) {
    exists k :: 0 <= k < |words| && Contains(text, words[k])
  }

  /** `enrichPort`'s three hits (serialManager.js:26-37): a keyword in
      the lower-cased "manufacturer description" text, a known vendor id,
      or a known slug in the lower-cased path. */
  predicate PreferredRecord(p: PortRecord) {
    var path := Or(Or(p.path, p.device), p.comName);
    var manufacturer := Text(Or(Or(p.manufacturer, p.pnpId), p.friendlyName));
    var description := Text(Or(p.friendlyName, p.pnpId));
    var vendorId := NormalizeHex(Or(p.vendorId, p.vendorID));
    || SomeIn(KEYWORDS, Lower(manufacturer + " " + description))
    || (vendorId.Some? && vendorId.value in VENDOR_IDS)
    || (path.Some? && SomeIn(PATH_SLUGS, Lower(path.value)))
  }

  /** `enrichPort` (serialManager.js:25-50). */
  function EnrichPort(p: PortRecord): (e: PortEntry)
    ensures e.path == Or(Or(p.path, p.device), p.comName)
    ensures e.vendorId == NormalizeHex(Or(p.vendorId, p.vendorID))
    ensures e.preferred <==> PreferredRecord(p)
  {
    PortEntry(
      Or(Or(p.path, p.device), p.comName), p.manufacturer, p.serialNumber, p.locationId,
      NormalizeHex(Or(p.vendorId, p.vendorID)), NormalizeHex(Or(p.productId, p.productID)),
      p.friendlyName, p.pnpId, PreferredRecord(p))
  }

  /** The `com` slug is a bare substring test: any path containing
      "com" in any case, such as `/dev/cu.Bluetooth-Incoming-Port`, is
      preferred, not only Windows `COMn` ports. */
  lemma ComSlugMatchesAnyPath(p: PortRecord)
    requires p.path.Some? && p.path.value != "" && Contains(Lower(p.path.value), "com")
    ensures EnrichPort(p).preferred
  {
    assert PATH_SLUGS[4] == "com";
  }

  /** The sort key: preferred first, then the path. */
  function PathKey(e: PortEntry): Key {
    (!e.preferred, Text(e.path))
  }

  /** `.filter((port) => Boolean(port.path))`: every entry with a path is
      kept as often as it occurs, and no other. */
  function WithPath(entries: seq<PortEntry>): (r: seq<PortEntry>)
    ensures forall e :: e in r <==> e in entries && e.path.Some? && e.path.value != ""
    ensures forall e :: multiset(r)[e] == if e.path.Some? && e.path.value != "" then multiset(entries)[e] else 0
    ensures |r| <= |entries|
  {
    if entries == [] then []
    else
      var rest := WithPath(entries[1..]);
      assert entries == [entries[0]] + entries[1..];
      assert forall e :: e in entries <==> e == entries[0] || e in entries[1..];
      if entries[0].path.Some? && entries[0].path.value != "" then [entries[0]] + rest else rest
  }

  function Enriched(ports: seq<PortRecord>): (r: seq<PortEntry>)
    ensures |r| == |ports| && forall i :: 0 <= i < |ports| ==> r[i] == EnrichPort(ports[i])
  {
    seq(|ports|, i requires 0 <= i < |ports| => EnrichPort(ports[i]))
  }

  /** `listPorts` (serialManager.js:70-81) over the records
      `SerialPort.list()` returns: the enriched ports that have a path,
      sorted, and the automatic choice. */
  function ListPorts(ports: seq<PortRecord>): (r: (seq<PortEntry>, Option<string>)) {
    var listed := SortBy(WithPath(Enriched(ports)), PathKey);
    (listed, SelectAutoPort(listed))
  }

  /** `selectAutoPort` (serialManager.js:83-89). */
  function SelectAutoPort(entries: seq<PortEntry>): Option<string> {
    SelectAuto(entries, (e: PortEntry) => e.preferred, (e: PortEntry) => e.path)
  }

  /** The listing: the enriched ports with a path, each as often as it
      occurs, preferred ports first and each group by path, and the automatic choice the first
      listed path, or nothing for an empty list. */
  lemma ListPortsFacts(ports: seq<PortRecord>)
    ensures var (listed, auto) := ListPorts(ports);
      && (forall e :: e in listed <==> e in Enriched(ports) && e.path.Some? && e.path.value != "")
      && multiset(listed) == multiset(WithPath(Enriched(ports)))
      && SortedBy(listed, PathKey)
      && (listed == [] ==> auto == None)
      && (listed != [] ==> auto == listed[0].path)
  {
    var with := WithPath(Enriched(ports));
    var listed := SortBy(with, PathKey);
    SortSorted(with, PathKey);
    forall e ensures e in listed <==> e in with {
      assert e in listed <==> e in multiset(listed);
      assert e in with <==> e in multiset(with);
    }
    if listed != [] {
      AutoIsFirst(listed, PathKey, (e: PortEntry) => e.preferred, (e: PortEntry) => e.path);
    }
  }

  // ------------------------------------------------------------ lines

  /** `raw.replace(/[\r\n]+$/, '')`. */
  function DropLineEnd(s: string): (r: string)
    ensures r <= s
  {
    if s != [] && (s[|s| - 1] == '\r' || s[|s| - 1] == '\n') then DropLineEnd(s[..|s| - 1]) else s
  }

  /** `TrimLeft` drops exactly the leading run of whitespace. */
  lemma {:induction false} TrimLeftAt(s: string, j: nat)
    requires j <= |s| && (forall i :: 0 <= i < j ==> IsSpace(s[i]))
    requires j == |s| || !IsSpace(s[j])
    ensures TrimLeft(s) == s[j..]
    decreases j
  {
    if j > 0 {
      assert IsSpace(s[0]);
      assert forall i :: 0 <= i < j - 1 ==> s[1..][i] == s[i + 1];
      TrimLeftAt(s[1..], j - 1);
      assert s[1..][j - 1..] == s[j..];
    }
  }

  /** Dropping a trailing space drops the last character of the
      left-trimmed text, when there is one. */
  lemma {:induction false} TrimLeftDropLast(s: string)
    requires s != [] && IsSpace(s[|s| - 1]) && TrimLeft(s) != []
    ensures TrimLeft(s[..|s| - 1]) + [s[|s| - 1]] == TrimLeft(s)
    decreases |s|
  {
    var t := s[..|s| - 1];
    if IsSpace(s[0]) {
      var u := s[1..];
      assert TrimLeft(s) == TrimLeft(u);
      assert u != [] && u[|u| - 1] == s[|s| - 1];
      TrimLeftDropLast(u);
      assert t[1..] == u[..|u| - 1];
    } else {
      assert s == t + [s[|s| - 1]];
    }
  }

  lemma StripDropLast(s: string)
    requires s != [] && IsSpace(s[|s| - 1])
    ensures Strip(s[..|s| - 1]) == Strip(s)
  {
    var t := s[..|s| - 1];
    var l := TrimLeft(s);
    if l == [] {
      TrimLeftShape(s);
      assert forall i :: 0 <= i < |s| ==> IsSpace(s[i]);
      assert forall i :: 0 <= i < |t| ==> IsSpace(t[i]) by {
        forall i | 0 <= i < |t| ensures IsSpace(t[i]) {
          assert t[i] == s[i];
        }
      }
    } else {
      TrimLeftDropLast(s);
      var x := TrimLeft(t);
      assert (x + [s[|s| - 1]])[..|x|] == x;
      assert TrimRight(l) == TrimRight(x);
    }
  }

  /** `text.trim()` after dropping the line end is `line.strip()`: both
      receivers look at the same stripped line. */
  lemma {:induction false} SameStrippedLine(raw: string)
    ensures Strip(DropLineEnd(raw)) == Strip(raw)
    decreases |raw|
  {
    if raw != [] && (raw[|raw| - 1] == '\r' || raw[|raw| - 1] == '\n') {
      SameStrippedLine(raw[..|raw| - 1]);
      StripDropLast(raw);
    }
  }

  /** The `'line'` event: the text without its line end, the trimmed
      text and the raw text; its timestamp is not modelled. */
  datatype LineEvent = LineEvent(text: string, trimmed: string, raw: string)

  /** `handlePayload`'s stamping (serialManager.js:202-206): an object
      keeps a `_meta` that is an object (or an array), else gets `{}`; its
      `topic` becomes the manager's topic, else its own if that is
      truthy, else "sensors"; `received_at` becomes `now`. Properties set
      on an array are not part of its JSON text. */
  function JsStamp(payload: Value, topic: Option<string>, now: string): Value {
    if !payload.VDict? then payload
    else
      var found := Get(payload.d, "_meta");
      var meta := if found.Some? && (found.value.VDict? || found.value.VList?) then found.value else VDict(Empty());
      var d := Put(payload.d, "_meta", meta);
      if !meta.VDict? then VDict(d)
      else
        var own := Get(meta.d, "topic");
        var t := if topic.Some? && topic.value != "" then VStr(topic.value)
          else if own.Some? && JsTruthy(own.value) then own.value else VStr("sensors");
        VDict(Put(d, "_meta", VDict(Put(Put(meta.d, "topic", t), "received_at", VStr(now)))))
  }

  /** How a trimmed line changes `capturing`; the topic is always null
      afterwards. */
  function JsStep(capturing: bool, line: string): bool {
    match KindOf(line)
    case Start => true
    case End => false
    case _ => capturing
  }

  /** What a trimmed line adds to the written payloads: the stamped
      payload of a JSON line inside a block that parses. */
  function JsWritten(capturing: bool, line: string, parse: string -> Option<Value>, now: string): seq<Value> {
    if capturing && KindOf(line) == PayloadLine && parse(line).Some? then [JsStamp(parse(line).value, None, now)]
    else []
  }

  /** The `'error'` events a trimmed line emits: one for a JSON line
      inside a block that does not parse. */
  function JsErrors(capturing: bool, line: string, parse: string -> Option<Value>): nat {
    if capturing && KindOf(line) == PayloadLine && parse(line).None? then 1 else 0
  }

  /** The `SerialManager` fields `handleLine` uses. */
  class SerialManager {
    var capturing: bool
    var topic: Option<string>
    /** Emitted `'line'` events, payloads written, `'error'` events. */
    var lines: seq<LineEvent>
    var written: seq<Value>
    var errors: nat

    /** The topic is never set to anything but null. */
    ghost predicate Valid()
      reads this
    {
      topic == None
    }

    /** `new SerialManager(...)` (serialManager.js:53-68). */
    constructor()
      ensures Valid() && !capturing && lines == [] && written == [] && errors == 0
    {
      capturing, topic, lines, written, errors := false, None, [], [], 0;
    }

    /** `handleLine` (serialManager.js:153-197): an empty raw line is
        ignored; otherwise the `'line'` event is emitted before any
        marker test, then the trimmed line runs through the marker
        rules. A `Topic:` line sets the topic to
        `line.split(':', 1)[1]`, which is always undefined. */
    method HandleLine(raw: string, parse: string -> Option<Value>, now: string)
      requires Valid()
      modifies this
      ensures Valid()
      ensures raw == "" ==> unchanged(this)
      ensures raw != "" ==> lines == old(lines) + [LineEvent(DropLineEnd(raw), Strip(DropLineEnd(raw)), raw)]
      ensures capturing == JsStep(old(capturing), Strip(DropLineEnd(raw)))
      ensures written == old(written) + JsWritten(old(capturing), Strip(DropLineEnd(raw)), parse, now)
      ensures errors == old(errors) + JsErrors(old(capturing), Strip(DropLineEnd(raw)), parse)
    {
      if raw == "" {
        return;
      }
      var text := DropLineEnd(raw);
      var trimmed := Strip(text);
      lines := lines + [LineEvent(text, trimmed, raw)];
      HandleTrimmed(trimmed, parse, now);
    }

    /** The rest of `handleLine` (serialManager.js:168-196): the marker
        rules on the trimmed line. */
    method HandleTrimmed(line: string, parse: string -> Option<Value>, now: string)
      requires Valid()
      modifies this`capturing, this`topic, this`written, this`errors
      ensures Valid()
      ensures capturing == JsStep(old(capturing), line)
      ensures written == old(written) + JsWritten(old(capturing), line, parse, now)
      ensures errors == old(errors) + JsErrors(old(capturing), line, parse)
    {
      // the prefix tests in their order: empty, start, Topic, JSON, end
      var kind := KindOf(line);
      if kind == Blank {
        return;
      }
      if kind == Start {
        capturing := true;
        topic := None;
        return;
      }
      if !capturing {
        return;
      }
      if kind == TopicLine {
        // `split(':', 1)` stops after one piece, so there is no second
        topic := SecondPiece(SplitColon(line)[..1]);
        return;
      }
      if kind == PayloadLine {
        HandlePayload(line, parse, now);
        return;
      }
      if kind == End {
        capturing := false;
        topic := None;
      }
    }

    /** `handlePayload` (serialManager.js:199-211): a parsed payload is
        stamped and written; a parse failure emits an error and writes
        nothing. */
    method HandlePayload(text: string, parse: string -> Option<Value>, now: string)
      modifies this`written, this`errors
      ensures parse(text).Some? ==> written == old(written) + [JsStamp(parse(text).value, topic, now)] && errors == old(errors)
      ensures parse(text).None? ==> written == old(written) && errors == old(errors) + 1
    {
      var payload := parse(text);
      if payload.None? {
        errors := errors + 1;
        return;
      }
      written := written + [JsStamp(payload.value, topic, now)];
    }
  }

  /** `line.split(':')`: the pieces between the colons, which joined
      with colons give the line back. */
  function SplitColon(line: string): (r: seq<string>)
    ensures |r| >= 1 && Join(r, ":") == line
    ensures forall k :: 0 <= k < |r| ==> ':' !in r[k]
  {
    if line == [] then [[]]
    else
      var rest := SplitColon(line[1..]);
      assert line == [line[0]] + line[1..];
      if line[0] == ':' then
        assert Join([[]] + rest, ":") == ":" + Join(rest, ":") by {
          assert ([[]] + rest)[1..] == rest;
        }
        [[]] + rest
      else
        var r := [[line[0]] + rest[0]] + rest[1..];
        assert Join(r, ":") == [line[0]] + Join(rest, ":") by {
          assert r[1..] == rest[1..];
          if |rest| > 1 {
            assert Join(rest, ":") == rest[0] + ":" + Join(rest[1..], ":");
          }
        }
        assert forall k :: 1 <= k < |r| ==> r[k] == rest[k];
        r
  }

  /** `pieces[1]?.trim() || null`. */
  function SecondPiece(pieces: seq<string>): (r: Option<string>)
    ensures r.Some? <==> |pieces| > 1 && Strip(pieces[1]) != ""
  {
    if |pieces| > 1 && Strip(pieces[1]) != "" then Some(Strip(pieces[1])) else None
  }

  // ------------------------------------------------------------ the two receivers

  /** Fed the same raw line, the two receivers open and close payload
      blocks alike; the Python bridge may remember a topic where the
      Electron manager never does. */
  lemma SameCapture(capturing: bool, topic: Option<string>, raw: string)
    ensures JsStep(capturing, Strip(DropLineEnd(raw))) == SerialBridgePy.BridgeStep(capturing, topic, Strip(raw)).0
  {
    SameStrippedLine(raw);
    SameStep(capturing, topic, Strip(raw));
  }

  lemma SameStep(capturing: bool, topic: Option<string>, line: string)
    ensures JsStep(capturing, line) == SerialBridgePy.BridgeStep(capturing, topic, line).0
  {
  }

  /** Raw lines handled one after the other: the capture flag afterwards
      and the payloads written. */
  function JsRun(capturing: bool, lines: seq<string>, parse: string -> Option<Value>, now: string): (bool, seq<Value>)
    decreases |lines|
  {
    if lines == [] then (capturing, [])
    else
      var line := Strip(DropLineEnd(lines[0]));
      var (c, w) := JsRun(JsStep(capturing, line), lines[1..], parse, now);
      (c, JsWritten(capturing, line, parse, now) + w)
  }

  /** Over any sequence of raw lines the two receivers end in the same
      capture state and write the same number of payloads. */
  lemma {:induction false} SameRun(capturing: bool, topic: Option<string>, lines: seq<string>, parse: string -> Option<Value>, now: string)
    ensures JsRun(capturing, lines, parse, now).0 == SerialBridgePy.BridgeRun(capturing, topic, lines, parse, now).0
    ensures |JsRun(capturing, lines, parse, now).1| == |SerialBridgePy.BridgeRun(capturing, topic, lines, parse, now).2|
    decreases |lines|
  {
    if lines != [] {
      var line := Strip(lines[0]);
      SameStrippedLine(lines[0]);
      SameStep(capturing, topic, line);
      var (c, t) := SerialBridgePy.BridgeStep(capturing, topic, line);
      SameRun(c, t, lines[1..], parse, now);
    }
  }

  /** The topic the two receivers stamp on a payload without `_meta`
      that arrives after `Topic: <name>`: the Python bridge stamps the
      name, the Electron manager "sensors". */
  lemma TopicDivergence(payload: Dict<Value>, name: string, now: string)
    requires "_meta" !in payload.entries && name != ""
    ensures var p := SerialBridgePy.StampPayload(VDict(payload), Some(name), now);
      p.VDict? && "_meta" in p.d.entries && p.d.entries["_meta"].VDict?
      && Get(p.d.entries["_meta"].d, "topic") == Some(VStr(name))
    ensures var j := JsStamp(VDict(payload), None, now);
      j.VDict? && "_meta" in j.d.entries && j.d.entries["_meta"].VDict?
      && Get(j.d.entries["_meta"].d, "topic") == Some(VStr("sensors"))
  {
  }

  /** An existing but empty `topic` is kept by the Python bridge and
      replaced with "sensors" by the Electron manager. */
  lemma EmptyTopicDivergence(payload: Dict<Value>, meta: Dict<Value>, now: string)
    requires Get(payload, "_meta") == Some(VDict(meta)) && Get(meta, "topic") == Some(VStr(""))
    ensures var p := SerialBridgePy.StampPayload(VDict(payload), None, now);
      Get(p.d.entries["_meta"].d, "topic") == Some(VStr(""))
    ensures var j := JsStamp(VDict(payload), None, now);
      Get(j.d.entries["_meta"].d, "topic") == Some(VStr("sensors"))
  {
  }

  /** A port the Python heuristic prefers by its device name is preferred
      by the Electron heuristic too when the name is its path: every
      Python device keyword is an Electron slug. */
  lemma DeviceSlugsAgree(p: PortRecord)
    requires p.path.Some? && p.path.value != ""
    requires SerialBridgePy.AnyIn(SerialBridgePy.DEVICE_KEYWORDS, Lower(p.path.value))
    ensures EnrichPort(p).preferred
  {
    var k :| 0 <= k < |SerialBridgePy.DEVICE_KEYWORDS| && Contains(Lower(p.path.value), SerialBridgePy.DEVICE_KEYWORDS[k]);
    assert SerialBridgePy.DEVICE_KEYWORDS[k] == PATH_SLUGS[k];
  }
}

=== FILE: string_builder.dfy ===
/** The C aggregator's growable text buffer (`StringBuilder`,
    rocket_c/src/aggregator.c:20-150). `realloc` is modelled by a fixed
    amount of memory: a request for more than `available` bytes fails, any
    other succeeds, and a successful one keeps the old bytes. */
module StringBuilderC {
  import opened Common
  import JsonText

  /** Doubling from `start` until `required` is reached. */
  function Grow(start: nat, required: nat): (c: nat)
    requires start >= 1
    ensures c >= required && c >= start
    decreases required - start
  {
    if start >= required then start else Grow(start * 2, required)
  }

  /** The capacity `sb_reserve` asks for: twice the old one, or 256 for an
      empty builder, doubled until it holds `required` bytes. */
  function GrowTarget(capacity: nat, required: nat): (c: nat)
    ensures c >= required
    ensures capacity == 0 ==> c >= 256
    ensures capacity > 0 ==> c >= 2 * capacity
  {
    Grow(if capacity != 0 then capacity * 2 else 256, required)
  }

  /** Doubling never overshoots: the result is the start itself, or less
      than twice what was required. */
  lemma {:induction false} GrowBound(start: nat, required: nat)
    requires start >= 1
    ensures Grow(start, required) == start || Grow(start, required) < 2 * required
    decreases required - start
  {
    if start < required {
      GrowBound(start * 2, required);
    }
  }

  /** Every capacity a builder reaches: 0, or 256 times a power of two. */
  predicate IsCapacity(c: nat)
    decreases c
  {
    c == 0 || c == 256 || (c > 256 && c % 2 == 0 && IsCapacity(c / 2))
  }

  lemma {:induction false} GrowKeepsCapacity(start: nat, required: nat)
    requires start >= 1 && IsCapacity(start)
    ensures IsCapacity(Grow(start, required))
    decreases required - start
  {
    if start < required {
      assert (start * 2) / 2 == start;
      GrowKeepsCapacity(start * 2, required);
    }
  }

  /** A reservation of `additional` bytes succeeds: there is room already,
      or the grown capacity fits in memory. */
  predicate Fits(length: nat, capacity: nat, additional: nat, available: nat) {
    length + additional + 1 <= capacity || GrowTarget(capacity, length + additional + 1) <= available
  }

  /** With at least 256 bytes, and twice what is ever required, every
      reservation succeeds. */
  lemma EnoughMemory(length: nat, capacity: nat, additional: nat, available: nat)
    requires IsCapacity(capacity)
    requires available >= 256 && available >= 2 * (length + additional + 1)
    requires capacity == 0 || capacity > length
    ensures Fits(length, capacity, additional, available)
  {
    var required := length + additional + 1;
    if required > capacity {
      var start := if capacity != 0 then capacity * 2 else 256;
      GrowBound(start, required);
      assert start <= available || start < 2 * required;
    }
  }

  /** Memory for `extra` more bytes after `length` with room to spare: the
      first block, and twice what the text and its NUL will need. */
  predicate Ample(length: nat, extra: nat, available: nat) {
    available >= 256 && available >= 2 * (length + extra + 1)
  }

  /** The bytes of `n` blanks. */
  function Blanks(n: nat): (r: seq<Byte>)
    ensures |r| == n
  {
    if n == 0 then [] else Blanks(n - 1) + [32]
  }

  /** What `sb_finalize` as written comes to: the text, or a write
      through NULL. */
  datatype Finalized = Text(bytes: seq<Byte>) | NullWrite

  /** `StringBuilder`: `data` is NULL until the first reservation. */
  class StringBuilder {
    var data: array?<Byte>
    var length: nat
    var capacity: nat
    const available: nat

    /** The buffer holds `capacity` bytes, the text is NUL-terminated
        inside it, and the capacity is one the growth rule reaches. */
    ghost predicate Valid()
      reads this, data
    {
      && (data == null <==> capacity == 0)
      && (data == null ==> length == 0)
      && (data != null ==> data.Length == capacity && length < capacity && data[length] == 0)
      && IsCapacity(capacity)
      && capacity <= available
    }

    /** The text built so far (the bytes before the terminating NUL). */
    function Contents(): (r: seq<Byte>)
      reads this, data
      requires Valid()
      ensures |r| == length
    {
      if data == null then [] else data[..length]
    }

    /** `sb_init` (aggregator.c:34-38). */
    constructor(available: nat)
      ensures Valid() && data == null && length == 0 && capacity == 0 && this.available == available
      ensures Contents() == []
    {
      data := null;
      length := 0;
      capacity := 0;
      this.available := available;
    }

    /** `sb_reserve` (aggregator.c:40-56). On success there is room for
        `additional` more bytes and the NUL; a failed `realloc` changes
        nothing. The text is kept either way. */
    method Reserve(additional: nat) returns (ok: bool)
      requires Valid()
      modifies this
      ensures Valid()
      ensures data == old(data) || fresh(data)
      ensures length == old(length) && Contents() == old(Contents())
      ensures ok <==> Fits(old(length), old(capacity), additional, available)
      ensures ok ==> capacity >= length + additional + 1
      ensures ok && old(length) + additional + 1 > old(capacity) ==>
        capacity == GrowTarget(old(capacity), old(length) + additional + 1)
      ensures !ok || old(length) + additional + 1 <= old(capacity) ==>
        data == old(data) && capacity == old(capacity)
      ensures Ample(old(length), additional, available) ==> ok
    {
      if Ample(length, additional, available) {
        EnoughMemory(length, capacity, additional, available);
      }
      var required := length + additional + 1;
      if required <= capacity {
        return true;
      }
      var newCapacity := if capacity != 0 then capacity * 2 else 256;
      ghost var start := newCapacity;
      while newCapacity < required
        invariant newCapacity >= start >= 1
        invariant Grow(newCapacity, required) == Grow(start, required)
        decreases required - newCapacity
      {
        newCapacity := newCapacity * 2;
      }
      assert newCapacity == GrowTarget(capacity, required);
      if newCapacity > available {
        return false;
      }
      var newData := new Byte[newCapacity];
      if data != null {
        for i := 0 to capacity
          modifies newData
          invariant forall j :: 0 <= j < i ==> newData[j] == data[j]
        {
          newData[i] := data[i];
        }
        assert newData[..length] == data[..length];
      } else {
        newData[0] := 0;
      }
      GrowKeepsCapacity(start, required);
      data := newData;
      capacity := newCapacity;
      ok := true;
    }

    /** Copies `text` after the text and terminates it; the caller has
        reserved the room. */
    method Put(text: seq<Byte>)
      requires Valid() && data != null && length + |text| + 1 <= capacity
      modifies this, data
      ensures Valid() && data == old(data) && capacity == old(capacity)
      ensures Contents() == old(Contents()) + text
    {
      for i := 0 to |text|
        modifies data
        invariant data[..length] == old(data[..length])
        invariant forall j :: 0 <= j < i ==> data[length + j] == text[j]
      {
        data[length + i] := text[i];
      }
      assert data[..length + |text|] == data[..length] + text;
      length := length + |text|;
      data[length] := 0;
      assert data[..length] == old(Contents()) + text;
    }

    /** `sb_append` (aggregator.c:58-70): NULL text is a successful no-op;
        otherwise the text grows by `text`, or nothing changes when memory
        runs out. */
    method Append(text: Option<seq<Byte>>) returns (ok: bool)
      requires Valid()
      modifies this, data
      ensures Valid()
      ensures data == old(data) || fresh(data)
      ensures text.None? ==> ok && Contents() == old(Contents())
      ensures text.Some? ==> (ok <==> Fits(old(length), old(capacity), |text.value|, available))
      ensures text.Some? && Ample(old(length), |text.value|, available) ==> ok
      ensures ok ==> Contents() == old(Contents()) + (if text.Some? then text.value else [])
      ensures !ok ==> Contents() == old(Contents()) && data == old(data) && capacity == old(capacity)
    {
      if text.None? {
        return true;
      }
      ok := Reserve(|text.value|);
      if !ok {
        return false;
      }
      Put(text.value);
    }

    /** `sb_append_format` (aggregator.c:72-91) with the formatted text
        given: None when `vsnprintf` reports an encoding error. */
    method AppendFormat(rendered: Option<seq<Byte>>) returns (ok: bool)
      requires Valid()
      modifies this, data
      ensures Valid()
      ensures data == old(data) || fresh(data)
      ensures rendered.None? ==> !ok
      ensures rendered.Some? ==> (ok <==> Fits(old(length), old(capacity), |rendered.value|, available))
      ensures rendered.Some? && Ample(old(length), |rendered.value|, available) ==> ok
      ensures ok ==> Contents() == old(Contents()) + rendered.value
      ensures !ok ==> Contents() == old(Contents()) && data == old(data) && capacity == old(capacity)
    {
      if rendered.None? {
        return false;
      }
      ok := Append(rendered);
    }

    /** `sb_append_indent` (aggregator.c:93-104): exactly `spaces` blanks,
        nothing for a count of zero or less. */
    method AppendIndent(spaces: int) returns (ok: bool)
      requires Valid()
      modifies this, data
      ensures Valid()
      ensures data == old(data) || fresh(data)
      ensures spaces <= 0 ==> ok && Contents() == old(Contents())
      ensures spaces > 0 ==> (ok <==> Fits(old(length), old(capacity), spaces, available))
      ensures Ample(old(length), if spaces > 0 then spaces else 0, available) ==> ok
      ensures ok ==> Contents() == old(Contents()) + Blanks(if spaces > 0 then spaces else 0)
      ensures !ok ==> Contents() == old(Contents()) && data == old(data) && capacity == old(capacity)
    {
      if spaces <= 0 {
        return true;
      }
      ok := Reserve(spaces);
      if !ok {
        return false;
      }
      Put(Blanks(spaces));
    }

    /** The `switch` of `sb_append_json_string` (aggregator.c:113-138) for
        one byte: its escape is appended whole, or nothing changes. */
    method AppendEscaped(c: Byte) returns (ok: bool)
      requires Valid()
      modifies this, data
      ensures Valid()
      ensures data == old(data) || fresh(data)
      ensures Ample(old(length), |JsonText.EscapeByte(c)|, available) ==> ok
      ensures ok ==> Contents() == old(Contents()) + JsonText.EscapeByte(c)
      ensures !ok ==> Contents() == old(Contents())
    {
      if c == JsonText.BACKSLASH || c == JsonText.QUOTE || c == 10 || c == 13 || c == 9 {
        ok := Append(Some(JsonText.EscapeByte(c)));
      } else if c < 32 {
        ok := AppendFormat(Some(JsonText.UnicodeEscape(c)));
      } else {
        ok := Reserve(1);
        if ok {
          Put([c]);
        }
      }
    }

    /** One round of the loop below: the escape of `v[i]` after those of
        the bytes before it. */
    method AppendNext(ghost before: seq<Byte>, v: seq<Byte>, i: nat) returns (ok: bool)
      requires Valid() && i < |v|
      requires Contents() == before + JsonText.Escape(v[..i])
      modifies this, data
      ensures Valid()
      ensures data == old(data) || fresh(data)
      ensures Ample(|before|, |JsonText.Escape(v)|, available) ==> ok
      ensures ok ==> Contents() == before + JsonText.Escape(v[..i + 1])
      ensures !ok ==> Extends(before, Contents(), JsonText.Escape(v))
    {
      ghost var done, piece, next, all := JsonText.Escape(v[..i]), JsonText.EscapeByte(v[i]),
                                          JsonText.Escape(v[..i + 1]), JsonText.Escape(v);
      EscapeStep(v, i);
      ok := AppendEscaped(v[i]);
      if ok {
        Glue(before, done, piece, next);
      } else {
        Prefix(before, done, all);
      }
    }

    /** The loop of `sb_append_json_string` (aggregator.c:112-139): the
        escapes of the bytes of `v`, one after another, until memory runs
        out. `v` stands for the bytes of a C string before its NUL, so it
        is meant to hold no 0 byte: the C loop stops at the first one. */
    method AppendEscapedText(v: seq<Byte>) returns (ok: bool)
      requires Valid()
      modifies this, data
      ensures Valid()
      ensures data == old(data) || fresh(data)
      ensures Ample(old(length), |JsonText.Escape(v)|, available) ==> ok
      ensures ok ==> Contents() == old(Contents()) + JsonText.Escape(v)
      ensures !ok ==> Extends(old(Contents()), Contents(), JsonText.Escape(v))
    {
      ghost var before := Contents();
      for i := 0 to |v|
        invariant Valid()
        invariant data == old(data) || fresh(data)
        invariant Contents() == before + JsonText.Escape(v[..i])
      {
        ok := AppendNext(before, v, i);
        if !ok {
          return;
        }
      }
      assert v[..|v|] == v;
      ok := true;
    }

    /** `sb_append_json_string` (aggregator.c:106-142): the quoted,
        escaped value (`""` for NULL). Each piece is appended whole, so a
        failure leaves a prefix of the literal after the old text. `value`
        holds the bytes before the C string's NUL, so no 0 byte is meant to
        occur in it. */
    method AppendJsonString(value: Option<seq<Byte>>) returns (ok: bool)
      requires Valid()
      modifies this, data
      ensures Valid()
      ensures data == old(data) || fresh(data)
      ensures Ample(old(length), |JsonText.Quote(value)|, available) ==> ok
      ensures ok ==> Contents() == old(Contents()) + JsonText.Quote(value)
      ensures !ok ==> Extends(old(Contents()), Contents(), JsonText.Quote(value))
    {
      ghost var before := Contents();
      var v := JsonText.TextOf(value);
      ok := Append(Some([JsonText.QUOTE]));
      if !ok {
        assert Extends(before, before, JsonText.Quote(value)) by {
          assert before == before + JsonText.Quote(value)[..0];
        }
        return;
      }
      ghost var afterQuote := Contents();
      ok := AppendEscapedText(v);
      if !ok {
        Quoted(before, afterQuote, Contents(), JsonText.Escape(v));
        return;
      }
      ghost var afterText := Contents();
      ok := Append(Some([JsonText.QUOTE]));
      if ok {
        Closed(before, afterQuote, afterText, Contents(), JsonText.Escape(v));
      } else {
        Unclosed(before, afterQuote, afterText, JsonText.Escape(v));
      }
    }

    /** `sb_finalize` (aggregator.c:144-150) with the failed reservation
        handled: a builder that never obtained memory reserves its first
        block and yields the empty text, or yields NULL when even that
        fails. A builder with memory yields its text. */
    method Finalize() returns (text: Option<seq<Byte>>)
      requires Valid()
      modifies this
      ensures Valid()
      ensures old(data) != null ==> text == Some(old(Contents()))
      ensures old(data) == null ==> (text.None? <==> available < 256)
      ensures text.Some? ==> text.value == old(Contents())
    {
      if data == null {
        assert GrowTarget(0, 2) == 256;
        var ok := Reserve(1);
        if !ok {
          return None;
        }
      }
      text := Some(Contents());
    }

    /** `sb_finalize` as written: the result of `sb_reserve(sb, 1)` is not
        checked, so when it fails `sb->data[0] = '\0'` writes through NULL. */
    method FinalizeAsWritten() returns (r: Finalized)
      requires Valid()
      modifies this
      ensures Valid()
      ensures old(data) != null ==> r == Text(old(Contents()))
      ensures old(data) == null ==> (r == NullWrite <==> available < 256)
    {
      if data == null {
        assert GrowTarget(0, 2) == 256;
        var _ := Reserve(1);
        if data == null {
          return NullWrite;
        }
      }
      r := Text(Contents());
    }
  }

  /** Part of the escaped text after the opening quote is part of the
      literal. */
  lemma Quoted(before: seq<Byte>, opening: seq<Byte>, after: seq<Byte>, e: seq<Byte>)
    requires opening == before + [JsonText.QUOTE] && Extends(opening, after, e)
    ensures Extends(before, after, [JsonText.QUOTE] + e + [JsonText.QUOTE])
  {
    var k := |after| - |opening|;
    assert ([JsonText.QUOTE] + e + [JsonText.QUOTE])[..1 + k] == [JsonText.QUOTE] + e[..k];
  }

  /** The literal without its closing quote is part of the literal. */
  lemma Unclosed(before: seq<Byte>, opening: seq<Byte>, text: seq<Byte>, e: seq<Byte>)
    requires opening == before + [JsonText.QUOTE] && text == opening + e
    ensures Extends(before, text, [JsonText.QUOTE] + e + [JsonText.QUOTE])
  {
    assert e[..|e|] == e;
    Quoted(before, opening, text, e);
  }

  /** The opening quote, the escaped text and the closing quote, one after
      another, make the literal. */
  lemma Closed(before: seq<Byte>, opening: seq<Byte>, text: seq<Byte>, after: seq<Byte>, e: seq<Byte>)
    requires opening == before + [JsonText.QUOTE] && text == opening + e && after == text + [JsonText.QUOTE]
    ensures after == before + ([JsonText.QUOTE] + e + [JsonText.QUOTE])
  {
  }

  /** `after` is `before` followed by the first bytes of `text`. */
  predicate Extends(before: seq<Byte>, after: seq<Byte>, text: seq<Byte>) {
    |before| <= |after| <= |before| + |text| && after == before + text[..|after| - |before|]
  }

  /** Escaping one more byte of `v` appends its escape, and stays within
      the escapes of all of `v`. */
  lemma EscapeStep(v: seq<Byte>, i: nat)
    requires i < |v|
    ensures JsonText.Escape(v[..i + 1]) == JsonText.Escape(v[..i]) + JsonText.EscapeByte(v[i])
    ensures var next := JsonText.Escape(v[..i + 1]);
      |next| <= |JsonText.Escape(v)| && JsonText.Escape(v)[..|next|] == next
    ensures var done := JsonText.Escape(v[..i]);
      |done| <= |JsonText.Escape(v)| && JsonText.Escape(v)[..|done|] == done
  {
    assert v[..i + 1] == v[..i] + [v[i]];
    JsonText.EscapeSnoc(v[..i], v[i]);
    PrefixOfEscape(v, i + 1);
    PrefixOfEscape(v, i);
  }

  lemma Glue(before: seq<Byte>, done: seq<Byte>, piece: seq<Byte>, next: seq<Byte>)
    requires next == done + piece
    ensures before + done + piece == before + next
  {
  }

  lemma Prefix(before: seq<Byte>, done: seq<Byte>, all: seq<Byte>)
    requires |done| <= |all| && all[..|done|] == done
    ensures Extends(before, before + done, all)
  {
  }

  /** The escapes of the first `i` bytes are a prefix of the escapes of
      all of them. */
  lemma PrefixOfEscape(v: seq<Byte>, i: nat)
    requires i <= |v|
    ensures var head := JsonText.Escape(v[..i]);
      |head| <= |JsonText.Escape(v)| && JsonText.Escape(v)[..|head|] == head
  {
    assert v == v[..i] + v[i..];
    JsonText.EscapeAppend(v[..i], v[i..]);
  }
}

=== FILE: summaries_c.dfy ===
/** The C node's summaries (rocket_c/src/summaries.c): the comma-separated
    lists of sensor names the start and final summaries print, each built
    by `append_name` in a 128-byte buffer and printed as "ninguno" when
    empty, and the zero-acceleration line of the final summary. The log
    calls are left out: the model returns the text each `%s` receives. */
module SummariesC {
  import opened Common
  import opened Sensors
  import Activity
  import ActivityTrackerC

  /** `char buffer[128]`. */
  const BUFFER_SIZE: nat := 128
  /** `", "`. */
  const SEPARATOR: seq<Byte> := [44, 32]
  /** `"ninguno"`. */
  const NINGUNO: seq<Byte> := [110, 105, 110, 103, 117, 110, 111]

  /** The first `k` bytes of `s`, or all of it when it is shorter. */
  function Clip(s: seq<Byte>, k: nat): (r: seq<Byte>)
    ensures |r| <= k && r <= s
    ensures |s| <= k ==> r == s
  {
    if |s| <= k then s else s[..k]
  }

  /** Clipping before appending more, and clipping again, is clipping
      once. */
  lemma ClipAgain(a: seq<Byte>, b: seq<Byte>, k: nat)
    ensures Clip(Clip(a, k) + b, k) == Clip(a + b, k)
  {
    if |a| > k {
      assert (a[..k] + b)[..k] == a[..k];
      assert (a + b)[..k] == a[..k];
    } else if |a + b| > k {
      assert (a + b)[..k] == (Clip(a, k) + b)[..k];
    }
  }

  /** What `strncat` appends when told it may use the room left after `a`:
      `b` clipped to the room. */
  lemma CatIsClip(a: seq<Byte>, b: seq<Byte>, k: nat)
    requires |a| <= k
    ensures a + b[..Min(|b|, k - |a|)] == Clip(a + b, k)
  {
    if |a + b| > k {
      assert (a + b)[..k] == a + b[..k - |a|];
    } else {
      assert b[..|b|] == b;
    }
  }

  /** A `char` buffer holding a NUL-terminated text; `length` is what
      `strlen` returns for it. */
  class NameBuffer {
    const data: array<Byte>
    var length: nat

    ghost predicate Valid()
      reads this, data
    {
      length < data.Length && data[length] == 0 && NoNul(data[..length])
    }

    /** The text, up to its NUL. */
    function Text(): (t: seq<Byte>)
      reads this, data
      requires Valid()
      ensures |t| < data.Length && NoNul(t)
    {
      data[..length]
    }

    /** `char buffer[size] = ""`: every byte is zero. */
    constructor(size: nat)
      requires size >= 1
      ensures Valid() && fresh(data) && data.Length == size && Text() == []
    {
      data := new Byte[size](_ => 0);
      length := 0;
    }

    /** `snprintf(buffer, size, "%s", s)`: as much of `s` as fits before
        the NUL in the last byte. */
    method Print(s: seq<Byte>)
      requires Valid() && NoNul(s)
      modifies this, data
      ensures Valid()
      ensures Text() == Clip(s, data.Length - 1)
    {
      var k := Min(|s|, data.Length - 1);
      for i := 0 to k
        modifies data
        invariant forall j :: 0 <= j < i ==> data[j] == s[j]
      {
        data[i] := s[i];
      }
      data[k] := 0;
      length := k;
      assert data[..k] == s[..k];
    }

    /** `strncat(buffer, src, n)`: at most `n` bytes of `src` after the
        text, then a NUL; the caller leaves room for both. */
    method Cat(src: seq<Byte>, n: nat)
      requires Valid() && NoNul(src) && length + n < data.Length
      modifies this, data
      ensures Valid()
      ensures Text() == old(Text()) + src[..Min(|src|, n)]
    {
      var start := length;
      var k := Min(|src|, n);
      for i := 0 to k
        modifies data
        invariant data[..start] == old(data[..start])
        invariant forall j :: 0 <= j < i ==> data[start + j] == src[j]
      {
        data[start + i] := src[i];
      }
      data[start + k] := 0;
      length := start + k;
      assert data[..length] == data[..start] + src[..k];
    }

    /** `append_name` (summaries.c:12-20): the first name is printed into
        the buffer and clears the flag; later ones append `", "` and the
        name, each with `strncat` bounded by the room left. Nothing is
        written past the buffer: the text stays within `size - 1` bytes. */
    method AppendName(name: seq<Byte>, first: bool) returns (firstAfter: bool)
      requires Valid() && NoNul(name)
      modifies this, data
      ensures Valid() && !firstAfter
      ensures first ==> Text() == Clip(name, data.Length - 1)
      ensures !first ==> Text() == Clip(old(Text()) + SEPARATOR + name, data.Length - 1)
    {
      firstAfter := false;
      if first {
        Print(name);
        return;
      }
      ghost var before := Text();
      Cat(SEPARATOR, data.Length - length - 1);
      ghost var middle := Text();
      CatIsClip(before, SEPARATOR, data.Length - 1);
      Cat(name, data.Length - length - 1);
      CatIsClip(middle, name, data.Length - 1);
      ClipAgain(before + SEPARATOR, name, data.Length - 1);
    }
  }

  /** The names of some sensors. */
  function Names(sensors: seq<int>): (names: seq<seq<Byte>>)
    ensures |names| == |sensors|
    ensures forall i :: 0 <= i < |sensors| ==> names[i] == NameBytes(sensors[i])
  {
    seq(|sensors|, i requires 0 <= i < |sensors| => NameBytes(sensors[i]))
  }

  /** What `append_name` leaves in a 128-byte buffer after the names of
      `sensors`: the first name printed, each later one appended after
      `", "`, every step cut to the 127 bytes before the NUL. */
  function Listed(sensors: seq<int>): (r: seq<Byte>)
    ensures |r| <= BUFFER_SIZE - 1
  {
    if sensors == [] then []
    else if |sensors| == 1 then Clip(NameBytes(sensors[0]), BUFFER_SIZE - 1)
    else Clip(Listed(sensors[..|sensors| - 1]) + SEPARATOR + NameBytes(sensors[|sensors| - 1]), BUFFER_SIZE - 1)
  }

  /** The text a group prints: its list, or "ninguno" when it is empty. */
  function GroupText(sensors: seq<int>): seq<Byte> {
    if sensors == [] then NINGUNO else Listed(sensors)
  }

  /** A buffer and its `first` flag hold the list of `sensors`. */
  ghost predicate Holds(b: NameBuffer, first: bool, sensors: seq<int>)
    reads b, b.data
  {
    && b.Valid() && b.data.Length == BUFFER_SIZE
    && (first <==> sensors == [])
    && b.Text() == Listed(sensors)
  }

  /** What the buffer shows once the list is done. */
  lemma Shown(b: NameBuffer, first: bool, sensors: seq<int>)
    requires Holds(b, first, sensors)
    ensures (if first then NINGUNO else b.Text()) == GroupText(sensors)
  {
  }

  /** One more name extends the list as `append_name` does. */
  lemma ListedAppend(sensors: seq<int>, sensor: int)
    ensures Listed(sensors + [sensor])
         == if sensors == [] then Clip(NameBytes(sensor), BUFFER_SIZE - 1)
            else Clip(Listed(sensors) + SEPARATOR + NameBytes(sensor), BUFFER_SIZE - 1)
  {
    assert (sensors + [sensor])[..|sensors|] == sensors;
  }

  /** The buffer holds the names joined by `", "`, cut to 127 bytes: cutting
      at each step is cutting once at the end. */
  lemma {:induction false} ListedJoined(sensors: seq<int>)
    ensures Listed(sensors) == Clip(Join(Names(sensors), SEPARATOR), BUFFER_SIZE - 1)
  {
    if |sensors| == 1 {
      assert Names(sensors) == [NameBytes(sensors[0])];
    } else if |sensors| > 1 {
      var init := sensors[..|sensors| - 1];
      var last := sensors[|sensors| - 1];
      ListedJoined(init);
      assert sensors == init + [last];
      assert Names(sensors) == Names(init) + [NameBytes(last)];
      JoinSnoc(Names(init), NameBytes(last), SEPARATOR);
      ClipAgain(Join(Names(init), SEPARATOR), SEPARATOR + NameBytes(last), BUFFER_SIZE - 1);
      Assoc(Listed(init), SEPARATOR, NameBytes(last));
      Assoc(Join(Names(init), SEPARATOR), SEPARATOR, NameBytes(last));
    }
  }

  lemma Assoc<T>(a: seq<T>, b: seq<T>, c: seq<T>)
    ensures a + b + c == a + (b + c)
  {
  }

  /** The sensor names hold no NUL. */
  lemma NamesHaveNoNul(sensor: int)
    ensures NoNul(NameBytes(sensor))
  {
  }

  /** `append_name` on a held list, as the summaries call it. */
  method AddName(b: NameBuffer, first: bool, ghost sensors: seq<int>, sensor: int) returns (firstAfter: bool)
    requires Holds(b, first, sensors)
    modifies b, b.data
    ensures Holds(b, firstAfter, sensors + [sensor])
  {
    NamesHaveNoNul(sensor);
    firstAfter := b.AppendName(NameBytes(sensor), first);
    ListedAppend(sensors, sensor);
  }

  /** No list of the three names is ever cut short by the buffer: a group
      prints exactly its names joined by `", "`. */
  lemma {:induction false} GroupsFit(sensors: seq<int>)
    requires |sensors| <= SENSOR_COUNT
    ensures |Join(Names(sensors), SEPARATOR)| <= 9 * |sensors|
    ensures GroupText(sensors) == if sensors == [] then NINGUNO else Join(Names(sensors), SEPARATOR)
  {
    ListedJoined(sensors);
    JoinFits(sensors);
  }

  lemma {:induction false} JoinFits(sensors: seq<int>)
    requires |sensors| <= SENSOR_COUNT
    ensures |Join(Names(sensors), SEPARATOR)| <= 9 * |sensors|
  {
    if |sensors| > 1 {
      var init := sensors[..|sensors| - 1];
      var last := sensors[|sensors| - 1];
      JoinFits(init);
      assert sensors == init + [last];
      assert Names(sensors) == Names(init) + [NameBytes(last)];
      JoinSnoc(Names(init), NameBytes(last), SEPARATOR);
    } else if |sensors| == 1 {
      assert Names(sensors) == [NameBytes(sensors[0])];
    }
  }

  /** The status of sensor `s` in a table of three statuses; anything else
      has no data. */
  function StatusIn(table: seq<Activity.Status>): int -> Activity.Status {
    s => if 0 <= s < |table| then table[s] else Activity.NoData
  }

  /** The tracker's status of each sensor, as the two getters give it. */
  function StatusTable(t: ActivityTrackerC.Tracker?): (table: seq<Activity.Status>)
    requires t != null ==> t.Valid()
    reads t, if t == null then {} else {t.seen, t.lastDummy}
    ensures |table| == SENSOR_COUNT
    ensures forall s :: 0 <= s < SENSOR_COUNT ==> table[s] == ActivityTrackerC.StatusOf(t, s)
  {
    [ActivityTrackerC.StatusOf(t, MPU6050), ActivityTrackerC.StatusOf(t, BMP180), ActivityTrackerC.StatusOf(t, NEO6M)]
  }

  /** The zero-acceleration line: ENVIADA with its time and magnitude, or
      NO ENVIADA. */
  datatype ZeroLine = Sent(timestamp: real, magnitude: real) | NotSent

  /** The text of the final summary's three lists and its zero line. */
  datatype FinalSummary = FinalSummary(reales: seq<Byte>, dummy: seq<Byte>, noData: seq<Byte>, zero: ZeroLine)

  /** The three lists of the final summary, each held in its own buffer,
      after the sensors of `sensors`. */
  ghost predicate HoldsGroups(reales: NameBuffer, firstReales: bool, dummy: NameBuffer, firstDummy: bool,
                              noData: NameBuffer, firstNoData: bool, sensors: seq<int>, status: int -> Activity.Status)
    reads reales, reales.data, dummy, dummy.data, noData, noData.data
  {
    && reales != dummy && reales != noData && dummy != noData
    && reales.data != dummy.data && reales.data != noData.data && dummy.data != noData.data
    && Holds(reales, firstReales, Activity.Select(sensors, status, Activity.Real))
    && Holds(dummy, firstDummy, Activity.Select(sensors, status, Activity.Dummy))
    && Holds(noData, firstNoData, Activity.Select(sensors, status, Activity.NoData))
  }

  /** One pass of the loop of `log_final_summary` (summaries.c:61-71):
      the sensor's name goes to the one list its status picks. */
  method File(reales: NameBuffer, fr: bool, dummy: NameBuffer, fd: bool, noData: NameBuffer, fn: bool,
              ghost r: seq<int>, ghost d: seq<int>, ghost n: seq<int>, sensor: int, st: Activity.Status)
    returns (fr2: bool, fd2: bool, fn2: bool)
    requires reales != dummy && reales != noData && dummy != noData
    requires reales.data != dummy.data && reales.data != noData.data && dummy.data != noData.data
    requires Holds(reales, fr, r) && Holds(dummy, fd, d) && Holds(noData, fn, n)
    modifies reales, reales.data, dummy, dummy.data, noData, noData.data
    ensures Holds(reales, fr2, if st == Activity.Real then r + [sensor] else r)
    ensures Holds(dummy, fd2, if st == Activity.Dummy then d + [sensor] else d)
    ensures Holds(noData, fn2, if st == Activity.NoData then n + [sensor] else n)
  {
    fr2, fd2, fn2 := fr, fd, fn;
    match st
    case NoData =>
      fn2 := AddName(noData, fn, n, sensor);
    case Dummy =>
      fd2 := AddName(dummy, fd, d, sensor);
    case Real =>
      fr2 := AddName(reales, fr, r, sensor);
  }

  /** One more sensor goes to the group of its status only. */
  lemma SelectGlue(sensors: seq<int>, sensor: int, status: int -> Activity.Status)
    ensures Activity.Select(sensors + [sensor], status, Activity.Real)
         == if status(sensor) == Activity.Real then Activity.Select(sensors, status, Activity.Real) + [sensor]
            else Activity.Select(sensors, status, Activity.Real)
    ensures Activity.Select(sensors + [sensor], status, Activity.Dummy)
         == if status(sensor) == Activity.Dummy then Activity.Select(sensors, status, Activity.Dummy) + [sensor]
            else Activity.Select(sensors, status, Activity.Dummy)
    ensures Activity.Select(sensors + [sensor], status, Activity.NoData)
         == if status(sensor) == Activity.NoData then Activity.Select(sensors, status, Activity.NoData) + [sensor]
            else Activity.Select(sensors, status, Activity.NoData)
  {
    Activity.SelectAppend(sensors, sensor, status, Activity.Real);
    Activity.SelectAppend(sensors, sensor, status, Activity.Dummy);
    Activity.SelectAppend(sensors, sensor, status, Activity.NoData);
  }

  /** `File` for the next sensor of the list, stated on the groups. */
  method FileNext(reales: NameBuffer, fr: bool, dummy: NameBuffer, fd: bool, noData: NameBuffer, fn: bool,
                  ghost status: int -> Activity.Status, i: nat, st: Activity.Status)
    returns (fr2: bool, fd2: bool, fn2: bool)
    requires i < |SENSOR_LIST| && st == status(SENSOR_LIST[i])
    requires HoldsGroups(reales, fr, dummy, fd, noData, fn, SENSOR_LIST[..i], status)
    modifies reales, reales.data, dummy, dummy.data, noData, noData.data
    ensures HoldsGroups(reales, fr2, dummy, fd2, noData, fn2, SENSOR_LIST[..i + 1], status)
  {
    ghost var done := SENSOR_LIST[..i];
    TakeNext(SENSOR_LIST, i);
    fr2, fd2, fn2 :=
      File(reales, fr, dummy, fd, noData, fn,
           Activity.Select(done, status, Activity.Real),
           Activity.Select(done, status, Activity.Dummy),
           Activity.Select(done, status, Activity.NoData),
           SENSOR_LIST[i], st);
    SelectGlue(done, SENSOR_LIST[i], status);
  }

  /** `log_final_summary` (summaries.c:53-92): each sensor, in enum order,
      goes to the list of its status (not seen: no data; last message
      dummy: dummy; otherwise real), an empty list reads "ninguno", and the
      zero line reports the tracker's latch. */
  method LogFinalSummary(t: ActivityTrackerC.Tracker?) returns (s: FinalSummary)
    requires t != null ==> t.Valid()
    ensures var g := Activity.Partition(SENSOR_LIST, StatusIn(StatusTable(t)));
      s.reales == GroupText(g.reales) && s.dummy == GroupText(g.dummy) && s.noData == GroupText(g.noData)
    ensures var info := ActivityTrackerC.ZeroDetails(t);
      s.zero == if info.sent then Sent(info.timestamp, info.magnitude) else NotSent
  {
    ghost var status := StatusIn(StatusTable(t));
    var reales, firstReales, dummy, firstDummy, noData, firstNoData := FileAll(t);
    var textReales := if firstReales then NINGUNO else reales.Text();
    var textDummy := if firstDummy then NINGUNO else dummy.Text();
    var textNoData := if firstNoData then NINGUNO else noData.Text();
    Shown(reales, firstReales, Activity.Select(SENSOR_LIST, status, Activity.Real));
    Shown(dummy, firstDummy, Activity.Select(SENSOR_LIST, status, Activity.Dummy));
    Shown(noData, firstNoData, Activity.Select(SENSOR_LIST, status, Activity.NoData));
    var info := ActivityTrackerC.ZeroDetails(t);
    s := FinalSummary(textReales, textDummy, textNoData,
                      if info.sent then Sent(info.timestamp, info.magnitude) else NotSent);
  }

  /** The loop of `log_final_summary` (summaries.c:61-71) over fresh
      buffers: every sensor, in enum order, filed under its status. */
  method FileAll(t: ActivityTrackerC.Tracker?)
    returns (reales: NameBuffer, firstReales: bool, dummy: NameBuffer, firstDummy: bool,
             noData: NameBuffer, firstNoData: bool)
    requires t != null ==> t.Valid()
    ensures HoldsGroups(reales, firstReales, dummy, firstDummy, noData, firstNoData,
                        SENSOR_LIST, StatusIn(StatusTable(t)))
  {
    reales := new NameBuffer(BUFFER_SIZE);
    dummy := new NameBuffer(BUFFER_SIZE);
    noData := new NameBuffer(BUFFER_SIZE);
    firstReales, firstDummy, firstNoData := true, true, true;
    ghost var table := StatusTable(t);
    ghost var status := StatusIn(table);
    for i := 0 to SENSOR_COUNT
      invariant fresh(reales.data) && fresh(dummy.data) && fresh(noData.data)
      invariant HoldsGroups(reales, firstReales, dummy, firstDummy, noData, firstNoData, SENSOR_LIST[..i], status)
    {
      SensorListOrder();
      firstReales, firstDummy, firstNoData :=
        FileNext(reales, firstReales, dummy, firstDummy, noData, firstNoData, status, i, ActivityTrackerC.StatusOf(t, i));
    }
    TakeAll(SENSOR_LIST);
    assert StatusTable(t) == table;
  }

  /** Every sensor is listed in exactly one group of the final summary,
      the group of its status, and each group is in enum order. */
  lemma FinalGroupsExact(table: seq<Activity.Status>)
    requires |table| == SENSOR_COUNT
    ensures var g := Activity.Partition(SENSOR_LIST, StatusIn(table));
      && multiset(g.reales) + multiset(g.dummy) + multiset(g.noData) == multiset(SENSOR_LIST)
      && forall s :: 0 <= s < SENSOR_COUNT ==>
           (s in g.reales <==> table[s] == Activity.Real)
           && (s in g.dummy <==> table[s] == Activity.Dummy)
           && (s in g.noData <==> table[s] == Activity.NoData)
  {
    forall s | 0 <= s < SENSOR_COUNT
      ensures s in SENSOR_LIST
    {
      SensorListOrder();
      assert SENSOR_LIST[s] == s;
    }
    GroupsExact(SENSOR_LIST, table);
  }

  lemma GroupsExact(items: seq<int>, table: seq<Activity.Status>)
    requires |table| == SENSOR_COUNT
    requires forall s :: 0 <= s < SENSOR_COUNT ==> s in items
    ensures var g := Activity.Partition(items, StatusIn(table));
      && multiset(g.reales) + multiset(g.dummy) + multiset(g.noData) == multiset(items)
      && forall s :: 0 <= s < SENSOR_COUNT ==>
           (s in g.reales <==> table[s] == Activity.Real)
           && (s in g.dummy <==> table[s] == Activity.Dummy)
           && (s in g.noData <==> table[s] == Activity.NoData)
  {
    Activity.PartitionExact(items, StatusIn(table));
  }

  lemma TakeNext<T>(s: seq<T>, k: nat)
    requires k < |s|
    ensures s[..k + 1] == s[..k] + [s[k]]
  {
  }

  lemma TakeAll<T>(s: seq<T>)
    ensures s[..|s|] == s
  {
  }

  /** `SensorCaps`: which sensors answered at start-up. */
  datatype SensorCaps = SensorCaps(hasMpu: bool, hasBmp: bool, hasGps: bool)

  /** The capability flag of a sensor; other values have none. */
  function Has(caps: SensorCaps, sensor: int): bool {
    if sensor == MPU6050 then caps.hasMpu
    else if sensor == BMP180 then caps.hasBmp
    else if sensor == NEO6M then caps.hasGps
    else false
  }

  /** The sensors of `sensors` whose capability flag is `want`, in order. */
  function Flagged(sensors: seq<int>, caps: SensorCaps, want: bool): seq<int>
  {
    if sensors == [] then []
    else Flagged(sensors[..|sensors| - 1], caps, want)
         + (if Has(caps, sensors[|sensors| - 1]) == want then [sensors[|sensors| - 1]] else [])
  }

  /** Appending a sensor extends the list of its flag only. */
  lemma FlaggedAppend(sensors: seq<int>, sensor: int, caps: SensorCaps, want: bool)
    ensures Flagged(sensors + [sensor], caps, want) == Flagged(sensors, caps, want) + (if Has(caps, sensor) == want then [sensor] else [])
  {
    assert (sensors + [sensor])[..|sensors|] == sensors;
  }

  /** A sensor is flagged exactly when its capability is the one wanted. */
  lemma {:induction false} FlaggedMembers(sensors: seq<int>, caps: SensorCaps, want: bool)
    ensures forall x :: x in Flagged(sensors, caps, want) <==> x in sensors && Has(caps, x) == want
  {
    if sensors != [] {
      var init := sensors[..|sensors| - 1];
      FlaggedMembers(init, caps, want);
      assert sensors == init + [sensors[|sensors| - 1]];
    }
  }

  /** The start summary's two lists: available and not available. */
  datatype StartSummary = StartSummary(available: seq<Byte>, unavailable: seq<Byte>)

  /** One `if (caps.has_x) … else …` of `log_start_summary`
      (summaries.c:28-42): the name goes to the one list its flag picks. */
  method PlaceName(available: NameBuffer, fa: bool, unavailable: NameBuffer, fu: bool,
                   ghost yes: seq<int>, ghost no: seq<int>, sensor: int, flag: bool)
    returns (fa2: bool, fu2: bool)
    requires available != unavailable && available.data != unavailable.data
    requires Holds(available, fa, yes)
    requires Holds(unavailable, fu, no)
    modifies available, available.data, unavailable, unavailable.data
    ensures Holds(available, fa2, if flag then yes + [sensor] else yes)
    ensures Holds(unavailable, fu2, if flag then no else no + [sensor])
  {
    fa2, fu2 := fa, fu;
    if flag {
      fa2 := AddName(available, fa, yes, sensor);
    } else {
      fu2 := AddName(unavailable, fu, no, sensor);
    }
  }
  /** One more sensor goes to the list of its flag only. */
  lemma FlaggedGlue(caps: SensorCaps, before: seq<int>, sensor: int)
    ensures Flagged(before + [sensor], caps, true) == if Has(caps, sensor) then Flagged(before, caps, true) + [sensor] else Flagged(before, caps, true)
    ensures Flagged(before + [sensor], caps, false) == if Has(caps, sensor) then Flagged(before, caps, false) else Flagged(before, caps, false) + [sensor]
  {
    FlaggedAppend(before, sensor, caps, true);
    FlaggedAppend(before, sensor, caps, false);
  }

  /** `PlaceName` for the next sensor, stated on the flagged lists. */
  method Place(available: NameBuffer, firstAvailable: bool, unavailable: NameBuffer, firstUnavailable: bool,
               caps: SensorCaps, ghost before: seq<int>, sensor: int)
    returns (firstAvailableAfter: bool, firstUnavailableAfter: bool)
    requires available != unavailable && available.data != unavailable.data
    requires Holds(available, firstAvailable, Flagged(before, caps, true))
    requires Holds(unavailable, firstUnavailable, Flagged(before, caps, false))
    modifies available, available.data, unavailable, unavailable.data
    ensures Holds(available, firstAvailableAfter, Flagged(before + [sensor], caps, true))
    ensures Holds(unavailable, firstUnavailableAfter, Flagged(before + [sensor], caps, false))
  {
    firstAvailableAfter, firstUnavailableAfter := PlaceName(available, firstAvailable, unavailable, firstUnavailable, Flagged(before, caps, true), Flagged(before, caps, false), sensor, Has(caps, sensor));
    FlaggedGlue(caps, before, sensor);
  }

  /** `log_start_summary` (summaries.c:22-51): a sensor is listed as
      available exactly when its capability flag is set and as not
      available otherwise, in enum order, an empty list reading "ninguno". */
  method LogStartSummary(caps: SensorCaps) returns (s: StartSummary)
    ensures s.available == GroupText(Flagged(SENSOR_LIST, caps, true))
    ensures s.unavailable == GroupText(Flagged(SENSOR_LIST, caps, false))
  {
    var available := new NameBuffer(BUFFER_SIZE);
    var unavailable := new NameBuffer(BUFFER_SIZE);
    var firstAvailable, firstUnavailable := true, true;
    SensorListOrder();
    TakeNext(SENSOR_LIST, 0);
    TakeNext(SENSOR_LIST, 1);
    TakeNext(SENSOR_LIST, 2);
    firstAvailable, firstUnavailable := Place(available, firstAvailable, unavailable, firstUnavailable, caps, SENSOR_LIST[..0], MPU6050);
    firstAvailable, firstUnavailable := Place(available, firstAvailable, unavailable, firstUnavailable, caps, SENSOR_LIST[..1], BMP180);
    firstAvailable, firstUnavailable := Place(available, firstAvailable, unavailable, firstUnavailable, caps, SENSOR_LIST[..2], NEO6M);
    TakeAll(SENSOR_LIST);
    Shown(available, firstAvailable, Flagged(SENSOR_LIST, caps, true));
    Shown(unavailable, firstUnavailable, Flagged(SENSOR_LIST, caps, false));
    s := StartSummary(if firstAvailable then NINGUNO else available.Text(),
                      if firstUnavailable then NINGUNO else unavailable.Text());
  }

  /** Each sensor is listed once in the start summary: as available
      exactly when its flag is set. */
  lemma StartListsExact(caps: SensorCaps)
    ensures forall s :: IsSensor(s) ==>
      (s in Flagged(SENSOR_LIST, caps, true) <==> Has(caps, s))
      && (s in Flagged(SENSOR_LIST, caps, false) <==> !Has(caps, s))
  {
    FlaggedMembers(SENSOR_LIST, caps, true);
    FlaggedMembers(SENSOR_LIST, caps, false);
    forall s | IsSensor(s)
      ensures s in SENSOR_LIST
    {
      SensorListOrder();
      assert SENSOR_LIST[s] == s;
    }
  }
}

=== FILE: table_layout.dfy ===
/** The text layout behind the dashboard terminal's `tabla` command
    (`buildAsciiTable`, receptor_arudino/webpage/src/components/
    CommandTerminal.jsx:54-71): column widths, padded cells, `+---+`
    separators and `| a | b |` rows, stated for any number of rows and
    columns. */
module TableLayout {
  import opened Common

  // ------------------------------------------------------------ joining

  /** Where part `c` starts in `Join(parts, sep)` when the separator is
      `gap` long: the lengths of the earlier parts plus one gap each. */
  function Offset<T>(parts: seq<seq<T>>, gap: nat, c: nat): nat
    requires c <= |parts|
    decreases c
  {
    if c == 0 then 0 else Offset(parts, gap, c - 1) + |parts[c - 1]| + gap
  }

  lemma {:induction false} OffsetShift<T>(parts: seq<seq<T>>, gap: nat, c: nat)
    requires 1 <= c <= |parts|
    ensures Offset(parts, gap, c) == |parts[0]| + gap + Offset(parts[1..], gap, c - 1)
    decreases c
  {
    if c > 1 {
      OffsetShift(parts, gap, c - 1);
    }
  }

  /** Part `c` of a joined text sits at its offset. */
  lemma {:induction false} JoinAt<T>(parts: seq<seq<T>>, sep: seq<T>, c: nat)
    requires c < |parts|
    ensures Offset(parts, |sep|, c) + |parts[c]| <= |Join(parts, sep)|
    ensures forall k :: 0 <= k < |parts[c]| ==> Join(parts, sep)[Offset(parts, |sep|, c) + k] == parts[c][k]
    decreases c
  {
    var j := Join(parts, sep);
    if |parts| == 1 {
      assert j == parts[0];
    } else {
      var rest := Join(parts[1..], sep);
      var front := parts[0] + sep;
      assert j == parts[0] + sep + rest == front + rest;
      if c == 0 {
        forall k | 0 <= k < |parts[0]|
          ensures j[k] == parts[0][k]
        {
          assert j[k] == front[k];
        }
      } else {
        JoinAt(parts[1..], sep, c - 1);
        OffsetShift(parts, |sep|, c);
        var o := Offset(parts[1..], |sep|, c - 1);
        assert parts[1..][c - 1] == parts[c];
        forall k | 0 <= k < |parts[c]|
          ensures j[|front| + o + k] == parts[c][k]
        {
          assert j[|front| + o + k] == rest[o + k];
        }
      }
    }
  }

  /** Every part but the last is followed by the separator. */
  lemma {:induction false} JoinSepAt<T>(parts: seq<seq<T>>, sep: seq<T>, c: nat)
    requires c + 1 < |parts|
    ensures Offset(parts, |sep|, c + 1) == Offset(parts, |sep|, c) + |parts[c]| + |sep| <= |Join(parts, sep)|
    ensures forall k :: 0 <= k < |sep| ==> Join(parts, sep)[Offset(parts, |sep|, c) + |parts[c]| + k] == sep[k]
    decreases c
  {
    var rest := Join(parts[1..], sep);
    var front := parts[0] + sep;
    var j := Join(parts, sep);
    assert j == parts[0] + sep + rest == front + rest;
    if c > 0 {
      JoinSepAt(parts[1..], sep, c - 1);
      OffsetShift(parts, |sep|, c);
      var o := Offset(parts[1..], |sep|, c - 1);
      assert parts[1..][c - 1] == parts[c];
      forall k | 0 <= k < |sep|
        ensures j[|front| + o + |parts[c]| + k] == sep[k]
      {
        assert j[|front| + o + |parts[c]| + k] == rest[o + |parts[c]| + k];
      }
    }
  }

  /** A joined text is as long as its parts plus a separator between each
      two. */
  lemma {:induction false} JoinLength<T>(parts: seq<seq<T>>, sep: seq<T>)
    requires parts != []
    ensures |Join(parts, sep)| + |sep| == Offset(parts, |sep|, |parts|)
  {
    if |parts| > 1 {
      JoinLength(parts[1..], sep);
      OffsetShift(parts, |sep|, |parts|);
    }
  }

  /** A joined text framed by `left` and `right`, where the border mark
      `b` stands at `left[0]`, at `sep[q]` and at `right[q]`: the marks sit
      exactly at the part offsets, the last one at the end. */
  lemma Borders<T>(left: seq<T>, parts: seq<seq<T>>, sep: seq<T>, right: seq<T>, q: nat, b: T)
    requires parts != [] && q < |sep| && |left| == |sep| - q && |right| == q + 1
    requires left[0] == b && sep[q] == b && right[q] == b
    ensures |left + Join(parts, sep) + right| == Offset(parts, |sep|, |parts|) + 1
    ensures forall c :: 0 <= c <= |parts| ==>
      Offset(parts, |sep|, c) < |left + Join(parts, sep) + right| && (left + Join(parts, sep) + right)[Offset(parts, |sep|, c)] == b
  {
    var j := Join(parts, sep);
    var s := left + j + right;
    JoinLength(parts, sep);
    forall c | 0 <= c <= |parts|
      ensures Offset(parts, |sep|, c) < |s| && s[Offset(parts, |sep|, c)] == b
    {
      OffsetMono(parts, |sep|, c);
      if 0 < c < |parts| {
        JoinSepAt(parts, sep, c - 1);
        var k := Offset(parts, |sep|, c - 1) + |parts[c - 1]| + q;
        assert j[k] == sep[q];
        assert s[|left| + k] == j[k];
      } else if c == |parts| {
        assert s[|s| - 1] == right[q];
      }
    }
  }

  /** Part `c` of a framed joined text, after the left frame. */
  lemma FramedPart<T>(s: seq<T>, left: seq<T>, parts: seq<seq<T>>, sep: seq<T>, right: seq<T>, c: nat, at: nat)
    requires s == left + Join(parts, sep) + right && c < |parts|
    requires at == |left| + Offset(parts, |sep|, c)
    ensures at + |parts[c]| <= |s|
    ensures forall i :: at <= i < at + |parts[c]| ==> s[i] == parts[c][i - at]
  {
    var j := Join(parts, sep);
    JoinAt(parts, sep, c);
    var o := Offset(parts, |sep|, c);
    var m := left + j;
    assert s == m + right;
    forall i | at <= i < at + |parts[c]|
      ensures s[i] == parts[c][i - at]
    {
      assert s[i] == m[i];
      assert m[i] == j[o + (i - at)];
    }
  }

  lemma {:induction false} OffsetMono<T>(parts: seq<seq<T>>, gap: nat, c: nat)
    requires c <= |parts|
    ensures Offset(parts, gap, c) <= Offset(parts, gap, |parts|)
    decreases |parts| - c
  {
    if c < |parts| {
      OffsetMono(parts, gap, c + 1);
    }
  }

  // ------------------------------------------------------------ widths

  function Sum(s: seq<nat>): nat {
    if s == [] then 0 else Sum(s[..|s| - 1]) + s[|s| - 1]
  }

  lemma {:induction false} SumPrefix(s: seq<nat>, c: nat)
    requires c <= |s|
    ensures Sum(s[..c]) <= Sum(s)
    decreases |s|
  {
    if c < |s| {
      assert s[..|s| - 1][..c] == s[..c];
      SumPrefix(s[..|s| - 1], c);
    } else {
      assert s[..c] == s;
    }
  }

  /** The position of the border before column `c`: each earlier column
      takes its width plus a space on each side plus one border. The
      last border is at `Σwidths + 3·columns`. */
  function Edge(widths: seq<nat>, c: nat): (e: nat)
    requires c <= |widths|
    ensures e <= Sum(widths) + 3 * |widths|
    ensures c == |widths| ==> e == Sum(widths) + 3 * |widths|
    ensures c < |widths| ==> e + widths[c] + 3 <= Sum(widths) + 3 * |widths|
  {
    PrefixBounds(widths, c);
    Sum(widths[..c]) + 3 * c
  }

  lemma PrefixBounds(widths: seq<nat>, c: nat)
    requires c <= |widths|
    ensures Sum(widths[..c]) <= Sum(widths)
    ensures c == |widths| ==> Sum(widths[..c]) == Sum(widths)
    ensures c < |widths| ==> Sum(widths[..c]) + widths[c] <= Sum(widths)
  {
    SumPrefix(widths, c);
    if c < |widths| {
      SumPrefix(widths, c + 1);
      assert widths[..c + 1][..c] == widths[..c];
    } else {
      assert widths[..c] == widths;
    }
  }

  lemma EdgeStep(widths: seq<nat>, c: nat)
    requires c < |widths|
    ensures Edge(widths, c + 1) == Edge(widths, c) + widths[c] + 3
  {
    assert widths[..c + 1][..c] == widths[..c];
  }

  /** Parts that each fill their column plus its share of the separators
      start at the column borders. */
  lemma {:induction false} OffsetIsEdge<T>(parts: seq<seq<T>>, gap: nat, widths: seq<nat>, c: nat)
    requires |parts| == |widths| && c <= |parts|
    requires forall j :: 0 <= j < |parts| ==> |parts[j]| + gap == widths[j] + 3
    ensures Offset(parts, gap, c) == Edge(widths, c)
    decreases c
  {
    if c > 0 {
      OffsetIsEdge(parts, gap, widths, c - 1);
      EdgeStep(widths, c - 1);
    }
  }

  /** A cell: `row[columnIndex] ?? ''`. */
  function Cell(row: seq<string>, c: nat): string {
    if c < |row| then row[c] else ""
  }

  /** `Math.max` of the lengths of column `c`'s cells. */
  function ColumnWidth(rows: seq<seq<string>>, c: nat): (w: nat)
    ensures forall r :: 0 <= r < |rows| ==> |Cell(rows[r], c)| <= w
    ensures rows != [] ==> exists r :: 0 <= r < |rows| && |Cell(rows[r], c)| == w
  {
    if rows == [] then 0
    else
      var rest := ColumnWidth(rows[1..], c);
      assert forall r :: 1 <= r < |rows| ==> rows[r] == rows[1..][r - 1];
      Max(|Cell(rows[0], c)|, rest)
  }

  /** `widths`: one per column of the first row. */
  function Widths(rows: seq<seq<string>>): (w: seq<nat>)
    requires rows != []
    ensures |w| == |rows[0]|
    ensures forall c :: 0 <= c < |w| ==> w[c] == ColumnWidth(rows, c)
  {
    seq(|rows[0]|, c requires 0 <= c => ColumnWidth(rows, c))
  }

  // ------------------------------------------------------------ lines

  function Repeat(ch: char, k: nat): (r: string)
    ensures |r| == k && forall i :: 0 <= i < k ==> r[i] == ch
  {
    if k == 0 then [] else [ch] + Repeat(ch, k - 1)
  }

  /** `padEnd(width, ' ')`: never shortens. */
  function PadEnd(s: string, width: nat): (r: string)
    ensures |r| == Max(|s|, width)
    ensures forall i :: 0 <= i < |s| ==> r[i] == s[i]
    ensures forall i :: |s| <= i < |r| ==> r[i] == ' '
  {
    if |s| >= width then s else s + Repeat(' ', width - |s|)
  }

  /** `+` followed by each column's width plus two `-` and a `+`. */
  function Separator(widths: seq<nat>): string {
    "+" + Join(Dashes(widths), "+") + "+"
  }

  function Dashes(widths: seq<nat>): (r: seq<string>)
    ensures |r| == |widths| && forall c :: 0 <= c < |widths| ==> r[c] == Repeat('-', widths[c] + 2)
  {
    seq(|widths|, c requires 0 <= c < |widths| => Repeat('-', widths[c] + 2))
  }

  /** `renderRow`: `| ` and the padded cells joined by ` | `, then ` |`.
      A cell past the last width is not padded (`padEnd(undefined)`). */
  function RenderRow(row: seq<string>, widths: seq<nat>): string {
    "| " + Join(Padded(row, widths), " | ") + " |"
  }

  function Padded(row: seq<string>, widths: seq<nat>): (r: seq<string>)
    ensures |r| == |row| && forall c :: 0 <= c < |row| ==> r[c] == PadEnd(row[c], if c < |widths| then widths[c] else 0)
  {
    seq(|row|, c requires 0 <= c < |row| => PadEnd(row[c], if c < |widths| then widths[c] else 0))
  }

  /** The table: separator, header, separator, the other rows, separator. */
  function TableLines(rows: seq<seq<string>>): (r: seq<string>)
    requires rows != []
    ensures |r| == |rows| + 3
  {
    Framed(rows, Widths(rows))
  }

  /** The rows rendered to `widths`, the header framed by separators and
      the whole closed by one. */
  function Framed(rows: seq<seq<string>>, widths: seq<nat>): (r: seq<string>)
    requires rows != []
    ensures |r| == |rows| + 3
  {
    var separator := Separator(widths);
    [separator, RenderRow(rows[0], widths), separator]
      + seq(|rows| - 1, i requires 0 <= i < |rows| - 1 => RenderRow(rows[i + 1], widths))
      + [separator]
  }

  // ------------------------------------------------------------ shapes

  /** A line as long as the table is wide, with `mark` on every column
      border. */
  predicate Bordered(line: string, widths: seq<nat>, mark: char) {
    && |line| == Sum(widths) + 3 * |widths| + 1
    && forall c :: 0 <= c <= |widths| ==> line[Edge(widths, c)] == mark
  }

  /** Each cell of `row` appears, left-aligned, one space after the border
      of its column. */
  predicate Shows(line: string, row: seq<string>, widths: seq<nat>)
    requires |line| == Sum(widths) + 3 * |widths| + 1
  {
    forall c, k :: 0 <= c < |widths| && c < |row| && 0 <= k < |row[c]| && k < widths[c] ==>
      line[Edge(widths, c) + 2 + k] == row[c][k]
  }

  /** A separator is `Σwidths + 3·columns + 1` long with a `+` on every
      column border. */
  lemma SeparatorShape(widths: seq<nat>)
    requires widths != []
    ensures Bordered(Separator(widths), widths, '+')
  {
    var parts := Dashes(widths);
    Borders("+", parts, "+", "+", 0, '+');
    forall c | 0 <= c <= |widths|
      ensures Offset(parts, 1, c) == Edge(widths, c)
    {
      OffsetIsEdge(parts, 1, widths, c);
    }
  }

  /** A row whose cells fit their widths is as long as a separator, has a
      `|` on every column border, and shows each cell, left-aligned, one
      space after the border before it. */
  lemma RowShape(row: seq<string>, widths: seq<nat>)
    requires |row| == |widths| && widths != []
    requires forall c :: 0 <= c < |row| ==> |row[c]| <= widths[c]
    ensures Bordered(RenderRow(row, widths), widths, '|')
    ensures Shows(RenderRow(row, widths), row, widths)
  {
    var parts := Padded(row, widths);
    var s := RenderRow(row, widths);
    assert s == "| " + Join(parts, " | ") + " |";
    assert forall c :: 0 <= c < |parts| ==> |parts[c]| == widths[c];
    Borders("| ", parts, " | ", " |", 1, '|');
    forall c | 0 <= c <= |widths|
      ensures Offset(parts, 3, c) == Edge(widths, c)
    {
      OffsetIsEdge(parts, 3, widths, c);
    }
    forall c, k | 0 <= c < |widths| && c < |row| && 0 <= k < |row[c]| && k < widths[c]
      ensures s[Edge(widths, c) + 2 + k] == row[c][k]
    {
      OffsetIsEdge(parts, 3, widths, c);
      var at := Edge(widths, c) + 2;
      FramedPart(s, "| ", parts, " | ", " |", c, at);
      assert s[at + k] == parts[c][k];
      assert parts[c][k] == row[c][k];
    }
  }

  /** The line of the table that renders row `r`: the header sits between
      the first two separators, the other rows follow the second. */
  function RowLine(r: nat): nat {
    if r == 0 then 1 else r + 2
  }

  /** Each row's line is that row rendered to the table's widths. */
  lemma TableRowLine(rows: seq<seq<string>>, r: nat)
    requires rows != [] && r < |rows|
    ensures TableLines(rows)[RowLine(r)] == RenderRow(rows[r], Widths(rows))
  {
    FramedRowLine(rows, Widths(rows), r);
  }

  lemma FramedRowLine(rows: seq<seq<string>>, widths: seq<nat>, r: nat)
    requires rows != [] && r < |rows|
    ensures Framed(rows, widths)[RowLine(r)] == RenderRow(rows[r], widths)
  {
    var separator := Separator(widths);
    var head := [separator, RenderRow(rows[0], widths), separator];
    var body := seq(|rows| - 1, i requires 0 <= i < |rows| - 1 => RenderRow(rows[i + 1], widths));
    var front := head + body;
    assert Framed(rows, widths) == front + [separator];
    if r > 0 {
      assert front[r + 2] == body[r - 1];
    }
  }

  /** Every cell of a table fits its column's width. */
  lemma CellsFit(rows: seq<seq<string>>, r: nat)
    requires rows != [] && r < |rows| && |rows[r]| == |rows[0]|
    ensures |Widths(rows)| == |rows[r]|
    ensures forall c :: 0 <= c < |rows[r]| ==> |rows[r][c]| <= Widths(rows)[c]
  {
    var widths := Widths(rows);
    forall c | 0 <= c < |rows[r]|
      ensures |rows[r][c]| <= widths[c]
    {
      assert Cell(rows[r], c) == rows[r][c];
    }
  }

  /** The first, third and last lines of a table are its separator. */
  lemma TableSeparators(rows: seq<seq<string>>)
    requires rows != []
    ensures var lines := TableLines(rows);
      lines[0] == lines[2] == lines[|lines| - 1] == Separator(Widths(rows))
  {
  }

  /** Each row's line has `|` on every column border and shows the row. */
  lemma TableRow(rows: seq<seq<string>>, r: nat)
    requires rows != [] && rows[0] != [] && r < |rows| && |rows[r]| == |rows[0]|
    ensures RowLine(r) < |TableLines(rows)|
    ensures Bordered(TableLines(rows)[RowLine(r)], Widths(rows), '|')
    ensures Shows(TableLines(rows)[RowLine(r)], rows[r], Widths(rows))
  {
    CellsFit(rows, r);
    RowShape(rows[r], Widths(rows));
    TableRowLine(rows, r);
  }

  /** Every line of a table whose rows all have the first row's columns
      is `Σwidths + 3·columns + 1` long; the first, third and last lines
      are the separator, with `+` on every column border; every row's line
      has `|` on every column border and shows each of the row's cells in
      its column. */
  lemma TableShape(rows: seq<seq<string>>)
    requires rows != [] && rows[0] != []
    requires forall r :: 0 <= r < |rows| ==> |rows[r]| == |rows[0]|
    ensures var widths, lines := Widths(rows), TableLines(rows);
      && lines[0] == lines[2] == lines[|lines| - 1] == Separator(widths)
      && Bordered(Separator(widths), widths, '+')
      && forall r :: 0 <= r < |rows| ==>
           && RowLine(r) < |lines|
           && Bordered(lines[RowLine(r)], widths, '|')
           && Shows(lines[RowLine(r)], rows[r], widths)
  {
    TableSeparators(rows);
    SeparatorShape(Widths(rows));
    forall r | 0 <= r < |rows|
      ensures RowLine(r) < |TableLines(rows)|
      ensures Bordered(TableLines(rows)[RowLine(r)], Widths(rows), '|')
      ensures Shows(TableLines(rows)[RowLine(r)], rows[r], Widths(rows))
    {
      TableRow(rows, r);
    }
  }
}

=== FILE: telemetry_terminal.dfy ===
/** The dashboard's scrolling telemetry log
    (receptor_arudino/webpage/src/components/TelemetryTerminal.jsx): it
    cycles through the `messages` it is given, one line per tick, and
    shows the last ten. React's effects become methods: a new `messages`
    value, a new `interval`, and a tick of the interval timer. */
module TelemetryTerminalJs {
  import opened Common

  /** The buffer's capacity: the eleventh line pushes out the first. */
  const CAPACITY: nat := 10

  /** The lines the log has pushed after `k` pushes: message `i mod n`
      for the i-th push. */
  function Pushed(messages: seq<string>, k: nat): (r: seq<string>)
    requires messages != []
    ensures |r| == k
    ensures forall i :: 0 <= i < k ==> r[i] == messages[i % |messages|]
  {
    seq(k, i requires 0 <= i < k => messages[i % |messages|])
  }

  /** One more push appends the next message in turn. */
  lemma PushedSnoc(messages: seq<string>, k: nat)
    requires messages != []
    ensures Pushed(messages, k + 1) == Pushed(messages, k) + [messages[k % |messages|]]
  {
    var longer, shorter := Pushed(messages, k + 1), Pushed(messages, k);
    assert forall i :: 0 <= i < k ==> longer[i] == shorter[i];
  }

  /** The newest `CAPACITY` lines of a history. */
  function Newest(s: seq<string>): seq<string>
  {
    if |s| <= CAPACITY then s else s[|s| - CAPACITY..]
  }

  /** Appending one line and dropping the oldest when over capacity keeps
      the newest lines of the longer history. */
  lemma NewestPush(s: seq<string>, x: string)
    ensures var next := Newest(s) + [x];
      (if |next| > CAPACITY then next[1..] else next) == Newest(s + [x])
  {
    var next := Newest(s) + [x];
    if |s| >= CAPACITY {
      assert next[1..] == (s + [x])[|s| + 1 - CAPACITY..];
    }
  }

  /** What the log shows after `k` pushes. */
  function Shown(messages: seq<string>, k: nat): seq<string>
    requires messages != []
  {
    Newest(Pushed(messages, k))
  }

  /** One push: the next message in turn joins the newest lines, and the
      oldest goes when they were already full. */
  lemma ShownNext(messages: seq<string>, k: nat)
    requires messages != []
    ensures var next := Shown(messages, k) + [messages[k % |messages|]];
      (if |next| > CAPACITY then next[1..] else next) == Shown(messages, k + 1)
  {
    NewestPush(Pushed(messages, k), messages[k % |messages|]);
    PushedSnoc(messages, k);
  }

  /** Nothing is shown before the first push, and the first message after it. */
  lemma ShownFirst(messages: seq<string>)
    requires messages != []
    ensures Shown(messages, 0) == [] && Shown(messages, 1) == [messages[0]]
  {
    assert Pushed(messages, 1)[0] == messages[0];
  }

  class TelemetryTerminal {
    /** `messages` when it is an array, `None` otherwise. */
    var messages: Option<seq<string>>
    var buffer: seq<string>
    /** `indexRef.current`: pushes since the last reset. */
    var index: nat

    /** The buffer is always the newest lines of everything pushed since
        the last reset, and nothing is pushed without messages. */
    ghost predicate Valid()
      reads this
    {
      if Active() then buffer == Shown(messages.value, index)
      else buffer == [] && index == 0
    }

    /** Whether the push timer runs: `messages` is a non-empty array. */
    predicate Active()
      reads this`messages
    {
      messages.Some? && messages.value != []
    }

    /** The first render, before the effects have run. */
    constructor()
      ensures Valid() && !Active() && buffer == []
    {
      messages, buffer, index := None, [], 0;
    }

    /** `pushLine` (TelemetryTerminal.jsx:18-28): the next message in
        turn is appended and, over capacity, the oldest line dropped. */
    method PushLine()
      requires Valid() && Active()
      modifies this`buffer, this`index
      ensures index == old(index) + 1
      ensures buffer == Shown(messages.value, index)
    {
      var x := messages.value[index % |messages.value|];
      var next := buffer + [x];
      if |next| > CAPACITY {
        next := next[1..];
      }
      ShownNext(messages.value, index);
      buffer := next;
      index := index + 1;
    }

    /** A new `messages` value (TelemetryTerminal.jsx:8-16, 30-31): the
        buffer and the counter reset, and if the value is a non-empty
        array its first line is pushed at once. */
    method SetMessages(m: Option<seq<string>>)
      modifies this
      ensures Valid() && messages == m
      ensures Active() ==> index == 1 && buffer == [m.value[0]]
      ensures !Active() ==> buffer == [] && index == 0
    {
      messages, buffer, index := m, [], 0;
      if Active() {
        ShownFirst(m.value);
        PushLine();
      }
    }

    /** A new `interval` (TelemetryTerminal.jsx:13-39): the timer effect
        restarts and pushes a line at once, without the reset that only a
        new `messages` value triggers. */
    method SetInterval()
      requires Valid()
      modifies this`buffer, this`index
      ensures Valid()
      ensures index == if Active() then old(index) + 1 else old(index)
    {
      if Active() {
        PushLine();
      }
    }

    /** One firing of the interval timer (TelemetryTerminal.jsx:31):
        there is a timer only while the messages are a non-empty array. */
    method Tick()
      requires Valid()
      modifies this`buffer, this`index
      ensures Valid()
      ensures index == if Active() then old(index) + 1 else old(index)
    {
      if Active() {
        PushLine();
      }
    }
  }

  /** What the log shows after `k` pushes: at most ten lines, the j-th of
      them message `(k - |shown| + j) mod n`, so the last is the one
      pushed last and they run in the order pushed. */
  lemma ShownLines(messages: seq<string>, k: nat)
    requires messages != []
    ensures var shown := Shown(messages, k);
      && |shown| == (if k < CAPACITY then k else CAPACITY)
      && forall j :: 0 <= j < |shown| ==> shown[j] == messages[(k - |shown| + j) % |messages|]
  {
    forall j | 0 <= j < |Shown(messages, k)|
      ensures Shown(messages, k)[j] == messages[(k - |Shown(messages, k)| + j) % |messages|]
    {
      ShownLine(messages, k, j);
    }
  }

  /** The j-th line shown after `k` pushes is the one pushed
      `|shown| - j` pushes ago. */
  lemma ShownLine(messages: seq<string>, k: nat, j: nat)
    requires messages != [] && j < (if k < CAPACITY then k else CAPACITY)
    ensures var shown := Shown(messages, k);
      && |shown| == (if k < CAPACITY then k else CAPACITY)
      && shown[j] == messages[(k - |shown| + j) % |messages|]
  {
    var s := Pushed(messages, k);
    var shown := Newest(s);
    assert shown[j] == s[k - |shown| + j];
  }

  /** With fewer than eleven messages and at least ten pushes, the log
      shows every message. */
  lemma EveryMessageShown(messages: seq<string>, k: nat, m: nat)
    requires messages != [] && |messages| <= CAPACITY && k >= CAPACITY && m < |messages|
    ensures messages[m] in Shown(messages, k)
  {
    var n := |messages|;
    var first := k - CAPACITY;
    // the ten shown pushes cover every residue mod n
    var j := (m - first % n + n) % n;
    assert j < CAPACITY && (first + j) % n == m by {
      ModSum(first, j, m, n);
    }
    ShownLine(messages, k, j);
  }

  /** `(first + ((m - first mod n + n) mod n)) mod n == m` for `m < n`. */
  lemma ModSum(first: nat, j: nat, m: nat, n: nat)
    requires 0 < n && m < n && j == (m - first % n + n) % n
    ensures (first + j) % n == m
  {
    var q := first / n;
    var r := first % n;
    if m >= r {
      ModUnique(m - r + n, n, 1, m - r);
      ModUnique(first + j, n, q, m);
    } else {
      ModUnique(m - r + n, n, 0, m - r + n);
      assert first + j == (q + 1) * n + m;
      ModUnique(first + j, n, q + 1, m);
    }
  }

  /** The remainder is the only one: `q * n + m` leaves `m` for `m < n`. */
  lemma ModUnique(x: int, n: int, q: int, m: int)
    requires n > 0 && 0 <= m < n && x == q * n + m
    ensures x % n == m
  {
    var q2 := x / n;
    if q2 < q {
      MulMono(q2, q, n);
    } else if q < q2 {
      MulMono(q, q2, n);
    }
  }

  lemma {:induction false} MulMono(a: int, b: int, n: int)
    requires a < b && n > 0
    ensures a * n + n <= b * n
    decreases b - a
  {
    assert (a + 1) * n == a * n + n;
    if a + 1 < b {
      MulMono(a + 1, b, n);
    }
  }
}
